=== FILE: README.md ===
# Let's Roll SEO pages, modelled in Dafny

This project models the core of the "Let's Roll SEO pages" WordPress plugin. It covers:

- **Content discovery**: daily recording of new spots, events, reviews, sessions and skaters per city.
- **City update posts**: recap and preview buckets, one post per city and bucket, link verification of the AI-written snippets, the fallback body, the featured image, and marking rows as published.
- **Historical seeding**: batch by batch.
- **Dynamic pages**: the rewrite rules, the page controller, titles and content of country, city and list pages, and the API token cache.
- **Metadata**: the Open Graph, SEO and JSON-LD blocks of single-entity pages.
- **Rendering**: the explore page and its "near you" block, the single activity page, and the card helpers.
- **Image proxy.**
- **Brevo**: skater sync and campaign sender.
- **Admin tools**: sitemap export, search and replace, and import/export.
- **Country merge**: the Python script that merges the three regional country files.

Every PHP function becomes a Dafny function over immutable data:

- **Database tables** are sequences of rows.
- **PHP arrays** with string keys are association lists that keep insertion order (`OrderedMap`).
- **WordPress options and transients** are explicit inputs and outputs.
- **Outside services** are function-typed parameters: the Let's Roll API, Gemini, Brevo, Google search and the geolocation lookup.

PHP's truthiness is modelled exactly: `empty("0")` holds, so `PhpEmpty(s)` is `s == "" || s == "0"`. JavaScript truthiness on strings is `s != ""`.

PHP errors that nothing catches are `Err` results that abort whatever called them. Examples are `str_repeat` on a negative count and a call to an undefined function. A post whose card throws is not stored. The publication loop stops at that job, so its rows stay unpublished. A seeding batch that throws keeps its lock set.

Module layout (one file per module):

- Shared helpers:
  - `Wrappers`: Option, Result.
  - `Strings`: PHP string functions and decimal rendering.
  - `Seqs`: filter, map, take, subsequence.
  - `Sorting`: stable insertion sorts, standing for PHP 8's stable `usort`/`uasort`.
  - `OrderedMap`: PHP and Python dictionaries.
  - `Buckets`: `$groups[$k][] = $x`.
  - `Locations`: the location table.
  - `Ledger`: the discovered-content table and its unique key.
- One module per core source file or function group:
  - `CountryMerge` (merge_json.py)
  - `Discovery`
  - `Publication`, `MonthShift`, `LinkVerification`, `CityUpdatePost`, `PublicationRun`, `SeedingBatch` (content-publication.php)
  - `SeoPages` (lets-roll-seo-pages.php)
  - `PageData`, `OpenGraph`, `SeoMetadata`, `SchemaMarkup`
  - `CountryLogic` (test_country_logic.php)
  - `CtaBanner`
  - `Sitemap` (admin-page.php)
  - `ImageProxy`
  - `BrevoSync` (brevo-integration.php)
  - `BrevoSender`
  - `AiContent`
  - `Rendering`
  - `Explore`
  - `Activity`
  - `DataTools`
  - `ImportExport`

## Model

| member | source | states |
|---|---|---|
| CountryMerge.Update | country_data/merge_json.py:30 | After `{**d, **e}` every key of `e` has `e`'s value, every other key keeps its value, and the keys already present keep their order at the front |
| CountryMerge.UpdateLookup | country_data/merge_json.py:30 | A key of the later dictionary takes its value from it; any other key keeps its earlier value |
| CountryMerge.UpdateKeepsOrder | country_data/merge_json.py:30 | Keys already present stay at the front, in their original order |
| CountryMerge.MergePrecedence | country_data/merge_json.py:30 | A country's merged data is APAC's if APAC has it, else the Americas', else EMEA's |
| CountryMerge.SortItems | country_data/merge_json.py:33 | The sorted pairs are strictly ascending by key and hold exactly the same pairs |
| CountryMerge.SortItemsLookup | country_data/merge_json.py:33 | Sorting changes no key's value |
| CountryMerge.AscendingStrict | country_data/merge_json.py:33 | An ascending list is ordered between any two positions, so its keys are distinct |
| CountryMerge.FirstFailure | country_data/merge_json.py:15-27 | The reported failure is the first failing file in the order EMEA, Americas, APAC |
| CountryMerge.Run | country_data/merge_json.py:15-41 | Any read failure writes nothing; otherwise the sorted merge is written |
| CountryMerge.RunContents | country_data/merge_json.py:30-41 | A written output holds exactly the union of the regional keys, each with its precedence value, in ascending key order |
| CountryMerge.RunAbortsOnReadFailure | country_data/merge_json.py:15-27 | A failed read of any file means no output, whatever the other files hold |
| CountryMerge.ExampleUnion | country_data/merge_json.py:30 | A country listed in two regions takes the later region's data |
| CountryMerge.ExampleSorted | country_data/merge_json.py:33 | Merged pairs come out in key order |
| CountryMerge.ExampleMerge | country_data/merge_json.py:15-41 | The whole run on three small regional files gives the expected dictionary |
| OrderedMap.Set | country_data/merge_json.py:30 | `d[k] = v`: `k` maps to `v`, other keys are unchanged, an existing key keeps its position and a new one goes last |
| OrderedMap.SetLookup | country_data/merge_json.py:30 | After `d[k] = v` the lookup of `k` is `v` and of every other key what it was |
| OrderedMap.Remove | brevo-integration.php:204-213 | `unset($d[$k])` drops exactly that key; the others keep their order and values |
| Buckets.GroupBy | includes/content-publication.php:76-102 | The grouping loop puts each keyed item in its key's group |
| Buckets.GroupByGet | includes/content-publication.php:88-99 | Each group holds exactly the items its key selects, in input order |
| Buckets.SelectMember | includes/content-publication.php:88-99 | An item is in group `k` exactly when it is an input item keyed `k` |
| Buckets.MergeGroups | includes/content-publication.php:104-108 | The merged buckets keep the recap buckets' order and append the new preview keys |
| Buckets.MergeGroupsGet | includes/content-publication.php:104-108 | A merged bucket holds its recap items followed by its preview items |
| Publication.ParseFrequency | includes/content-publication.php:59 | A missing option means weekly; only the exact string 'monthly' means monthly |
| Publication.Timestamp | includes/content-publication.php:80-96 | Events are dated by start date or else creation, skaters by last online, spots, reviews and sessions by their creation field |
| Publication.RecapKey | includes/content-publication.php:97-100 | A dated non-event row falls in the period of its own timestamp |
| Publication.PreviewKey | includes/content-publication.php:80-89 | A dated event falls in the period before the one it starts in |
| MonthShift.MinusOneMonth | includes/content-publication.php:84 | A valid date moved back one month stays valid and lands in the month before or, on overflow, in its own month |
| MonthShift.AsWrittenPreviewIff | includes/content-publication.php:84 | The monthly preview bucket is the month before exactly when the start day exists in that month |
| MonthShift.MarchThirtyFirstPreviewedInMarch | includes/content-publication.php:84 | An event starting on 31 March 2025 goes into the March bucket |
| MonthShift.IntendedPreviewIsMonthBefore | includes/content-publication.php:84 | Shifting from the first of the month always gives the month before, and agrees with the as-written bucket up to the 28th |
| Publication.MakeBuckets | includes/content-publication.php:76-108 | The buckets are the recap buckets with each preview bucket merged in after them |
| Publication.BucketContents | includes/content-publication.php:104-108 | A bucket holds its recap rows in input order, then its preview rows in input order |
| Publication.BucketMember | includes/content-publication.php:80-108 | A row is in bucket `k` exactly when it is a dated non-event of period `k` or a dated event of period `k + 1` |
| Publication.UndatedInNoBucket | includes/content-publication.php:82-97 | Rows without a usable timestamp are in no bucket |
| Publication.CityJobs | includes/content-publication.php:119-133 | Only complete buckets yield jobs: one per city, in order of first appearance, holding that city's rows |
| Publication.JobsSound | includes/content-publication.php:119-133 | Every job comes from a complete bucket and holds exactly that bucket's rows for its city |
| Publication.JobsCover | includes/content-publication.php:119-133 | Every city with rows in a complete bucket gets a job for that bucket |
| Publication.PublicationInput | includes/content-publication.php:62-65 | The run's input is every unpublished non-event row followed by the events discovered since the cutoff |
| Publication.RecapRowPublished | includes/content-publication.php:62-133 | An unpublished, dated non-event row of a finished period reaches a job |
| Publication.RowInJob | includes/content-publication.php:125-131 | A row in a complete bucket is in that bucket's job for its city |
| Publication.PublicationJobRows | includes/content-publication.php:119-133 | Every row a publication job carries is dated, of the job's city, and in the job's bucket |
| Publication.SeedingJobRows | includes/content-publication.php:490-547 | A seeding job holds exactly the city's rows dated inside the six-month window that fall in its bucket |
| Publication.SeedJobsCover | includes/content-publication.php:538-547 | Every complete seeding bucket yields its job |
| Publication.SeedingRowJob | includes/content-publication.php:490-547 | A city's row dated within the window whose bucket is complete is in a seeding job |
| LinkVerification.LinkAt | includes/content-publication.php:206 | The `[text](url)` pattern at the start of a string: non-empty text without `]`, non-empty URL without `)` |
| LinkVerification.LinkAtComplete | includes/content-publication.php:206 | Any well-formed link a string starts with is the one the pattern matches |
| LinkVerification.ScanLinks | includes/content-publication.php:206 | The matches are found left to right and never overlap |
| LinkVerification.ScanSingleLink | includes/content-publication.php:206 | A text that is exactly one link yields exactly that link |
| LinkVerification.RewriteOne | includes/content-publication.php:213-287 | Internal links are skipped; a verified different URL replaces the original everywhere; an unverified link collapses to its text |
| LinkVerification.VerifyLinks | includes/content-publication.php:204-296 | An empty snippet is untouched; otherwise each matched link is rewritten in turn |
| LinkVerification.RewriteAllKept | includes/content-publication.php:218-281 | When every link is internal or confirmed as is, the text comes out unchanged |
| LinkVerification.VerifySingleLink | includes/content-publication.php:204-296 | A text that is one link is rewritten by that link's rule alone |
| LinkVerification.RejectedLinkCollapses | includes/content-publication.php:283-286 | A lone external link whose verification fails becomes its bare text |
| LinkVerification.RedirectExample | includes/content-publication.php:281-282 | A redirected external link keeps its text and points at the verified URL |
| LinkVerification.ReplaceAllWhole | includes/content-publication.php:282 | Replacing a whole non-empty string yields the replacement |
| LinkVerification.SplitFrom | includes/content-publication.php:678 | The split cuts after a sentence end followed by whitespace, and drops the whitespace and empty pieces |
| LinkVerification.Sentences | includes/content-publication.php:678 | The sentences are non-empty and none contains a split point |
| LinkVerification.SplitFromNoSplit | includes/content-publication.php:678 | A non-empty text without a sentence end followed by whitespace is one sentence |
| LinkVerification.SplitAfterSentence | includes/content-publication.php:678 | Whitespace after a sentence end closes that sentence; the rest is split on its own |
| LinkVerification.SentenceContaining | includes/content-publication.php:676-685 | The first sentence containing the substring, or "" when none does |
| LinkVerification.SentenceContainingFirst | includes/content-publication.php:679-683 | The sentence returned is the one at the first index whose sentence contains the substring |
| LinkVerification.ExampleFirstSentenceLacksLink | includes/content-publication.php:676-685 | On a three-sentence text the link's own sentence is returned, not the first |
| CityUpdatePost.VerifySnippet | includes/content-publication.php:196-295 | A string snippet or an array's `intro` is verified; headings and other shapes are untouched |
| CityUpdatePost.VerifySnippets | includes/content-publication.php:192-298 | Each listed snippet present is verified once; absent keys stay absent and other keys are kept |
| CityUpdatePost.OfKind | includes/content-publication.php:157-160 | The cached data of one kind's rows, in row order |
| CityUpdatePost.HeadingFor | includes/content-publication.php:414-448 | The AI heading when present, else the stock heading of the kind |
| CityUpdatePost.IntroFor | includes/content-publication.php:415-417 | An intro paragraph exactly when the AI intro is not PHP-empty |
| CityUpdatePost.SectionBlocks | includes/content-publication.php:413-453 | No block without rows of the kind; otherwise the heading, the optional intro and one card per row |
| CityUpdatePost.TopBlock | includes/content-publication.php:407-411 | The AI `top_summary` when it is a non-empty string, else the stock sentence naming the city |
| CityUpdatePost.SectionsCardKinds | includes/content-publication.php:413-453 | The card sections come in the fixed order, one for each kind that has rows |
| CityUpdatePost.PostCardOrder | includes/content-publication.php:399-455 | A post lists spots, events, skaters, reviews and sessions in that order, whatever the input order |
| CityUpdatePost.SectionsCards | includes/content-publication.php:419-452 | Every card block carries all of the job's data of its kind |
| CityUpdatePost.FallbackSections | includes/content-publication.php:399-455 | Without AI snippets the body is the stock opening sentence followed by the stock-headed sections |
| CityUpdatePost.FeaturedImage | includes/content-publication.php:570-594 | The first event with an attachment, else the first spot with a satellite image, else the first review's avatar, else none |
| CityUpdatePost.AsWrittenSlugIgnoresBucket | includes/content-publication.php:193-303 | Two buckets whose AI titles sanitise alike get the same slug, so one post replaces the other |
| CityUpdatePost.PostSlug | includes/content-publication.php:303 | The sanitised title followed by the bucket key |
| CityUpdatePost.PostSlugInjective | includes/content-publication.php:303 | With the bucket key in the slug, different buckets never share a slug |
| CityUpdatePost.MarkedIds | includes/content-publication.php:322-327 | The ids of the job's non-event rows, in order |
| CityUpdatePost.MarkPublished | includes/content-publication.php:329-332 | Exactly the listed rows become published; nothing else changes |
| CityUpdatePost.MarkExactlyRecap | includes/content-publication.php:321-332 | In a table with unique ids, marking publishes exactly the job's non-event rows |
| CityUpdatePost.CityName | includes/content-publication.php:162-163 | The configured name, else the slug with its first letter upper-cased |
| CityUpdatePost.PostText | includes/content-publication.php:177-187 | On a writer error the title and summary are the stock wording and there are no snippets; otherwise the writer's |
| CityUpdatePost.CardFailure | includes/content-publication.php:445-452 | A review card throws exactly when it has a spot id and a user id and a rating outside 0..5; a session card throws exactly when the session renderer is undefined; no other card throws |
| CityUpdatePost.PostContentFails | includes/content-publication.php:399-455 | Building a post's body throws exactly when one of the job's rows has a card that throws |
| CityUpdatePost.GeneratePost | includes/content-publication.php:145-335 | No post for an empty job; a throw exactly when a row's card throws; otherwise the post of the job's city with its recap rows to mark. On the fallback path the slug ends in the bucket key; on the writer's path it ends in 'sessions_section', whatever the bucket |
| CityUpdatePost.GeneratePostIntended | includes/content-publication.php:303 | Throws on exactly the jobs GeneratePost throws on; otherwise the slug is the sanitised title plus the bucket key, and the rest of the post and the marked rows are GeneratePost's |
| CityUpdatePost.SessionRowThrowsAsWritten | includes/content-publication.php:452 | With `lr_render_session_card` undefined, every job holding a session row throws instead of producing a post |
| CityUpdatePost.DefinedSessionCardGenerates | includes/content-publication.php:445-452 | With a session card renderer defined, a non-empty job whose review ratings are in range always yields a post |
| PublicationRun.ApplyGenerated | includes/content-publication.php:307-332 | The post is stored under its (city, slug) and every other post is kept; the job's rows are marked |
| PublicationRun.ApplyJob | includes/content-publication.php:307-332 | A throw while generating the post is passed on with its error and nothing is stored; otherwise the post keys stay distinct and exactly the job's non-event rows are marked |
| PublicationRun.GeneratorFacts | includes/content-publication.php:145-335 | The post generator throws on a job exactly when one of its cards throws, and otherwise marks the job's non-event rows |
| PublicationRun.AsWrittenSecondBucketReplacesFirst | includes/content-publication.php:193-317 | Two buckets of one city whose writer titles sanitise alike share a slug, and the second bucket's post replaces the first |
| PublicationRun.IntendedBucketsKeepBoth | includes/content-publication.php:303-317 | With the bucket key in the slug, both buckets' posts stay in the table |
| PublicationRun.Committed | includes/content-publication.php:119-133 | The number of jobs before the first one that throws: those all succeed and the next one throws |
| PublicationRun.ApplyJobs | includes/content-publication.php:119-133 | However many jobs run, the posts table keeps one post per (city, slug) |
| PublicationRun.ApplyJobsError | includes/content-publication.php:119-133 | The loop ends in error exactly when some job throws, and the error is that of the first job that throws |
| PublicationRun.ApplyJobsCommitted | includes/content-publication.php:119-133 | A throw aborts the loop: the tables are those the jobs before the first throwing one leave, and later jobs do nothing |
| PublicationRun.ApplyJobsRows | includes/content-publication.php:119-133 | Running jobs changes only published flags, and sets exactly those of ids that a job before the first throw marks |
| PublicationRun.ThrowLeavesRow | includes/content-publication.php:119-133 | When a job throws, a row that no earlier job marks keeps its published flag |
| PublicationRun.RunFlag | includes/content-publication.php:119-133 | A row ends published only if it was or some job marks it; when no job throws, exactly then |
| PublicationRun.RunError | includes/content-publication.php:119-133 | The jobs end in a thrown error exactly when one of them holds a row whose card throws |
| PublicationRun.RunPublication | includes/content-publication.php:54-135 | The run ends in a thrown error exactly when a job of a complete bucket holds a row whose card throws; post keys stay distinct |
| PublicationRun.PublicationMarked | includes/content-publication.php:54-135 | The rows a run marks are unpublished, dated non-events of a finished period |
| PublicationRun.RunPublicationMarks | includes/content-publication.php:54-135 | After a run a row is published only if it already was or is an unpublished, dated non-event of a finished period; when no card throws, exactly then |
| PublicationRun.RunPublicationThrowLeavesRows | includes/content-publication.php:54-135 | When the first throwing job holds a row, the run ends in error and that row is left exactly as it was |
| Publication.PublicationJobsDistinct | includes/content-publication.php:104-133 | Two publication jobs of the same period and city are the same job |
| PublicationRun.RunSeedingForCity | includes/content-publication.php:464-549 | Seeding a city ends in a thrown error exactly when one of its complete buckets holds a row whose card throws; post keys stay distinct |
| PublicationRun.SeedingMarked | includes/content-publication.php:464-549 | The rows seeding marks are the city's dated non-events within the window, of a finished period |
| PublicationRun.RunSeedingMarks | includes/content-publication.php:464-549 | Seeding publishes only a city's non-event rows dated within six months in finished periods, and changes no other flag; when no card throws, exactly those |
| PublicationRun.RunSeedingThrowLeavesRows | includes/content-publication.php:464-549 | When the first throwing seeding job holds a row, seeding ends in error and that row is left exactly as it was |
| Publication.SeedingJobsDistinct | includes/content-publication.php:538-547 | Two seeding jobs of one city and the same period are the same job |
| Locations.CountryDetails | lets-roll-seo-pages.php:72-75 | The country's entry when configured, else none |
| Locations.CityDetails | lets-roll-seo-pages.php:77-80 | The city's entry within a configured country, else none |
| Locations.CityBySlug | includes/content-publication.php:554-562 | Found exactly when some country lists the city, and then it is the entry of the first country in table order that lists it |
| Locations.AllCities | includes/content-publication.php:612-622 | The flattened list names each slug once, as the associative array does |
| Locations.AllCitiesName | includes/content-publication.php:612-622 | A slug listed by several countries takes the name from the last country in table order that lists it |
| Locations.AllCitiesKeys | includes/content-publication.php:612-622 | A slug is in the flattened list exactly when some country lists it |
| Locations.CityList | includes/content-discovery.php:55-83 | A (slug, details) pair is in the list exactly when some country lists it |
| Locations.CityListAppend | includes/content-discovery.php:55-83 | The list of two tables one after the other is the first table's list followed by the second's, so countries come in table order |
| Locations.CityListOne | includes/content-discovery.php:55-83 | A single country contributes its cities in their own order |
| SeedingBatch.Slice | includes/content-publication.php:640 | The five (or fewer) slugs from the offset, in order |
| SeedingBatch.BatchContract | includes/content-publication.php:601-667 | A held lock does nothing; a finished offset clears the progress and unlocks. Otherwise the next five cities are seeded in order: if one throws, the ones before it are seeded, the lock stays set, the progress is kept and nothing is rescheduled; if none throws, the lock is released, the progress moves past the batch and the next batch is scheduled |
| SeedingBatch.LockedIterateIdle | includes/content-publication.php:606-609 | While the lock is held, any number of batches seed nothing and change nothing |
| SeedingBatch.IterateSeedsAll | includes/content-publication.php:601-667 | Starting unlocked at any offset with no remaining city throwing, repeated batches seed every remaining city once, in order |
| SeedingBatch.IterateStopsAtThrow | includes/content-publication.php:601-667 | When city `f` is the first remaining one to throw, the batches seed exactly the cities before it, then stop with the lock held and the progress at the start of the batch that threw |
| SeedingBatch.FreshRunSeedsAll | includes/content-publication.php:601-667 | From a fresh start with no city throwing, the whole table is seeded once, and one more batch clears the progress |
| SeedingBatch.FreshRunStopsAtThrow | includes/content-publication.php:601-667 | From a fresh start, when city `f` is the first to throw, exactly the cities before it are seeded and the lock stays held |
| Ledger.InsertIfAbsent | includes/content-discovery.php:118-143 | A row is added only when no row has the same api id and kind; the count rises by one exactly then |
| Ledger.HasKeyAppend | includes/database.php:23 | Keys already present stay present; rows are only appended |
| Ledger.EmptyValid | includes/database.php:15-24 | The newly created table satisfies both keys and holds no (api id, type) pair |
| Ledger.InsertTwiceAddsOnce | includes/content-discovery.php:118-143 | Discovering the same api id and type again, from any city, at any time, adds nothing |
| Discovery.Record | includes/content-discovery.php:118-144 | Each item is added exactly when its key is absent, and the count is the number added |
| Discovery.RecordKeys | includes/content-discovery.php:118-144 | Recording adds exactly the items' keys |
| Discovery.RecordCount | includes/content-discovery.php:142 | The count is the number of the items' keys that were absent |
| Discovery.RecordPresent | includes/content-discovery.php:129 | Items whose keys are all present change nothing |
| Discovery.RecordIdempotent | includes/content-discovery.php:118-144 | Discovering the same objects again, at any later time, records nothing more |
| Discovery.RecordGrows | includes/content-discovery.php:131 | Rows already in the ledger stay, so their keys stay |
| Discovery.Candidates | includes/content-discovery.php:119-121 | The objects with a non-empty `_id`, in order |
| Discovery.CandidateKeys | includes/content-discovery.php:119-121 | The candidates' keys are exactly the non-empty ids |
| Discovery.DiscoverDirect | includes/content-discovery.php:100-191 | An API error or an empty answer changes nothing; otherwise the candidates are recorded |
| Discovery.DiscoverDirectKeys | includes/content-discovery.php:100-191 | A spot or event pass leaves exactly the old keys plus those of the candidates |
| Discovery.SessionItems | includes/content-discovery.php:230-240 | A spot's sessions, leaving out event sessions |
| Discovery.SessionItemsNoEvent | includes/content-discovery.php:234 | A session of kind Event is never recorded |
| Discovery.FeedItems | includes/content-discovery.php:192-249 | The reviews and sessions of every spot with a non-empty id, spot by spot |
| Discovery.SkaterPass | includes/content-discovery.php:270-280 | A profile whose user is not yet seen in the city is marked seen and queued for the ledger |
| Discovery.SkaterPassSeenSet | includes/content-discovery.php:270-280 | Every sighting with a non-empty user id is marked seen, and nothing else |
| Discovery.SkaterPassSeenPairs | includes/content-discovery.php:270-280 | One profile is queued per newly seen pair, so the logged count is the number of new pairs |
| Discovery.SkaterPassSeen | includes/content-discovery.php:273 | Sightings already seen queue nothing |
| Discovery.DiscoverSkaters | includes/content-discovery.php:250-281 | A skater newly seen in the city is counted and recorded unless its key is already recorded |
| Discovery.DiscoverCity | includes/content-discovery.php:84-99 | Spots, events, reviews and sessions, then skaters |
| Discovery.DiscoverCityFeedCounts | includes/content-discovery.php:192-248 | The reported review and session counts are the numbers of review and session rows the city's discovery adds, each counted on its own |
| Discovery.DiscoverCityOrder | includes/content-discovery.php:84-99 | The appended rows come in discovery order: spots, events, reviews and sessions, skaters |
| Discovery.DiscoverCityGrows | includes/content-discovery.php:84-99 | A city's discovery only adds keys and seen pairs, and afterwards holds all of its own |
| Discovery.DiscoverCityPresent | includes/content-discovery.php:84-99 | A city whose keys are all recorded and whose skaters are all seen is left as it is, with zero counts |
| Discovery.DiscoverCityIdempotent | includes/content-discovery.php:84-99 | Discovering a city twice over the same answers records nothing the second time |
| Discovery.DiscoverAll | includes/content-discovery.php:55-83 | Every city of every country, in table order |
| Discovery.DiscoverAllCovers | includes/content-discovery.php:55-83 | After a run every city's objects are recorded and its sightings seen |
| Discovery.DiscoverAllPresent | includes/content-discovery.php:55-83 | A state already holding every city's objects and sightings is left unchanged |
| Discovery.DiscoverAllIdempotent | includes/content-discovery.php:55-83 | A second daily run over the same answers changes neither table |
| SeoPages.AccessToken | lets-roll-seo-pages.php:24-46 | A cached token that PHP reads as true is used as is; otherwise a sign-in, whose token is cached on success; errors pass through |
| SeoPages.TokenIsCached | lets-roll-seo-pages.php:25-32 | Once a token is obtained, the next call returns it from the cache whatever the credentials |
| SeoPages.FetchApiData | lets-roll-seo-pages.php:47-62 | An error token is passed back; otherwise the decoded body or a fetch error |
| SeoPages.BindSegments | lets-roll-seo-pages.php:86-88 | One to three non-empty segments bind country, city and page type; other counts bind nothing |
| SeoPages.Route | lets-roll-seo-pages.php:82-89 | The three rewrite rules on a request path, with one optional trailing slash |
| SeoPages.RouteRoundTrip | lets-roll-seo-pages.php:86-88 | One to three route segments, with or without a trailing slash, are read back as the variables they spell |
| SeoPages.RouteShape | lets-roll-seo-pages.php:86-88 | Every matched path is its segments joined by `/`, with at most one slash after them |
| SeoPages.DynamicContent | lets-roll-seo-pages.php:132-149 | Page type first, then city, then country, each checked for PHP truth |
| SeoPages.DynamicTitle | lets-roll-seo-pages.php:150-168 | With the same precedence, '<Type> in <City>', the city name or the country name, else the original title |
| SeoPages.GeneratedTitleReplaces | lets-roll-seo-pages.php:150-168 | When the lookup succeeds the title is '<Type> in <city>', 'Roller Skating in <city>' or 'Roller Skating in <country>', the same whatever title came in |
| SeoPages.PageController | lets-roll-seo-pages.php:108-125 | Without a true country nothing is installed; otherwise both filters, with the dynamic title |
| SeoPages.RoutedPagesAreControlled | lets-roll-seo-pages.php:86-112 | Every routed page has a true country unless its slug is "0" |
| PageData.SocialTags | includes/open-graph.php:45-59 | One tag per pair whose content is not empty, in order, with the right attribute |
| PageData.AttrFor | includes/open-graph.php:56 | twitter:* properties use `name`, every other one `property` |
| PageData.InjectAfterHeadSpec | includes/open-graph.php:33 | A page without `<head>` is left as it is; a page with one `<head>` gets the block right after it, the rest unchanged |
| PageData.InjectAfterEveryHead | includes/open-graph.php:33 | `str_replace` acts on every `<head>`: with two of them, the block follows each |
| OpenGraph.SplitId | includes/open-graph.php:72-79 | The id pattern accepts exactly a non-empty slash-free id followed by nothing, `/` or `/amp/` |
| OpenGraph.SplitIdSpec | includes/open-graph.php:72-79 | The id pattern accepts exactly a non-empty slash-free id with one of the three tails |
| OpenGraph.MatchRoute | includes/open-graph.php:72-79 | A route matches `^/TYPE/` then the id |
| OpenGraph.PageDetailsFromUri | includes/open-graph.php:67-83 | The activity pattern first, then spots, events and skaters; none for anything else |
| OpenGraph.OtherRouteFails | includes/open-graph.php:72-79 | A route of another type never matches a URI starting with this type's prefix |
| OpenGraph.OwnRouteMatches | includes/open-graph.php:72-79 | A type's own route matches its path followed by any accepted tail |
| OpenGraph.PageDetailsRoundTrip | includes/open-graph.php:67-83 | Every single-entity path with a non-empty slash-free id and an accepted tail is recognised with that type and id |
| OpenGraph.PageDetailsShape | includes/open-graph.php:67-83 | Whatever the recogniser accepts is such a path; no other URI is recognised |
| OpenGraph.OgTitle | includes/open-graph.php:133-147 | The entity's name per type, with its fallbacks |
| OpenGraph.OgDescription | includes/open-graph.php:148-188 | The per-type description: address and rating for spots, event text, skater bio, activity text |
| OpenGraph.SpotDescriptionRating | includes/open-graph.php:148-188 | Without ratings the description is the address alone; with ratings it carries the average |
| OpenGraph.OgImage | includes/open-graph.php:189-225 | The per-type image URL through the proxy or the avatar service |
| OpenGraph.ActivityImageSkipsStaticMaps | includes/open-graph.php:212-222 | Static-map attachments before the first photo are skipped |
| OpenGraph.OgType | includes/open-graph.php:226-230 | 'profile' exactly on skater pages, else 'article' |
| OpenGraph.OgTags | includes/open-graph.php:39-66 | No tags off the recognised pages; otherwise the non-empty pairs |
| OpenGraph.OgTagsSpec | includes/open-graph.php:39-66 | The six properties come in their fixed order, each present exactly when its content is not empty |
| OpenGraph.FixedOrderTags | includes/open-graph.php:45-59 | Whatever the other contents, the og:type tag and the twitter card (under the `name` attribute) are always emitted |
| OpenGraph.ProcessBuffer | includes/open-graph.php:19-38 | Without page data the buffer is returned unchanged; otherwise the tags go after `<head>` |
| SeoMetadata.PathPart | includes/seo-metadata.php:99 | The path of a URI without a host is its longest prefix free of '?' and '#', and it stops only at one of them |
| SeoMetadata.Authority | includes/seo-metadata.php:99 | After a leading '//', the host runs up to the first '/', '?' or '#' |
| SeoMetadata.UriPath | includes/seo-metadata.php:99 | The path never holds '?' or '#'; a URI starting with '//' loses its host before the path is taken |
| SeoMetadata.NetworkPathSkipsHost | includes/seo-metadata.php:99 | `//<host><path>` has the path `<path>` for any host free of '/', '?' and '#' |
| SeoMetadata.UnitedStatesNetworkPath | includes/seo-metadata.php:99 | The request `//united-states/` has the path '/' and so names no country |
| SeoMetadata.UriPathPrefix | includes/seo-metadata.php:99 | A query or fragment after a clean URI leaves its path alone, and a clean URI without a host is its own path |
| SeoMetadata.CanonicalShape | includes/seo-metadata.php:96-102 | The canonical URL is the home URL plus the path with exactly one trailing slash |
| SeoMetadata.CanonicalIgnoresQuery | includes/seo-metadata.php:96-102 | A query string or fragment does not change the canonical URL |
| SeoMetadata.CanonicalIgnoresTrailingSlash | includes/seo-metadata.php:96-102 | Trailing slashes on the path do not change the canonical URL |
| SeoMetadata.SeoTitle | includes/seo-metadata.php:103-131 | The single-entity titles of Open Graph; list, city and country titles for the dynamic pages |
| SeoMetadata.SeoTitleKnown | includes/seo-metadata.php:103-131 | Every known page type gets a title PHP reads as true |
| SeoMetadata.ListTitle | includes/seo-metadata.php:103-131 | List titles name the list: 'Skate Spots' for skatespots, the capitalised type otherwise |
| SeoMetadata.FilterTitle | includes/seo-metadata.php:48-58 | The generated title when there is page data and it is true, else the original |
| SeoMetadata.SeoDescription | includes/seo-metadata.php:132-187 | The single-entity descriptions of Open Graph; the stock sentences for the dynamic pages |
| SeoMetadata.SeoImage | includes/seo-metadata.php:188-237 | The per-type image, falling back to the plugin icon |
| SeoMetadata.HeadBlockSpec | includes/seo-metadata.php:59-95 | The description tag is written exactly when the description is not empty |
| SeoMetadata.SeoTagsSpec | includes/seo-metadata.php:66-87 | The canonical link and og:url are always written, with the canonical URL |
| SeoMetadata.ProcessBuffer | includes/seo-metadata.php:21-47 | Without page data the buffer is returned unchanged; otherwise the block goes after `<head>` |
| SchemaMarkup.Breadcrumbs | includes/schema-markup.php:67-137 | Home and Explore, then country, city and list crumbs as far as the page reaches, then the unlinked final crumb |
| SchemaMarkup.CityPageHasNoFinal | includes/schema-markup.php:69-127 | On a city page every crumb is linked |
| SchemaMarkup.SpotSchema | includes/schema-markup.php:138-188 | None without a spot; the spot's name and the page URL, a description ending in its city (or 'the area'), its satellite image through the proxy, its street address, its coordinates with longitude first, and its rating count with the averaged value, each only when present |
| SchemaMarkup.EventSchema | includes/schema-markup.php:189-245 | None without a name; the event's name, page URL and stripped description, its own start and end dates, an image exactly when it has attachments, the formatted address as place, and the first profile as organizer named by skate name, else first name |
| SchemaMarkup.PersonSchema | includes/schema-markup.php:246-269 | None without a user id; named by skate name, else first name, at the page URL; the stripped bio as description; the Instagram profile as its one sameAs link only with an Instagram name |
| SchemaMarkup.CollectionSchema | includes/schema-markup.php:270-285 | At the page URL; city pages get a name and a description ending in the city's name; list pages a name that starts with the list's display name and ends in the city's name |
| SchemaMarkup.EntityMatchesFinalCrumb | includes/schema-markup.php:14-66 | The entity node's URL is the current page, and the unlinked last crumb of an event, a named spot or a skater with a skate name carries the node's own name |
| SchemaMarkup.JsonLdGraph | includes/schema-markup.php:14-66 | Nothing without page details or data; otherwise the breadcrumbs and the entity node of the page type |
| CountryLogic.PathSegments | test_country_logic.php:22-31 | The non-empty segments of the untrailed path, in order |
| CountryLogic.CountryPageFromUri | test_country_logic.php:22-40 | A path whose only segment is a configured country is that country's page; any other path, a missing URI or an empty table is none |
| CountryLogic.CountryUriRoundTrip | test_country_logic.php:22-40 | `/<slug>` with any run of trailing slashes and an optional query is recognised as that country |
| CountryLogic.NetworkPathIsNoCountry | test_country_logic.php:22-40 | The request `//united-states/` is no country page, because `parse_url` reads 'united-states' as its host |
| CountryLogic.UnitedStatesIsCountry | test_country_logic.php:44-46 | The test's `/united-states/` is the country page of 'united-states' |
| CtaBanner.FirstSet | cta-banner.php:147-194 | The index of the first value that is true in PHP: every earlier value is empty or '0' |
| CtaBanner.CtaText | cta-banner.php:146-199 | A set explore flag gives the explore sentence, and a page with no variable set gets the default sentence |
| CtaBanner.DeciderIs | cta-banner.php:147-194 | The explore flag, single type, page type, city and country decide in that order of priority |
| CtaBanner.OnlyDeciderMatters | cta-banner.php:147-194 | Only the highest-priority variable that is set, and the city or country its sentence looks up, affect the sentence |
| CtaBanner.DefaultIff | cta-banner.php:146-199 | The default sentence exactly when no variable is set or the deciding single or page type has no sentence of its own |
| CtaBanner.PageTypeNamesCity | cta-banner.php:169-186 | A list page mentions the configured city's name, or 'the area' when it is unknown |
| CtaBanner.CityPageNamesCity | cta-banner.php:187-190 | A city page mentions the configured city's name, or 'this city' |
| CtaBanner.CountryPageNamesCountry | cta-banner.php:191-194 | A country page mentions the configured country's name, or 'this country' |
| CtaBanner.FooterBanner | cta-banner.php:201-209 | No banner on admin pages; the chosen sentence elsewhere |
| Sitemap.SitemapUrls | admin/admin-page.php:21-37 | Nothing without locations; otherwise the explore page, then each country followed by its cities' four URLs |
| Sitemap.HandleSitemap | admin/admin-page.php:10-54 | Exactly the sitemap action with the capability and a valid nonce produces a CSV: the header row, then one row per URL dated today; the same action otherwise stops, any other request is not handled |
| Sitemap.EveryPageListed | admin/admin-page.php:21-37 | Every configured country, and every city with its three list pages, has a URL in the export |
| Sitemap.TestingModeChecked | admin/admin-page.php:127-136 | The box is checked exactly for the stored value '1' |
| ImageProxy.Height | image-proxy.php:73 | `round(w * 0.6)` to the nearest integer, halves away from zero |
| ImageProxy.DefaultHeight | image-proxy.php:59-73 | The default width of 800 asks for a height of 480 |
| ImageProxy.ApiUrl | image-proxy.php:56-85 | Empty type or id, a missing session id for attachments, or an unknown type is a 400; otherwise the upstream URL of the type |
| ImageProxy.Proxy | image-proxy.php:49-108 | A token error is a 401 before the parameters are read; a bad upstream answer is a 502; otherwise the body is served |
| ImageProxy.OnlyOkIsServed | image-proxy.php:95-98 | Only a 200 from upstream is served; every other code is a 502 |
| ImageProxy.SpotAndEventUrlsDiffer | image-proxy.php:71-85 | A spot image and an event attachment never share an upstream URL |
| BrevoSync.MinDistancesSpec | brevo-integration.php:45-62 | A user has a distance exactly when they have a qualifying session, and it is their smallest |
| BrevoSync.Round10 | brevo-integration.php:77 | The metre distance in hundredths of a kilometre, at most half a hundredth off; an exact half rounds away from zero, up for positive and down for negative distances |
| BrevoSync.Round10Monotone | brevo-integration.php:72-83 | Rounding keeps the order of distances |
| BrevoSync.Annotate | brevo-integration.php:72-83 | The kept profiles, in order, each with its user's rounded distance |
| BrevoSync.FetchSkaters | brevo-integration.php:29-93 | A token or fetch error is passed back; otherwise the profiles of users with a distance |
| BrevoSync.FetchSkatersMembers | brevo-integration.php:29-93 | A profile is returned exactly when its user id is set and that user has a qualifying session |
| BrevoSync.AddProcessed | brevo-integration.php:193-202 | The name now maps to this city, whatever it mapped to before |
| BrevoSync.RemoveProcessed | brevo-integration.php:204-213 | Only that name goes; an unknown name changes nothing |
| BrevoSync.ClearProcessed | brevo-integration.php:215-221 | The log reads back as empty |
| BrevoSync.AddThenRemove | brevo-integration.php:193-213 | Removing a name just added restores every other entry |
| BrevoSync.Enrich | brevo-integration.php:95-182 | The contact with this skate name is looked up; only a found contact is updated with the city |
| BrevoSync.SyncLoopCount | brevo-integration.php:274-287 | The loop's count is the number of named skaters not in the log as read before the loop |
| BrevoSync.SyncLoopLog | brevo-integration.php:274-287 | The loop never unlogs a name; a changed entry belongs to a skater it tried to enrich and now maps to this city |
| BrevoSync.SyncCity | brevo-integration.php:254-288 | Nothing on a fetch error or an empty list; otherwise the loop |
| BrevoSync.SyncCityLogged | brevo-integration.php:274-287 | Skaters already logged are skipped, so a fully logged city enriches no one |
| BrevoSync.SyncAll | brevo-integration.php:233-241 | Every city in table order, the log carried across, the counts summed |
| BrevoSync.SyncAllAppend | brevo-integration.php:233-241 | Syncing two runs of cities back to back adds their totals |
| BrevoSync.RunBrevoSync | brevo-integration.php:223-252 | The whole run over the location table; an empty table syncs nothing |
| BrevoSender.RecentUpdates | admin/brevo-sender-page.php:39-42 | At most ten of the city's rows, newest first, and none exactly when the city has no rows |
| BrevoSender.RecentUpdatesTopTen | admin/brevo-sender-page.php:39-42 | Exactly min(10, n) of the city's n rows are listed, each one of the city's rows, and no row left out is newer than the last one listed |
| BrevoSender.CityUpdatesForSender | admin/brevo-sender-page.php:28-50 | An empty slug is refused; a city with rows gets its recent updates, one without gets an error |
| BrevoSender.LastValue | admin/brevo-sender-page.php:395-396 | The value PHP keeps for a repeated form key is the last one |
| BrevoSender.ManualFormData | admin/brevo-sender-page.php:395-396 | Whatever the fields, the last `send_now` is 'true' or 'false' for the box |
| BrevoSender.ManualNeverSendsNow | admin/brevo-sender-page.php:71 | The manual form never yields an immediate send |
| BrevoSender.ManualSendNowFollowsBox | admin/brevo-sender-page.php:71 | With the intended reading the campaign is sent now exactly when the box is ticked |
| BrevoSender.ManualCampaign | admin/brevo-sender-page.php:64-87 | A bad nonce ends the request; missing fields are refused without a call; otherwise one call for the chosen city, update and post whose success is passed back |
| BrevoSender.ManualCampaignAsWrittenNeverSendsNow | admin/brevo-sender-page.php:71 | As written, a submission built by the page never asks for an immediate send, whether or not the box is ticked |
| BrevoSender.ManualCampaignFollowsBox | admin/brevo-sender-page.php:71 | A submission built by the page asks for an immediate send exactly when the box is ticked (the intended reading of `send_now`) |
| BrevoSender.BulkSendNow | admin/brevo-sender-page.php:142 | Only the exact string 'true' sends now |
| BrevoSender.BulkItem | admin/brevo-sender-page.php:136-164 | The same refusal; a rate-limit error passes its retry delay back, other errors only a message |
| BrevoSender.InitQueue | admin/brevo-sender-page.php:106-117 | An item per row that is its city's newest and inside the window |
| BrevoSender.RecentCityQueued | admin/brevo-sender-page.php:106-117 | A city is queued exactly when it has an update inside the window |
| BrevoSender.InitBulk | admin/brevo-sender-page.php:97-128 | An error exactly when no update is inside the window; otherwise a fresh run over the queue |
| BrevoSender.CreateButtonEnabled | admin/brevo-sender-page.php:331-340 | Enabled exactly when all three selects hold a value |
| BrevoSender.StartBulk | admin/brevo-sender-page.php:458-463 | The whole queue ahead, nothing processed |
| BrevoSender.Step | admin/brevo-sender-page.php:477-550 | An empty queue finishes; a rate limit re-queues the item and waits retry plus two seconds; anything else counts it |
| BrevoSender.RunAccounted | admin/brevo-sender-page.php:477-550 | Every item stays accounted for; a finished run has processed the whole queue |
| BrevoSender.RunFinishes | admin/brevo-sender-page.php:477-550 | Without rate limits the run finishes after one more outcome than there are items |
| AiContent.JsonPayload | includes/ai-content.php:39-53 | Empty without a "```json" fence or without a closing "```" after the first one; otherwise exactly the text from the first "```json" to the last "```" after it |
| AiContent.PayloadBetweenFences | includes/ai-content.php:39-53 | With no backtick outside the fences, the payload is exactly the text between them |
| AiContent.GeneratedContent | includes/ai-content.php:11-60 | A missing key, a transport error, or an answer without a decodable payload is an error; otherwise the decoded snippets |
| AiContent.GeminiModels | includes/ai-content.php:99-132 | An empty key or an API error is an error; otherwise the models that support generateContent, by short name |
| AiContent.ShortNameStripsPrefix | includes/ai-content.php:100-131 | `models/<n>` is listed as `<n>` |
| AiContent.ListedIffSupported | includes/ai-content.php:100-131 | Every model that supports generateContent is listed by its short name, and every listed name is the short name of a model that supports it |
| Rendering.SpotCard | includes/rendering-functions.php:18-42 | Empty without `spotWithAddress`; a card linking the spot's page under its name, whose image is the proxy request for the spot's satellite attachment at width 400 and quality 75, or the spot placeholder when there is none |
| Rendering.SpotCardImageServed | includes/rendering-functions.php:28-30 | The image proxy accepts every spot card's request and fetches that spot's satellite attachment at 400 by 240, quality 75 |
| Rendering.SkaterCard | includes/rendering-functions.php:51-69 | Empty unless both skate name and user id are set; otherwise linked to the skater page under the skate name, with the avatar of that user id |
| Rendering.EventCard | includes/rendering-functions.php:74-97 | Empty without an id or on a token error; the event's page and name ('Skate Event' by default), and the proxy request for its first attachment when the fetch returns any, else the event placeholder |
| Rendering.EventCardImageServed | includes/rendering-functions.php:84-87 | The image proxy fetches the card's first attachment of that event, and refuses it exactly when that attachment's id is empty |
| Rendering.SessionListItem | includes/rendering-functions.php:102-126 | Empty unless the first session has an id and a first profile exists; the session's activity page and name, 'A Skater' or the skate name, a link by user id without a skate name, and the description trimmed to 20 words |
| Rendering.ReviewListItem | includes/rendering-functions.php:131-137 | Empty without a spot id or a comment; otherwise the comment as given |
| Rendering.ReviewLinksLikeSpotCard | includes/rendering-functions.php:131-137 | A review list item links its spot to the page that spot's card links |
| Rendering.SpotSessionListItem | includes/rendering-functions.php:143-168 | Empty when the session's user has no profile; an uncaught exception when the creation date cannot be parsed; otherwise the display name, the formatted date, the activity page and the untrimmed description |
| Rendering.SkaterLinksAgree | includes/rendering-functions.php:59-182 | The session item, the spot session item and the review card link a skater with a skate name to the skater card's page |
| Rendering.Stars | includes/rendering-functions.php:185 | `rating` filled stars then `5 - rating` empty ones, for ratings 0 to 5 |
| Rendering.StarsRoundTrip | includes/rendering-functions.php:185 | A star string has five stars, and counting its filled stars gives the rating back |
| Rendering.ReviewCard | includes/rendering-functions.php:176-207 | Empty without a spot id or a user id; `str_repeat` throws for a rating outside 0..5; otherwise five stars of which `rating` are filled, and the comment block only for a non-empty comment |
| Sorting.SortBy | templates/template-explore-page.php:91-108 | A permutation in non-decreasing key order |
| Sorting.InsertSorted | templates/template-explore-page.php:91-108 | Inserting into a key-ordered sequence keeps it ordered |
| Sorting.InsertWithKey | templates/template-explore-page.php:91-108 | An inserted element goes in front of the elements with its key and leaves their order alone |
| Sorting.SortByStable | templates/template-explore-page.php:91-108 | Stability: for every key, the elements with that key come out in the order they went in |
| Sorting.SortBySortedIdentity | templates/template-explore-page.php:91-108 | A sequence already in key order comes back unchanged |
| Sorting.SortByIdempotent | templates/template-explore-page.php:91-108 | Sorting twice is sorting once |
| Sorting.SortByName | templates/template-explore-page.php:296-298 | A permutation ordered by name |
| Explore.SpotTile | templates/template-explore-page.php:19-35 | Skipped on a token error or a failed detail fetch; the satellite image when present |
| Explore.EventTile | templates/template-explore-page.php:36-48 | Never skipped; the first attachment's image when the token and fetch give one |
| Explore.SkaterTile | templates/template-explore-page.php:49-61 | Never skipped; always the avatar |
| Explore.Grid | templates/template-explore-page.php:8-70 | The cards of the first four items, in order, skipped tiles left out; empty input gives nothing |
| Explore.GridInOrder | templates/template-explore-page.php:8-70 | The grid is exactly the first four items' tiles that are not skipped, in item order, for any pattern of skipped tiles |
| Explore.RankedSpots | templates/template-explore-page.php:91 | The spots reordered by sessions, most first; spots with equal counts keep their order |
| Explore.Upcoming | templates/template-explore-page.php:104-108 | Exactly the events that end after now, earliest start first; events with the same start keep their order |
| Explore.ViewAll | templates/template-explore-page.php:95-127 | A "View All" link exactly when both slugs are truthy |
| Explore.SpotsSection | templates/template-explore-page.php:87-98 | Present exactly when the search found a spot |
| Explore.EventsSection | templates/template-explore-page.php:100-117 | Present exactly when some event has not ended |
| Explore.SkatersSection | templates/template-explore-page.php:120-128 | Present exactly when the search found a profile |
| Explore.NearbyContent | templates/template-explore-page.php:73-135 | A token error is reported; no sections gives the "nothing near" notice; otherwise the three sections |
| Explore.MatchesAny | templates/template-explore-page.php:146-154 | True exactly when some listed name occurs in the agent, ignoring ASCII case |
| Explore.BotCaseInsensitive | templates/template-explore-page.php:146-154 | Bot detection ignores the case of the user agent |
| Explore.MatchCity | templates/template-explore-page.php:209-219 | The first city in table order whose radius reaches the visitor; none when no city does |
| Explore.NearYouBlock | templates/template-explore-page.php:138-238 | Hidden for bots and token errors; local addresses get Los Angeles; otherwise the matched city's block |
| Explore.CountryLinks | templates/template-explore-page.php:271-306 | The "no locations" notice exactly for an empty table; otherwise one link per country, sorted by name |
| Activity.DisplayName | templates/template-single-activity.php:61-70 | The skate name, else the first name, else 'A skater' |
| Activity.SkaterHeader | templates/template-single-activity.php:61-70 | A header exactly when there is a profile; the link uses the skate name, else the user id |
| Activity.Slides | templates/template-single-activity.php:79-97 | A slide per non-static attachment, in order |
| Activity.Carousel | templates/template-single-activity.php:79-97 | Present whenever there are attachments, with one slide per non-static attachment |
| Activity.Duration | templates/template-single-activity.php:101-107 | An eight-character `HH:MM:SS` clock |
| Activity.DurationReadsBack | templates/template-single-activity.php:101-107 | Reading the clock back gives the seconds into the day |
| Activity.DurationWraps | templates/template-single-activity.php:101-107 | A duration of one day more shows the same clock |
| Activity.ShownDistance | templates/template-single-activity.php:100-102 | Shown exactly when set and positive, as the distance rounded to hundredths of a kilometre |
| Activity.ShownDistanceExact | templates/template-single-activity.php:100-102 | A distance that is already a whole number of hundredths is shown unchanged |
| Activity.ShownDistanceMonotone | templates/template-single-activity.php:100-102 | A longer distance is never shown as a smaller number |
| Activity.ShownDuration | templates/template-single-activity.php:101-107 | Shown exactly when set and positive, as the clock |
| Activity.BuildView | templates/template-single-activity.php:61-116 | The first session's title, truthy description, header, carousel, meta line and spot link |
| Activity.RenderActivity | templates/template-single-activity.php:8-125 | A truthy cache is served unless testing; a load error or no session is the error paragraph; a built page is cached unless testing |
| DataTools.ReplaceInTable | admin/data-tools-page.php:31-56 | Every row updated, and each count is the number of rows whose column changed |
| DataTools.SearchReplace | admin/data-tools-page.php:8-62 | The nonce and capability guards, the empty-search error (so "0" too), the three column updates, and the summed count |
| DataTools.AbsentSearchChangesNothing | admin/data-tools-page.php:31-58 | A search string found in no column changes nothing and reports 0 |
| DataTools.NothingChanges | admin/data-tools-page.php:31-58 | When no row's column changes, no count is raised |
| DataTools.ReplaceBySelf | admin/data-tools-page.php:31-58 | Replacing a string by itself leaves the table as it was |
| ImportExport.Rows | admin/import-export-page.php:123-141 | The table's rows in order |
| ImportExport.Without | admin/import-export-page.php:164-166 | The delete half of MySQL's REPLACE keeps exactly the rows that share neither the new row's id nor its unique key |
| ImportExport.WithoutKeyed | includes/database.php:15-45 | Deleting rows keeps the table's primary and unique keys distinct |
| ImportExport.Replace | admin/import-export-page.php:164-166 | Each write keeps the primary key and the unique key (`api_id_type`, `city_post_slug`) distinct |
| ImportExport.ReplaceLookup | admin/import-export-page.php:164-166 | After one REPLACE the new row is under its id, a row that held its unique key under another id is gone, and every other row is unchanged |
| ImportExport.ReplaceRows | admin/import-export-page.php:164-173 | The REPLACE loop keeps both keys distinct |
| ImportExport.ReplaceRowsStanding | admin/import-export-page.php:164-173 | An imported row that no later row of its section clashes with ends up under its id |
| ImportExport.ReplaceRowsUntouched | admin/import-export-page.php:164-173 | A stored row that no imported row clashes with on either key survives the import |
| ImportExport.ReplaceRowsOrigin | admin/import-export-page.php:164-173 | After the import every row is a standing imported row or an untouched old one |
| ImportExport.ReplaceRowsLookup | admin/import-export-page.php:164-173 | The three facts together: exactly the standing imported rows and the untouched old rows remain |
| ImportExport.ReplaceDropsUniqueClash | admin/import-export-page.php:164-166 | An imported row with a new id but an existing unique key deletes the row that held that key |
| ImportExport.ReplaceRowsIdempotent | admin/import-export-page.php:164-166 | Importing the same rows again changes nothing that can be looked up |
| ImportExport.ExportImportRoundTrip | admin/import-export-page.php:120-181 | Importing an exported table into an empty one rebuilds it entry for entry |
| ImportExport.Import | admin/import-export-page.php:154-181 | Each count is its section's length; an empty section leaves its table alone; each table holds exactly its standing imported rows and its untouched old rows |
| ImportExport.HandleActions | admin/import-export-page.php:77-114 | No action does nothing; a verified export downloads one table under one key; a verified import reports an upload failure, invalid JSON or the import |

## Left out

- I/O, the clock and caching are not modelled directly. HTTP requests, `current_time`, `date`/`strtotime`, WordPress options and transients, and the log files become parameters or explicit inputs and outputs. Periods are integers, and the previous period of `p` is `p - 1`.
- Publication.PreviewKey: uses the period before the start's period, the intended reading. PHP's `' -1 month'` on the 29th to 31st can land in the start's own month; see Findings. `MonthShift` models that on the calendar, but the publisher model does not use it.
- HTML escaping (`esc_html`, `esc_url`, `wp_kses_post`), the markdown-to-HTML link conversion, `json_encode` and the exact markup are left out. The model keeps the structure and values of each block, not its bytes.
- The style and script blocks, the CSS of the banner, and the admin page forms are presentation only, so they are not modelled.
- The AI prompt text (`lr_build_ai_prompt`) and the Google search and link-evaluation services are oracles, because their answers come from outside services.
- `lr_intelligent_quality_check` is an oracle for the same reason.
- Floating point is not modelled as such. Distances are reals or integer metres, and the geolocation distance is an oracle. The activity page's `round($d, 2)` is computed exactly on reals, so the binary rounding of a PHP float is not modelled.
- The regular expressions that strip existing meta tags from the output buffer are an oracle `strip`, because their matching is outside what the model needs.
- `DateTime` parsing of bucket keys and of event start dates is not modelled: an invalid date throws in PHP. Dates arrive as integers.
- The publish-date string of a post is an input.
- The WordPress loader and its error exit in image-proxy.php, and the proxy's headers and caching, are not modelled, because they are plumbing.
- The featured-cities grid and the admin debug block on the explore page are left out, because they are constant output.
- The explore page's country name fallback (`ucfirst` of the slug) is left out: the model's location table always carries a name.
- ImportExport.Replace: an imported row is assumed to carry its `id`. A row without one would get a fresh AUTO_INCREMENT id from MySQL, and that is not modelled. Row order is insertion order, and `SELECT *` without `ORDER BY` promises none.
- `lr_get_spot_stats_html` and the analytics scripts are not part of this model.
- CityUpdatePost.CardFailure: the spot card's `lr_get_spot_stats_html` (includes/rendering-functions.php:38) and the Markdown link conversion (includes/content-publication.php:408-450) are defined in none of the plugin files at hand; the model assumes both are defined and never throw, so only review and session cards can throw. If either were missing in the deployed plugin, spot cards or AI snippets would throw too.
- The JavaScript progress bar percentage, the countdown timer's display, and `setTimeout` are left out. The waits are returned as numbers of seconds.
- The 45-day window of the bulk init query takes `NOW() - INTERVAL 45 DAY` as the input `cutoff`.
- BrevoSender.InitQueue returns the rows in table order, because SQL gives the join no order.
- BrevoSender.ManualCampaign: takes the reading of `send_now` as a parameter. `AsWrittenReading` is the handler's test for '1' only, and it never sends immediately; `IntendedReading` also accepts 'true'. See Findings.
- SeoMetadata.UriPath: a URI starting with '///', which `parse_url` rejects with `false`, is read as an empty host followed by its path.
- CountryMerge.Run: every regional file is read as a JSON object. A file that is valid JSON but not an object makes `{**…}` raise an uncaught TypeError at merge_json.py:30, so the script stops without writing; the model has no such input.
- Review ratings are integers. A fractional JSON rating, which PHP truncates when it passes it to `str_repeat`, is not modelled.
- The `lr_seeding_current_city` option, which only reports the city being seeded, is left out; the lock and the progress offset are modelled.
- SeedingBatch.Batch: whether seeding a city throws is the per-city oracle `throws`, which stands for a card of that city's posts throwing in `RunSeedingForCity`. The two are not joined, because the batch function reads other rows each time.
- The access token that the explore grid renderer fetches for itself is the field `Api.token`, a `Result`, instead of a call to the token service, because that service is outside the model. Spot tiles are skipped on a token error; event tiles fall back to the placeholder.

## Findings

| source | as written | input that shows it | evidently intended | confidence | as-written member | corrected member |
|---|---|---|---|---|---|---|
| includes/content-publication.php:193-303 | The snippet loop reuses `$key`, so on the AI path the post slug ends in 'sessions_section' instead of the bucket key | Two weekly buckets of one city whose AI titles sanitise to the same slug: the second post replaces the first | The slug ends with the bucket key, so posts of different buckets never share a slug | high (not executed) | PublicationRun.AsWrittenSecondBucketReplacesFirst | PublicationRun.IntendedBucketsKeepBoth |
| includes/content-publication.php:80-89 | The monthly preview key is the `Y-m` of the start date with `' -1 month'`, which keeps the day and overflows | An event starting on 31 March 2025: '2025-02-31' becomes 3 March, so the preview goes into the March bucket and is published in April, after the event | The bucket of the month before the start, reached from the first of the start's month | high (not executed) | MonthShift.MarchThirtyFirstPreviewedInMarch | MonthShift.IntendedPreviewIsMonthBefore |
| includes/content-publication.php:452 | Session cards call `lr_render_session_card`, which is defined in none of the plugin files at hand, so PHP throws an Error and the whole run stops | A complete bucket holding one discovered session | Sessions are rendered by a defined card function, and the post is stored | medium (not executed) | CityUpdatePost.SessionRowThrowsAsWritten | CityUpdatePost.DefinedSessionCardGenerates |
| admin/brevo-sender-page.php:71 | The manual handler sends now only when `send_now` is exactly '1', but the script appends `send_now=true` or `send_now=false` after the form fields, and PHP keeps the last | Any manual submission with the "send immediately" box ticked | The campaign is sent immediately exactly when the box is ticked | high (not executed) | BrevoSender.ManualCampaignAsWrittenNeverSendsNow | BrevoSender.ManualCampaignFollowsBox |

=== FILE: activity.dfy ===
/**
 * The single activity page: the error guard, the skater header, the
 * attachment carousel, the distance / duration / posted line, the spot
 * link, and the four-hour page cache around them. Escaping is left to
 * the helpers and not modelled.
 */
module Activity {
  import opened Wrappers
  import opened Strings
  import opened Seqs
  import opened PageData

  /** `sessions[0]` as the page reads it; distance and duration come from its `meta`. */
  datatype ActSession = ActSession(
    id: string, name: string, description: Option<string>,
    distanceKm: Option<real>, durationSecs: Option<int>, createdAt: string)

  datatype BoundSpot = BoundSpot(id: string, name: string)

  /** The decoded activity: sessions, user profiles, spots bound to the sessions, attachments. */
  datatype ActivityData = ActivityData(sessions: seq<ActSession>, profiles: seq<Profile>, spots: seq<BoundSpot>, attachments: seq<Attachment>)

  /** The skater header: the displayed name, the profile link and the avatar URL. */
  datatype Header = Header(name: string, url: string, avatar: string)

  /** The page as the renderer builds it. */
  datatype ActivityView = ActivityView(
    header: Option<Header>, title: string, description: Option<string>,
    carousel: Option<seq<string>>, distanceHundredths: Option<int>, duration: Option<string>, posted: string,
    spotLink: Option<(string, string)>)

  /** What the renderer returns: a cached page, the error paragraph, or a freshly built page. */
  datatype Page = Cached(html: string) | LoadError | Built(view: ActivityView)

  /** `home_url`, the templates directory URL and the `F j, Y` date formatter. */
  datatype Site = Site(home: string -> string, templateUrl: string, formatDate: string -> string)

  /** `skateName ?? firstName ?? 'A skater'`: `??` only skips a missing field, so an empty skate name is kept. */
  function DisplayName(p: Profile): (r: string)
    ensures p.skateName.Some? ==> r == p.skateName.value
    ensures p.skateName.None? && p.firstName.Some? ==> r == p.firstName.value
    ensures p.skateName.None? && p.firstName.None? ==> r == "A skater"
  {
    match p.skateName
    case Some(n) => n
    case None => p.firstName.GetOr("A skater")
  }

  /** The header of the first profile; the link uses the skate name, else the user id. */
  function SkaterHeader(profiles: seq<Profile>, site: Site): (r: Option<Header>)
    ensures r.Some? <==> profiles != []
    ensures r.Some? ==> r.value.name == DisplayName(profiles[0])
    ensures r.Some? ==> r.value.url == site.home("/skaters/" + profiles[0].skateName.GetOr(profiles[0].userId.GetOr("")) + "/")
    ensures r.Some? ==> StartsWith(r.value.avatar, AvatarBase + profiles[0].userId.GetOr("") + "/")
  {
    if profiles == [] then None
    else
      var p := profiles[0];
      var prefix := AvatarBase + p.userId.GetOr("") + "/";
      var avatar := prefix + "avatar/content/processed?width=60&height=60&quality=80";
      assert avatar[..|prefix|] == prefix;
      Some(Header(DisplayName(p), site.home("/skaters/" + p.skateName.GetOr(p.userId.GetOr("")) + "/"), avatar))
  }

  /** A slide: the attachment through the image proxy at 800 px and quality 85. */
  function SlideUrl(sessionId: string, a: Attachment, site: Site): string {
    site.templateUrl + "../image-proxy.php?type=event_attachment&id=" + a.id + "&session_id=" + sessionId + "&width=800&quality=85"
  }

  /** The `foreach … if (!isStaticMap)` loop over the attachments. */
  function Slides(sessionId: string, atts: seq<Attachment>, site: Site): (r: seq<string>)
    ensures r == Map(Filter(atts, NotStaticMap), a => SlideUrl(sessionId, a, site))
  {
    if atts == [] then []
    else
      var t := Slides(sessionId, atts[1..], site);
      assert atts == [atts[0]] + atts[1..];
      if atts[0].isStaticMap then t else [SlideUrl(sessionId, atts[0], site)] + t
  }

  /** The carousel is present whenever there are attachments, even when all of them are static maps. */
  function Carousel(sessionId: string, atts: seq<Attachment>, site: Site): (r: Option<seq<string>>)
    ensures r.Some? <==> atts != []
    ensures r.Some? ==> |r.value| == |Filter(atts, NotStaticMap)|
    ensures r.Some? ==> forall i :: 0 <= i < |r.value| ==> r.value[i] == SlideUrl(sessionId, Filter(atts, NotStaticMap)[i], site)
  {
    if atts == [] then None else Some(Slides(sessionId, atts, site))
  }

  const SecondsPerDay: nat := 86400

  /** `gmdate("H:i:s", $secs)`: the time of day of the timestamp, so a duration of a day or more wraps around. */
  function Duration(secs: nat): (r: string)
    ensures |r| == 8 && r[2] == ':' && r[5] == ':'
  {
    var t := secs % SecondsPerDay;
    Pad2(t / 3600) + ":" + Pad2(t / 60 % 60) + ":" + Pad2(t % 60)
  }

  /** The value of a two-digit field. */
  function TwoDigits(s: string, i: nat): nat
    requires i + 1 < |s| && IsDigit(s[i]) && IsDigit(s[i + 1])
  {
    DigitValue(s[i]) * 10 + DigitValue(s[i + 1])
  }

  /** Hours, minutes and seconds of a time of day add back up to it. */
  lemma ClockParts(t: nat)
    requires t < SecondsPerDay
    ensures t / 3600 < 24 && t / 60 % 60 < 60 && t % 60 < 60
    ensures (t / 3600) * 3600 + (t / 60 % 60) * 60 + t % 60 == t
  {
    var q := t / 60;
    assert t == q * 60 + t % 60;
    assert q == (q / 60) * 60 + q % 60;
    assert q / 60 == t / 3600;
  }

  /** Reading the clock back gives the seconds into the day. */
  lemma DurationReadsBack(secs: nat)
    ensures var r := Duration(secs);
      IsDigit(r[0]) && IsDigit(r[1]) && IsDigit(r[3]) && IsDigit(r[4]) && IsDigit(r[6]) && IsDigit(r[7]) &&
      TwoDigits(r, 0) * 3600 + TwoDigits(r, 3) * 60 + TwoDigits(r, 6) == secs % SecondsPerDay &&
      TwoDigits(r, 0) < 24 && TwoDigits(r, 3) < 60 && TwoDigits(r, 6) < 60
  {
    var t := secs % SecondsPerDay;
    ClockParts(t);
    var h, m, s := Pad2(t / 3600), Pad2(t / 60 % 60), Pad2(t % 60);
    var r := h + ":" + m + ":" + s;
    assert r == Duration(secs);
    assert r[0] == h[0] && r[1] == h[1] && r[3] == m[0] && r[4] == m[1] && r[6] == s[0] && r[7] == s[1];
    assert TwoDigits(r, 0) == t / 3600 && TwoDigits(r, 3) == t / 60 % 60 && TwoDigits(r, 6) == t % 60;
  }

  /** A duration of a whole day more shows the same clock. */
  lemma DurationWraps(secs: nat)
    ensures Duration(secs + SecondsPerDay) == Duration(secs)
  {
    assert (secs + SecondsPerDay) % SecondsPerDay == secs % SecondsPerDay;
  }

  /**
   * The distance is shown only when it is set and positive, as
   * `round($distance, 2)`: a count of hundredths of a kilometre, the
   * nearest one to the distance, with an exact half rounded up (away from
   * zero, the distance being positive).
   */
  function ShownDistance(d: Option<real>): (r: Option<int>)
    ensures r.Some? <==> d.Some? && d.value > 0.0
    ensures r.Some? ==> (r.value as real) - 0.5 <= 100.0 * d.value < (r.value as real) + 0.5
  {
    if d.Some? && d.value > 0.0 then Some((100.0 * d.value + 0.5).Floor) else None
  }

  /** A distance already in whole hundredths is shown as it is. */
  lemma ShownDistanceExact(k: int)
    requires k > 0
    ensures ShownDistance(Some(k as real / 100.0)) == Some(k)
  {
    var r := ShownDistance(Some(k as real / 100.0));
    assert 100.0 * (k as real / 100.0) == k as real;
    assert r.value == k by {
      assert (r.value as real) - 0.5 <= k as real < (r.value as real) + 0.5;
    }
  }

  /** A larger distance is never shown as fewer hundredths. */
  lemma ShownDistanceMonotone(a: real, b: real)
    requires 0.0 < a <= b
    ensures ShownDistance(Some(a)).value <= ShownDistance(Some(b)).value
  {
    var ra := ShownDistance(Some(a)).value;
    var rb := ShownDistance(Some(b)).value;
    assert (ra as real) - 0.5 <= 100.0 * a <= 100.0 * b < (rb as real) + 0.5;
  }

  /** The duration is shown only when it is set and positive. */
  function ShownDuration(secs: Option<int>): (r: Option<string>)
    ensures r.Some? <==> secs.Some? && secs.value > 0
    ensures r.Some? ==> r.value == Duration(secs.value)
  {
    if secs.Some? && secs.value > 0 then Some(Duration(secs.value)) else None
  }

  /** The page built from loaded data with at least one session. */
  function BuildView(d: ActivityData, site: Site): (r: ActivityView)
    requires d.sessions != []
    ensures r.title == d.sessions[0].name
    ensures r.description.Some? <==> Truthy(d.sessions[0].description)
    ensures r.header == SkaterHeader(d.profiles, site)
    ensures r.carousel == Carousel(d.sessions[0].id, d.attachments, site)
    ensures r.distanceHundredths == ShownDistance(d.sessions[0].distanceKm)
    ensures r.duration.Some? <==> d.sessions[0].durationSecs.Some? && d.sessions[0].durationSecs.value > 0
    ensures r.spotLink.Some? <==> d.spots != []
    ensures r.spotLink.Some? ==> r.spotLink.value == (site.home("/spots/" + d.spots[0].id + "/"), d.spots[0].name)
  {
    var s := d.sessions[0];
    ActivityView(
      SkaterHeader(d.profiles, site), s.name, if Truthy(s.description) then s.description else None,
      Carousel(s.id, d.attachments, site), ShownDistance(s.distanceKm), ShownDuration(s.durationSecs),
      site.formatDate(s.createdAt),
      if d.spots == [] then None else Some((site.home("/spots/" + d.spots[0].id + "/"), d.spots[0].name)))
  }

  /**
   * `lr_render_single_activity_content`: a truthy cached page is returned
   * unless testing mode is on; a load error or a missing first session
   * gives the error paragraph; otherwise the page is built. The second
   * component is what is written back to the cache: only a built page,
   * and never in testing mode.
   */
  function RenderActivity(testing: bool, cached: Option<string>, data: Result<ActivityData, string>, site: Site): (r: (Page, Option<ActivityView>))
    ensures !testing && Truthy(cached) ==> r.0 == Cached(cached.value) && r.1.None?
    ensures r.0.Cached? ==> !testing && Truthy(cached)
    ensures r.0.LoadError? <==> (testing || !Truthy(cached)) && (data.Err? || data.value.sessions == [])
    ensures r.0.Built? ==> data.Ok? && data.value.sessions != [] && r.0.view == BuildView(data.value, site)
    ensures r.1.Some? <==> r.0.Built? && !testing
    ensures r.1.Some? ==> r.1.value == r.0.view
  {
    if !testing && Truthy(cached) then (Cached(cached.value), None)
    else if data.Err? || data.value.sessions == [] then (LoadError, None)
    else
      var view := BuildView(data.value, site);
      (Built(view), if testing then None else Some(view))
  }
}

=== FILE: ai_content.dfy ===
/**
 * The AI helpers: checking the generation settings, cutting the JSON
 * payload out of the model's reply and validating it, and listing the
 * models that can generate content. The requests and the JSON decoder
 * are parameters; the prompt text is not modelled.
 */
module AiContent {
  import opened Wrappers
  import opened Strings
  import opened Seqs

  const Fence := "```"
  const JsonFence := "```json"

  /** `p` is where `pat` first occurs in `s`. */
  predicate FirstAt(s: string, pat: string, p: int) {
    OccursAt(s, pat, p) && forall j :: 0 <= j < p ==> !OccursAt(s, pat, j)
  }

  /** `q` is where `pat` last occurs in `s`. */
  predicate LastAt(s: string, pat: string, q: int) {
    OccursAt(s, pat, q) && forall j :: q < j <= |s| ==> !OccursAt(s, pat, j)
  }

  /** "```json" first occurs at `p` in `text`, and "```" last occurs at `q` after it. */
  predicate FencesAt(text: string, p: int, q: int) {
    FirstAt(text, JsonFence, p) && LastAt(text[p + |JsonFence|..], Fence, q)
  }

  /**
   * The capture of `/```json(.*)```/s`: from just after the first
   * "```json" to the last "```" after it (the dot matches newlines and the
   * star is greedy); "" when there is no such pair, since `preg_match`
   * then fills no capture.
   */
  function JsonPayload(text: string): (r: string)
    ensures !Contains(text, JsonFence) ==> r == ""
    ensures forall p :: FirstAt(text, JsonFence, p) && !Contains(text[p + |JsonFence|..], Fence) ==> r == ""
    ensures forall p, q :: FencesAt(text, p, q) ==> r == text[p + |JsonFence|..][..q]
  {
    match IndexOf(text, JsonFence)
    case None => ""
    case Some(p) =>
      FirstAtUnique(text, JsonFence, p);
      var rest := text[p + |JsonFence|..];
      match LastIndexOf(rest, Fence)
      case None =>
        NoOccurrence(rest, Fence);
        ""
      case Some(q) =>
        LastAtUnique(rest, Fence, q);
        rest[..q]
  }

  /** A first occurrence is the only one. */
  lemma FirstAtUnique(s: string, pat: string, p: int)
    requires FirstAt(s, pat, p)
    ensures forall p' :: FirstAt(s, pat, p') ==> p' == p
  {
  }

  /** A last occurrence is the only one. */
  lemma LastAtUnique(s: string, pat: string, q: int)
    requires LastAt(s, pat, q)
    ensures forall q' :: LastAt(s, pat, q') ==> q' == q
  {
  }

  /** Occurring nowhere is not containing. */
  lemma NoOccurrence(s: string, pat: string)
    requires forall j :: !OccursAt(s, pat, j)
    ensures !Contains(s, pat)
  {
  }

  /** With no backtick outside the fences, the payload is exactly the text between them, backticks in it included. */
  lemma PayloadBetweenFences(a: string, x: string, b: string)
    requires '`' !in a && '`' !in b
    ensures JsonPayload(a + JsonFence + x + Fence + b) == x
  {
    var t := a + JsonFence + x + Fence + b;
    FirstFenceAt(a, x + Fence + b);
    assert t == a + JsonFence + (x + Fence + b);
    var rest := t[|a| + |JsonFence|..];
    assert rest == x + Fence + b;
    LastFenceAt(x, b);
  }

  lemma FirstFenceAt(a: string, tail: string)
    requires '`' !in a
    ensures IndexOf(a + JsonFence + tail, JsonFence) == Some(|a|)
  {
    var t := a + JsonFence + tail;
    assert t[|a|..|a| + |JsonFence|] == JsonFence;
    assert OccursAt(t, JsonFence, |a|);
    forall j | 0 <= j < |a| ensures !OccursAt(t, JsonFence, j) {
      assert t[j] == a[j];
    }
  }

  lemma LastFenceAt(x: string, b: string)
    requires '`' !in b
    ensures LastIndexOf(x + Fence + b, Fence) == Some(|x|)
  {
    var rest := x + Fence + b;
    assert rest[|x|..|x| + 3] == Fence;
    assert OccursAt(rest, Fence, |x|);
    forall j | |x| < j ensures !OccursAt(rest, Fence, j) {
      NoFenceInTail(x, b, j);
    }
  }

  lemma NoFenceInTail(x: string, b: string, j: int)
    requires '`' !in b && |x| < j
    ensures !OccursAt(x + Fence + b, Fence, j)
  {
    var rest := x + Fence + b;
    if j + 3 <= |rest| {
      var k := j + 2 - |x| - 3;
      assert 0 <= k < |b|;
      assert rest[j + 2] == b[k];
      assert rest[j..j + 3][2] == rest[j + 2];
    }
  }

  /** The decoded payload: the two fields that are checked, and the rest as name/value pairs. */
  datatype Generated = Generated(postTitle: Option<string>, topSummary: Option<string>, rest: seq<(string, string)>)

  /** The generation request's outcome: a transport error, or the raw body and the first candidate's text if any. */
  datatype AiReply = TransportError(code: string) | Body(raw: string, candidateText: Option<string>)

  /**
   * `lr_get_ai_generated_content` after the request: a missing key, then a
   * missing model, then a transport error, then empty text, then a payload
   * that does not decode or lacks a title or top summary, are errors, in
   * that order; otherwise the decoded payload itself.
   */
  function GeneratedContent(apiKey: Option<string>, model: Option<string>, reply: AiReply,
                            decode: string -> Option<Generated>): (r: Result<Generated, string>)
    ensures !Truthy(apiKey) ==> r == Err("no_api_key")
    ensures Truthy(apiKey) && !Truthy(model) ==> r == Err("no_model_selected")
    ensures Truthy(apiKey) && Truthy(model) && reply.TransportError? ==> r == Err(reply.code)
    ensures Truthy(apiKey) && Truthy(model) && reply.Body? && !Truthy(reply.candidateText) ==> r == Err("ai_error")
    ensures r.Ok? ==> reply.Body? && Truthy(reply.candidateText) &&
                      decode(JsonPayload(reply.candidateText.value)) == Some(r.value) &&
                      Truthy(r.value.postTitle) && Truthy(r.value.topSummary)
    ensures Truthy(apiKey) && Truthy(model) && reply.Body? && Truthy(reply.candidateText) ==>
      (r.Ok? <==> (var g := decode(JsonPayload(reply.candidateText.value));
                   g.Some? && Truthy(g.value.postTitle) && Truthy(g.value.topSummary)))
  {
    if !Truthy(apiKey) then Err("no_api_key")
    else if !Truthy(model) then Err("no_model_selected")
    else match reply
      case TransportError(code) => Err(code)
      case Body(_, text) =>
        if !Truthy(text) then Err("ai_error")
        else match decode(JsonPayload(text.value))
          case None => Err("ai_json_error")
          case Some(g) =>
            if !Truthy(g.postTitle) || !Truthy(g.topSummary) then Err("ai_json_error") else Ok(g)
  }

  /** One entry of the model list: its full name and supported generation methods. */
  datatype ModelEntry = ModelEntry(name: string, methods: seq<string>)

  /** The model-list request's outcome: a transport error, an API error object, or the `models` array if set. */
  datatype ModelsReply = ModelsTransportError(code: string) | ApiError(message: string) | ModelsList(models: Option<seq<ModelEntry>>)

  predicate SupportsGenerate(m: ModelEntry) {
    "generateContent" in m.methods
  }

  /** `str_replace('models/', '', $name)`. */
  function ShortName(m: ModelEntry): string {
    ReplaceAll(m.name, "models/", "")
  }

  /**
   * `lr_get_gemini_models`: an empty key, a transport or API error, or
   * no models are errors; otherwise the models that support
   * generateContent, in the order listed, by their short names.
   */
  function GeminiModels(apiKey: string, reply: ModelsReply): (r: Result<seq<string>, string>)
    ensures PhpEmpty(apiKey) ==> r == Err("no_api_key")
    ensures !PhpEmpty(apiKey) && reply.ApiError? ==> r == Err("api_error")
    ensures !PhpEmpty(apiKey) && reply.ModelsList? && (reply.models.None? || reply.models.value == []) ==> r == Err("no_models")
    ensures r.Ok? ==> reply.ModelsList? && reply.models.Some? && reply.models.value != []
    ensures r.Ok? ==> var kept := Filter(reply.models.value, SupportsGenerate);
                      |r.value| == |kept| && forall i :: 0 <= i < |kept| ==> r.value[i] == ShortName(kept[i])
  {
    if PhpEmpty(apiKey) then Err("no_api_key")
    else match reply
      case ModelsTransportError(code) => Err(code)
      case ApiError(_) => Err("api_error")
      case ModelsList(models) =>
        if models.None? || models.value == [] then Err("no_models")
        else Ok(Map(Filter(models.value, SupportsGenerate), ShortName))
  }

  /** A full name `models/<n>` is listed as `<n>` when `n` does not itself hold `models/`. */
  lemma ShortNameStripsPrefix(n: string, methods: seq<string>)
    requires !Contains(n, "models/")
    ensures ShortName(ModelEntry("models/" + n, methods)) == n
  {
    var s := "models/" + n;
    assert s[..7] == "models/";
    assert s[7..] == n;
    ReplaceAllAbsent(n, "models/", "");
  }

  /**
   * A model is listed exactly when it supports generateContent: every
   * supporting model's short name is in the list, and every name in the
   * list is the short name of some supporting model.
   */
  lemma ListedIffSupported(apiKey: string, models: seq<ModelEntry>, m: ModelEntry, n: string)
    requires !PhpEmpty(apiKey) && m in models
    ensures GeminiModels(apiKey, ModelsList(Some(models))).Ok?
    ensures SupportsGenerate(m) ==> ShortName(m) in GeminiModels(apiKey, ModelsList(Some(models))).value
    ensures n in GeminiModels(apiKey, ModelsList(Some(models))).value <==>
      exists m' :: m' in models && SupportsGenerate(m') && ShortName(m') == n
  {
    var kept := Filter(models, SupportsGenerate);
    var r := GeminiModels(apiKey, ModelsList(Some(models))).value;
    if SupportsGenerate(m) {
      assert m in kept;
      var i :| 0 <= i < |kept| && kept[i] == m;
      assert r[i] == ShortName(m);
    }
    if n in r {
      var i :| 0 <= i < |r| && r[i] == n;
      assert kept[i] in kept;
    }
    if exists m' :: m' in models && SupportsGenerate(m') && ShortName(m') == n {
      var m' :| m' in models && SupportsGenerate(m') && ShortName(m') == n;
      assert m' in kept;
      var i :| 0 <= i < |kept| && kept[i] == m';
      assert r[i] == n;
    }
  }
}

=== FILE: brevo.dfy ===
/**
 * The Brevo skater sync: the skaters active near a city, the
 * processed-skater log, and the per-city and full sync loops that look
 * each new skater up in Brevo and write the city onto their contact.
 * Every HTTP answer is an input.
 */
module BrevoSync {
  import opened Wrappers
  import opened Strings
  import opened OrderedMap
  import opened Seqs
  import opened Sorting
  import opened Locations

  /** One entry of `activities`: a distance in metres and the skater's user id. */
  datatype Activity = Activity(distance: Option<int>, userId: Option<string>)

  /** One entry of `userProfiles`. */
  datatype Profile = Profile(userId: Option<string>, skateName: Option<string>)

  /** The `nearby-activities/v2/skaters` answer; a missing list reads as empty. */
  datatype NearbyAnswer = NearbyAnswer(activities: seq<Activity>, userProfiles: seq<Profile>)

  /** A profile with its `distance_km`, counted in hundredths of a kilometre. */
  datatype Nearby = Nearby(profile: Profile, distance: int)

  const DefaultRadiusKm: int := 50

  /** An activity that counts: it has a distance within the radius and a user id. */
  predicate Qualifies(a: Activity, radiusM: int) {
    a.distance.Some? && a.distance.value <= radiusM && Truthy(a.userId)
  }

  predicate QualifiesFor(a: Activity, radiusM: int, u: string) {
    Qualifies(a, radiusM) && a.userId.value == u
  }

  /**
   * `$user_distances`: each user with a qualifying activity, mapped to the
   * smallest distance among that user's qualifying activities.
   */
  function MinDistances(acts: seq<Activity>, radiusM: int): (r: map<string, int>)
    decreases |acts|
  {
    if acts == [] then map[]
    else
      var n := |acts| - 1;
      var m := MinDistances(acts[..n], radiusM);
      var a := acts[n];
      if Qualifies(a, radiusM) && (a.userId.value !in m || a.distance.value < m[a.userId.value]) then
        m[a.userId.value := a.distance.value]
      else
        m
  }

  /**
   * A user is in `$user_distances` exactly when they have a qualifying
   * activity, and then with the distance of their nearest one.
   */
  lemma {:induction false} MinDistancesSpec(acts: seq<Activity>, radiusM: int, u: string)
    ensures var r := MinDistances(acts, radiusM);
      (u in r <==> exists i :: 0 <= i < |acts| && QualifiesFor(acts[i], radiusM, u)) &&
      (u in r ==> forall i | 0 <= i < |acts| && QualifiesFor(acts[i], radiusM, u) :: r[u] <= acts[i].distance.value) &&
      (u in r ==> exists i :: 0 <= i < |acts| && QualifiesFor(acts[i], radiusM, u) && acts[i].distance.value == r[u])
    decreases |acts|
  {
    if acts != [] {
      var n := |acts| - 1;
      var init := acts[..n];
      MinDistancesSpec(init, radiusM, u);
      assert forall i | 0 <= i < n :: acts[i] == init[i];
      var m := MinDistances(init, radiusM);
      var r := MinDistances(acts, radiusM);
      var a := acts[n];
      if QualifiesFor(a, radiusM, u) {
        assert u in r;
        if u in m {
          var k :| 0 <= k < n && QualifiesFor(init[k], radiusM, u) && init[k].distance.value == m[u];
          assert acts[k] == init[k];
        }
      } else {
        assert u in r <==> u in m;
        if u in m {
          assert r[u] == m[u];
          var k :| 0 <= k < n && QualifiesFor(init[k], radiusM, u) && init[k].distance.value == m[u];
          assert acts[k] == init[k];
        }
        if exists i :: 0 <= i < |acts| && QualifiesFor(acts[i], radiusM, u) {
          var i :| 0 <= i < |acts| && QualifiesFor(acts[i], radiusM, u);
          assert i < n;
          assert QualifiesFor(init[i], radiusM, u);
        }
      }
    }
  }

  /** `round($metres / 1000, 2)` in hundredths of a kilometre: PHP rounds halves away from zero. */
  function Round10(d: int): (r: int)
    ensures d >= 0 ==> -5 < 10 * r - d <= 5
    ensures d < 0 ==> -5 <= 10 * r - d < 5
  {
    if d >= 0 then (d + 5) / 10 else -((-d + 5) / 10)
  }

  /** Rounding keeps the order of distances. */
  lemma Round10Monotone(a: int, b: int)
    requires a <= b
    ensures Round10(a) <= Round10(b)
  {
  }

  /** The profile's user has a qualifying activity. */
  predicate Listed(p: Profile, ud: map<string, int>) {
    Truthy(p.userId) && p.userId.value in ud
  }

  /** The profiles kept, in their order, each with its user's rounded distance. */
  function Annotate(ps: seq<Profile>, ud: map<string, int>): (r: seq<Nearby>)
    ensures forall n | n in r :: n.profile in ps && Listed(n.profile, ud) && n.distance == Round10(ud[n.profile.userId.value])
    ensures forall p | p in ps && Listed(p, ud) :: Nearby(p, Round10(ud[p.userId.value])) in r
    decreases |ps|
  {
    if ps == [] then []
    else
      var here := if Listed(ps[0], ud) then [Nearby(ps[0], Round10(ud[ps[0].userId.value]))] else [];
      var rest := Annotate(ps[1..], ud);
      assert forall p | p in ps :: p == ps[0] || p in ps[1..];
      here + rest
  }

  function DistanceOf(n: Nearby): int {
    n.distance
  }

  /**
   * `lr_fetch_skaters_for_city`: a token or fetch error is passed back;
   * a missing list or no user in range gives no skaters; otherwise the
   * profiles of users in range, closest first.
   */
  function FetchSkaters(token: Result<string, string>, answer: Result<NearbyAnswer, string>, radiusKm: Option<int>): (r: Result<seq<Nearby>, string>)
    ensures token.Err? ==> r == Err(token.error)
    ensures token.Ok? && answer.Err? ==> r == Err(answer.error)
    ensures token.Ok? && answer.Ok? && (answer.value.activities == [] || answer.value.userProfiles == []) ==> r == Ok([])
    ensures r.Ok? ==> SortedBy(r.value, DistanceOf)
  {
    if token.Err? then Err(token.error)
    else match answer
      case Err(e) => Err(e)
      case Ok(ans) =>
        if ans.activities == [] || ans.userProfiles == [] then Ok([])
        else
          var ud := MinDistances(ans.activities, RadiusMetres(radiusKm));
          if ud == map[] then Ok([]) else Ok(SortBy(Annotate(ans.userProfiles, ud), DistanceOf))
  }

  /** `($city_details['radius_km'] ?? 50) * 1000`. */
  function RadiusMetres(radiusKm: Option<int>): int {
    radiusKm.GetOr(DefaultRadiusKm) * 1000
  }

  /**
   * A profile is returned exactly when its user id is set and that user has
   * an activity within the radius; its distance is the nearest such
   * activity's, rounded.
   */
  lemma FetchSkatersMembers(token: Result<string, string>, ans: NearbyAnswer, radiusKm: Option<int>, n: Nearby)
    requires token.Ok?
    ensures var r := FetchSkaters(token, Ok(ans), radiusKm);
      r.Ok? && (n in r.value <==>
        n.profile in ans.userProfiles && Truthy(n.profile.userId) &&
        exists i :: 0 <= i < |ans.activities| && QualifiesFor(ans.activities[i], RadiusMetres(radiusKm), n.profile.userId.value) &&
          n.distance == Round10(ans.activities[i].distance.value) &&
          forall j | 0 <= j < |ans.activities| && QualifiesFor(ans.activities[j], RadiusMetres(radiusKm), n.profile.userId.value) ::
            ans.activities[i].distance.value <= ans.activities[j].distance.value)
  {
    var radiusM := RadiusMetres(radiusKm);
    var r := FetchSkaters(token, Ok(ans), radiusKm);
    var ud := MinDistances(ans.activities, radiusM);
    if Truthy(n.profile.userId) {
      MinDistancesSpec(ans.activities, radiusM, n.profile.userId.value);
    }
    if ans.activities != [] && ans.userProfiles != [] && ud != map[] {
      var sorted := SortBy(Annotate(ans.userProfiles, ud), DistanceOf);
      assert n in sorted <==> n in Annotate(ans.userProfiles, ud) by {
        assert n in sorted <==> n in multiset(sorted);
      }
      if n.profile in ans.userProfiles && Truthy(n.profile.userId) {
        var u := n.profile.userId.value;
        if exists i :: 0 <= i < |ans.activities| && QualifiesFor(ans.activities[i], radiusM, u) &&
             n.distance == Round10(ans.activities[i].distance.value) &&
             forall j | 0 <= j < |ans.activities| && QualifiesFor(ans.activities[j], radiusM, u) ::
               ans.activities[i].distance.value <= ans.activities[j].distance.value {
          var i :| 0 <= i < |ans.activities| && QualifiesFor(ans.activities[i], radiusM, u) &&
            n.distance == Round10(ans.activities[i].distance.value) &&
            forall j | 0 <= j < |ans.activities| && QualifiesFor(ans.activities[j], radiusM, u) ::
              ans.activities[i].distance.value <= ans.activities[j].distance.value;
          assert u in ud;
          var k :| 0 <= k < |ans.activities| && QualifiesFor(ans.activities[k], radiusM, u) && ans.activities[k].distance.value == ud[u];
          assert ud[u] == ans.activities[i].distance.value;
        }
      }
      if n in Annotate(ans.userProfiles, ud) {
        var u := n.profile.userId.value;
        var k :| 0 <= k < |ans.activities| && QualifiesFor(ans.activities[k], radiusM, u) && ans.activities[k].distance.value == ud[u];
      }
    } else if ans.activities != [] && ans.userProfiles != [] {
      if n.profile in ans.userProfiles && Truthy(n.profile.userId) {
        assert n.profile.userId.value !in ud;
      }
    }
  }

  /** The processed-skater log, `skateName => city name`. */
  type Log = Dict<string, string>

  /** `lr_add_processed_skater`: the name now maps to this city, whatever it mapped to before. */
  function AddProcessed(log: Log, name: string, city: string): (r: Log)
    requires DistinctKeys(log)
    ensures DistinctKeys(r)
    ensures Lookup(r, name) == Some(city)
    ensures forall k | k != name :: Lookup(r, k) == Lookup(log, k)
  {
    SetLookup(log, name, city);
    Set(log, name, city)
  }

  /** `lr_remove_processed_skater`: only that name goes; an unknown name changes nothing. */
  function RemoveProcessed(log: Log, name: string): (r: Log)
    requires DistinctKeys(log)
    ensures DistinctKeys(r)
    ensures Lookup(r, name) == None
    ensures forall k | k != name :: Lookup(r, k) == Lookup(log, k)
    ensures name !in Keys(log) ==> r == log
  {
    Remove(log, name)
  }

  /** `lr_clear_processed_skaters`: the option is deleted and reads back as an empty array. */
  function ClearProcessed(log: Log): (r: Log)
    ensures forall k :: Lookup(r, k) == None
  {
    []
  }

  /** Removing a name just added restores every other entry and leaves the name unlogged. */
  lemma AddThenRemove(log: Log, name: string, city: string)
    requires DistinctKeys(log)
    ensures forall k :: (Lookup(RemoveProcessed(AddProcessed(log, name, city), name), k) ==
      if k == name then None else Lookup(log, k))
  {
  }

  /** The Brevo contact search answer: its status and, when present, the contacts' emails. */
  datatype SearchReply = SearchReply(code: int, contacts: Option<seq<string>>)

  /** What `lr_enrich_skater_in_brevo_by_skatename` reports. */
  datatype Enrichment = InvalidName | NoApiKey | SearchFailed | NoContact | Ambiguous | Updated(email: string) | UpdateFailed(email: string, code: int)

  /**
   * One enrichment: the contact with this skateName is looked up, and only a
   * unique match is updated; the skater is logged only on a 204 answer.
   * `update` is the PUT's status for a lower-cased email.
   */
  function Enrich(log: Log, name: string, city: string, apiKey: string, search: SearchReply, update: string -> int): (r: (Log, Enrichment))
    requires DistinctKeys(log)
    ensures DistinctKeys(r.0)
    ensures r.1.Updated? <==> (
      !PhpEmpty(name) && !PhpEmpty(apiKey) && search.code == 200 &&
      search.contacts.Some? && |search.contacts.value| == 1 && update(Lower(search.contacts.value[0])) == 204)
    ensures r.1.Updated? ==> r.0 == AddProcessed(log, name, city)
    ensures !r.1.Updated? ==> r.0 == log
  {
    if PhpEmpty(name) then (log, InvalidName)
    else if PhpEmpty(apiKey) then (log, NoApiKey)
    else if search.code != 200 || search.contacts.None? then (log, SearchFailed)
    else if search.contacts.value == [] then (log, NoContact)
    else if |search.contacts.value| > 1 then (log, Ambiguous)
    else
      var email := search.contacts.value[0];
      var code := update(Lower(email));
      if code == 204 then (AddProcessed(log, name, city), Updated(email))
      else (log, UpdateFailed(email, code))
  }

  /** A skater the loop enriches: a non-empty skateName not in the log as read before the loop. */
  predicate ToEnrich(s: Nearby, snapshot: Log) {
    Truthy(s.profile.skateName) && s.profile.skateName.value !in Keys(snapshot)
  }

  /** The brevo calls a city's skater list needs. */
  datatype BrevoAnswers = BrevoAnswers(apiKey: string, search: string -> SearchReply, update: string -> int)

  /** The log after one pass of the loop: the skater is enriched only when it qualifies. */
  function StepLog(log: Log, snapshot: Log, s: Nearby, city: string, b: BrevoAnswers): (r: Log)
    requires DistinctKeys(log)
    ensures DistinctKeys(r)
  {
    if ToEnrich(s, snapshot) then Enrich(log, s.profile.skateName.value, city, b.apiKey, b.search(s.profile.skateName.value), b.update).0 else log
  }

  /** One pass never unlogs a name; an entry it changes is the enriched skater's, now mapped to this city. */
  lemma StepLogChange(log: Log, snapshot: Log, s: Nearby, city: string, b: BrevoAnswers, k: string)
    requires DistinctKeys(log)
    ensures Lookup(log, k).Some? ==> Lookup(StepLog(log, snapshot, s, city, b), k).Some?
    ensures Lookup(StepLog(log, snapshot, s, city, b), k) != Lookup(log, k) ==>
      ToEnrich(s, snapshot) && s.profile.skateName.value == k && Lookup(StepLog(log, snapshot, s, city, b), k) == Some(city)
  {
  }

  /**
   * The loop of `lr_run_single_city_sync`. The log is read once before the
   * loop, so a name listed twice is enriched twice.
   */
  function SyncLoop(log: Log, snapshot: Log, skaters: seq<Nearby>, city: string, b: BrevoAnswers): (r: (Log, nat))
    requires DistinctKeys(log)
    ensures DistinctKeys(r.0)
    decreases |skaters|
  {
    if skaters == [] then (log, 0)
    else
      var s := skaters[0];
      var e := StepLog(log, snapshot, s, city, b);
      var rest := SyncLoop(e, snapshot, skaters[1..], city, b);
      (rest.0, rest.1 + if ToEnrich(s, snapshot) then 1 else 0)
  }

  /** The loop's count is the number of skaters it tries to enrich: named and not logged before the loop. */
  lemma {:induction false} SyncLoopCount(log: Log, snapshot: Log, skaters: seq<Nearby>, city: string, b: BrevoAnswers)
    requires DistinctKeys(log)
    ensures SyncLoop(log, snapshot, skaters, city, b).1 == |Filter(skaters, s => ToEnrich(s, snapshot))|
    decreases |skaters|
  {
    if skaters != [] {
      var s := skaters[0];
      var e := StepLog(log, snapshot, s, city, b);
      SyncLoopCount(e, snapshot, skaters[1..], city, b);
    }
  }

  /**
   * The loop never unlogs a name, and a name whose entry changes now maps
   * to this city and belongs to a skater the loop tried to enrich.
   */
  lemma {:induction false} SyncLoopLog(log: Log, snapshot: Log, skaters: seq<Nearby>, city: string, b: BrevoAnswers, k: string)
    requires DistinctKeys(log)
    ensures var r := SyncLoop(log, snapshot, skaters, city, b);
      (Lookup(log, k).Some? ==> Lookup(r.0, k).Some?) &&
      (Lookup(r.0, k) != Lookup(log, k) ==>
         Lookup(r.0, k) == Some(city) &&
         exists i :: 0 <= i < |skaters| && ToEnrich(skaters[i], snapshot) && skaters[i].profile.skateName.value == k)
    decreases |skaters|
  {
    if skaters != [] {
      var s := skaters[0];
      var e := StepLog(log, snapshot, s, city, b);
      var rest := SyncLoop(e, snapshot, skaters[1..], city, b);
      assert SyncLoop(log, snapshot, skaters, city, b).0 == rest.0;
      SyncLoopLog(e, snapshot, skaters[1..], city, b, k);
      StepLogChange(log, snapshot, s, city, b, k);
      if Lookup(rest.0, k) != Lookup(log, k) {
        if Lookup(rest.0, k) != Lookup(e, k) {
          var i :| 0 <= i < |skaters[1..]| && ToEnrich(skaters[1..][i], snapshot) && skaters[1..][i].profile.skateName.value == k;
          assert skaters[i + 1] == skaters[1..][i];
        }
      }
    }
  }

  /**
   * `lr_run_single_city_sync`: nothing on a fetch error or an empty list;
   * otherwise the number of skaters it tried to enrich.
   */
  function SyncCity(log: Log, cityName: string, fetched: Result<seq<Nearby>, string>, b: BrevoAnswers): (r: (Log, nat))
    requires DistinctKeys(log)
    ensures DistinctKeys(r.0)
    ensures fetched.Err? || fetched.value == [] ==> r == (log, 0)
    ensures fetched.Ok? ==> r.1 == |Filter(fetched.value, s => ToEnrich(s, log))|
  {
    match fetched
    case Err(_) => (log, 0)
    case Ok(skaters) =>
      if skaters == [] then (log, 0)
      else
        SyncLoopCount(log, log, skaters, cityName, b);
        SyncLoop(log, log, skaters, cityName, b)
  }

  /** Skaters already logged are skipped: a list of logged names enriches no one. */
  lemma {:induction false} SyncCityLogged(log: Log, cityName: string, skaters: seq<Nearby>, b: BrevoAnswers)
    requires DistinctKeys(log)
    requires forall i | 0 <= i < |skaters| && Truthy(skaters[i].profile.skateName) :: skaters[i].profile.skateName.value in Keys(log)
    ensures SyncCity(log, cityName, Ok(skaters), b) == (log, 0)
  {
    if skaters != [] {
      NoneToEnrich(log, log, skaters, cityName, b);
    }
  }

  lemma {:induction false} NoneToEnrich(log: Log, snapshot: Log, skaters: seq<Nearby>, city: string, b: BrevoAnswers)
    requires DistinctKeys(log)
    requires forall i | 0 <= i < |skaters| :: !ToEnrich(skaters[i], snapshot)
    ensures SyncLoop(log, snapshot, skaters, city, b) == (log, 0)
    decreases |skaters|
  {
    if skaters != [] {
      assert forall i | 0 <= i < |skaters[1..]| :: skaters[1..][i] == skaters[i + 1];
      NoneToEnrich(log, snapshot, skaters[1..], city, b);
    }
  }

  /** The answers a full sync reads for each city. */
  datatype CitySync = CitySync(fetched: Result<seq<Nearby>, string>, brevo: BrevoAnswers)

  /** `run_brevo_sync`: every city in table order, the log carried across, the counts summed. */
  function SyncAll(log: Log, cities: seq<(string, City)>, answers: ((string, City)) -> CitySync): (r: (Log, nat))
    requires DistinctKeys(log)
    ensures DistinctKeys(r.0)
    decreases |cities|
  {
    if cities == [] then (log, 0)
    else
      var a := answers(cities[0]);
      var first := SyncCity(log, cities[0].1.name, a.fetched, a.brevo);
      var rest := SyncAll(first.0, cities[1..], answers);
      (rest.0, first.1 + rest.1)
  }

  /** The full-sync total is the sum of its parts: syncing two runs of cities back to back adds their totals. */
  lemma {:induction false} SyncAllAppend(log: Log, xs: seq<(string, City)>, ys: seq<(string, City)>, answers: ((string, City)) -> CitySync)
    requires DistinctKeys(log)
    ensures var first := SyncAll(log, xs, answers);
      SyncAll(log, xs + ys, answers).0 == SyncAll(first.0, ys, answers).0 &&
      SyncAll(log, xs + ys, answers).1 == first.1 + SyncAll(first.0, ys, answers).1
    decreases |xs|
  {
    if xs == [] {
      assert xs + ys == ys;
    } else {
      var c := xs[0];
      assert (xs + ys)[0] == c && (xs + ys)[1..] == xs[1..] + ys;
      var first := SyncCity(log, c.1.name, answers(c).fetched, answers(c).brevo);
      SyncAllAppend(first.0, xs[1..], ys, answers);
    }
  }

  /** The whole run over the location table; an empty table syncs nothing. */
  function RunBrevoSync(log: Log, locs: LocationTable, answers: ((string, City)) -> CitySync): (r: (Log, nat))
    requires DistinctKeys(log)
    ensures DistinctKeys(r.0)
    ensures locs == [] ==> r == (log, 0)
  {
    SyncAll(log, CityList(locs), answers)
  }
}

=== FILE: brevo_sender.dfy ===
/**
 * The Brevo Sender admin page: the AJAX handlers behind the manual and
 * bulk campaign forms, the page script's form encoding and button state,
 * and the bulk queue the script works through one city at a time. The
 * campaign function itself is an oracle.
 */
module BrevoSender {
  import opened Wrappers
  import opened Strings
  import opened Seqs
  import opened Sorting

  /** A stored city update, as the updates table holds it; `publishDate` is its ordinal. */
  datatype UpdateRow = UpdateRow(id: nat, citySlug: string, postTitle: string, publishDate: int)

  /** An AJAX JSON reply: success with a message, or an error with a message and perhaps a retry delay. */
  datatype Json =
    | Success(message: string)
    | Failure(message: string, retryAfter: Option<int>)
    | Updates(rows: seq<UpdateRow>)

  function Newest(u: UpdateRow): int {
    -u.publishDate
  }

  predicate ForCity(slug: string, u: UpdateRow) {
    u.citySlug == slug
  }

  /** The city's rows, in table order. */
  function CityRows(slug: string, table: seq<UpdateRow>): (r: seq<UpdateRow>)
    ensures forall u :: u in r <==> u in table && u.citySlug == slug
  {
    Filter(table, u => ForCity(slug, u))
  }

  /** The query: the city's rows, newest first (ties in table order), at most 10. */
  function RecentUpdates(slug: string, table: seq<UpdateRow>): (r: seq<UpdateRow>)
    ensures |r| <= 10
    ensures forall u :: u in r ==> u in table && u.citySlug == slug
    ensures forall i, j :: 0 <= i < j < |r| ==> r[i].publishDate >= r[j].publishDate
    ensures r == [] ==> forall u :: u in table ==> u.citySlug != slug
  {
    var mine := CityRows(slug, table);
    var sorted := SortBy(mine, Newest);
    SortByMembers(mine, Newest);
    SortedPrefix(sorted, Newest, |Take(sorted, 10)|);
    Take(sorted, 10)
  }

  /**
   * `LIMIT 10` after `ORDER BY publish_date DESC`: the query returns ten of
   * the city's rows, or all of them when there are fewer, each row at most
   * as often as the table holds it, and every city row left out is no
   * newer than the last row returned.
   */
  lemma RecentUpdatesTopTen(slug: string, table: seq<UpdateRow>)
    ensures var r := RecentUpdates(slug, table);
      |r| == (if |CityRows(slug, table)| < 10 then |CityRows(slug, table)| else 10) &&
      multiset(r) <= multiset(CityRows(slug, table)) &&
      forall u :: u in multiset(CityRows(slug, table)) - multiset(r) ==> u.publishDate <= r[|r| - 1].publishDate
  {
    var mine := CityRows(slug, table);
    var sorted := SortBy(mine, Newest);
    var n := |Take(sorted, 10)|;
    SortedTop(sorted, Newest, n);
    assert RecentUpdates(slug, table) == sorted[..n];
    if n == 0 {
      assert multiset(mine) - multiset(sorted[..n]) == multiset{};
    }
  }

  /**
   * `lr_get_city_updates_for_sender_ajax`: an empty slug is refused; the
   * city's updates newest first, at most 10; an error when there are none.
   */
  function CityUpdatesForSender(slug: string, table: seq<UpdateRow>): (r: Json)
    ensures PhpEmpty(slug) ==> r.Failure?
    ensures r.Updates? ==> !PhpEmpty(slug) && r.rows != [] && r.rows == RecentUpdates(slug, table)
    ensures !PhpEmpty(slug) && (exists u :: u in table && u.citySlug == slug) ==> r.Updates?
  {
    if PhpEmpty(slug) then Failure("City slug not provided.", None)
    else
      var top := RecentUpdates(slug, table);
      if top == [] then Failure(("No city updates found for the " + "selected city."), None)
      else Updates(top)
  }

  /** A campaign call the handlers make, after `sanitize_text_field` and `absint`. */
  datatype CampaignCall = CampaignCall(citySlug: string, cityUpdateId: nat, blogPostId: nat, sendNow: bool)

  /** The campaign function's answer: a result message, or an error code, message and retry delay. */
  datatype CampaignResult =
    | Created(message: string)
    | CampaignError(code: string, message: string, retryAfter: Option<int>)

  /** A handler's effect: the call it made, if any, and the JSON it sent back. */
  datatype Handled = Handled(call: Option<CampaignCall>, reply: Json)

  /** `empty()` on the three required fields (an id of 0 is empty). */
  predicate MissingFields(city: string, updateId: nat, blogPostId: nat) {
    PhpEmpty(city) || updateId == 0 || blogPostId == 0
  }

  /** The value PHP keeps for a repeated form key: the last one. */
  function LastValue(form: seq<(string, string)>, key: string): (r: Option<string>)
    ensures r.Some? <==> exists i :: 0 <= i < |form| && form[i].0 == key
    ensures |form| > 0 && form[|form| - 1].0 == key ==> r == Some(form[|form| - 1].1)
  {
    if form == [] then None
    else if form[|form| - 1].0 == key then Some(form[|form| - 1].1)
    else
      var r := LastValue(form[..|form| - 1], key);
      assert forall i :: 0 <= i < |form| - 1 ==> form[..|form| - 1][i] == form[i];
      r
  }

  /** jQuery's encoding of a boolean. */
  function JsBool(b: bool): string {
    if b then "true" else "false"
  }

  /**
   * The manual form's submission: the serialized fields (the checked
   * checkbox contributes `send_now=1`), then `send_now=true|false`
   * appended by the page script, then the action.
   */
  function ManualFormData(fields: seq<(string, string)>, checked: bool): (r: seq<(string, string)>)
    ensures LastValue(r, "send_now") == Some(JsBool(checked))
  {
    var serialized := fields + (if checked then [("send_now", "1")] else []);
    var r := serialized + [("send_now", JsBool(checked))] + [("action", "lr_send_brevo_campaign")];
    assert LastValue(r, "send_now") == LastValue(r[..|r| - 1], "send_now");
    assert r[..|r| - 1] == serialized + [("send_now", JsBool(checked))];
    r
  }

  /** The manual handler's test as written: `send_now` must be exactly '1'. */
  function ManualSendNowAsWritten(form: seq<(string, string)>): bool {
    LastValue(form, "send_now") == Some("1")
  }

  /** Whatever the form holds and whether the box is ticked, the manual handler as written never sends immediately. */
  lemma ManualNeverSendsNow(fields: seq<(string, string)>, checked: bool)
    ensures !ManualSendNowAsWritten(ManualFormData(fields, checked))
  {
  }

  /** The evidently intended reading: the box's '1' or the script's 'true'. */
  function ManualSendNow(form: seq<(string, string)>): bool {
    LastValue(form, "send_now") == Some("1") || LastValue(form, "send_now") == Some("true")
  }

  /** With the intended reading, the campaign is sent immediately exactly when the box is ticked. */
  lemma ManualSendNowFollowsBox(fields: seq<(string, string)>, checked: bool)
    ensures ManualSendNow(ManualFormData(fields, checked)) == checked
  {
  }

  /** Which reading of the posted `send_now` the manual handler applies. */
  datatype SendNowReading = AsWrittenReading | IntendedReading

  function ReadSendNow(reading: SendNowReading, form: seq<(string, string)>): bool {
    match reading
    case AsWrittenReading => ManualSendNowAsWritten(form)
    case IntendedReading => ManualSendNow(form)
  }

  /**
   * `lr_send_brevo_campaign_ajax`: a bad nonce ends the request; missing
   * fields are refused without a call; otherwise the campaign function is
   * called once and its message passed back. The immediate-send flag is
   * read from the posted form under `reading`.
   */
  function ManualCampaign(reading: SendNowReading, nonceOk: bool, city: string, updateId: nat, blogPostId: nat,
                          form: seq<(string, string)>, campaign: CampaignCall -> CampaignResult): (r: Option<Handled>)
    ensures !nonceOk <==> r.None?
    ensures r.Some? && MissingFields(city, updateId, blogPostId) ==> r.value.call.None? && r.value.reply.Failure?
    ensures r.Some? && !MissingFields(city, updateId, blogPostId) ==>
      r.value.call.Some? && r.value.call.value.citySlug == city &&
      r.value.call.value.cityUpdateId == updateId && r.value.call.value.blogPostId == blogPostId
    ensures r.Some? && r.value.call.Some? ==> (r.value.reply.Success? <==> campaign(r.value.call.value).Created?)
  {
    if !nonceOk then None
    else if MissingFields(city, updateId, blogPostId) then
      Some(Handled(None, Failure(("Missing required fields. Please " + "select a value for all dropdowns."), None)))
    else
      var call := CampaignCall(city, updateId, blogPostId, ReadSendNow(reading, form));
      match campaign(call)
      case Created(m) => Some(Handled(Some(call), Success(m)))
      case CampaignError(_, m, _) => Some(Handled(Some(call), Failure(m, None)))
  }

  /** As written, a submission built by the page never asks the campaign function for an immediate send. */
  lemma ManualCampaignAsWrittenNeverSendsNow(nonceOk: bool, city: string, updateId: nat, blogPostId: nat,
                                             fields: seq<(string, string)>, checked: bool, campaign: CampaignCall -> CampaignResult)
    ensures var r := ManualCampaign(AsWrittenReading, nonceOk, city, updateId, blogPostId, ManualFormData(fields, checked), campaign);
      r.Some? && r.value.call.Some? ==> !r.value.call.value.sendNow
  {
    ManualNeverSendsNow(fields, checked);
  }

  /** With the intended reading, a submission built by the page asks for an immediate send exactly when the box is ticked. */
  lemma ManualCampaignFollowsBox(nonceOk: bool, city: string, updateId: nat, blogPostId: nat,
                                 fields: seq<(string, string)>, checked: bool, campaign: CampaignCall -> CampaignResult)
    ensures var r := ManualCampaign(IntendedReading, nonceOk, city, updateId, blogPostId, ManualFormData(fields, checked), campaign);
      r.Some? && r.value.call.Some? ==> r.value.call.value.sendNow == checked
  {
    ManualSendNowFollowsBox(fields, checked);
  }

  /** The bulk handler's flag: only the exact string 'true' the script sends. */
  function BulkSendNow(value: Option<string>): (r: bool)
    ensures r <==> value == Some("true")
  {
    value.Some? && value.value == "true"
  }

  /**
   * `lr_process_bulk_campaign_item`: the same refusal without a call; a
   * rate-limit error passes its retry delay back, other errors only a
   * message.
   */
  function BulkItem(nonceOk: bool, city: string, updateId: nat, blogPostId: nat, sendNow: Option<string>,
                    campaign: CampaignCall -> CampaignResult): (r: Option<Handled>)
    ensures !nonceOk <==> r.None?
    ensures r.Some? && MissingFields(city, updateId, blogPostId) ==> r.value.call.None? && r.value.reply == Failure(("Missing parameters for bulk " + "item."), None)
    ensures r.Some? && !MissingFields(city, updateId, blogPostId) ==>
      r.value.call == Some(CampaignCall(city, updateId, blogPostId, BulkSendNow(sendNow)))
    ensures r.Some? && r.value.call.Some? && campaign(r.value.call.value).CampaignError? ==>
      var e := campaign(r.value.call.value);
      r.value.reply.Failure? &&
      r.value.reply.retryAfter == (if e.code == "rate_limit" then e.retryAfter else None)
  {
    if !nonceOk then None
    else if MissingFields(city, updateId, blogPostId) then
      Some(Handled(None, Failure(("Missing parameters for bulk " + "item."), None)))
    else
      var call := CampaignCall(city, updateId, blogPostId, BulkSendNow(sendNow));
      match campaign(call)
      case Created(m) => Some(Handled(Some(call), Success("Success for " + city + ": " + m)))
      case CampaignError(code, m, retry) =>
        var delay := if code == "rate_limit" then retry else None;
        Some(Handled(Some(call), Failure("Failed for " + city + ": " + m, delay)))
  }

  /** `updateButtonState`: the create button is enabled when all three selects hold a value (JS truth on strings). */
  function CreateButtonEnabled(city: string, update: string, post: string): (r: bool)
    ensures r <==> city != "" && update != "" && post != ""
  {
    city != "" && update != "" && post != ""
  }

  /** One queued city: its slug and latest update id. */
  datatype QueueItem = QueueItem(citySlug: string, cityUpdateId: nat)

  /** The script's bulk state: the remaining queue, the queue's initial length, and the count processed. */
  datatype Bulk = Bulk(queue: seq<QueueItem>, total: nat, processed: nat, done: bool)

  /** What the request for the front item came back with. */
  datatype ItemOutcome = ItemOk | ItemFailed(retryAfter: Option<int>) | AjaxError

  /** JS truth of the reply's `retry_after`: present and not 0. */
  predicate RateLimited(o: ItemOutcome) {
    o.ItemFailed? && o.retryAfter.Some? && o.retryAfter.value != 0
  }

  /** Between items, every item is either processed or still queued. */
  predicate Accounted(b: Bulk) {
    b.processed + |b.queue| == b.total && (b.done ==> b.queue == [])
  }

  /** The state after a successful init: the whole queue ahead, nothing processed. */
  function StartBulk(queue: seq<QueueItem>): (r: Bulk)
    ensures Accounted(r) && !r.done
  {
    Bulk(queue, |queue|, 0, false)
  }

  /**
   * The init query's join: a row is its city's latest when it falls in the
   * window (`publish_date >= cutoff`) and no row of the city is newer; rows
   * that tie on the newest date are all returned.
   */
  predicate LatestInWindow(table: seq<UpdateRow>, cutoff: int, u: UpdateRow) {
    u.publishDate >= cutoff && forall v :: v in table && v.citySlug == u.citySlug ==> v.publishDate <= u.publishDate
  }

  function QueueItemOf(u: UpdateRow): QueueItem {
    QueueItem(u.citySlug, u.id)
  }

  /** The queue `lr_init_bulk_campaigns` builds, in table order; `cutoff` is `NOW() - INTERVAL 45 DAY`. */
  function InitQueue(table: seq<UpdateRow>, cutoff: int): (r: seq<QueueItem>)
    ensures forall q :: q in r <==> exists u :: u in table && LatestInWindow(table, cutoff, u) && q == QueueItemOf(u)
  {
    var latest := Filter(table, u => LatestInWindow(table, cutoff, u));
    var r := Map(latest, QueueItemOf);
    assert forall q :: q in r ==> exists u :: u in latest && q == QueueItemOf(u) by {
      forall q | q in r ensures exists u :: u in latest && q == QueueItemOf(u) {
        var i :| 0 <= i < |r| && r[i] == q;
        assert latest[i] in latest;
      }
    }
    assert forall u :: u in latest ==> QueueItemOf(u) in r by {
      forall u | u in latest ensures QueueItemOf(u) in r {
        var i :| 0 <= i < |latest| && latest[i] == u;
        assert r[i] == QueueItemOf(u);
      }
    }
    r
  }

  /** `u` is a row of `city` in `t` and no row of the city in `t` is newer. */
  predicate NewestOf(t: seq<UpdateRow>, city: string, u: UpdateRow) {
    u in t && u.citySlug == city && forall v :: v in t && v.citySlug == city ==> v.publishDate <= u.publishDate
  }

  /** Among the rows of `city` in `t` there is one no other row of the city in `t` is newer than. */
  lemma {:induction false} NewestRow(t: seq<UpdateRow>, city: string, w: UpdateRow) returns (u: UpdateRow)
    requires w in t && w.citySlug == city
    ensures NewestOf(t, city, u) && u.publishDate >= w.publishDate
    decreases |t|
  {
    MemberCons(t);
    if v :| v in t[1..] && v.citySlug == city {
      var u' := NewestRow(t[1..], city, v);
      assert w == t[0] || w in t[1..];
      if t[0].citySlug == city && t[0].publishDate > u'.publishDate {
        u := t[0];
      } else {
        u := u';
      }
    } else {
      u := t[0];
    }
  }

  /** Every city with an update inside the window gets a place in the queue, and no other city does. */
  lemma RecentCityQueued(table: seq<UpdateRow>, cutoff: int, city: string)
    ensures (exists q :: q in InitQueue(table, cutoff) && q.citySlug == city) <==>
      (exists u :: u in table && u.citySlug == city && u.publishDate >= cutoff)
  {
    if w :| w in table && w.citySlug == city && w.publishDate >= cutoff {
      var u := NewestRow(table, city, w);
      assert LatestInWindow(table, cutoff, u);
      assert QueueItemOf(u) in InitQueue(table, cutoff);
    }
  }

  /**
   * `lr_init_bulk_campaigns`: an error when no city has an update inside
   * the window, else the bulk run starts over the queue.
   */
  function InitBulk(table: seq<UpdateRow>, cutoff: int): (r: Result<Bulk, string>)
    ensures r.Err? <==> forall u :: u in table ==> u.publishDate < cutoff
    ensures r.Ok? ==> r.value == StartBulk(InitQueue(table, cutoff))
  {
    var queue := InitQueue(table, cutoff);
    if queue == [] then
      assert forall u :: u in table ==> u.publishDate < cutoff by {
        forall u | u in table ensures u.publishDate < cutoff {
          RecentCityQueued(table, cutoff, u.citySlug);
        }
      }
      Err("No city updates found in the database.")
    else
      assert exists u :: u in table && u.publishDate >= cutoff by {
        var q := queue[0];
        RecentCityQueued(table, cutoff, q.citySlug);
      }
      Ok(StartBulk(queue))
  }

  /**
   * `processNextBulkItem` for one request: an empty queue finishes the
   * run; otherwise the front item is sent, and a rate-limited reply puts
   * it back at the front and waits `retry_after` + 2 seconds, while any
   * other outcome counts it as processed and waits one second.
   */
  function Step(b: Bulk, o: ItemOutcome): (r: (Bulk, int))
    requires !b.done
    ensures b.queue == [] ==> r.0 == b.(done := true)
    ensures b.queue != [] && RateLimited(o) ==> r.0 == b && r.1 == o.retryAfter.value + 2
    ensures b.queue != [] && !RateLimited(o) ==> r.0 == b.(queue := b.queue[1..], processed := b.processed + 1) && r.1 == 1
    ensures Accounted(b) ==> Accounted(r.0)
  {
    if b.queue == [] then (b.(done := true), 0)
    else
      var item := b.queue[0];
      var rest := b.queue[1..];
      if RateLimited(o) then (b.(queue := [item] + rest), o.retryAfter.value + 2)
      else (b.(queue := rest, processed := b.processed + 1), 1)
  }

  /** The state after a run of outcomes, stopping once the run is done. */
  function Run(b: Bulk, outcomes: seq<ItemOutcome>): (r: Bulk)
    decreases |outcomes|
  {
    if outcomes == [] || b.done then b else Run(Step(b, outcomes[0]).0, outcomes[1..])
  }

  /** The number of outcomes in a run that are not rate limits. */
  function Progressing(outcomes: seq<ItemOutcome>): nat {
    if outcomes == [] then 0 else (if RateLimited(outcomes[0]) then 0 else 1) + Progressing(outcomes[1..])
  }

  /**
   * Any run keeps every item accounted for; a finished run has processed
   * the whole queue; while unfinished, each outcome that is not a rate
   * limit has processed one more item.
   */
  lemma {:induction false} RunAccounted(b: Bulk, outcomes: seq<ItemOutcome>)
    requires Accounted(b)
    ensures Accounted(Run(b, outcomes))
    ensures Run(b, outcomes).done ==> Run(b, outcomes).processed == b.total
    ensures !Run(b, outcomes).done ==> Run(b, outcomes).processed == b.processed + Progressing(outcomes)
    ensures Run(b, outcomes).total == b.total
    decreases |outcomes|
  {
    if outcomes != [] && !b.done {
      var next := Step(b, outcomes[0]).0;
      RunAccounted(next, outcomes[1..]);
      if b.queue != [] {
        assert next.processed == b.processed + (if RateLimited(outcomes[0]) then 0 else 1);
      }
    }
  }

  /** A run whose outcomes never rate-limit finishes after one more outcome than there are items. */
  lemma {:induction false} RunFinishes(queue: seq<QueueItem>, outcomes: seq<ItemOutcome>)
    requires |outcomes| > |queue|
    requires forall i :: 0 <= i < |outcomes| ==> !RateLimited(outcomes[i])
    ensures Run(StartBulk(queue), outcomes).done
    ensures Run(StartBulk(queue), outcomes).processed == |queue|
  {
    RunDrains(StartBulk(queue), outcomes);
    RunAccounted(StartBulk(queue), outcomes);
  }

  lemma {:induction false} RunDrains(b: Bulk, outcomes: seq<ItemOutcome>)
    requires |outcomes| > |b.queue|
    requires forall i :: 0 <= i < |outcomes| ==> !RateLimited(outcomes[i])
    ensures Run(b, outcomes).done
    decreases |outcomes|
  {
    if !b.done {
      var next := Step(b, outcomes[0]).0;
      if b.queue != [] {
        assert |next.queue| == |b.queue| - 1;
        RunDrains(next, outcomes[1..]);
      } else {
        assert next.done;
      }
    }
  }
}

=== FILE: buckets.dfy ===
/**
 * PHP arrays of lists, as built by `$groups[$key][] = $item`: keys in
 * order of first appearance, each holding its items in arrival order.
 * The content publisher groups items this way twice, into time buckets
 * and, inside a bucket, by city.
 */
module Buckets {
  import opened Wrappers
  import opened OrderedMap

  type Groups<K, T> = Dict<K, seq<T>>

  /** `$groups[$k] ?? []`. */
  function Get<K(==,!new), T>(g: Groups<K, T>, k: K): seq<T> {
    Lookup(g, k).GetOr([])
  }

  /** Every key holds at least one item. */
  predicate NoEmptyGroup<K(==,!new), T>(g: Groups<K, T>) {
    forall i :: 0 <= i < |g| ==> g[i].1 != []
  }

  /** `$groups[$k][] = $x`. */
  function Push<K(==,!new), T>(g: Groups<K, T>, k: K, x: T): (r: Groups<K, T>)
    requires DistinctKeys(g)
    ensures DistinctKeys(r)
    ensures Get(r, k) == Get(g, k) + [x]
    ensures forall k': K :: k' != k ==> Get(r, k') == Get(g, k')
    ensures NoEmptyGroup(g) ==> NoEmptyGroup(r)
  {
    var r := Set(g, k, Get(g, k) + [x]);
    SetLookup(g, k, Get(g, k) + [x]);
    assert NoEmptyGroup(g) ==> NoEmptyGroup(r) by {
      if NoEmptyGroup(g) {
        forall i | 0 <= i < |r|
          ensures r[i].1 != []
        {
          EntryIsLookup(r, i);
          if r[i].0 != k {
            var v := Lookup(g, r[i].0).value;
            LookupMember(g, r[i].0, v);
            var j :| 0 <= j < |g| && g[j] == (r[i].0, v);
          }
        }
      }
    }
    r
  }

  /** In a dictionary, each entry is what looking up its key returns. */
  lemma EntryIsLookup<K(!new), V>(d: Dict<K, V>, i: int)
    requires DistinctKeys(d) && 0 <= i < |d|
    ensures Lookup(d, d[i].0) == Some(d[i].1)
  {
    assert d[i] in d;
    LookupMember(d, d[i].0, d[i].1);
  }

  /** The items of `xs` that `key` places under `k`, in order (a reference definition). */
  function Select<K(==,!new), T>(xs: seq<T>, key: T -> Option<K>, k: K): (r: seq<T>)
    ensures |r| <= |xs|
  {
    if xs == [] then []
    else Select(xs[..|xs| - 1], key, k) + (if key(xs[|xs| - 1]) == Some(k) then [xs[|xs| - 1]] else [])
  }

  /** The loop `foreach ($xs as $x) if ($k = key($x)) $groups[$k][] = $x;` from an empty array. */
  function GroupBy<K(==,!new), T>(xs: seq<T>, key: T -> Option<K>): (r: Groups<K, T>)
    ensures DistinctKeys(r) && NoEmptyGroup(r)
  {
    if xs == [] then []
    else
      var g := GroupBy(xs[..|xs| - 1], key);
      match key(xs[|xs| - 1])
      case None => g
      case Some(k) => Push(g, k, xs[|xs| - 1])
  }

  /** Each group holds exactly the items its key selects, in their original order. */
  lemma {:induction false} GroupByGet<K(!new), T>(xs: seq<T>, key: T -> Option<K>, k: K)
    ensures Get(GroupBy(xs, key), k) == Select(xs, key, k)
  {
    if xs != [] {
      GroupByGet(xs[..|xs| - 1], key, k);
    }
  }

  /** Selection distributes over concatenation. */
  lemma {:induction false} SelectAppend<K(!new), T>(a: seq<T>, b: seq<T>, key: T -> Option<K>, k: K)
    ensures Select(a + b, key, k) == Select(a, key, k) + Select(b, key, k)
  {
    if b == [] {
      assert a + b == a;
    } else {
      assert (a + b)[..|a + b| - 1] == a + b[..|b| - 1];
      SelectAppend(a, b[..|b| - 1], key, k);
    }
  }

  /** An item is selected under `k` exactly when it is in `xs` and `key` maps it to `k`. */
  lemma {:induction false} SelectMember<K(!new), T>(xs: seq<T>, key: T -> Option<K>, k: K, x: T)
    ensures x in Select(xs, key, k) <==> x in xs && key(x) == Some(k)
  {
    if xs != [] {
      SelectMember(xs[..|xs| - 1], key, k, x);
      assert xs == xs[..|xs| - 1] + [xs[|xs| - 1]];
    }
  }

  /** `$groups[$k] = array_merge($groups[$k] ?? [], $ys)`. */
  function Extend<K(==,!new), T>(g: Groups<K, T>, k: K, ys: seq<T>): (r: Groups<K, T>)
    requires DistinctKeys(g)
    ensures DistinctKeys(r)
    ensures Get(r, k) == Get(g, k) + ys
    ensures forall k': K :: k' != k ==> Get(r, k') == Get(g, k')
  {
    SetLookup(g, k, Get(g, k) + ys);
    Set(g, k, Get(g, k) + ys)
  }

  /**
   * The bucket merge: start from `a` and extend, key by key in `b`'s
   * order, each bucket of `a` with `b`'s items for that key.
   */
  function MergeGroups<K(==,!new), T>(a: Groups<K, T>, b: Groups<K, T>): (r: Groups<K, T>)
    requires DistinctKeys(a)
    ensures DistinctKeys(r)
    decreases |b|
  {
    if b == [] then a else MergeGroups(Extend(a, b[0].0, b[0].1), b[1..])
  }

  /** A merged bucket holds `a`'s items followed by `b`'s. */
  lemma {:induction false} MergeGroupsGet<K(!new), T>(a: Groups<K, T>, b: Groups<K, T>, k: K)
    requires DistinctKeys(a) && DistinctKeys(b)
    ensures Get(MergeGroups(a, b), k) == Get(a, k) + Get(b, k)
    decreases |b|
  {
    if b != [] {
      assert DistinctKeys(b[1..]);
      MergeGroupsGet(Extend(a, b[0].0, b[0].1), b[1..], k);
      if k == b[0].0 {
        assert k !in Keys(b[1..]);
      } else {
        assert Get(b, k) == Get(b[1..], k);
      }
    }
  }
}

=== FILE: country_logic.dfy ===
/**
 * The path-splitting country recogniser of `test_country_logic.php`: the
 * path of the request URI, trailing slashes trimmed, split on `/` with the
 * empty pieces dropped; a single piece naming a configured country is a
 * country page.
 */
module CountryLogic {
  import opened Wrappers
  import opened Strings
  import opened Seqs
  import opened OrderedMap
  import opened Locations
  import opened PageData
  import SeoMetadata

  /** `array_filter` keeps the pieces that are true in PHP. */
  predicate IsSegment(s: string) {
    !PhpEmpty(s)
  }

  /** `array_values(array_filter(explode('/', untrailingslashit(parse_url($uri, PHP_URL_PATH)))))`. */
  function PathSegments(uri: string): (r: seq<string>)
    ensures forall i :: 0 <= i < |r| ==> !PhpEmpty(r[i]) && '/' !in r[i]
  {
    var pieces := Explode(Untrail(SeoMetadata.UriPath(uri)), '/');
    var r := Filter(pieces, IsSegment);
    assert forall i :: 0 <= i < |r| ==> r[i] in pieces;
    r
  }

  /** The details the recogniser returns for a country page. */
  function CountryDetailsOf(slug: string): PageDetails {
    PageDetails(CountryPage, "", Some(slug), None)
  }

  /**
   * `lr_get_page_details_from_uri` as the test exercises it: null without
   * a URI, with no configured locations, or with no path segment; a
   * country page when the only segment is a configured country slug;
   * null for anything else.
   */
  function CountryPageFromUri(uri: Option<string>, locs: LocationTable): (r: Option<PageDetails>)
    ensures uri.None? || locs == [] ==> r.None?
    ensures r.Some? ==> uri.Some? && exists slug :: slug in Keys(locs) && PathSegments(uri.value) == [slug] && r.value == CountryDetailsOf(slug)
    ensures uri.Some? && locs != [] && |PathSegments(uri.value)| == 1 && PathSegments(uri.value)[0] in Keys(locs) ==> r.Some?
  {
    if uri.None? || locs == [] then None
    else
      var parts := PathSegments(uri.value);
      if parts == [] then None
      else if parts[0] in Keys(locs) && |parts| == 1 then
        assert parts == [parts[0]];
        Some(CountryDetailsOf(parts[0]))
      else None
  }

  /** A slug the recogniser can read back: true in PHP, free of slashes, `?` and `#`. */
  predicate PlainSlug(slug: string) {
    !PhpEmpty(slug) && forall i :: 0 <= i < |slug| ==> !IsSlash(slug[i]) && slug[i] != '?' && slug[i] != '#'
  }

  /**
   * `/<slug>` followed by any run of trailing slashes and an optional
   * query or fragment is recognised as that country, when it is configured.
   */
  lemma CountryUriRoundTrip(slug: string, slashes: string, query: string, locs: LocationTable)
    requires PlainSlug(slug) && slug in Keys(locs)
    requires forall i :: 0 <= i < |slashes| ==> IsSlash(slashes[i])
    requires query == [] || query[0] == '?' || query[0] == '#'
    ensures CountryPageFromUri(Some("/" + slug + slashes + query), locs) == Some(CountryDetailsOf(slug))
  {
    var path := "/" + slug + slashes;
    assert forall i :: 0 <= i < |path| ==> path[i] != '?' && path[i] != '#';
    SeoMetadata.UriPathPrefix(path, query);
    assert "/" + slug + slashes + query == path + query;
    UntrailSlashes("/" + slug, slashes);
    assert '/' !in slug;
    ExplodeFirst("", '/', slug);
    ExplodeNoSep(slug, '/');
    assert "" + ['/'] + slug == "/" + slug;
    var pieces := ["", slug];
    assert Filter(pieces, IsSegment) == [slug] by {
      assert pieces == [""] + [slug];
      FilterAppend([""], [slug], IsSegment);
      assert Filter([slug], IsSegment) == [slug] by {
        assert [slug][1..] == [];
      }
    }
    assert PathSegments("/" + slug + slashes + query) == [slug];
  }

  /** The test's own fixture: one country with one city. */
  function Fixture(country: string): LocationTable {
    [(country, Country("United States", [("new-york-city", City("New York City", None))]))]
  }

  /** Every character of 'united-states' is a plain slug character. */
  lemma UnitedStatesSlug(slug: string)
    requires slug == "united-states"
    ensures PlainSlug(slug)
  {
  }

  /** The test's request `/united-states/` is a country page for 'united-states'. */
  lemma UnitedStatesIsCountry(slug: string, uri: string)
    requires slug == "united-states" && uri == "/" + slug + "/"
    ensures CountryPageFromUri(Some(uri), Fixture(slug)) == Some(CountryDetailsOf(slug))
  {
    UnitedStatesSlug(slug);
    assert Keys(Fixture(slug)) == [slug];
    CountryUriRoundTrip(slug, "/", "", Fixture(slug));
    assert uri + "" == uri;
  }

  /** `//united-states/` names a host and the path '/', so it is no country page whatever the locations. */
  lemma NetworkPathIsNoCountry(locs: LocationTable)
    ensures CountryPageFromUri(Some("//united-states/"), locs) == None
  {
    SeoMetadata.UnitedStatesNetworkPath();
    assert Untrail("/") == "";
  }
}

=== FILE: cta_banner.dfy ===
/**
 * The app-download banner in the footer: which call-to-action sentence
 * a page gets, and that admin pages get none. The banner's markup is
 * not modelled.
 */
module CtaBanner {
  import opened Wrappers
  import opened Strings
  import opened Locations

  /** The query variables the banner reads; an unset one reads as "". */
  datatype CtaVars = CtaVars(explore: string, singleType: string, pageType: string, city: string, country: string)

  const DefaultText := ("Find even more spots, events, " + "and skaters in the app!")
  const ExploreText := ("Explore thousands of skate spots, " + "events, and skaters worldwide " + "with the Let's Roll app!")

  /** The sentence of a single-entity page; the default for a type the switch does not list. */
  function SingleText(singleType: string): string {
    if singleType == "spots" then ("Discover details, photos, and " + "sessions for this spot and thousands " + "more in the app!")
    else if singleType == "events" then ("Get event updates, see who's " + "going, and RSVP in the Let's " + "Roll app!")
    else if singleType == "skaters" then ("Connect with this skater and " + "others in your area by downloading " + "the Let's Roll app!")
    else DefaultText
  }

  /** The sentence of a list page around the city name; the default for an unlisted page type. */
  function PageTypeText(pageType: string, cityName: string): string {
    if pageType == "skatespots" then ("Find every street spot, skatepark, " + "and hidden gem in ") + cityName + " with the Let's Roll app!"
    else if pageType == "events" then ("Never miss a session! See all " + "the upcoming skate events in ") + cityName + " on the app."
    else if pageType == "skaters" then ("Connect with the local skate " + "community in ") + cityName + " on the Let's Roll app!"
    else DefaultText
  }

  function CityText(cityName: string): string {
    "Get the full picture of the " + cityName + (" skate scene. Download the Let's " + "Roll app!")
  }

  function CountryText(countryName: string): string {
    ("Explore all the cities and skate " + "spots in ") + countryName + " on the Let's Roll app!"
  }

  /** The configured city name, or the given fallback when the lookup fails. */
  function CityNameOr(locs: LocationTable, v: CtaVars, fallback: string): string {
    match CityDetails(locs, v.country, v.city)
    case Some(c) => c.name
    case None => fallback
  }

  /** The variables in the order the banner checks them: explore, single type, page type, city, country. */
  function Vars(v: CtaVars): seq<string> {
    [v.explore, v.singleType, v.pageType, v.city, v.country]
  }

  /** The index of the first string that is true in PHP, or `|s|` when there is none. */
  function FirstSet(s: seq<string>): (i: nat)
    ensures i <= |s|
    ensures forall j :: 0 <= j < i ==> PhpEmpty(s[j])
    ensures i < |s| ==> !PhpEmpty(s[i])
  {
    if s == [] then 0 else if !PhpEmpty(s[0]) then 0 else 1 + FirstSet(s[1..])
  }

  /** Which variable decides the sentence: 0 for explore up to 4 for country, 5 when none is set. */
  function Decider(v: CtaVars): (i: nat)
    ensures i <= 5
  {
    FirstSet(Vars(v))
  }

  /** The single types and list page types the banner has a sentence for. */
  const SingleTypes := ["spots", "events", "skaters"]
  const ListTypes := ["skatespots", "events", "skaters"]

  /**
   * `lr_get_cta_banner_text`: the explore flag first, then the single
   * type, the page type, the city and the country, each checked for PHP
   * truth; the default text when none is set.
   */
  function CtaText(v: CtaVars, locs: LocationTable): (r: string)
    ensures Decider(v) == 0 ==> r == ExploreText
    ensures Decider(v) == 5 ==> r == DefaultText
  {
    var vars := Vars(v);
    assert vars[0] == v.explore && vars[1] == v.singleType && vars[2] == v.pageType && vars[3] == v.city && vars[4] == v.country;
    if !PhpEmpty(v.explore) then ExploreText
    else if !PhpEmpty(v.singleType) then SingleText(v.singleType)
    else if !PhpEmpty(v.pageType) then PageTypeText(v.pageType, CityNameOr(locs, v, "the area"))
    else if !PhpEmpty(v.city) then CityText(CityNameOr(locs, v, "this city"))
    else if !PhpEmpty(v.country) then
      CountryText(match CountryDetails(locs, v.country) case Some(c) => c.name case None => "this country")
    else DefaultText
  }

  /** The deciding variable of each kind of page, read off the variables' values. */
  lemma DeciderIs(v: CtaVars)
    ensures Decider(v) == 0 <==> !PhpEmpty(v.explore)
    ensures Decider(v) == 1 <==> PhpEmpty(v.explore) && !PhpEmpty(v.singleType)
    ensures Decider(v) == 2 <==> PhpEmpty(v.explore) && PhpEmpty(v.singleType) && !PhpEmpty(v.pageType)
    ensures Decider(v) == 3 <==> PhpEmpty(v.explore) && PhpEmpty(v.singleType) && PhpEmpty(v.pageType) && !PhpEmpty(v.city)
    ensures Decider(v) == 4 <==> PhpEmpty(v.explore) && PhpEmpty(v.singleType) && PhpEmpty(v.pageType) && PhpEmpty(v.city) && !PhpEmpty(v.country)
  {
    var vars := Vars(v);
    assert vars[0] == v.explore && vars[1] == v.singleType && vars[2] == v.pageType && vars[3] == v.city && vars[4] == v.country;
  }

  /**
   * Only the deciding variable matters: two pages with the same deciding
   * variable and value get the same sentence, whatever the lower-priority
   * variables hold, as long as the city and country a list, city or
   * country sentence looks up agree.
   */
  lemma OnlyDeciderMatters(v: CtaVars, w: CtaVars, locs: LocationTable)
    requires Decider(v) == Decider(w)
    requires Decider(v) < 5 ==> Vars(v)[Decider(v)] == Vars(w)[Decider(v)]
    requires Decider(v) == 2 || Decider(v) == 3 ==> v.city == w.city && v.country == w.country
    requires Decider(v) == 4 ==> v.country == w.country
    ensures CtaText(v, locs) == CtaText(w, locs)
  {
    DeciderIs(v);
    DeciderIs(w);
  }

  /**
   * The default sentence is shown exactly when no variable is set, or the
   * deciding single type or page type is one the banner has no sentence for.
   */
  lemma DefaultIff(v: CtaVars, locs: LocationTable)
    ensures CtaText(v, locs) == DefaultText <==>
      Decider(v) == 5 || (Decider(v) == 1 && v.singleType !in SingleTypes) || (Decider(v) == 2 && v.pageType !in ListTypes)
  {
    DeciderIs(v);
    var r := CtaText(v, locs);
    assert DefaultText[0] == 'F' && DefaultText[8] == 'n';
    if Decider(v) == 0 {
      assert r[0] == 'E';
    } else if Decider(v) == 1 {
      if v.singleType == "spots" {
        assert r[0] == 'D';
      } else if v.singleType == "events" {
        assert r[0] == 'G';
      } else if v.singleType == "skaters" {
        assert r[0] == 'C';
      }
    } else if Decider(v) == 2 {
      var name := CityNameOr(locs, v, "the area");
      if v.pageType == "skatespots" {
        var pre := "Find every street spot, skatepark, " + "and hidden gem in ";
        assert r == pre + name + " with the Let's Roll app!";
        assert r[8] == pre[8] == 'r';
      } else if v.pageType == "events" {
        assert r[0] == 'N';
      } else if v.pageType == "skaters" {
        assert r[0] == 'C';
      }
    } else if Decider(v) == 3 {
      assert r[0] == 'G';
    } else if Decider(v) == 4 {
      assert r[0] == 'E';
    }
  }

  /** A listed page type mentions the configured city name, or 'the area' when the city is unknown. */
  lemma PageTypeNamesCity(v: CtaVars, locs: LocationTable)
    requires Decider(v) == 2 && v.pageType in ListTypes
    ensures Contains(CtaText(v, locs), CityNameOr(locs, v, "the area"))
  {
    DeciderIs(v);
    var name := CityNameOr(locs, v, "the area");
    if v.pageType == "skatespots" {
      ContainsMiddle("Find every street spot, skatepark, " + "and hidden gem in ", name, " with the Let's Roll app!");
    } else if v.pageType == "events" {
      ContainsMiddle("Never miss a session! See all " + "the upcoming skate events in ", name, " on the app.");
    } else {
      ContainsMiddle("Connect with the local skate " + "community in ", name, " on the Let's Roll app!");
    }
  }

  /** A city page names the configured city, or says 'this city' when the city is unknown. */
  lemma CityPageNamesCity(v: CtaVars, locs: LocationTable)
    requires Decider(v) == 3
    ensures Contains(CtaText(v, locs), CityNameOr(locs, v, "this city"))
  {
    DeciderIs(v);
    ContainsMiddle("Get the full picture of the ", CityNameOr(locs, v, "this city"), " skate scene. Download the Let's " + "Roll app!");
  }

  /** A country page names the configured country, or says 'this country' when it is unknown. */
  lemma CountryPageNamesCountry(v: CtaVars, locs: LocationTable)
    requires Decider(v) == 4
    ensures Contains(CtaText(v, locs), match CountryDetails(locs, v.country) case Some(c) => c.name case None => "this country")
  {
    DeciderIs(v);
    var name := match CountryDetails(locs, v.country) case Some(c) => c.name case None => "this country";
    ContainsMiddle("Explore all the cities and skate " + "spots in ", name, " on the Let's Roll app!");
  }

  /** The footer hook: no banner on admin pages, the chosen sentence elsewhere. */
  function FooterBanner(isAdmin: bool, v: CtaVars, locs: LocationTable): (r: Option<string>)
    ensures isAdmin <==> r.None?
    ensures r.Some? ==> r.value == CtaText(v, locs)
  {
    if isAdmin then None else Some(CtaText(v, locs))
  }
}

=== FILE: data_tools.dfy ===
/**
 * The Data Tools page's search and replace over the city update posts:
 * the nonce and capability guards, the empty-search error, and three
 * `UPDATE … SET col = REPLACE(col, search, replace)` statements, one per
 * text column, whose affected-row counts are added up.
 */
module DataTools {
  import opened Wrappers
  import opened Strings
  import opened Seqs

  /** A row of the city updates table; `summary` and `image` may be NULL. */
  datatype PostRow = PostRow(id: int, title: string, slug: string, content: string, summary: Option<string>, image: Option<string>)

  /**
   * The submitted form: the nonce field if any, whether WordPress accepts
   * it, whether the user may manage options, and the two text fields after
   * `sanitize_text_field(stripslashes(…))`.
   */
  datatype Request = Request(nonce: Option<string>, nonceValid: bool, canManage: bool, search: Option<string>, replace: Option<string>)

  /** Where the handler ends: `wp_die`, the empty-search error redirect, or the success redirect with the total. */
  datatype Outcome = SecurityFailure | NoPermission | EmptySearch | Replaced(total: int)

  /** SQL `REPLACE` on a nullable column: NULL stays NULL. */
  function ReplaceColumn(v: Option<string>, search: string, replace: string): Option<string> {
    match v
    case None => None
    case Some(s) => Some(ReplaceAll(s, search, replace))
  }

  /** A column's value before and after, so that MySQL's affected count (rows whose value changed) can be stated. */
  predicate ContentChanges(search: string, replace: string, r: PostRow) {
    ReplaceAll(r.content, search, replace) != r.content
  }

  predicate SummaryChanges(search: string, replace: string, r: PostRow) {
    ReplaceColumn(r.summary, search, replace) != r.summary
  }

  predicate ImageChanges(search: string, replace: string, r: PostRow) {
    ReplaceColumn(r.image, search, replace) != r.image
  }

  /** One row after the three updates: only the three text columns change. */
  function ReplaceInRow(r: PostRow, search: string, replace: string): PostRow {
    r.(content := ReplaceAll(r.content, search, replace),
       summary := ReplaceColumn(r.summary, search, replace),
       image := ReplaceColumn(r.image, search, replace))
  }

  /** Every row updated; the three counts are the rows whose column changed. */
  function ReplaceInTable(rows: seq<PostRow>, search: string, replace: string): (r: (seq<PostRow>, int, int, int))
    ensures |r.0| == |rows|
    ensures forall i :: 0 <= i < |rows| ==> r.0[i] == ReplaceInRow(rows[i], search, replace)
    ensures r.1 == |Filter(rows, x => ContentChanges(search, replace, x))|
    ensures r.2 == |Filter(rows, x => SummaryChanges(search, replace, x))|
    ensures r.3 == |Filter(rows, x => ImageChanges(search, replace, x))|
  {
    if rows == [] then ([], 0, 0, 0)
    else
      var t := ReplaceInTable(rows[1..], search, replace);
      var x := rows[0];
      assert rows == [x] + rows[1..];
      ([ReplaceInRow(x, search, replace)] + t.0,
       t.1 + (if ContentChanges(search, replace, x) then 1 else 0),
       t.2 + (if SummaryChanges(search, replace, x) then 1 else 0),
       t.3 + (if ImageChanges(search, replace, x) then 1 else 0))
  }

  /**
   * `lr_process_search_replace_action`: a missing or rejected nonce and
   * a missing capability stop before anything is touched; so does an
   * empty search string (`empty()`, so "0" too); otherwise the table is
   * rewritten and the total of the three affected counts reported.
   */
  function SearchReplace(req: Request, rows: seq<PostRow>): (r: (Outcome, seq<PostRow>))
    ensures req.nonce.None? || !req.nonceValid ==> r.0 == SecurityFailure
    ensures req.nonce.Some? && req.nonceValid && !req.canManage ==> r.0 == NoPermission
    ensures r.0 == EmptySearch <==> req.nonce.Some? && req.nonceValid && req.canManage && PhpEmpty(req.search.GetOr(""))
    ensures !r.0.Replaced? ==> r.1 == rows
    ensures |r.1| == |rows|
    ensures r.0.Replaced? ==> forall i :: 0 <= i < |rows| ==> r.1[i] == ReplaceInRow(rows[i], req.search.value, req.replace.GetOr(""))
    ensures forall i :: 0 <= i < |rows| ==> r.1[i].id == rows[i].id && r.1[i].title == rows[i].title && r.1[i].slug == rows[i].slug
    ensures r.0.Replaced? ==> (
      r.0.total ==
        |Filter(rows, x => ContentChanges(req.search.value, req.replace.GetOr(""), x))| +
        |Filter(rows, x => SummaryChanges(req.search.value, req.replace.GetOr(""), x))| +
        |Filter(rows, x => ImageChanges(req.search.value, req.replace.GetOr(""), x))|)
  {
    if req.nonce.None? || !req.nonceValid then (SecurityFailure, rows)
    else if !req.canManage then (NoPermission, rows)
    else
      var search := req.search.GetOr("");
      if PhpEmpty(search) then (EmptySearch, rows)
      else
        var u := ReplaceInTable(rows, search, req.replace.GetOr(""));
        (Replaced(u.1 + u.2 + u.3), u.0)
  }

  /** A search string found in no text column changes no row and reports a total of 0. */
  lemma AbsentSearchChangesNothing(req: Request, rows: seq<PostRow>)
    requires req.nonce.Some? && req.nonceValid && req.canManage && !PhpEmpty(req.search.GetOr(""))
    requires forall x :: x in rows ==>
      !Contains(x.content, req.search.value) &&
      (x.summary.Some? ==> !Contains(x.summary.value, req.search.value)) &&
      (x.image.Some? ==> !Contains(x.image.value, req.search.value))
    ensures SearchReplace(req, rows) == (Replaced(0), rows)
  {
    var s, p := req.search.value, req.replace.GetOr("");
    forall x | x in rows
      ensures ReplaceInRow(x, s, p) == x
    {
      ReplaceAllAbsent(x.content, s, p);
      if x.summary.Some? {
        ReplaceAllAbsent(x.summary.value, s, p);
      }
      if x.image.Some? {
        ReplaceAllAbsent(x.image.value, s, p);
      }
    }
    NothingChanges(rows, s, p);
    var r := SearchReplace(req, rows);
    assert r.1 == rows;
  }

  /** When no row's text column changes, no count is raised. */
  lemma {:induction false} NothingChanges(rows: seq<PostRow>, s: string, p: string)
    requires forall x :: x in rows ==> ReplaceInRow(x, s, p) == x
    ensures ReplaceInTable(rows, s, p).1 == 0 && ReplaceInTable(rows, s, p).2 == 0 && ReplaceInTable(rows, s, p).3 == 0
  {
    if rows != [] {
      assert rows[0] in rows;
      assert forall x :: x in rows[1..] ==> x in rows;
      NothingChanges(rows[1..], s, p);
    }
  }

  /** Replacing a string by itself leaves the table as it was. */
  lemma ReplaceBySelf(req: Request, rows: seq<PostRow>)
    requires req.nonce.Some? && req.nonceValid && req.canManage && !PhpEmpty(req.search.GetOr(""))
    requires req.replace == req.search
    ensures SearchReplace(req, rows) == (Replaced(0), rows)
  {
    var s := req.search.value;
    forall x | x in rows
      ensures ReplaceInRow(x, s, s) == x
    {
      ReplaceAllSelf(x.content, s);
      if x.summary.Some? {
        ReplaceAllSelf(x.summary.value, s);
      }
      if x.image.Some? {
        ReplaceAllSelf(x.image.value, s);
      }
    }
    NothingChanges(rows, s, s);
    var r := SearchReplace(req, rows);
    assert r.1 == rows;
  }
}

=== FILE: discovery.dfy ===
/**
 * Content discovery: each day every configured city's spots, events,
 * reviews, sessions and newly seen skaters are recorded in the ledger,
 * one insert-if-absent per object, keyed by (api_id, content_type).
 * The API answers are given as inputs; the clock is the `now` parameter.
 */
module Discovery {
  import opened Wrappers
  import opened Strings
  import opened OrderedMap
  import opened Seqs
  import opened Locations
  import opened Ledger

  /** One object to record: its kind, its key and the object cached as `data_cache`. */
  datatype Item = Item(kind: Kind, apiId: string, data: Data)

  /** The ledger key of a row. */
  function Key(row: Row): (string, Kind) {
    (row.apiId, row.kind)
  }

  /** The keys present in the ledger. */
  function KeysOf(rows: seq<Row>): set<(string, Kind)> {
    set i | 0 <= i < |rows| :: Key(rows[i])
  }

  /** The keys a list of items would record. */
  function ItemKeys(items: seq<Item>): set<(string, Kind)> {
    set j | 0 <= j < |items| :: (items[j].apiId, items[j].kind)
  }

  lemma HasKeyIsKey(rows: seq<Row>, apiId: string, kind: Kind)
    ensures HasKey(rows, apiId, kind) <==> (apiId, kind) in KeysOf(rows)
  {
    if (apiId, kind) in KeysOf(rows) {
      var i :| 0 <= i < |rows| && Key(rows[i]) == (apiId, kind);
    }
  }

  /** Appending a row adds exactly its key. */
  lemma KeysOfSnoc(rows: seq<Row>, x: Row)
    ensures KeysOf(rows + [x]) == KeysOf(rows) + {Key(x)}
  {
    var s := rows + [x];
    forall k | k in KeysOf(s) ensures k in KeysOf(rows) + {Key(x)} {
      var i :| 0 <= i < |s| && Key(s[i]) == k;
      if i < |rows| {
        assert s[i] == rows[i];
      }
    }
    forall k | k in KeysOf(rows) ensures k in KeysOf(s) {
      var i :| 0 <= i < |rows| && Key(rows[i]) == k;
      assert s[i] == rows[i];
    }
    assert Key(s[|rows|]) in KeysOf(s);
  }

  /** Under the unique key, a table has as many keys as rows. */
  lemma {:induction false} KeysCard(rows: seq<Row>)
    requires forall i, j :: 0 <= i < j < |rows| ==> Key(rows[i]) != Key(rows[j])
    ensures |KeysOf(rows)| == |rows|
  {
    if rows != [] {
      var n := |rows| - 1;
      var init := rows[..n];
      assert rows == init + [rows[n]];
      KeysCard(init);
      KeysOfSnoc(init, rows[n]);
      forall i | 0 <= i < |init| ensures Key(init[i]) != Key(rows[n]) {
        assert init[i] == rows[i];
      }
    }
  }

  /** `row` is the row recorded for one of `items`, unpublished, at `city` and `now`. */
  predicate IsItemRow(row: Row, items: seq<Item>, city: string, now: int) {
    row.city == city && row.discoveredAt == now && !row.published &&
    exists j | 0 <= j < |items| :: row.kind == items[j].kind && row.apiId == items[j].apiId && row.data == items[j].data
  }

  /**
   * The loop body shared by every discovery function: each item is looked
   * up and inserted when its key is absent; the count is the rows added.
   */
  function Record(t: Table, city: string, now: int, items: seq<Item>): (r: (Table, nat))
    requires Valid(t)
    ensures Valid(r.0)
    ensures |r.0.rows| == |t.rows| + r.1 && r.0.rows[..|t.rows|] == t.rows
    ensures forall i | |t.rows| <= i < |r.0.rows| :: IsItemRow(r.0.rows[i], items, city, now)
    decreases |items|
  {
    if items == [] then (t, 0)
    else
      var x := items[0];
      var ins := InsertIfAbsent(t, x.kind, x.apiId, city, now, x.data);
      var rest := Record(ins.0, city, now, items[1..]);
      forall i | |ins.0.rows| <= i < |rest.0.rows|
        ensures IsItemRow(rest.0.rows[i], items, city, now)
      {
        ItemRowTail(rest.0.rows[i], items, city, now);
      }
      if ins.1 then
        PrefixOfPrefix(rest.0.rows, ins.0.rows, |t.rows|);
        assert rest.0.rows[|t.rows|] == ins.0.rows[|t.rows|];
        assert IsItemRow(ins.0.rows[|t.rows|], items, city, now) by {
          assert ins.0.rows[|t.rows|] == Row(t.nextId, x.kind, x.apiId, city, now, false, x.data);
        }
        (rest.0, rest.1 + 1)
      else
        (rest.0, rest.1)
  }

  /** A row recorded for a later item is recorded for the whole list. */
  lemma ItemRowTail(row: Row, items: seq<Item>, city: string, now: int)
    requires items != [] && IsItemRow(row, items[1..], city, now)
    ensures IsItemRow(row, items, city, now)
  {
    var j :| 0 <= j < |items[1..]| && row.kind == items[1..][j].kind && row.apiId == items[1..][j].apiId && row.data == items[1..][j].data;
    assert items[1..][j] == items[j + 1];
  }

  /** Inserting one item adds exactly its key. */
  lemma InsertKeys(t: Table, x: Item, city: string, now: int)
    requires Valid(t)
    ensures KeysOf(InsertIfAbsent(t, x.kind, x.apiId, city, now, x.data).0.rows) == KeysOf(t.rows) + {(x.apiId, x.kind)}
  {
    var ins := InsertIfAbsent(t, x.kind, x.apiId, city, now, x.data);
    HasKeyIsKey(t.rows, x.apiId, x.kind);
    if ins.1 {
      KeysOfSnoc(t.rows, Row(t.nextId, x.kind, x.apiId, city, now, false, x.data));
    }
  }

  lemma ItemKeysCons(items: seq<Item>)
    requires items != []
    ensures ItemKeys(items) == {(items[0].apiId, items[0].kind)} + ItemKeys(items[1..])
  {
    ItemKeysAppend([items[0]], items[1..]);
    assert items == [items[0]] + items[1..];
    assert ItemKeys([items[0]]) == {(items[0].apiId, items[0].kind)};
  }

  /** Recording adds exactly the items' keys. */
  lemma {:induction false} RecordKeys(t: Table, city: string, now: int, items: seq<Item>)
    requires Valid(t)
    ensures KeysOf(Record(t, city, now, items).0.rows) == KeysOf(t.rows) + ItemKeys(items)
    decreases |items|
  {
    if items == [] {
      assert ItemKeys(items) == {};
    } else {
      var x := items[0];
      var ins := InsertIfAbsent(t, x.kind, x.apiId, city, now, x.data);
      RecordKeys(ins.0, city, now, items[1..]);
      InsertKeys(t, x, city, now);
      ItemKeysCons(items);
    }
  }

  /** The count Record reports is the number of the items' keys that were absent. */
  lemma RecordCount(t: Table, city: string, now: int, items: seq<Item>)
    requires Valid(t)
    ensures Record(t, city, now, items).1 == |ItemKeys(items) - KeysOf(t.rows)|
  {
    var r := Record(t, city, now, items);
    RecordKeys(t, city, now, items);
    KeysCard(t.rows);
    KeysCard(r.0.rows);
    assert KeysOf(r.0.rows) == KeysOf(t.rows) + (ItemKeys(items) - KeysOf(t.rows));
  }

  /** Recording items whose keys are all present changes nothing. */
  lemma {:induction false} RecordPresent(t: Table, city: string, now: int, items: seq<Item>)
    requires Valid(t) && ItemKeys(items) <= KeysOf(t.rows)
    ensures Record(t, city, now, items) == (t, 0)
    decreases |items|
  {
    if items != [] {
      var x := items[0];
      assert (x.apiId, x.kind) in ItemKeys(items);
      HasKeyIsKey(t.rows, x.apiId, x.kind);
      assert ItemKeys(items[1..]) <= ItemKeys(items) by {
        forall k | k in ItemKeys(items[1..]) ensures k in ItemKeys(items) {
          var j :| 0 <= j < |items[1..]| && (items[1..][j].apiId, items[1..][j].kind) == k;
          assert items[1..][j] == items[j + 1];
        }
      }
      RecordPresent(t, city, now, items[1..]);
    }
  }

  /** Discovering the same objects again, at any later time, records nothing more. */
  lemma RecordIdempotent(t: Table, city: string, now: int, later: int, items: seq<Item>)
    requires Valid(t)
    ensures Record(Record(t, city, now, items).0, city, later, items) == (Record(t, city, now, items).0, 0)
  {
    RecordKeys(t, city, now, items);
    RecordPresent(Record(t, city, now, items).0, city, later, items);
  }

  /** Rows already in the ledger stay, so their keys stay. */
  lemma RecordGrows(t: Table, city: string, now: int, items: seq<Item>)
    requires Valid(t)
    ensures KeysOf(t.rows) <= KeysOf(Record(t, city, now, items).0.rows)
  {
    RecordKeys(t, city, now, items);
  }

  /** The objects of one API answer worth recording: those whose `_id` is not PHP-empty, in order. */
  function Candidates(kind: Kind, xs: seq<Data>): (r: seq<Item>)
    ensures forall j | 0 <= j < |r| :: r[j].kind == kind
    decreases |xs|
  {
    if xs == [] then []
    else
      var here := if Truthy(xs[0].id) then [Item(kind, xs[0].id.value, xs[0])] else [];
      here + Candidates(kind, xs[1..])
  }

  /** The keys of the objects whose id is not empty. */
  function TruthyIds(kind: Kind, xs: seq<Data>): set<(string, Kind)> {
    set i | 0 <= i < |xs| && Truthy(xs[i].id) :: (xs[i].id.value, kind)
  }

  /** Objects with an empty id are skipped: the candidates' keys are exactly the non-empty ids. */
  lemma {:induction false} CandidateKeys(kind: Kind, xs: seq<Data>)
    ensures ItemKeys(Candidates(kind, xs)) == TruthyIds(kind, xs)
    decreases |xs|
  {
    if xs == [] {
      assert ItemKeys([]) == {};
    } else {
      var here := if Truthy(xs[0].id) then [Item(kind, xs[0].id.value, xs[0])] else [];
      var rest := Candidates(kind, xs[1..]);
      CandidateKeys(kind, xs[1..]);
      ItemKeysAppend(here, rest);
      assert TruthyIds(kind, xs) == TruthyIds(kind, xs[..1]) + TruthyIds(kind, xs[1..]) by {
        forall k | k in TruthyIds(kind, xs) ensures k in TruthyIds(kind, xs[..1]) + TruthyIds(kind, xs[1..]) {
          var i :| 0 <= i < |xs| && Truthy(xs[i].id) && (xs[i].id.value, kind) == k;
          if i == 0 {
            assert xs[..1][0] == xs[0];
          } else {
            assert xs[1..][i - 1] == xs[i];
          }
        }
        forall k | k in TruthyIds(kind, xs[1..]) ensures k in TruthyIds(kind, xs) {
          var i :| 0 <= i < |xs[1..]| && Truthy(xs[1..][i].id) && (xs[1..][i].id.value, kind) == k;
          assert xs[1..][i] == xs[i + 1];
        }
        forall k | k in TruthyIds(kind, xs[..1]) ensures k in TruthyIds(kind, xs) {
          assert xs[..1][0] == xs[0];
        }
      }
      if Truthy(xs[0].id) {
        assert ItemKeys(here) == {(xs[0].id.value, kind)};
        assert xs[..1][0] == xs[0];
        assert TruthyIds(kind, xs[..1]) == {(xs[0].id.value, kind)};
      } else {
        assert ItemKeys(here) == {};
        assert xs[..1][0] == xs[0];
        assert TruthyIds(kind, xs[..1]) == {};
      }
    }
  }

  lemma ItemKeysAppend(a: seq<Item>, b: seq<Item>)
    ensures ItemKeys(a + b) == ItemKeys(a) + ItemKeys(b)
  {
    var s := a + b;
    forall k | k in ItemKeys(s) ensures k in ItemKeys(a) + ItemKeys(b) {
      var j :| 0 <= j < |s| && (s[j].apiId, s[j].kind) == k;
      if j < |a| {
        assert s[j] == a[j];
      } else {
        assert s[j] == b[j - |a|];
      }
    }
    forall k | k in ItemKeys(a) ensures k in ItemKeys(s) {
      var j :| 0 <= j < |a| && (a[j].apiId, a[j].kind) == k;
      assert s[j] == a[j];
    }
    forall k | k in ItemKeys(b) ensures k in ItemKeys(s) {
      var j :| 0 <= j < |b| && (b[j].apiId, b[j].kind) == k;
      assert s[j + |a|] == b[j];
    }
  }

  /**
   * `lr_discover_new_spots` / `lr_discover_new_events`: an API error or an
   * empty answer returns before touching the ledger.
   */
  function DiscoverDirect(t: Table, kind: Kind, city: string, now: int, fetched: Result<seq<Data>, string>): (r: (Table, nat))
    requires Valid(t)
    ensures Valid(r.0)
    ensures fetched.Err? || fetched.value == [] ==> r == (t, 0)
  {
    match fetched
    case Err(_) => (t, 0)
    case Ok(xs) => if xs == [] then (t, 0) else Record(t, city, now, Candidates(kind, xs))
  }

  /** What a spot or event pass adds to the ledger: the keys of the answer's non-empty ids. */
  function DirectKeys(kind: Kind, fetched: Result<seq<Data>, string>): set<(string, Kind)> {
    match fetched
    case Err(_) => {}
    case Ok(xs) => TruthyIds(kind, xs)
  }

  /**
   * A spot or event pass leaves exactly the old keys plus those of the
   * answer's objects with a non-empty id, and reports how many of those
   * were new.
   */
  lemma DiscoverDirectKeys(t: Table, kind: Kind, city: string, now: int, fetched: Result<seq<Data>, string>)
    requires Valid(t)
    ensures KeysOf(DiscoverDirect(t, kind, city, now, fetched).0.rows) == KeysOf(t.rows) + DirectKeys(kind, fetched)
    ensures DiscoverDirect(t, kind, city, now, fetched).1 == |DirectKeys(kind, fetched) - KeysOf(t.rows)|
  {
    var r := DiscoverDirect(t, kind, city, now, fetched);
    if fetched.Ok? && fetched.value != [] {
      var items := Candidates(kind, fetched.value);
      CandidateKeys(kind, fetched.value);
      RecordKeys(t, city, now, items);
      RecordCount(t, city, now, items);
      assert r.0 == Record(t, city, now, items).0 && r.1 == Record(t, city, now, items).1;
    } else {
      assert DirectKeys(kind, fetched) == {} by {
        if fetched.Ok? {
          CandidateKeys(kind, fetched.value);
        }
      }
      assert r.0 == t && r.1 == 0;
    }
  }

  /** `($session->type ?? 'Roll') === 'Event'`: sessions that belong to an event are not recorded. */
  predicate IsEventSession(x: Data) {
    x.sessionType.GetOr("Roll") == "Event"
  }

  predicate NotEventSession(x: Data) {
    !IsEventSession(x)
  }

  /** The reviews of one spot's `ratings-opinions` answer. */
  function ReviewItems(answer: Result<seq<Data>, string>): seq<Item> {
    match answer
    case Err(_) => []
    case Ok(xs) => Candidates(Review, xs)
  }

  /** The sessions of one spot's `sessions` answer, leaving out event sessions. */
  function SessionItems(answer: Result<seq<Data>, string>): (r: seq<Item>)
    ensures forall j | 0 <= j < |r| :: r[j].kind == Session
  {
    match answer
    case Err(_) => []
    case Ok(xs) => Candidates(Session, Filter(xs, NotEventSession))
  }

  /** A session of kind Event is never among the items recorded. */
  lemma SessionItemsNoEvent(answer: Result<seq<Data>, string>, j: int)
    requires 0 <= j < |SessionItems(answer)|
    ensures !IsEventSession(SessionItems(answer)[j].data)
  {
    CandidatesFrom(Session, Filter(answer.value, NotEventSession), j);
  }

  /** Every candidate carries one of the answer's objects. */
  lemma {:induction false} CandidatesFrom(kind: Kind, xs: seq<Data>, j: int)
    requires 0 <= j < |Candidates(kind, xs)|
    ensures Candidates(kind, xs)[j].data in xs
    decreases |xs|
  {
    var here := if Truthy(xs[0].id) then [Item(kind, xs[0].id.value, xs[0])] else [];
    if j >= |here| {
      CandidatesFrom(kind, xs[1..], j - |here|);
      assert Candidates(kind, xs)[j] == Candidates(kind, xs[1..])[j - |here|];
    }
  }

  /** The reviews and sessions of every spot with a non-empty id, spot by spot. */
  function FeedItems(spots: seq<Data>, reviewsOf: string -> Result<seq<Data>, string>,
                     sessionsOf: string -> Result<seq<Data>, string>): (r: seq<Item>)
    ensures forall j | 0 <= j < |r| :: r[j].kind == Review || r[j].kind == Session
    decreases |spots|
  {
    if spots == [] then []
    else
      var s := spots[0];
      var here := if Truthy(s.id) then ReviewItems(reviewsOf(s.id.value)) + SessionItems(sessionsOf(s.id.value)) else [];
      here + FeedItems(spots[1..], reviewsOf, sessionsOf)
  }

  /** The API answers discovery reads for one city. */
  datatype CityFeeds = CityFeeds(
    spots: Result<seq<Data>, string>,                  // lr_get_spots_for_city
    events: Result<seq<Data>, string>,                 // lr_get_events_for_city
    token: Result<string, string>,                     // lr_get_api_access_token
    spotsInBox: Result<seq<Data>, string>,             // spots/v2/inBox, limit 1000
    reviewsOf: string -> Result<seq<Data>, string>,    // spots/<id>/ratings-opinions
    sessionsOf: string -> Result<seq<Data>, string>,   // spots/<id>/sessions
    skaters: Result<seq<Data>, string>)                // lr_fetch_filtered_skaters_for_city

  /**
   * `lr_discover_new_reviews_and_sessions`: nothing without a token or
   * without spots; otherwise each spot's reviews, then its sessions.
   */
  function FeedStageItems(f: CityFeeds): seq<Item> {
    if f.token.Err? then []
    else match f.spotsInBox
      case Err(_) => []
      case Ok(spots) => FeedItems(spots, f.reviewsOf, f.sessionsOf)
  }

  /** The seen-skaters table, keyed by (user_api_id, city_slug). */
  type Seen = set<(string, string)>

  /**
   * The skater loop of `lr_discover_new_skaters`: a profile whose user is
   * not yet seen in this city is marked seen and queued for the ledger.
   * Returns the new seen table and the queued profiles.
   */
  function SkaterPass(seen: Seen, city: string, profiles: seq<Data>): (r: (Seen, seq<Item>))
    ensures seen <= r.0
    ensures forall j | 0 <= j < |r.1| :: r.1[j].kind == Skater
    decreases |profiles|
  {
    if profiles == [] then (seen, [])
    else
      var p := profiles[0];
      var isNew := Truthy(p.userId) && (p.userId.value, city) !in seen;
      var seen1 := if isNew then seen + {(p.userId.value, city)} else seen;
      var rest := SkaterPass(seen1, city, profiles[1..]);
      ((rest.0, (if isNew then [Item(Skater, p.userId.value, p)] else []) + rest.1))
  }

  /** The (user, city) pairs of the profiles whose user id is not empty. */
  function Sightings(city: string, profiles: seq<Data>): Seen {
    set i | 0 <= i < |profiles| && Truthy(profiles[i].userId) :: (profiles[i].userId.value, city)
  }

  /** The sightings of a list are those of its head and of its tail. */
  lemma SightingsCons(city: string, profiles: seq<Data>)
    requires profiles != []
    ensures Sightings(city, profiles) ==
      (if Truthy(profiles[0].userId) then {(profiles[0].userId.value, city)} else {}) + Sightings(city, profiles[1..])
  {
    var tail := profiles[1..];
    forall k | k in Sightings(city, profiles)
      ensures k in (if Truthy(profiles[0].userId) then {(profiles[0].userId.value, city)} else {}) + Sightings(city, tail)
    {
      var i :| 0 <= i < |profiles| && Truthy(profiles[i].userId) && (profiles[i].userId.value, city) == k;
      if i > 0 {
        assert tail[i - 1] == profiles[i];
      }
    }
    forall k | k in Sightings(city, tail) ensures k in Sightings(city, profiles) {
      var i :| 0 <= i < |tail| && Truthy(tail[i].userId) && (tail[i].userId.value, city) == k;
      assert tail[i] == profiles[i + 1];
    }
  }

  /** The skater loop marks every sighting with a non-empty user id as seen, and nothing else. */
  lemma {:induction false} SkaterPassSeenSet(seen: Seen, city: string, profiles: seq<Data>)
    ensures SkaterPass(seen, city, profiles).0 == seen + Sightings(city, profiles)
    decreases |profiles|
  {
    if profiles != [] {
      var p := profiles[0];
      var isNew := Truthy(p.userId) && (p.userId.value, city) !in seen;
      var seen1 := if isNew then seen + {(p.userId.value, city)} else seen;
      SkaterPassSeenSet(seen1, city, profiles[1..]);
      SightingsCons(city, profiles);
    }
  }

  /** The skater loop queues one profile per newly seen pair, so the count it logs is the number of new pairs. */
  lemma {:induction false} SkaterPassSeenPairs(seen: Seen, city: string, profiles: seq<Data>)
    ensures var r := SkaterPass(seen, city, profiles);
      |r.1| == |r.0 - seen|
    decreases |profiles|
  {
    if profiles != [] {
      var p := profiles[0];
      var isNew := Truthy(p.userId) && (p.userId.value, city) !in seen;
      var seen1 := if isNew then seen + {(p.userId.value, city)} else seen;
      var rest := SkaterPass(seen1, city, profiles[1..]);
      SkaterPassSeenPairs(seen1, city, profiles[1..]);
      if isNew {
        var q := (p.userId.value, city);
        assert rest.0 - seen == (rest.0 - seen1) + {q};
        assert q !in rest.0 - seen1;
      } else {
        assert seen1 == seen;
      }
    }
  }

  /** Sightings already in the seen table queue nothing. */
  lemma {:induction false} SkaterPassSeen(seen: Seen, city: string, profiles: seq<Data>)
    requires forall i | 0 <= i < |profiles| && Truthy(profiles[i].userId) :: (profiles[i].userId.value, city) in seen
    ensures SkaterPass(seen, city, profiles) == (seen, [])
    decreases |profiles|
  {
    if profiles != [] {
      assert forall i | 0 <= i < |profiles[1..]| :: profiles[1..][i] == profiles[i + 1];
      SkaterPassSeen(seen, city, profiles[1..]);
      var rest := SkaterPass(seen, city, profiles[1..]);
      assert rest.0 == seen && rest.1 == [];
      assert !(Truthy(profiles[0].userId) && (profiles[0].userId.value, city) !in seen);
      var none: seq<Item> := [];
      assert none + rest.1 == [];
      assert SkaterPass(seen, city, profiles) == (rest.0, none + rest.1);
    }
  }

  /** The ledger and the seen-skaters table. */
  datatype State = State(ledger: Table, seen: Seen)

  /** The per-city counts that discovery logs, each on a line of its own. */
  datatype Report = Report(spots: nat, events: nat, reviews: nat, sessions: nat, skaters: nat)

  /** The number of rows of kind `k`. */
  function CountKind(rows: seq<Row>, k: Kind): (n: nat)
    ensures n <= |rows|
  {
    if rows == [] then 0 else (if rows[0].kind == k then 1 else 0) + CountKind(rows[1..], k)
  }

  /**
   * `lr_discover_new_skaters`: a skater newly seen in the city is counted
   * and inserted into the ledger, but that insert fails on the unique key
   * when the skater is already recorded from another city, so the count
   * may exceed the rows added.
   */
  function DiscoverSkaters(st: State, city: string, now: int, fetched: Result<seq<Data>, string>): (r: (State, nat))
    requires Valid(st.ledger)
    ensures Valid(r.0.ledger)
    ensures fetched.Err? || fetched.value == [] ==> r == (st, 0)
    ensures st.seen <= r.0.seen && r.1 == |r.0.seen - st.seen|
    ensures fetched.Ok? ==> r.0.seen == st.seen + Sightings(city, fetched.value)
    ensures KeysOf(st.ledger.rows) <= KeysOf(r.0.ledger.rows)
  {
    match fetched
    case Err(_) => (st, 0)
    case Ok(ps) =>
      if ps == [] then (st, 0)
      else
        var pass := SkaterPass(st.seen, city, ps);
        SkaterPassSeenPairs(st.seen, city, ps);
        SkaterPassSeenSet(st.seen, city, ps);
        RecordGrows(st.ledger, city, now, pass.1);
        (State(Record(st.ledger, city, now, pass.1).0, pass.0), |pass.1|)
  }

  /** `lr_discover_new_content_for_city`: spots, events, reviews and sessions, then skaters. */
  function DiscoverCity(st: State, city: string, now: int, f: CityFeeds): (r: (State, Report))
    requires Valid(st.ledger)
    ensures Valid(r.0.ledger)
  {
    var a := DiscoverDirect(st.ledger, Spot, city, now, f.spots);
    var b := DiscoverDirect(a.0, Event, city, now, f.events);
    var c := Record(b.0, city, now, FeedStageItems(f));
    var d := DiscoverSkaters(State(c.0, st.seen), city, now, f.skaters);
    var added := c.0.rows[|b.0.rows|..];
    (d.0, Report(a.1, b.1, CountKind(added, Review), CountKind(added, Session), d.1))
  }

  lemma {:induction false} CountKindAppend(a: seq<Row>, b: seq<Row>, k: Kind)
    ensures CountKind(a + b, k) == CountKind(a, k) + CountKind(b, k)
    decreases |a|
  {
    if a == [] {
      assert a + b == b;
    } else {
      assert (a + b)[1..] == a[1..] + b;
      CountKindAppend(a[1..], b, k);
    }
  }

  lemma {:induction false} CountKindNone(rows: seq<Row>, k: Kind)
    requires forall i | 0 <= i < |rows| :: rows[i].kind != k
    ensures CountKind(rows, k) == 0
    decreases |rows|
  {
    if rows != [] {
      CountKindNone(rows[1..], k);
    }
  }

  /**
   * Counting the rows of kind `k` appended on the way from `t` to `v`
   * through `u`: a stage that appends no row of kind `k` adds nothing.
   */
  lemma CountAcross(t: seq<Row>, u: seq<Row>, v: seq<Row>, k: Kind)
    requires Extends(t, u) && Extends(u, v)
    ensures (forall i | |u| <= i < |v| :: v[i].kind != k) ==> CountKind(v[|t|..], k) == CountKind(u[|t|..], k)
    ensures (forall i | |t| <= i < |u| :: u[i].kind != k) ==> CountKind(v[|t|..], k) == CountKind(v[|u|..], k)
  {
    var front, back := v[|t|..|u|], v[|u|..];
    assert v[|t|..] == front + back;
    CountKindAppend(front, back, k);
    assert front == u[|t|..] by {
      assert forall i | 0 <= i < |u| :: v[i] == u[i] by {
        forall i | 0 <= i < |u| ensures v[i] == u[i] {
          assert v[..|u|][i] == v[i];
        }
      }
    }
    if forall i | |u| <= i < |v| :: v[i].kind != k {
      CountKindNone(back, k);
    }
    if forall i | |t| <= i < |u| :: u[i].kind != k {
      CountKindNone(front, k);
    }
  }

  /**
   * The review and session counts of a city are the review and session
   * rows its discovery appends to the ledger: the spot, event and skater
   * passes append rows of their own kinds only.
   */
  lemma DiscoverCityFeedCounts(st: State, city: string, now: int, f: CityFeeds)
    requires Valid(st.ledger)
    ensures var r := DiscoverCity(st, city, now, f);
      |st.ledger.rows| <= |r.0.ledger.rows| &&
      r.1.reviews == CountKind(r.0.ledger.rows[|st.ledger.rows|..], Review) &&
      r.1.sessions == CountKind(r.0.ledger.rows[|st.ledger.rows|..], Session)
  {
    var t := st.ledger;
    var a := DiscoverDirect(t, Spot, city, now, f.spots);
    var b := DiscoverDirect(a.0, Event, city, now, f.events);
    var c := Record(b.0, city, now, FeedStageItems(f));
    var d := DiscoverSkaters(State(c.0, st.seen), city, now, f.skaters);
    DirectRanks(t, city, now, f.spots, Spot);
    assert AppendedInOrder(t.rows, a.0.rows, 0);
    DirectRanks(a.0, city, now, f.events, Event);
    InOrderStep(t.rows, a.0.rows, b.0.rows, 0, 1);
    FeedRanks(b.0, city, now, f);
    InOrderStep(t.rows, b.0.rows, c.0.rows, 1, 2);
    SkaterRanks(State(c.0, st.seen), city, now, f.skaters);
    FeedCounts(t.rows, b.0.rows, c.0.rows, d.0.ledger.rows, Review);
    FeedCounts(t.rows, b.0.rows, c.0.rows, d.0.ledger.rows, Session);
  }

  /**
   * After stages of rank at most 1, one of rank 2 and one of rank 3, the
   * reviews (or sessions) appended overall are those of the rank-2 stage.
   */
  lemma FeedCounts(t: seq<Row>, b: seq<Row>, c: seq<Row>, d: seq<Row>, k: Kind)
    requires AppendedInOrder(t, b, 1) && AppendedRank(b, c, 2) && AppendedRank(c, d, 3)
    requires k == Review || k == Session
    ensures |t| <= |d| && CountKind(d[|t|..], k) == CountKind(c[|b|..], k)
  {
    NotFeedKinds(b, |t|);
    NotFeedKinds(d, |c|);
    FeedCountStep(t, b, c, d, k);
  }

  /** Rows from position `from` on that have a rank other than 2 are neither reviews nor sessions. */
  lemma NotFeedKinds(rows: seq<Row>, from: nat)
    ensures forall i | from <= i < |rows| && Rank(rows[i].kind) != 2 :: rows[i].kind != Review && rows[i].kind != Session
  {
  }

  lemma FeedCountStep(t: seq<Row>, b: seq<Row>, c: seq<Row>, d: seq<Row>, k: Kind)
    requires Extends(t, b) && Extends(b, c) && Extends(c, d)
    requires forall i | |t| <= i < |b| :: b[i].kind != k
    requires forall i | |c| <= i < |d| :: d[i].kind != k
    ensures |t| <= |d| && CountKind(d[|t|..], k) == CountKind(c[|b|..], k)
  {
    assert Extends(t, c) by {
      assert c[..|t|] == b[..|t|] by {
        assert forall i | 0 <= i < |t| :: c[i] == b[i] by {
          forall i | 0 <= i < |t| ensures c[i] == b[i] {
            assert c[..|b|][i] == c[i];
          }
        }
      }
    }
    CountAcross(t, c, d, k);
    CountAcross(t, b, c, k);
  }

  /** Discovery order: spots first, then events, then reviews and sessions, then skaters. */
  function Rank(k: Kind): nat {
    match k
    case Spot => 0
    case Event => 1
    case Review => 2
    case Session => 2
    case Skater => 3
    case OtherKind(_) => 4
  }

  /** `rows'` keeps `rows` as its prefix: the ledger is only appended to. */
  predicate Extends(rows: seq<Row>, rows': seq<Row>) {
    |rows| <= |rows'| && rows'[..|rows|] == rows
  }

  /** Every row appended after `rows` has a kind of rank `rank`. */
  predicate AppendedRank(rows: seq<Row>, rows': seq<Row>, rank: nat) {
    Extends(rows, rows') && forall i | |rows| <= i < |rows'| :: Rank(rows'[i].kind) == rank
  }

  /** The rows appended after `rows` come in nondecreasing rank, none above `top`. */
  predicate AppendedInOrder(rows: seq<Row>, rows': seq<Row>, top: nat) {
    Extends(rows, rows') &&
    (forall i | |rows| <= i < |rows'| :: Rank(rows'[i].kind) <= top) &&
    (forall i, j | |rows| <= i < j < |rows'| :: Rank(rows'[i].kind) <= Rank(rows'[j].kind))
  }

  /** Appending a stage of rank `rank` after stages of lower rank keeps the order. */
  lemma InOrderStep(t: seq<Row>, a: seq<Row>, b: seq<Row>, top: nat, rank: nat)
    requires AppendedInOrder(t, a, top) && top <= rank && AppendedRank(a, b, rank)
    ensures AppendedInOrder(t, b, rank)
  {
    assert forall i | 0 <= i < |a| :: b[i] == a[i] by {
      forall i | 0 <= i < |a| ensures b[i] == a[i] {
        assert b[..|a|][i] == b[i];
      }
    }
    assert b[..|t|] == a[..|t|];
  }

  /** The rows a spot or event pass appends all have that pass's kind. */
  lemma DirectRanks(t: Table, city: string, now: int, fetched: Result<seq<Data>, string>, kind: Kind)
    requires Valid(t)
    ensures AppendedRank(t.rows, DiscoverDirect(t, kind, city, now, fetched).0.rows, Rank(kind))
  {
    if fetched.Ok? && fetched.value != [] {
      var items := Candidates(kind, fetched.value);
      var t' := Record(t, city, now, items).0;
      forall i | |t.rows| <= i < |t'.rows| ensures t'.rows[i].kind == kind {
        assert IsItemRow(t'.rows[i], items, city, now);
      }
    }
  }

  /** The review and session pass appends rows of rank 2 only. */
  lemma FeedRanks(t: Table, city: string, now: int, f: CityFeeds)
    requires Valid(t)
    ensures AppendedRank(t.rows, Record(t, city, now, FeedStageItems(f)).0.rows, 2)
  {
    var t' := Record(t, city, now, FeedStageItems(f)).0;
    forall i | |t.rows| <= i < |t'.rows| ensures Rank(t'.rows[i].kind) == 2 {
      assert IsItemRow(t'.rows[i], FeedStageItems(f), city, now);
    }
  }

  /** The skater pass appends skater rows only. */
  lemma SkaterRanks(st: State, city: string, now: int, fetched: Result<seq<Data>, string>)
    requires Valid(st.ledger)
    ensures AppendedRank(st.ledger.rows, DiscoverSkaters(st, city, now, fetched).0.ledger.rows, 3)
  {
    if fetched.Ok? && fetched.value != [] {
      var pass := SkaterPass(st.seen, city, fetched.value);
      var t' := Record(st.ledger, city, now, pass.1).0;
      forall i | |st.ledger.rows| <= i < |t'.rows| ensures Rank(t'.rows[i].kind) == 3 {
        assert IsItemRow(t'.rows[i], pass.1, city, now);
      }
    }
  }

  /** The rows a city's discovery appends come in discovery order: spots, events, reviews and sessions, skaters. */
  lemma DiscoverCityOrder(st: State, city: string, now: int, f: CityFeeds)
    requires Valid(st.ledger)
    ensures AppendedInOrder(st.ledger.rows, DiscoverCity(st, city, now, f).0.ledger.rows, 3)
  {
    var t := st.ledger;
    var a := DiscoverDirect(t, Spot, city, now, f.spots);
    var b := DiscoverDirect(a.0, Event, city, now, f.events);
    var c := Record(b.0, city, now, FeedStageItems(f));
    var d := DiscoverSkaters(State(c.0, st.seen), city, now, f.skaters);
    DirectRanks(t, city, now, f.spots, Spot);
    assert AppendedInOrder(t.rows, a.0.rows, 0);
    DirectRanks(a.0, city, now, f.events, Event);
    InOrderStep(t.rows, a.0.rows, b.0.rows, 0, 1);
    FeedRanks(b.0, city, now, f);
    InOrderStep(t.rows, b.0.rows, c.0.rows, 1, 2);
    SkaterRanks(State(c.0, st.seen), city, now, f.skaters);
    InOrderStep(t.rows, c.0.rows, d.0.ledger.rows, 2, 3);
  }

  /** Everything a city's discovery can record, and every (user, city) pair it can mark seen. */
  function CityKeys(f: CityFeeds): set<(string, Kind)> {
    DirectKeys(Spot, f.spots) + DirectKeys(Event, f.events) + ItemKeys(FeedStageItems(f))
  }

  function SeenPairs(city: string, f: CityFeeds): Seen {
    match f.skaters
    case Err(_) => {}
    case Ok(ps) => Sightings(city, ps)
  }

  /** A city's discovery only adds keys and seen pairs, and afterwards holds all of its own. */
  lemma DiscoverCityGrows(st: State, city: string, now: int, f: CityFeeds)
    requires Valid(st.ledger)
    ensures var st' := DiscoverCity(st, city, now, f).0;
      KeysOf(st.ledger.rows) + CityKeys(f) <= KeysOf(st'.ledger.rows) &&
      st'.seen == st.seen + SeenPairs(city, f)
  {
    var t := st.ledger;
    var a := DiscoverDirect(t, Spot, city, now, f.spots);
    var b := DiscoverDirect(a.0, Event, city, now, f.events);
    var c := Record(b.0, city, now, FeedStageItems(f));
    StagesKeys(t, city, now, f);
    SkatersKeep(State(c.0, st.seen), city, now, f);
  }

  /** The spot, event and feed passes leave the old keys plus the city's own. */
  lemma StagesKeys(t: Table, city: string, now: int, f: CityFeeds)
    requires Valid(t)
    ensures var a := DiscoverDirect(t, Spot, city, now, f.spots);
      var b := DiscoverDirect(a.0, Event, city, now, f.events);
      KeysOf(Record(b.0, city, now, FeedStageItems(f)).0.rows) == KeysOf(t.rows) + CityKeys(f)
  {
    var a := DiscoverDirect(t, Spot, city, now, f.spots);
    var b := DiscoverDirect(a.0, Event, city, now, f.events);
    var c := Record(b.0, city, now, FeedStageItems(f));
    DiscoverDirectKeys(t, Spot, city, now, f.spots);
    DiscoverDirectKeys(a.0, Event, city, now, f.events);
    RecordKeys(b.0, city, now, FeedStageItems(f));
    UnionChain(KeysOf(t.rows), KeysOf(a.0.rows), KeysOf(b.0.rows), KeysOf(c.0.rows),
      DirectKeys(Spot, f.spots), DirectKeys(Event, f.events), ItemKeys(FeedStageItems(f)));
  }

  lemma UnionChain<T>(k0: set<T>, k1: set<T>, k2: set<T>, k3: set<T>, s: set<T>, e: set<T>, i: set<T>)
    requires k1 == k0 + s && k2 == k1 + e && k3 == k2 + i
    ensures k3 == k0 + (s + e + i)
  {
  }

  /** The skater pass keeps every key and adds exactly the city's sightings. */
  lemma SkatersKeep(st: State, city: string, now: int, f: CityFeeds)
    requires Valid(st.ledger)
    ensures var d := DiscoverSkaters(st, city, now, f.skaters).0;
      KeysOf(st.ledger.rows) <= KeysOf(d.ledger.rows) && d.seen == st.seen + SeenPairs(city, f)
  {
    if f.skaters.Err? {
      assert SeenPairs(city, f) == {};
    }
  }

  /** A spot or event pass over recorded objects changes nothing. */
  lemma DirectPresent(t: Table, kind: Kind, city: string, now: int, fetched: Result<seq<Data>, string>)
    requires Valid(t) && DirectKeys(kind, fetched) <= KeysOf(t.rows)
    ensures DiscoverDirect(t, kind, city, now, fetched) == (t, 0)
  {
    if fetched.Ok? && fetched.value != [] {
      CandidateKeys(kind, fetched.value);
      RecordPresent(t, city, now, Candidates(kind, fetched.value));
    }
  }

  /** A skater pass over sightings already seen changes nothing. */
  lemma SkatersPresent(st: State, city: string, now: int, fetched: Result<seq<Data>, string>)
    requires Valid(st.ledger) && (fetched.Ok? ==> Sightings(city, fetched.value) <= st.seen)
    ensures DiscoverSkaters(st, city, now, fetched) == (st, 0)
  {
    if fetched.Ok? && fetched.value != [] {
      var ps := fetched.value;
      forall i | 0 <= i < |ps| && Truthy(ps[i].userId) ensures (ps[i].userId.value, city) in st.seen {
        assert (ps[i].userId.value, city) in Sightings(city, ps);
      }
      SkaterPassSeen(st.seen, city, ps);
      assert Record(st.ledger, city, now, []) == (st.ledger, 0);
    }
  }

  /** A city whose keys are all recorded and whose skaters are all seen is left as it is, with zero counts. */
  lemma DiscoverCityPresent(st: State, city: string, now: int, f: CityFeeds)
    requires Valid(st.ledger) && CityKeys(f) <= KeysOf(st.ledger.rows) && SeenPairs(city, f) <= st.seen
    ensures DiscoverCity(st, city, now, f) == (st, Report(0, 0, 0, 0, 0))
  {
    var t := st.ledger;
    DirectPresent(t, Spot, city, now, f.spots);
    DirectPresent(t, Event, city, now, f.events);
    RecordPresent(t, city, now, FeedStageItems(f));
    SkatersPresent(st, city, now, f.skaters);
  }

  /** Discovering a city twice over the same answers records nothing the second time. */
  lemma DiscoverCityIdempotent(st: State, city: string, now: int, later: int, f: CityFeeds)
    requires Valid(st.ledger)
    ensures var once := DiscoverCity(st, city, now, f).0;
      DiscoverCity(once, city, later, f) == (once, Report(0, 0, 0, 0, 0))
  {
    DiscoverCityGrows(st, city, now, f);
    DiscoverCityPresent(DiscoverCity(st, city, now, f).0, city, later, f);
  }

  /** `lr_run_content_discovery`; `feeds` gives each city's API answers. */
  function DiscoverAll(st: State, cities: seq<(string, City)>, now: int, feeds: ((string, City)) -> CityFeeds): (r: State)
    requires Valid(st.ledger)
    ensures Valid(r.ledger)
    ensures KeysOf(st.ledger.rows) <= KeysOf(r.ledger.rows) && st.seen <= r.seen
    decreases |cities|
  {
    if cities == [] then st
    else
      var c := cities[0];
      DiscoverCityGrows(st, c.0, now, feeds(c));
      DiscoverAll(DiscoverCity(st, c.0, now, feeds(c)).0, cities[1..], now, feeds)
  }

  /** A run over a non-empty list is the first city's discovery followed by a run over the rest. */
  lemma DiscoverAllCons(st: State, cities: seq<(string, City)>, now: int, feeds: ((string, City)) -> CityFeeds)
    requires Valid(st.ledger) && cities != []
    ensures DiscoverAll(st, cities, now, feeds) == DiscoverAll(DiscoverCity(st, cities[0].0, now, feeds(cities[0])).0, cities[1..], now, feeds)
  {
  }

  /** After a run, every city's objects are recorded and its sightings seen. */
  lemma {:induction false} DiscoverAllCovers(st: State, cities: seq<(string, City)>, now: int, feeds: ((string, City)) -> CityFeeds, k: int)
    requires Valid(st.ledger) && 0 <= k < |cities|
    ensures var r := DiscoverAll(st, cities, now, feeds);
      CityKeys(feeds(cities[k])) <= KeysOf(r.ledger.rows) && SeenPairs(cities[k].0, feeds(cities[k])) <= r.seen
    decreases |cities|
  {
    var c := cities[0];
    var st1 := DiscoverCity(st, c.0, now, feeds(c)).0;
    DiscoverAllCons(st, cities, now, feeds);
    var r := DiscoverAll(st1, cities[1..], now, feeds);
    assert DiscoverAll(st, cities, now, feeds) == r;
    if k == 0 {
      DiscoverCityGrows(st, c.0, now, feeds(c));
      assert CityKeys(feeds(c)) <= KeysOf(st1.ledger.rows) && SeenPairs(c.0, feeds(c)) <= st1.seen;
      assert KeysOf(st1.ledger.rows) <= KeysOf(r.ledger.rows) && st1.seen <= r.seen;
    } else {
      var c' := cities[1..][k - 1];
      assert c' == cities[k];
      DiscoverAllCovers(st1, cities[1..], now, feeds, k - 1);
      assert CityKeys(feeds(c')) <= KeysOf(r.ledger.rows) && SeenPairs(c'.0, feeds(c')) <= r.seen;
    }
  }

  /** A state that already holds every city's objects and sightings is left unchanged. */
  lemma {:induction false} DiscoverAllPresent(st: State, cities: seq<(string, City)>, now: int, feeds: ((string, City)) -> CityFeeds)
    requires Valid(st.ledger)
    requires forall k | 0 <= k < |cities| :: CityKeys(feeds(cities[k])) <= KeysOf(st.ledger.rows)
    requires forall k | 0 <= k < |cities| :: SeenPairs(cities[k].0, feeds(cities[k])) <= st.seen
    ensures DiscoverAll(st, cities, now, feeds) == st
    decreases |cities|
  {
    if cities != [] {
      var c := cities[0];
      DiscoverCityPresent(st, c.0, now, feeds(c));
      var st1 := DiscoverCity(st, c.0, now, feeds(c)).0;
      assert st1 == st;
      DiscoverAllCons(st, cities, now, feeds);
      TailPresent(st, cities, feeds);
      DiscoverAllPresent(st, cities[1..], now, feeds);
    }
  }

  /** The hypotheses of `DiscoverAllPresent` carry over to the rest of the list. */
  lemma TailPresent(st: State, cities: seq<(string, City)>, feeds: ((string, City)) -> CityFeeds)
    requires cities != []
    requires forall k | 0 <= k < |cities| :: CityKeys(feeds(cities[k])) <= KeysOf(st.ledger.rows)
    requires forall k | 0 <= k < |cities| :: SeenPairs(cities[k].0, feeds(cities[k])) <= st.seen
    ensures forall k | 0 <= k < |cities[1..]| :: CityKeys(feeds(cities[1..][k])) <= KeysOf(st.ledger.rows)
    ensures forall k | 0 <= k < |cities[1..]| :: SeenPairs(cities[1..][k].0, feeds(cities[1..][k])) <= st.seen
  {
    assert forall k | 0 <= k < |cities[1..]| :: cities[1..][k] == cities[k + 1];
  }

  /** The daily run is idempotent: a second run over the same answers changes neither table. */
  lemma DiscoverAllIdempotent(st: State, locs: LocationTable, now: int, later: int, feeds: ((string, City)) -> CityFeeds)
    requires Valid(st.ledger)
    ensures var once := DiscoverAll(st, CityList(locs), now, feeds);
      DiscoverAll(once, CityList(locs), later, feeds) == once
  {
    var cities := CityList(locs);
    var once := DiscoverAll(st, cities, now, feeds);
    forall k | 0 <= k < |cities|
      ensures CityKeys(feeds(cities[k])) <= KeysOf(once.ledger.rows)
      ensures SeenPairs(cities[k].0, feeds(cities[k])) <= once.seen
    {
      DiscoverAllCovers(st, cities, now, feeds, k);
    }
    DiscoverAllPresent(once, cities, later, feeds);
  }
}

=== FILE: explore.dfy ===
/**
 * The Explore page: the "Near You" grids of spots, events and skaters
 * around a matched city, bot detection, the first city within its radius
 * of the visitor, and the alphabetical country list. Grids are modelled
 * by the cards they show; the API answers, the geolocation and the
 * distance formula are parameters.
 */
module Explore {
  import opened Wrappers
  import opened Strings
  import opened Seqs
  import opened Sorting
  import opened OrderedMap
  import opened Locations
  import opened Rendering

  /** What a grid holds: the `$type` argument of the grid renderer. */
  datatype GridKind = SpotsGrid | EventsGrid | SkatersGrid

  /** A nearby spot as the in-box search lists it. */
  datatype SpotRef = SpotRef(id: string, sessionsCount: Option<int>)

  /** `spotWithAddress` of a spot's detail fetch. */
  datatype SpotInfo = SpotInfo(id: string, name: Option<string>, satellite: Option<string>)

  /** A nearby event: its session id, name, and start and end as timestamps (the end may be missing). */
  datatype EventRef = EventRef(id: string, name: Option<string>, start: int, end: Option<int>)

  /** A nearby skater profile. */
  datatype SkaterRef = SkaterRef(skateName: Option<string>, userId: Option<string>)

  /**
   * The site and the API as the grids see them: `home_url`, the URL of the
   * templates directory, the token the grid renderer fetches for itself,
   * a spot's details (`None` when the fetch fails or lacks
   * `spotWithAddress`) and a session's attachment ids.
   */
  datatype Api = Api(
    home: string -> string, templateUrl: string, token: Result<string, string>,
    spotDetails: string -> Option<SpotInfo>, attachments: string -> Result<seq<string>, string>)

  const GridLimit: nat := 4

  /** The placeholder of a grid: the `ucfirst` of its type name. */
  function GridPlaceholder(kind: GridKind): string {
    "https://placehold.co/400x240/e0e0e0/757575?text=" +
    (match kind case SpotsGrid => "Spots" case EventsGrid => "Events" case SkatersGrid => "Skaters")
  }

  /** A spot's card: skipped on a token error or a failed detail fetch; the satellite image through the proxy when set. */
  function SpotTile(s: SpotRef, api: Api): (r: Option<Card>)
    ensures r.Some? <==> api.token.Ok? && api.spotDetails(s.id).Some?
    ensures r.Some? ==> r.value.name == api.spotDetails(s.id).value.name.GetOr("Skate Spot")
    ensures r.Some? ==> r.value.url == api.home("/spots/" + api.spotDetails(s.id).value.id + "/")
    ensures r.Some? ==> (r.value.image.Picture? <==> Truthy(api.spotDetails(s.id).value.satellite))
  {
    if api.token.Err? then None
    else match api.spotDetails(s.id)
      case None => None
      case Some(d) =>
        var image :=
          if Truthy(d.satellite)
          then Picture(api.templateUrl + "../image-proxy.php?type=spot_satellite&id=" + d.satellite.value + "&width=400&quality=75")
          else Placeholder(GridPlaceholder(SpotsGrid));
        Some(Card(api.home("/spots/" + d.id + "/"), image, d.name.GetOr("Skate Spot")))
  }

  /** An event's card: never skipped; the first attachment through the proxy when the token and the fetch give one. */
  function EventTile(e: EventRef, api: Api): (r: Option<Card>)
    ensures r.Some?
    ensures r.value.name == e.name.GetOr("Skate Event") && r.value.url == api.home("/events/" + e.id + "/")
    ensures r.value.image.Picture? <==> api.token.Ok? && api.attachments(e.id).Ok? && api.attachments(e.id).value != []
  {
    var image :=
      if api.token.Ok? && api.attachments(e.id).Ok? && api.attachments(e.id).value != []
      then Picture(api.templateUrl + "../image-proxy.php?type=event_attachment&id=" + api.attachments(e.id).value[0] +
                   "&session_id=" + e.id + "&width=400&quality=75")
      else Placeholder(GridPlaceholder(EventsGrid));
    Some(Card(api.home("/events/" + e.id + "/"), image, e.name.GetOr("Skate Event")))
  }

  /** A skater's card: never skipped; always the avatar, which falls back to a placeholder in the browser. */
  function SkaterTile(p: SkaterRef, api: Api): (r: Option<Card>)
    ensures r.Some? && r.value.image.Picture?
    ensures r.value.name == p.skateName.GetOr("Local Skater")
    ensures r.value.url == api.home("/skaters/" + p.skateName.GetOr("") + "/")
    ensures StartsWith(r.value.image.url, ApiUser + p.userId.GetOr("") + "/")
  {
    var prefix := ApiUser + p.userId.GetOr("") + "/";
    var avatar := prefix + "avatar/content/processed?width=120&height=120&quality=75";
    assert avatar[..|prefix|] == prefix;
    Some(Card(api.home("/skaters/" + p.skateName.GetOr("") + "/"), Picture(avatar), p.skateName.GetOr("Local Skater")))
  }

  /** An option holds a value. */
  predicate IsSome<T>(o: Option<T>) {
    o.Some?
  }

  /** A value as a present option. */
  function Wrap<T>(x: T): Option<T> {
    Some(x)
  }

  /** The present values, in order. */
  function Somes<T(!new)>(xs: seq<Option<T>>): (r: seq<T>)
    ensures |r| <= |xs|
    ensures forall x :: x in r <==> Some(x) in xs
    ensures (forall i :: 0 <= i < |xs| ==> xs[i].Some?) ==> |r| == |xs| && forall i :: 0 <= i < |r| ==> xs[i] == Some(r[i])
  {
    if xs == [] then []
    else
      var t := Somes(xs[1..]);
      assert xs == [xs[0]] + xs[1..];
      if xs[0].Some? then [xs[0].value] + t else t
  }

  /** Wrapped again, the present values are the options that are present, in their order. */
  lemma {:induction false} SomesInOrder<T(!new)>(xs: seq<Option<T>>)
    ensures Map(Somes(xs), Wrap) == Filter(xs, IsSome)
  {
    if xs != [] {
      SomesInOrder(xs[1..]);
      var t := Somes(xs[1..]);
      if xs[0].Some? {
        assert Map([xs[0].value] + t, Wrap) == [xs[0]] + Map(t, Wrap);
      }
    }
  }

  /**
   * `lr_render_nearby_grid`: the cards of the first four items, in order,
   * leaving out those whose card is skipped.
   */
  function Grid<T>(items: seq<T>, tile: T -> Option<Card>): (r: seq<Card>)
    ensures items == [] ==> r == []
    ensures |r| <= GridLimit
    ensures forall c :: c in r <==> exists j :: 0 <= j < |items| && j < GridLimit && tile(items[j]) == Some(c)
    ensures (forall j :: 0 <= j < |items| && j < GridLimit ==> tile(items[j]).Some?) ==>
      (|r| == |Take(items, GridLimit)| && forall i :: 0 <= i < |r| ==> tile(items[i]) == Some(r[i]))
  {
    var first := Take(items, GridLimit);
    var tiles := Map(first, tile);
    assert forall c :: Some(c) in tiles <==> exists j :: 0 <= j < |first| && tile(first[j]) == Some(c);
    Somes(tiles)
  }

  /**
   * For any pattern of skipped cards, the grid is the cards of the first
   * four items that are not skipped, in the items' order.
   */
  lemma GridInOrder<T>(items: seq<T>, tile: T -> Option<Card>)
    ensures Map(Grid(items, tile), Wrap) == Filter(Map(Take(items, GridLimit), tile), IsSome)
  {
    SomesInOrder(Map(Take(items, GridLimit), tile));
  }

  /** The sort key of nearby spots: descending session count, a missing count counting as 0. */
  function BySessionsDesc(s: SpotRef): int {
    -s.sessionsCount.GetOr(0)
  }

  /** The in-box spots, most sessions first; spots with equal counts keep their order. */
  function RankedSpots(spots: seq<SpotRef>): (r: seq<SpotRef>)
    ensures multiset(r) == multiset(spots)
    ensures forall i, j :: 0 <= i < j < |r| ==> r[i].sessionsCount.GetOr(0) >= r[j].sessionsCount.GetOr(0)
    ensures forall n :: WithKey(r, BySessionsDesc, n) == WithKey(spots, BySessionsDesc, n)
  {
    var r := SortBy(spots, BySessionsDesc);
    SortByStableAll(spots, BySessionsDesc);
    assert forall i, j :: 0 <= i < j < |r| ==> BySessionsDesc(r[i]) <= BySessionsDesc(r[j]);
    r
  }

  predicate EndsAfter(now: int, e: EventRef) {
    e.end.Some? && e.end.value > now
  }

  function StartOf(e: EventRef): int {
    e.start
  }

  /**
   * The events with an end date after `now`, earliest start first; events
   * that start at the same time keep their order, as `usort` is stable.
   */
  function Upcoming(events: seq<EventRef>, now: int): (r: seq<EventRef>)
    ensures forall e :: e in r <==> e in events && e.end.Some? && e.end.value > now
    ensures multiset(r) == multiset(Filter(events, e => EndsAfter(now, e)))
    ensures forall i, j :: 0 <= i < j < |r| ==> r[i].start <= r[j].start
    ensures forall t :: WithKey(r, StartOf, t) == WithKey(Filter(events, e => EndsAfter(now, e)), StartOf, t)
  {
    var kept := Filter(events, e => EndsAfter(now, e));
    SortByMembers(kept, StartOf);
    SortByStableAll(kept, StartOf);
    SortBy(kept, StartOf)
  }

  /** One "Near You" block: its cards, and the "View All" link when both slugs are known. */
  datatype Section = Section(cards: seq<Card>, viewAll: Option<string>)

  /**
   * What the nearby renderer returns: the invalid-token notice, the
   * nothing-found message, or its blocks in page order (spots, events,
   * skaters), at least one of them present.
   */
  datatype Nearby = InvalidToken | NothingNear | Found(spots: Option<Section>, events: Option<Section>, skaters: Option<Section>)

  /** The three searches around a point; an error or an empty answer counts as nothing found. */
  datatype Feeds = Feeds(spots: Result<seq<SpotRef>, string>, events: Result<seq<EventRef>, string>, skaters: Result<seq<SkaterRef>, string>)

  /** The list page a "View All" link of this kind opens. */
  function ListSegment(kind: GridKind): string {
    match kind
    case SpotsGrid => "skatespots"
    case EventsGrid => "events"
    case SkatersGrid => "skaters"
  }

  /** The "View All" link: only when both the country and the city slug are truthy. */
  function ViewAll(kind: GridKind, country: Option<string>, city: Option<string>, api: Api): (r: Option<string>)
    ensures r.Some? <==> Truthy(country) && Truthy(city)
    ensures r.Some? ==> r.value == api.home("/" + country.value + "/" + city.value + "/" + ListSegment(kind) + "/")
  {
    if Truthy(country) && Truthy(city)
    then Some(api.home("/" + country.value + "/" + city.value + "/" + ListSegment(kind) + "/"))
    else None
  }

  /** The spots block: present when the search found any spot; its grid ranks them by sessions first. */
  function SpotsSection(f: Feeds, country: Option<string>, city: Option<string>, api: Api): (r: Option<Section>)
    ensures r.Some? <==> f.spots.Ok? && f.spots.value != []
    ensures r.Some? ==> r.value.cards == Grid(RankedSpots(f.spots.value), s => SpotTile(s, api))
    ensures r.Some? ==> (r.value.viewAll.Some? <==> Truthy(country) && Truthy(city))
  {
    if f.spots.Ok? && f.spots.value != []
    then Some(Section(Grid(RankedSpots(f.spots.value), s => SpotTile(s, api)), ViewAll(SpotsGrid, country, city, api)))
    else None
  }

  /** The events block: present when an event has not ended yet, however many events the search returned. */
  function EventsSection(f: Feeds, now: int, country: Option<string>, city: Option<string>, api: Api): (r: Option<Section>)
    ensures r.Some? <==> f.events.Ok? && exists e :: e in f.events.value && EndsAfter(now, e)
    ensures r.Some? ==> r.value.cards == Grid(Upcoming(f.events.value, now), e => EventTile(e, api))
    ensures r.Some? ==> (r.value.viewAll.Some? <==> Truthy(country) && Truthy(city))
  {
    if f.events.Ok? && Upcoming(f.events.value, now) != [] then
      Some(Section(Grid(Upcoming(f.events.value, now), e => EventTile(e, api)), ViewAll(EventsGrid, country, city, api)))
    else
      assert f.events.Ok? ==> forall e :: e in f.events.value && EndsAfter(now, e) ==> e in Upcoming(f.events.value, now);
      None
  }

  /** The skaters block: present when the search found any profile. */
  function SkatersSection(f: Feeds, country: Option<string>, city: Option<string>, api: Api): (r: Option<Section>)
    ensures r.Some? <==> f.skaters.Ok? && f.skaters.value != []
    ensures r.Some? ==> r.value.cards == Grid(f.skaters.value, p => SkaterTile(p, api))
    ensures r.Some? ==> (r.value.viewAll.Some? <==> Truthy(country) && Truthy(city))
  {
    if f.skaters.Ok? && f.skaters.value != []
    then Some(Section(Grid(f.skaters.value, p => SkaterTile(p, api)), ViewAll(SkatersGrid, country, city, api)))
    else None
  }

  /**
   * `lr_get_and_render_nearby_content`: spots, then upcoming events, then
   * skaters, each only when its search found something; the fallback
   * message when none did.
   */
  function NearbyContent(token: Result<string, string>, f: Feeds, now: int, country: Option<string>, city: Option<string>, api: Api): (r: Nearby)
    ensures r.InvalidToken? <==> token.Err?
    ensures r.NothingNear? <==>
      token.Ok? && (f.spots.Err? || f.spots.value == []) && (f.skaters.Err? || f.skaters.value == []) &&
      (f.events.Err? || forall e :: e in f.events.value ==> !EndsAfter(now, e))
    ensures r.Found? ==> r.spots == SpotsSection(f, country, city, api)
    ensures r.Found? ==> r.events == EventsSection(f, now, country, city, api)
    ensures r.Found? ==> r.skaters == SkatersSection(f, country, city, api)
  {
    if token.Err? then InvalidToken
    else
      var spots := SpotsSection(f, country, city, api);
      var events := EventsSection(f, now, country, city, api);
      var skaters := SkatersSection(f, country, city, api);
      if spots.None? && events.None? && skaters.None? then NothingNear else Found(spots, events, skaters)
  }

  const BotAgents: seq<string> := ["Googlebot", "Bingbot", "Slurp", "DuckDuckBot", "Baiduspider", "YandexBot"]

  /** The `foreach … stripos … break` scan: some listed name occurs in the agent, ignoring ASCII case. */
  function MatchesAny(agent: string, names: seq<string>): (r: bool)
    ensures r <==> exists i :: 0 <= i < |names| && ContainsNoCase(agent, names[i])
  {
    if names == [] then false
    else
      assert forall i :: 0 < i < |names| ==> names[i] == names[1..][i - 1];
      ContainsNoCase(agent, names[0]) || MatchesAny(agent, names[1..])
  }

  predicate IsBot(agent: string) {
    MatchesAny(agent, BotAgents)
  }

  lemma {:induction false} LowerIdempotent(s: string)
    ensures Lower(Lower(s)) == Lower(s)
  {
    if s != [] {
      LowerIdempotent(s[1..]);
    }
  }

  /** Bot detection ignores the case of the user agent. */
  lemma BotCaseInsensitive(agent: string)
    ensures IsBot(agent) <==> IsBot(Lower(agent))
  {
    LowerIdempotent(agent);
  }

  /** A (country slug, city slug, city) entry in table order. */
  datatype CityEntry = CityEntry(country: string, city: string, details: City)

  function CountryEntries(country: string, cities: Dict<string, City>): (r: seq<CityEntry>)
    ensures |r| == |cities|
    ensures forall i :: 0 <= i < |r| ==> r[i] == CityEntry(country, cities[i].0, cities[i].1)
  {
    if cities == [] then [] else [CityEntry(country, cities[0].0, cities[0].1)] + CountryEntries(country, cities[1..])
  }

  /** The nested `foreach` over countries and their cities. */
  function Entries(locs: LocationTable): (r: seq<CityEntry>)
    ensures forall e :: e in r ==> exists i :: 0 <= i < |locs| && e.country == locs[i].0 && (e.city, e.details) in locs[i].1.cities
  {
    if locs == [] then []
    else
      var t := Entries(locs[1..]);
      assert forall e :: e in t ==> exists i :: 1 <= i < |locs| && e.country == locs[i].0 && (e.city, e.details) in locs[i].1.cities;
      CountryEntries(locs[0].0, locs[0].1.cities) + t
  }

  /**
   * `$distance <= $city_details['radius_km']`. Without a radius PHP
   * compares the distance with null as booleans, which holds only for a
   * distance of exactly 0.
   */
  predicate Within(distanceKm: (string, string) -> real, e: CityEntry) {
    match e.details.radiusKm
    case Some(radius) => distanceKm(e.country, e.city) <= radius as real
    case None => distanceKm(e.country, e.city) == 0.0
  }

  /** The first city, in table order, whose radius reaches the visitor. */
  function MatchCity(locs: LocationTable, distanceKm: (string, string) -> real): (r: Option<CityEntry>)
    ensures r.Some? ==> r.value in Entries(locs) && Within(distanceKm, r.value)
    ensures r.Some? ==> exists k :: IsFirst(Entries(locs), e => Within(distanceKm, e), k) && Entries(locs)[k] == r.value
    ensures r.None? <==> forall e :: e in Entries(locs) ==> !Within(distanceKm, e)
  {
    var entries := Entries(locs);
    match FirstWhere(entries, e => Within(distanceKm, e))
    case None => None
    case Some(k) => Some(entries[k])
  }

  const LocalAddresses: seq<string> := ["127.0.0.1", "::1"]

  /** Where the visitor is, as IP geolocation reports it: their distance to each (country, city), or nothing when the lookup fails. */
  datatype Geo = Geo(distanceKm: (string, string) -> real)

  /** The note under "Rollerskating Near You". */
  datatype Note = LocalTesting | BasedOn(cityName: string)

  /** The "Near You" block: hidden, or shown with its note and content. */
  datatype NearYou = Hidden | Shown(note: Note, content: Nearby)

  /**
   * The city-matching part of `lr_render_explore_page_content`. Bots and
   * token errors get no block; a local address tests with Los Angeles;
   * any other address is geolocated and matched against the table. The
   * nearby renderer never returns an empty string, so a matched city is
   * always shown.
   */
  function NearYouBlock(agent: string, token: Result<string, string>, ip: string, geo: Option<Geo>,
                        locs: LocationTable, feeds: (string, string) -> Feeds, now: int, api: Api): (r: NearYou)
    ensures IsBot(agent) || token.Err? ==> r.Hidden?
    ensures !IsBot(agent) && token.Ok? && ip in LocalAddresses ==>
      (r.Shown? <==> CityDetails(locs, "united-states", "los-angeles").Some?)
    ensures r.Shown? && r.note.LocalTesting? ==> ip in LocalAddresses
    ensures !IsBot(agent) && token.Ok? && ip !in LocalAddresses ==>
      (r.Shown? <==> geo.Some? && MatchCity(locs, geo.value.distanceKm).Some?)
    ensures r.Shown? && r.note.BasedOn? ==>
      ip !in LocalAddresses && r.note.cityName == MatchCity(locs, geo.value.distanceKm).value.details.name
    ensures r.Shown? ==> !r.content.InvalidToken?
  {
    if IsBot(agent) || token.Err? then Hidden
    else if ip in LocalAddresses then
      match CityDetails(locs, "united-states", "los-angeles")
      case None => Hidden
      case Some(_) =>
        Shown(LocalTesting, NearbyContent(token, feeds("united-states", "los-angeles"), now, Some("united-states"), Some("los-angeles"), api))
    else
      match geo
      case None => Hidden
      case Some(g) =>
        match MatchCity(locs, g.distanceKm)
        case None => Hidden
        case Some(e) =>
          Shown(BasedOn(e.details.name), NearbyContent(token, feeds(e.country, e.city), now, Some(e.country), Some(e.city), api))
  }

  function CountryName(e: (string, Country)): string {
    e.1.name
  }

  /** A country link: the country's name and its page. */
  datatype CountryLink = CountryLink(name: string, url: string)

  function LinkOf(home: string -> string, e: (string, Country)): CountryLink {
    CountryLink(e.1.name, home("/" + e.0 + "/"))
  }

  /** A link per entry, in order. */
  function Links(xs: seq<(string, Country)>, home: string -> string): (r: seq<CountryLink>)
    ensures |r| == |xs|
    ensures forall i :: 0 <= i < |xs| ==> r[i] == LinkOf(home, xs[i])
  {
    if xs == [] then [] else [LinkOf(home, xs[0])] + Links(xs[1..], home)
  }

  /**
   * The full country list: `None` (the "no locations configured" notice)
   * for an empty table, otherwise a link per country, sorted by name.
   */
  function CountryLinks(locs: LocationTable, home: string -> string): (r: Option<seq<CountryLink>>)
    ensures r.None? <==> locs == []
    ensures r.Some? ==> |r.value| == |locs|
    ensures r.Some? ==> forall i, j :: 0 <= i < j < |r.value| ==> !StrLess(r.value[j].name, r.value[i].name)
    ensures r.Some? ==> forall e :: e in locs ==> LinkOf(home, e) in r.value
    ensures r.Some? ==> forall l :: l in r.value ==> exists e :: e in locs && l == LinkOf(home, e)
  {
    if locs == [] then None
    else
      var sorted := SortByName(locs, CountryName);
      LinksOfSorted(locs, sorted, home);
      Some(Links(sorted, home))
  }

  /** The links of a sorted permutation of the table: sorted by name, one per entry. */
  lemma LinksOfSorted(locs: LocationTable, sorted: LocationTable, home: string -> string)
    requires multiset(locs) == multiset(sorted) && SortedByName(sorted, CountryName)
    ensures forall i, j :: 0 <= i < j < |sorted| ==> !StrLess(Links(sorted, home)[j].name, Links(sorted, home)[i].name)
    ensures forall e :: e in locs ==> LinkOf(home, e) in Links(sorted, home)
    ensures forall l :: l in Links(sorted, home) ==> exists e :: e in locs && l == LinkOf(home, e)
  {
    var links := Links(sorted, home);
    SameElements(locs, sorted);
    forall i, j | 0 <= i < j < |sorted|
      ensures !StrLess(links[j].name, links[i].name)
    {
      assert links[j].name == CountryName(sorted[j]) && links[i].name == CountryName(sorted[i]);
    }
    forall e | e in locs
      ensures LinkOf(home, e) in links
    {
      var i :| 0 <= i < |sorted| && sorted[i] == e;
      assert links[i] == LinkOf(home, e);
    }
    forall l | l in links
      ensures exists e :: e in locs && l == LinkOf(home, e)
    {
      var i :| 0 <= i < |links| && links[i] == l;
      assert sorted[i] in locs;
    }
  }

  lemma SameElements<T>(a: seq<T>, b: seq<T>)
    requires multiset(a) == multiset(b)
    ensures forall x :: x in a <==> x in b
  {
    forall x ensures x in a <==> x in b {
      assert x in a <==> x in multiset(a);
      assert x in b <==> x in multiset(b);
    }
  }
}

=== FILE: image_proxy.dfy ===
/**
 * The authenticated image proxy: request parameters are checked, the
 * API URL of a spot satellite image or an event attachment is built, and
 * the upstream image is passed through or a status code is returned.
 * Loading WordPress itself (the 500 when `wp-load.php` is missing) is
 * not part of this model.
 */
module ImageProxy {
  import opened Wrappers
  import opened Strings

  const ApiBase := "https://beta.web." + "lets-roll.app/api/"
  const SpotKind := "spot_satellite"
  const EventKind := "event_attachment"
  const DefaultWidth := 800
  const DefaultQuality := 85

  /** The query string: `type`, `id` and `session_id` ("" when absent), and `width`/`quality` after `intval` when present. */
  datatype Params = Params(kind: string, id: string, sessionId: string, width: Option<int>, quality: Option<int>)

  /** PHP's `round($w * 0.6)`: to the nearest integer, halves away from zero (3w/5 is never a half). */
  function Height(w: int): (r: int)
    ensures -2 <= 5 * r - 3 * w <= 2
    ensures w >= 0 ==> r >= 0
  {
    if w >= 0 then (6 * w + 5) / 10 else -((-6 * w + 5) / 10)
  }

  /** The default width asks for a 480-pixel-high image. */
  lemma DefaultHeight()
    ensures Height(DefaultWidth) == 480
  {
  }

  /** The shared tail of both API URLs: width, rounded height and quality. */
  function SizeQuery(width: int, quality: int): string {
    "/content/processed?width=" + IntToString(width) + "&height=" + IntToString(Height(width)) + "&quality=" + IntToString(quality)
  }

  /** Why a request is refused before any upstream call. */
  datatype Rejection = MissingParams | MissingSession | InvalidType

  /** The upstream URL of a spot's satellite image. */
  function SpotUrl(id: string, size: string): string {
    ApiBase + ("spots/attachment/" + id + size)
  }

  /** The upstream URL of a session's attachment. */
  function EventUrl(sessionId: string, id: string, size: string): string {
    ApiBase + ("roll-session/" + sessionId + "/attachments/" + id + size)
  }

  /**
   * The parameter checks and the URL switch: `type` and `id` must be
   * true in PHP, an event attachment also needs a session id, and any
   * other type is invalid.
   */
  function ApiUrl(p: Params): (r: Result<string, Rejection>)
    ensures PhpEmpty(p.kind) || PhpEmpty(p.id) ==> r == Err(MissingParams)
    ensures !PhpEmpty(p.kind) && !PhpEmpty(p.id) && p.kind != SpotKind && p.kind != EventKind ==> r == Err(InvalidType)
    ensures !PhpEmpty(p.id) && p.kind == EventKind && PhpEmpty(p.sessionId) ==> r == Err(MissingSession)
    ensures r.Ok? ==> StartsWith(r.value, ApiBase)
    ensures r.Ok? && p.kind == SpotKind ==>
      r.value == SpotUrl(p.id, SizeQuery(p.width.GetOr(DefaultWidth), p.quality.GetOr(DefaultQuality)))
    ensures r.Ok? && p.kind == EventKind ==>
      r.value == EventUrl(p.sessionId, p.id, SizeQuery(p.width.GetOr(DefaultWidth), p.quality.GetOr(DefaultQuality)))
  {
    var size := SizeQuery(p.width.GetOr(DefaultWidth), p.quality.GetOr(DefaultQuality));
    if PhpEmpty(p.kind) || PhpEmpty(p.id) then Err(MissingParams)
    else if p.kind == SpotKind then
      StartsWithAppend(ApiBase, "spots/attachment/" + p.id + size);
      Ok(SpotUrl(p.id, size))
    else if p.kind == EventKind then
      if PhpEmpty(p.sessionId) then Err(MissingSession)
      else
        StartsWithAppend(ApiBase, "roll-session/" + p.sessionId + "/attachments/" + p.id + size);
        Ok(EventUrl(p.sessionId, p.id, size))
    else Err(InvalidType)
  }

  /** What the upstream request returned. */
  datatype Reply = TransportError | HttpReply(code: int, contentType: string, body: string)

  /** The proxy's answer: an error status, or the image with its type, served for a day of caching. */
  datatype Response = Status(code: int) | Image(contentType: string, body: string, maxAge: int)

  /**
   * The whole request: a token error is 401 before the parameters are
   * read; a refused request is 400; an upstream failure or non-200 is
   * 502; otherwise the image body and content type are passed through.
   */
  function Proxy(token: Result<string, string>, p: Params, fetch: (string, string) -> Reply): (r: Response)
    ensures token.Err? ==> r == Status(401)
    ensures token.Ok? && ApiUrl(p).Err? ==> r == Status(400)
    ensures r.Image? ==> (token.Ok? && ApiUrl(p).Ok? &&
                          fetch(ApiUrl(p).value, "Bearer " + token.value) == HttpReply(200, r.contentType, r.body) &&
                          r.maxAge == 86400)
    ensures token.Ok? && ApiUrl(p).Ok? && !fetch(ApiUrl(p).value, "Bearer " + token.value).HttpReply? ==> r == Status(502)
    ensures r.Status? ==> r.code in {400, 401, 502}
  {
    if token.Err? then Status(401)
    else match ApiUrl(p)
      case Err(_) => Status(400)
      case Ok(url) =>
        match fetch(url, "Bearer " + token.value)
        case TransportError => Status(502)
        case HttpReply(code, contentType, body) =>
          if code != 200 then Status(502) else Image(contentType, body, 86400)
  }

  /** Only a 200 from upstream is served; every other upstream code is a 502. */
  lemma OnlyOkIsServed(token: Result<string, string>, p: Params, fetch: (string, string) -> Reply)
    requires token.Ok? && ApiUrl(p).Ok?
    ensures Proxy(token, p, fetch).Image? <==> (fetch(ApiUrl(p).value, "Bearer " + token.value).HttpReply? &&
                                               fetch(ApiUrl(p).value, "Bearer " + token.value).code == 200)
  {
  }

  /** A spot image and an event attachment never share an upstream URL. */
  lemma SpotAndEventUrlsDiffer(spot: Params, event: Params)
    requires spot.kind == SpotKind && event.kind == EventKind
    requires ApiUrl(spot).Ok? && ApiUrl(event).Ok?
    ensures ApiUrl(spot).value != ApiUrl(event).value
  {
    var n := |ApiBase|;
    var a := ApiUrl(spot).value;
    var b := ApiUrl(event).value;
    assert a[n] == 's';
    assert b[n] == 'r';
  }
}

=== FILE: import_export.dfy ===
/**
 * The Import / Export page: the `lr_action` dispatcher with its nonce
 * checks, the two JSON exports (one table each, under a single key), and
 * the import, which writes every row with `REPLACE` and counts the rows
 * of each section.
 */
module ImportExport {
  import opened Wrappers
  import opened OrderedMap

  /**
   * A table row: its primary key `id`, the pair of columns under the
   * table's UNIQUE KEY (`api_id_type` on the discovered content,
   * `city_post_slug` on the city updates; both columns NOT NULL), and its
   * other columns.
   */
  datatype Row = Row(key: string, unique: (string, string), columns: seq<(string, string)>)

  /** A table keyed by primary key. */
  type Table = Dict<string, Row>

  /** Every entry is filed under its own row's key, and no two rows share the unique key. */
  predicate WellKeyed(t: Table) {
    DistinctKeys(t) &&
    (forall i :: 0 <= i < |t| ==> t[i].0 == t[i].1.key) &&
    (forall i, j :: 0 <= i < j < |t| ==> t[i].1.unique != t[j].1.unique)
  }

  /** The two tables the page exports and imports. */
  datatype Tables = Tables(discovered: Table, updates: Table)

  /** A decoded import file: `discovered_content` and `city_updates` when present. */
  datatype ImportData = ImportData(discovered: Option<seq<Row>>, updates: Option<seq<Row>>)

  /** `$_FILES['lr_import_file']`: missing, failed, or the uploaded file's content. */
  datatype Upload = NoFile | UploadError | Uploaded(content: string)

  /** The POSTed fields: the action, the export and import nonces, and the upload. */
  datatype Request = Request(action: Option<string>, exportNonce: Option<string>, importNonce: Option<string>, upload: Upload)

  /**
   * What the handler does: nothing (no action, or an action whose nonce
   * fails), a download of one table under one key, an import with its two
   * counts, or one of the two error notices.
   */
  datatype Outcome =
    | NoAction
    | Download(key: string, rows: seq<Row>)
    | Imported(discoveredCount: nat, updatesCount: nat)
    | InvalidJson
    | UploadFailed

  /** The rows of a table in order: `SELECT *`. */
  function Rows(t: Table): (r: seq<Row>)
    ensures |r| == |t|
    ensures forall i :: 0 <= i < |t| ==> r[i] == t[i].1
  {
    if t == [] then [] else [t[0].1] + Rows(t[1..])
  }

  /** A stored row that writing `x` with `REPLACE` deletes: it has `x`'s id or `x`'s unique key. */
  predicate Clashes(r: Row, x: Row) {
    r.key == x.key || r.unique == x.unique
  }

  /** The entries of `t` that survive the delete half of `REPLACE x`, in order. */
  function Without(t: Table, x: Row): (r: Table)
    ensures forall e :: e in r <==> e in t && !Clashes(e.1, x)
    ensures (forall i :: 0 <= i < |t| ==> !Clashes(t[i].1, x)) ==> r == t
    decreases |t|
  {
    if t == [] then []
    else
      var rest := Without(t[1..], x);
      assert t == [t[0]] + t[1..];
      if Clashes(t[0].1, x) then rest else [t[0]] + rest
  }

  /** Deleting rows keeps a table well keyed. */
  lemma {:induction false} WithoutKeyed(t: Table, x: Row)
    requires WellKeyed(t)
    ensures WellKeyed(Without(t, x))
    decreases |t|
  {
    if t != [] {
      TailKeyed(t);
      WithoutKeyed(t[1..], x);
      if !Clashes(t[0].1, x) {
        ConsKeyed(t[0], Without(t[1..], x), t[1..]);
      }
    }
  }

  /** The tail of a well-keyed table is well keyed, and shares neither key of its head. */
  lemma TailKeyed(t: Table)
    requires WellKeyed(t) && t != []
    ensures WellKeyed(t[1..])
    ensures forall e :: e in t[1..] ==> e.0 != t[0].0 && e.1.unique != t[0].1.unique
  {
    forall e | e in t[1..]
      ensures e.0 != t[0].0 && e.1.unique != t[0].1.unique
    {
      var j :| 0 <= j < |t[1..]| && t[1..][j] == e;
      assert t[j + 1] == e;
    }
  }

  /** A head clashing with nothing of a well-keyed table drawn from `t` keeps it well keyed. */
  lemma ConsKeyed(h: (string, Row), r: Table, t: Table)
    requires WellKeyed(r) && h.0 == h.1.key
    requires forall e :: e in r ==> e in t
    requires forall e :: e in t ==> e.0 != h.0 && e.1.unique != h.1.unique
    ensures WellKeyed([h] + r)
  {
    var c := [h] + r;
    forall i, j | 0 <= i < j < |c|
      ensures c[i].0 != c[j].0 && c[i].1.unique != c[j].1.unique
    {
      assert c[j] == r[j - 1] && c[j] in t;
      if i > 0 {
        assert c[i] == r[i - 1];
      }
    }
  }

  /** A well-keyed table with a row clashing with none of it appended stays well keyed. */
  lemma SnocKeyed(t: Table, x: Row)
    requires WellKeyed(t)
    requires forall e :: e in t ==> !Clashes(e.1, x)
    ensures WellKeyed(t + [(x.key, x)])
  {
    var c := t + [(x.key, x)];
    forall i, j | 0 <= i < j < |c|
      ensures c[i].0 != c[j].0 && c[i].1.unique != c[j].1.unique
    {
      assert c[i] == t[i] && c[i] in t;
      if j < |t| {
        assert c[j] == t[j];
      }
    }
  }

  /** In a well-keyed table the row found under `k` has id `k`. */
  lemma LookupKeyed(t: Table, k: string)
    requires WellKeyed(t)
    ensures Lookup(t, k).Some? ==> Lookup(t, k).value.key == k
  {
    if Lookup(t, k).Some? {
      var j :| 0 <= j < |t| && t[j] == (k, Lookup(t, k).value);
    }
  }

  /** The row under `k` after the delete half of `REPLACE x`: gone if it clashed with `x`, else as before. */
  lemma WithoutLookup(t: Table, x: Row, k: string)
    requires WellKeyed(t)
    ensures Lookup(Without(t, x), k) == if Lookup(t, k).Some? && Clashes(Lookup(t, k).value, x) then None else Lookup(t, k)
  {
    var w := Without(t, x);
    WithoutKeyed(t, x);
    LookupMember(t, k, Lookup(t, k).GetOr(x));
    if Lookup(w, k).Some? {
      LookupMember(w, k, Lookup(w, k).value);
      LookupMember(t, k, Lookup(w, k).value);
    } else if Lookup(t, k).Some? && !Clashes(Lookup(t, k).value, x) {
      assert (k, Lookup(t, k).value) in w;
      LookupMember(w, k, Lookup(t, k).value);
    }
  }

  /**
   * `$wpdb->replace`: MySQL's REPLACE deletes every row that has the new
   * row's id or its unique key, then inserts the new row.
   */
  function Replace(t: Table, x: Row): (r: Table)
    requires WellKeyed(t)
    ensures WellKeyed(r)
  {
    WithoutKeyed(t, x);
    SnocKeyed(Without(t, x), x);
    Without(t, x) + [(x.key, x)]
  }

  /**
   * After `REPLACE x`, `x` is under its own id; a row that had `x`'s unique
   * key under another id is gone; every other row is as it was.
   */
  lemma ReplaceLookup(t: Table, x: Row, k: string)
    requires WellKeyed(t)
    ensures Lookup(Replace(t, x), k) ==
      if k == x.key then Some(x)
      else if Lookup(t, k).Some? && Lookup(t, k).value.unique == x.unique then None
      else Lookup(t, k)
  {
    var w := Without(t, x);
    LookupAppend(w, (x.key, x), k);
    WithoutLookup(t, x, k);
    LookupKeyed(t, k);
    if x.key in Keys(w) {
      var j :| 0 <= j < |w| && Keys(w)[j] == x.key;
      assert w[j] in w;
    }
  }

  /** The `foreach … $wpdb->replace` loop over one section. */
  function ReplaceRows(t: Table, rows: seq<Row>): (r: Table)
    requires WellKeyed(t)
    ensures WellKeyed(r)
    decreases |rows|
  {
    if rows == [] then t else ReplaceRows(Replace(t, rows[0]), rows[1..])
  }

  /** Imported row `i` is still standing at the end: no later row of the section has its id or its unique key. */
  predicate Standing(rows: seq<Row>, i: int) {
    0 <= i < |rows| && forall j :: i < j < |rows| ==> !Clashes(rows[j], rows[i])
  }

  /** A stored row that no imported row clashes with. */
  predicate Untouched(rows: seq<Row>, y: Row) {
    forall j :: 0 <= j < |rows| ==> !Clashes(rows[j], y)
  }

  /** Imported row `i`, if still standing at the end, is what its id holds. */
  lemma {:induction false} ReplaceRowsStanding(t: Table, rows: seq<Row>, i: int)
    requires WellKeyed(t) && Standing(rows, i)
    ensures Lookup(ReplaceRows(t, rows), rows[i].key) == Some(rows[i])
    decreases |rows|
  {
    var t' := Replace(t, rows[0]);
    if i == 0 {
      ReplaceLookup(t, rows[0], rows[0].key);
      assert Untouched(rows[1..], rows[0]) by {
        forall j | 0 <= j < |rows[1..]| ensures !Clashes(rows[1..][j], rows[0]) {
          assert rows[1..][j] == rows[j + 1];
        }
      }
      ReplaceRowsUntouched(t', rows[1..], rows[0].key);
    } else {
      assert Standing(rows[1..], i - 1) by {
        forall j | i - 1 < j < |rows[1..]| ensures !Clashes(rows[1..][j], rows[1..][i - 1]) {
          assert rows[1..][j] == rows[j + 1];
        }
      }
      ReplaceRowsStanding(t', rows[1..], i - 1);
    }
  }

  /** A stored row that no imported row clashes with is still there at the end. */
  lemma {:induction false} ReplaceRowsUntouched(t: Table, rows: seq<Row>, k: string)
    requires WellKeyed(t) && Lookup(t, k).Some? && Untouched(rows, Lookup(t, k).value)
    ensures Lookup(ReplaceRows(t, rows), k) == Lookup(t, k)
    decreases |rows|
  {
    if rows != [] {
      LookupKeyed(t, k);
      ReplaceLookup(t, rows[0], k);
      assert !Clashes(rows[0], Lookup(t, k).value);
      var t' := Replace(t, rows[0]);
      assert Untouched(rows[1..], Lookup(t', k).value) by {
        forall j | 0 <= j < |rows[1..]| ensures !Clashes(rows[1..][j], Lookup(t', k).value) {
          assert rows[1..][j] == rows[j + 1];
        }
      }
      ReplaceRowsUntouched(t', rows[1..], k);
    }
  }

  /** Whatever an id holds at the end is a standing imported row, or an untouched row it held before. */
  lemma {:induction false} ReplaceRowsOrigin(t: Table, rows: seq<Row>, k: string)
    requires WellKeyed(t)
    ensures var y := Lookup(ReplaceRows(t, rows), k);
      y.Some? ==>
        (exists i :: Standing(rows, i) && rows[i] == y.value) ||
        (Lookup(t, k) == y && Untouched(rows, y.value))
    decreases |rows|
  {
    var y := Lookup(ReplaceRows(t, rows), k);
    if rows != [] && y.Some? {
      var t' := Replace(t, rows[0]);
      ReplaceRowsOrigin(t', rows[1..], k);
      if i' :| Standing(rows[1..], i') && rows[1..][i'] == y.value {
        assert Standing(rows, i' + 1) by {
          forall j | i' + 1 < j < |rows| ensures !Clashes(rows[j], rows[i' + 1]) {
            assert rows[j] == rows[1..][j - 1];
          }
        }
      } else {
        assert Lookup(t', k) == y && Untouched(rows[1..], y.value);
        ReplaceLookup(t, rows[0], k);
        LookupKeyed(t, k);
        if k == rows[0].key {
          assert Standing(rows, 0) by {
            forall j | 0 < j < |rows| ensures !Clashes(rows[j], rows[0]) {
              assert rows[j] == rows[1..][j - 1];
            }
          }
        } else {
          assert Untouched(rows, y.value) by {
            forall j | 0 < j < |rows| ensures !Clashes(rows[j], y.value) {
              assert rows[j] == rows[1..][j - 1];
            }
          }
        }
      }
    }
  }

  /**
   * What a table holds once `rows` were written with `REPLACE` over
   * `before`: every standing imported row under its id, every untouched old
   * row where it was, and nothing else.
   */
  ghost predicate ReplacedBy(before: Table, rows: seq<Row>, after: Table) {
    WellKeyed(after) &&
    (forall i :: Standing(rows, i) ==> Lookup(after, rows[i].key) == Some(rows[i])) &&
    (forall k :: Lookup(before, k).Some? && Untouched(rows, Lookup(before, k).value) ==> Lookup(after, k) == Lookup(before, k)) &&
    (forall k :: Lookup(after, k).Some? ==>
      (exists i :: Standing(rows, i) && rows[i] == Lookup(after, k).value) ||
      (Lookup(before, k) == Lookup(after, k) && Untouched(rows, Lookup(after, k).value)))
  }

  /** The loop leaves exactly what the REPLACE rule describes. */
  lemma ReplaceRowsLookup(t: Table, rows: seq<Row>)
    requires WellKeyed(t)
    ensures ReplacedBy(t, rows, ReplaceRows(t, rows))
  {
    var r := ReplaceRows(t, rows);
    forall i | Standing(rows, i) ensures Lookup(r, rows[i].key) == Some(rows[i]) {
      ReplaceRowsStanding(t, rows, i);
    }
    forall k | Lookup(t, k).Some? && Untouched(rows, Lookup(t, k).value)
      ensures Lookup(r, k) == Lookup(t, k)
    {
      ReplaceRowsUntouched(t, rows, k);
    }
    forall k | Lookup(r, k).Some?
      ensures (exists i :: Standing(rows, i) && rows[i] == Lookup(r, k).value) ||
        (Lookup(t, k) == Lookup(r, k) && Untouched(rows, Lookup(r, k).value))
    {
      ReplaceRowsOrigin(t, rows, k);
    }
  }

  /**
   * An imported row with a new id but an existing unique key deletes the
   * row that held that unique key.
   */
  lemma ReplaceDropsUniqueClash(t: Table, x: Row, k: string)
    requires WellKeyed(t) && Lookup(t, k).Some? && Lookup(t, k).value.unique == x.unique && x.key != k
    ensures Lookup(ReplaceRows(t, [x]), k) == None
    ensures Lookup(ReplaceRows(t, [x]), x.key) == Some(x)
  {
    ReplaceLookup(t, x, k);
    ReplaceLookup(t, x, x.key);
  }

  /** Importing the same rows again changes nothing that can be looked up. */
  lemma ReplaceRowsIdempotent(t: Table, rows: seq<Row>, k: string)
    requires WellKeyed(t)
    ensures Lookup(ReplaceRows(ReplaceRows(t, rows), rows), k) == Lookup(ReplaceRows(t, rows), k)
  {
    var r1 := ReplaceRows(t, rows);
    var r2 := ReplaceRows(r1, rows);
    LookupKeyed(r1, k);
    LookupKeyed(r2, k);
    ReplaceRowsOrigin(t, rows, k);
    ReplaceRowsOrigin(r1, rows, k);
    if Lookup(r1, k).Some? {
      var y := Lookup(r1, k).value;
      if i :| Standing(rows, i) && rows[i] == y {
        ReplaceRowsStanding(r1, rows, i);
      } else {
        ReplaceRowsUntouched(r1, rows, k);
      }
    } else if Lookup(r2, k).Some? {
      var i :| Standing(rows, i) && rows[i] == Lookup(r2, k).value;
      ReplaceRowsStanding(t, rows, i);
    }
  }

  /** The first entry of `t` is filed under its row's key and clashes with nothing in `acc`; `acc` with it is still well keyed. */
  lemma FreshHead(acc: Table, t: Table)
    requires WellKeyed(acc + t) && t != []
    ensures t[0] == (t[0].1.key, t[0].1)
    ensures forall i :: 0 <= i < |acc| ==> !Clashes(acc[i].1, t[0].1)
    ensures WellKeyed(acc + [t[0]])
    ensures acc + [t[0]] + t[1..] == acc + t
  {
    var all := acc + t;
    assert all[|acc|] == t[0];
    forall i | 0 <= i < |acc|
      ensures !Clashes(acc[i].1, t[0].1)
    {
      assert all[i] == acc[i];
    }
    var r := acc + [t[0]];
    forall i | 0 <= i < |r|
      ensures r[i] == all[i]
    {
    }
    assert t == [t[0]] + t[1..];
  }

  /**
   * Importing the rows of an exported table on top of `acc` appends that
   * table entry for entry; from an empty table, the import rebuilds
   * exactly what was exported.
   */
  lemma {:induction false} ExportImportRoundTrip(acc: Table, t: Table)
    requires WellKeyed(acc) && WellKeyed(acc + t)
    ensures ReplaceRows(acc, Rows(t)) == acc + t
    decreases |t|
  {
    if t != [] {
      var x := t[0].1;
      FreshHead(acc, t);
      assert Replace(acc, x) == acc + [t[0]];
      assert Rows(t)[0] == x;
      assert Rows(t)[1..] == Rows(t[1..]);
      ExportImportRoundTrip(acc + [t[0]], t[1..]);
    }
  }

  /** `!empty($data[section])`: present and non-empty. */
  function Section(rows: Option<seq<Row>>): seq<Row> {
    if rows.Some? then rows.value else []
  }

  /**
   * `lr_import_data`: each non-empty section is written row by row; each
   * count is the number of rows in its section, duplicates included.
   */
  function Import(data: ImportData, tables: Tables): (r: (Outcome, Tables))
    requires WellKeyed(tables.discovered) && WellKeyed(tables.updates)
    ensures r.0 == Imported(|Section(data.discovered)|, |Section(data.updates)|)
    ensures Section(data.discovered) == [] ==> r.1.discovered == tables.discovered
    ensures Section(data.updates) == [] ==> r.1.updates == tables.updates
    ensures ReplacedBy(tables.discovered, Section(data.discovered), r.1.discovered)
    ensures ReplacedBy(tables.updates, Section(data.updates), r.1.updates)
  {
    var d := ReplaceRows(tables.discovered, Section(data.discovered));
    var u := ReplaceRows(tables.updates, Section(data.updates));
    ReplaceRowsLookup(tables.discovered, Section(data.discovered));
    ReplaceRowsLookup(tables.updates, Section(data.updates));
    (Imported(|Section(data.discovered)|, |Section(data.updates)|), Tables(d, u))
  }

  /**
   * `lr_handle_import_export_actions`. `verify(nonce, action)` is
   * `wp_verify_nonce`; `decode` is `json_decode`, an error when the file
   * is not valid JSON. Only an import changes the tables.
   */
  function HandleActions(req: Request, tables: Tables, verify: (string, string) -> bool, decode: string -> Result<ImportData, string>): (r: (Outcome, Tables))
    requires WellKeyed(tables.discovered) && WellKeyed(tables.updates)
    ensures req.action.None? ==> r == (NoAction, tables)
    ensures !r.0.Imported? ==> r.1 == tables
    ensures r.0.Download? ==>
      req.exportNonce.Some? && verify(req.exportNonce.value, "lr_export_data_nonce") &&
      ((req.action == Some("export_discovered_content") && r.0 == Download("discovered_content", Rows(tables.discovered))) ||
       (req.action == Some("export_city_updates") && r.0 == Download("city_updates", Rows(tables.updates))))
    ensures r.0.Imported? || r.0.InvalidJson? || r.0.UploadFailed? ==>
      req.action == Some("import_data") && req.importNonce.Some? && verify(req.importNonce.value, "lr_import_data_nonce")
    ensures r.0.UploadFailed? <==> (
      req.action == Some("import_data") && req.importNonce.Some? && verify(req.importNonce.value, "lr_import_data_nonce") &&
      !req.upload.Uploaded?)
    ensures r.0.InvalidJson? <==> (
      req.action == Some("import_data") && req.importNonce.Some? && verify(req.importNonce.value, "lr_import_data_nonce") &&
      req.upload.Uploaded? && decode(req.upload.content).Err?)
    ensures r.0.Imported? ==> (
      req.upload.Uploaded? && decode(req.upload.content).Ok? &&
      r == Import(decode(req.upload.content).value, tables))
  {
    if req.action.None? then (NoAction, tables)
    else
      var action := req.action.value;
      var exportOk := req.exportNonce.Some? && verify(req.exportNonce.value, "lr_export_data_nonce");
      if action == "export_discovered_content" && exportOk then (Download("discovered_content", Rows(tables.discovered)), tables)
      else if action == "export_city_updates" && exportOk then (Download("city_updates", Rows(tables.updates)), tables)
      else if action == "import_data" && req.importNonce.Some? && verify(req.importNonce.value, "lr_import_data_nonce") then
        match req.upload
        case Uploaded(content) =>
          (match decode(content)
           case Ok(data) => Import(data, tables)
           case Err(_) => (InvalidJson, tables))
        case _ => (UploadFailed, tables)
      else (NoAction, tables)
  }
}

=== FILE: ledger.dfy ===
/**
 * The discovered-content ledger: one row per piece of content the plugin
 * has seen in a city, unique on (api_id, content_type), with the decoded
 * fields of its cached API object that the publisher reads.
 */
module Ledger {
  import opened Wrappers
  import opened Strings

  /** `content_type`; the plugin writes the first five, anything else is carried as is. */
  datatype Kind = Spot | Event | Review | Session | Skater | OtherKind(name: string)

  /**
   * The fields of a cached API object (`data_cache`) that the plugin reads,
   * each absent (`None`) when the object lacks it or holds null.
   */
  datatype Data = Data(
    id: Option<string>,                // _id
    createdAt: Option<string>,         // createdAt
    eventStartDate: Option<string>,    // event->startDate
    lastOnline: Option<string>,        // lastOnline
    spotCreatedAt: Option<string>,     // spotWithAddress->createdAt
    sessionCreatedAt: Option<string>,  // sessions[0]->createdAt
    firstAttachmentId: Option<string>, // attachments[0]->_id
    satellite: Option<string>,         // spotWithAddress->satelliteAttachment
    userId: Option<string>,            // user_id on reviews, userId on profiles
    sessionType: Option<string>,       // type
    spotId: Option<string>,            // spot_id on reviews
    skateName: Option<string>,         // skate_name on reviews
    spotName: Option<string>,          // spot_name on reviews
    rating: Option<int>,               // rating on reviews
    comment: Option<string>)           // comment on reviews

  /** An object with no fields set. */
  const NoData := Data(None, None, None, None, None, None, None, None, None, None, None, None, None, None, None)

  /** A ledger row; `discoveredAt` is the discovery time in seconds. */
  datatype Row = Row(id: int, kind: Kind, apiId: string, city: string, discoveredAt: int, published: bool, data: Data)

  /** The table and its next auto-increment id. */
  datatype Table = Table(rows: seq<Row>, nextId: int)

  /** Some row carries the key (api_id, content_type). */
  predicate HasKey(rows: seq<Row>, apiId: string, kind: Kind) {
    exists i | 0 <= i < |rows| :: rows[i].apiId == apiId && rows[i].kind == kind
  }

  /** The unique key `api_id_type` and the primary key, with ids issued below `nextId`. */
  predicate Valid(t: Table) {
    (forall i, j :: 0 <= i < j < |t.rows| ==> t.rows[i].apiId != t.rows[j].apiId || t.rows[i].kind != t.rows[j].kind) &&
    (forall i, j :: 0 <= i < j < |t.rows| ==> t.rows[i].id != t.rows[j].id) &&
    (forall i :: 0 <= i < |t.rows| ==> t.rows[i].id < t.nextId)
  }

  /** The ids of a table's rows are pairwise distinct. */
  predicate UniqueIds(rows: seq<Row>) {
    forall i, j :: 0 <= i < j < |rows| ==> rows[i].id != rows[j].id
  }

  const Empty := Table([], 1)

  /**
   * `SELECT id … WHERE api_id = %s AND content_type = …` followed by an
   * insert when nothing is found; the flag says whether a row was added.
   */
  function InsertIfAbsent(t: Table, kind: Kind, apiId: string, city: string, now: int, data: Data): (r: (Table, bool))
    requires Valid(t)
    ensures Valid(r.0)
    ensures r.1 <==> !HasKey(t.rows, apiId, kind)
    ensures r.1 ==> r.0.rows == t.rows + [Row(t.nextId, kind, apiId, city, now, false, data)]
    ensures !r.1 ==> r.0 == t
    ensures HasKey(r.0.rows, apiId, kind)
  {
    if HasKey(t.rows, apiId, kind) then (t, false)
    else
      var rows := t.rows + [Row(t.nextId, kind, apiId, city, now, false, data)];
      assert HasKey(rows, apiId, kind) by {
        assert rows[|t.rows|].apiId == apiId;
      }
      (Table(rows, t.nextId + 1), true)
  }

  /** Keys already present stay present: rows are only ever appended. */
  lemma HasKeyAppend(rows: seq<Row>, more: seq<Row>, apiId: string, kind: Kind)
    requires HasKey(rows, apiId, kind)
    ensures HasKey(rows + more, apiId, kind)
  {
    var i :| 0 <= i < |rows| && rows[i].apiId == apiId && rows[i].kind == kind;
    assert (rows + more)[i] == rows[i];
  }

  /** The freshly created table is valid and holds no key. */
  lemma EmptyValid(apiId: string, kind: Kind)
    ensures Valid(Empty) && !HasKey(Empty.rows, apiId, kind)
  {
  }

  /**
   * Discovering the same content twice adds one row: the second insert,
   * from any city, at any time and with any data, finds the first row.
   */
  lemma InsertTwiceAddsOnce(t: Table, kind: Kind, apiId: string, city: string, now: int, data: Data,
                            city2: string, now2: int, data2: Data)
    requires Valid(t)
    ensures var first := InsertIfAbsent(t, kind, apiId, city, now, data).0;
      InsertIfAbsent(first, kind, apiId, city2, now2, data2) == (first, false) &&
      |first.rows| <= |t.rows| + 1
  {
  }
}

=== FILE: links.dfy ===
/**
 * The text side of link verification in a city-update post: finding
 * Markdown links the way `preg_match_all('/\[([^\]]+)\]\(([^)]+)\)/')`
 * does, rewriting them after the verification cascade has judged each
 * one, and cutting a text into sentences for the cascade's context.
 * The cascade itself (quality check, searches, AI choice) is an oracle.
 */
module LinkVerification {
  import opened Wrappers
  import opened Strings
  import opened Seqs

  /** A Markdown link `[text](url)`. */
  datatype Link = Link(text: string, url: string)

  /** The source text of a link. */
  function Markdown(l: Link): string {
    "[" + l.text + "](" + l.url + ")"
  }

  /** What the pattern can match: non-empty text without `]`, non-empty URL without `)`. */
  predicate WellFormed(l: Link) {
    |l.text| > 0 && ']' !in l.text && |l.url| > 0 && ')' !in l.url
  }

  /** Length of the longest prefix of `s` free of `c`. */
  function Span(s: string, c: char): (n: nat)
    ensures n <= |s|
    ensures forall i :: 0 <= i < n ==> s[i] != c
    ensures n < |s| ==> s[n] == c
  {
    if s == [] || s[0] == c then 0 else 1 + Span(s[1..], c)
  }

  /** The match of the link pattern anchored at the start of `s`, if any. */
  function LinkAt(s: string): (r: Option<Link>)
    ensures r.Some? ==> WellFormed(r.value) && StartsWith(s, Markdown(r.value))
  {
    if |s| == 0 || s[0] != '[' then None
    else
      var n := Span(s[1..], ']');
      if n == 0 || 2 + n >= |s| || s[2 + n] != '(' then None
      else
        var rest := s[3 + n..];
        var m := Span(rest, ')');
        if m == 0 || m == |rest| then None
        else
          var l := Link(s[1..1 + n], rest[..m]);
          assert s[..|Markdown(l)|] == Markdown(l);
          Some(l)
  }

  /** `Span` stops at the first `c`. */
  lemma {:induction false} SpanAt(s: string, c: char, n: nat)
    requires n < |s| && s[n] == c && forall i :: 0 <= i < n ==> s[i] != c
    ensures Span(s, c) == n
    decreases n
  {
    if n > 0 {
      SpanAt(s[1..], c, n - 1);
    }
  }

  /** Where each part of a link sits in its Markdown. */
  lemma MarkdownLayout(l: Link)
    ensures var md, n, u := Markdown(l), |l.text|, |l.url|;
      |md| == 4 + n + u && md[0] == '[' && md[1 + n] == ']' && md[2 + n] == '(' && md[3 + n + u] == ')' &&
      md[1..1 + n] == l.text && md[3 + n..3 + n + u] == l.url
  {
  }

  /** Any well-formed link that `s` starts with is the one the pattern matches there. */
  lemma LinkAtComplete(s: string, l: Link)
    requires WellFormed(l) && StartsWith(s, Markdown(l))
    ensures LinkAt(s) == Some(l)
  {
    var md, n, u := Markdown(l), |l.text|, |l.url|;
    MarkdownLayout(l);
    assert s[..|md|] == md;
    assert s[0] == '[' by { PrefixIndex(s, md, 0); }
    assert s[2 + n] == '(' by { PrefixIndex(s, md, 2 + n); }
    assert s[1..1 + n] == l.text by { assert s[1..1 + n] == md[1..1 + n]; }
    var rest := s[3 + n..];
    assert rest[..u] == l.url by { assert rest[..u] == md[3 + n..3 + n + u]; }
    assert s[1..][n] == ']' by { PrefixIndex(s, md, 1 + n); }
    assert rest[u] == ')' by { PrefixIndex(s, md, 3 + n + u); }
    SpanAt(s[1..], ']', n);
    SpanAt(rest, ')', u);
  }

  /** `preg_match_all` with `PREG_SET_ORDER`: the matches, left to right, never overlapping. */
  function ScanLinks(s: string): (r: seq<Link>)
    ensures forall i :: 0 <= i < |r| ==> WellFormed(r[i]) && Contains(s, Markdown(r[i]))
    decreases |s|
  {
    if s == [] then []
    else match LinkAt(s)
      case Some(l) =>
        var k := |Markdown(l)|;
        var t := ScanLinks(s[k..]);
        assert OccursAt(s, Markdown(l), 0);
        forall i | 0 <= i < |t|
          ensures Contains(s, Markdown(t[i]))
        {
          ContainsSuffix(s, k, Markdown(t[i]));
        }
        [l] + t
      case None =>
        var t := ScanLinks(s[1..]);
        forall i | 0 <= i < |t|
          ensures Contains(s, Markdown(t[i]))
        {
          ContainsSuffix(s, 1, Markdown(t[i]));
        }
        t
  }

  /** A text that is exactly one link yields exactly that link. */
  lemma ScanSingleLink(l: Link)
    requires WellFormed(l)
    ensures ScanLinks(Markdown(l)) == [l]
  {
    var md := Markdown(l);
    assert md[..|md|] == md;
    LinkAtComplete(md, l);
    assert md[|md|..] == [];
  }

  /**
   * One link's effect on the text being rewritten: an internal link
   * (starting with the site's home URL) is left alone; a verified URL that
   * differs replaces every occurrence of the original URL; an unverified
   * link has every occurrence of its full Markdown replaced by its text.
   */
  function RewriteOne(text: string, l: Link, home: string, verdict: Option<string>): (r: string)
    ensures StartsWith(l.url, home) ==> r == text
    ensures !StartsWith(l.url, home) && Truthy(verdict) && verdict.value != l.url ==>
      r == ReplaceAll(text, l.url, verdict.value)
    ensures !StartsWith(l.url, home) && !Truthy(verdict) ==> r == ReplaceAll(text, Markdown(l), l.text)
    ensures verdict == Some(l.url) && !PhpEmpty(l.url) ==> r == text
  {
    if StartsWith(l.url, home) then text
    else if Truthy(verdict) && verdict.value != l.url then ReplaceAll(text, l.url, verdict.value)
    else if !Truthy(verdict) then ReplaceAll(text, Markdown(l), l.text)
    else text
  }

  /** The rewrite loop: each matched link, in order, applied to the text as modified so far. */
  function RewriteAll(text: string, links: seq<Link>, home: string, verdict: Link -> Option<string>): string
    decreases |links|
  {
    if links == [] then text
    else RewriteAll(RewriteOne(text, links[0], home, verdict(links[0])), links[1..], home, verdict)
  }

  /** Link verification of one snippet text; an empty text is left as it is. */
  function VerifyLinks(text: string, home: string, verdict: Link -> Option<string>): (r: string)
    ensures PhpEmpty(text) ==> r == text
    ensures ScanLinks(text) == [] ==> r == text
  {
    if PhpEmpty(text) then text else RewriteAll(text, ScanLinks(text), home, verdict)
  }

  /** A link the rewrite leaves alone: internal, or confirmed with its own URL. */
  predicate Kept(l: Link, home: string, verdict: Link -> Option<string>) {
    StartsWith(l.url, home) || (verdict(l) == Some(l.url) && !PhpEmpty(l.url))
  }

  /** When every link is internal or confirmed as is, the text comes out unchanged. */
  lemma {:induction false} RewriteAllKept(text: string, links: seq<Link>, home: string, verdict: Link -> Option<string>)
    requires forall i :: 0 <= i < |links| ==> Kept(links[i], home, verdict)
    ensures RewriteAll(text, links, home, verdict) == text
    decreases |links|
  {
    if links != [] {
      RewriteAllKept(text, links[1..], home, verdict);
    }
  }

  /** A text that is exactly one link is rewritten by that link's rule alone. */
  lemma VerifySingleLink(l: Link, home: string, verdict: Link -> Option<string>)
    requires WellFormed(l)
    ensures VerifyLinks(Markdown(l), home, verdict) == RewriteOne(Markdown(l), l, home, verdict(l))
  {
    var md := Markdown(l);
    assert !PhpEmpty(md) by {
      assert |md| >= 4;
    }
    ScanSingleLink(l);
    var once := RewriteOne(md, l, home, verdict(l));
    assert VerifyLinks(md, home, verdict) == RewriteAll(md, [l], home, verdict);
    assert [l][1..] == [];
    assert RewriteAll(md, [l], home, verdict) == RewriteAll(once, [], home, verdict);
  }

  /** A lone external link whose verification fails collapses to its text. */
  lemma RejectedLinkCollapses(l: Link, home: string, verdict: Link -> Option<string>)
    requires WellFormed(l) && !StartsWith(l.url, home) && !Truthy(verdict(l))
    ensures VerifyLinks(Markdown(l), home, verdict) == l.text
  {
    VerifySingleLink(l, home, verdict);
    ReplaceAllWhole(Markdown(l), l.text);
  }

  /** A verification cascade that redirects every link to one fixed page. */
  function RedirectToB(l: Link): Option<string> {
    Some("http://b")
  }

  /** A redirected external link keeps its text and points at the verified URL. */
  lemma RedirectExample()
    ensures VerifyLinks(Markdown(Link("Rink", "http://a")), "https://site", RedirectToB) == Markdown(Link("Rink", "http://b"))
  {
    var l := Link("Rink", "http://a");
    VerifySingleLink(l, "https://site", RedirectToB);
    ExampleExternal();
    assert Truthy(RedirectToB(l));
    var a := "[" + l.text + "](";
    ExampleUrlPlace();
    ReplaceAround(a, l.url, ")", "http://b");
    assert RewriteOne(Markdown(l), l, "https://site", RedirectToB(l)) == ReplaceAll(a + l.url + ")", l.url, "http://b");
  }

  /** In the example link the URL starts nowhere before its own place. */
  lemma ExampleUrlPlace()
    ensures var a := "[" + "Rink" + "](";
      forall j :: 0 <= j < |a| ==> !OccursAt(a + "http://a" + ")", "http://a", j)
  {
    var a, u := "[" + "Rink" + "](", "http://a";
    forall j | 0 <= j < |a|
      ensures !OccursAt(a + u + ")", u, j)
    {
      assert (a + u + ")")[j] == a[j] != u[0];
    }
  }

  lemma ExampleExternal()
    ensures !StartsWith("http://a", "https://site")
  {
    assert "http://a"[4] != "https://site"[4];
  }

  /** Replacing `p` in `a + p + b`, when `p` starts nowhere in `a` and `b` is shorter than `p`, rewrites just that occurrence. */
  lemma ReplaceAround(a: string, p: string, b: string, q: string)
    requires p != "" && |b| < |p|
    requires forall j :: 0 <= j < |a| ==> !OccursAt(a + p + b, p, j)
    ensures ReplaceAll(a + p + b, p, q) == a + q + b
  {
    var s := a + p + b;
    ReplaceAllSkip(s, |a|, p, q);
    assert s[..|a|] == a;
    assert s[|a|..] == p + b;
    assert (p + b)[..|p|] == p && (p + b)[|p|..] == b;
    ReplaceAllShort(b, p, q);
  }

  /** Replacing a whole non-empty string yields the replacement. */
  lemma ReplaceAllWhole(s: string, r: string)
    requires s != ""
    ensures ReplaceAll(s, s, r) == r
  {
    assert s[..|s|] == s;
    assert s[|s|..] == "";
  }

  /** When no occurrence of `p` starts before `k`, the first `k` characters pass through. */
  lemma {:induction false} ReplaceAllSkip(s: string, k: nat, p: string, r: string)
    requires p != "" && k <= |s|
    requires forall j :: 0 <= j < k ==> !OccursAt(s, p, j)
    ensures ReplaceAll(s, p, r) == s[..k] + ReplaceAll(s[k..], p, r)
    decreases k
  {
    if k > 0 {
      if |s| < |p| {
        ReplaceAllShort(s[k..], p, r);
        assert s == s[..k] + s[k..];
      } else {
        assert !OccursAt(s, p, 0);
        ShiftOccurrence(s, p);
        ReplaceAllSkip(s[1..], k - 1, p, r);
        assert s[1..][k - 1..] == s[k..];
        assert s[..k] == [s[0]] + s[1..][..k - 1];
      }
    }
  }

  lemma ReplaceAllShort(s: string, p: string, r: string)
    requires |s| < |p|
    ensures ReplaceAll(s, p, r) == s
  {
  }

  /** PCRE `\s`: space, tab, newline, carriage return, form feed, vertical tab. */
  predicate IsSpace(c: char) {
    c == ' ' || c == '\t' || c == '\n' || c == '\r' || c == 12 as char || c == 11 as char
  }

  predicate IsTerminator(c: char) {
    c == '.' || c == '?' || c == '!'
  }

  /** A sentence end followed by whitespace, where the text is split. */
  predicate SplitPointAt(s: string, i: int) {
    0 <= i && i + 1 < |s| && IsTerminator(s[i]) && IsSpace(s[i + 1])
  }

  predicate NoSplitPoint(s: string) {
    forall i | 0 <= i < |s| :: !SplitPointAt(s, i)
  }

  /** `s` without its leading whitespace (the `\s+` the split consumes). */
  function DropSpaces(s: string): (r: string)
    ensures |r| <= |s| && r == s[|s| - |r|..]
    ensures r == [] || !IsSpace(r[0])
  {
    if s != [] && IsSpace(s[0]) then DropSpaces(s[1..]) else s
  }

  /**
   * `preg_split('/(?<=[.?!])\s+/', …, PREG_SPLIT_NO_EMPTY)` with `cur` the
   * piece read so far: a run of whitespace right after a sentence end
   * closes the piece and is dropped.
   */
  function SplitFrom(s: string, cur: string): (r: seq<string>)
    requires NoSplitPoint(cur)
    ensures forall i :: 0 <= i < |r| ==> r[i] != [] && NoSplitPoint(r[i]) && Contains(cur + s, r[i])
    decreases |s|
  {
    if s == [] then
      if cur == [] then []
      else
        assert OccursAt(cur + s, cur, 0);
        [cur]
    else if IsSpace(s[0]) && |cur| > 0 && IsTerminator(cur[|cur| - 1]) then
      var d := DropSpaces(s);
      var t := SplitFrom(d, []);
      assert OccursAt(cur + s, cur, 0);
      forall i | 0 <= i < |t|
        ensures Contains(cur + s, t[i])
      {
        assert [] + d == (cur + s)[|cur| + |s| - |d|..];
        ContainsSuffix(cur + s, |cur| + |s| - |d|, t[i]);
      }
      [cur] + t
    else
      var cur' := cur + [s[0]];
      assert NoSplitPoint(cur') by {
        forall i | 0 <= i < |cur'| ensures !SplitPointAt(cur', i) {
          if i + 1 < |cur| {
            assert cur'[i] == cur[i] && cur'[i + 1] == cur[i + 1];
            assert !SplitPointAt(cur, i);
          }
        }
      }
      assert cur' + s[1..] == cur + s;
      SplitFrom(s[1..], cur')
  }

  /** The sentences of a text: non-empty pieces, none with a split point inside. */
  function Sentences(text: string): (r: seq<string>)
    ensures forall i :: 0 <= i < |r| ==> r[i] != [] && NoSplitPoint(r[i]) && Contains(text, r[i])
  {
    assert [] + text == text;
    SplitFrom(text, [])
  }

  /** A prefix of a text without split points has none either. */
  lemma PrefixNoSplit(a: string, b: string)
    requires NoSplitPoint(a + b)
    ensures NoSplitPoint(a)
  {
    forall i | 0 <= i < |a|
      ensures !SplitPointAt(a, i)
    {
      if i + 1 < |a| {
        assert (a + b)[i] == a[i] && (a + b)[i + 1] == a[i + 1];
        assert !SplitPointAt(a + b, i);
      }
    }
  }

  /** A non-empty text with no sentence end followed by whitespace is one sentence. */
  lemma {:induction false} SplitFromNoSplit(s: string, cur: string)
    requires NoSplitPoint(cur) && NoSplitPoint(cur + s) && cur + s != []
    ensures SplitFrom(s, cur) == [cur + s]
    decreases |s|
  {
    if s == [] {
      assert cur + s == cur;
    } else {
      assert !(IsSpace(s[0]) && |cur| > 0 && IsTerminator(cur[|cur| - 1])) by {
        if |cur| > 0 {
          assert (cur + s)[|cur| - 1] == cur[|cur| - 1] && (cur + s)[|cur|] == s[0];
          assert !SplitPointAt(cur + s, |cur| - 1);
        }
      }
      var cur' := cur + [s[0]];
      assert cur' + s[1..] == cur + s;
      PrefixNoSplit(cur', s[1..]);
      SplitFromNoSplit(s[1..], cur');
    }
  }

  lemma SentencesOfOne(text: string)
    requires NoSplitPoint(text) && text != []
    ensures Sentences(text) == [text]
  {
    assert [] + text == text;
    SplitFromNoSplit(text, []);
  }

  /** `ss[i]` is the first element of `ss` containing `sub`. */
  predicate FirstContaining(ss: seq<string>, sub: string, i: int) {
    0 <= i < |ss| && Contains(ss[i], sub) && forall j :: 0 <= j < i ==> !Contains(ss[j], sub)
  }

  /** The first sentence containing `sub`, or "" when none does. */
  function SentenceContaining(text: string, sub: string): (r: string)
    ensures r != "" ==> r in Sentences(text) && Contains(r, sub) && Contains(text, r)
    ensures r != "" ==> exists i :: FirstContaining(Sentences(text), sub, i) && Sentences(text)[i] == r
    ensures r == "" <==> forall i :: 0 <= i < |Sentences(text)| ==> !Contains(Sentences(text)[i], sub)
  {
    var ss := Sentences(text);
    match FirstWhere(ss, (p: string) => Contains(p, sub))
    case Some(i) => ss[i]
    case None => ""
  }

  /** Whitespace after a sentence end closes that sentence; the rest is split on its own. */
  lemma SplitAfterSentence(a: string, ws: string, rest: string)
    requires a != [] && NoSplitPoint(a) && IsTerminator(a[|a| - 1])
    requires ws != [] && forall i :: 0 <= i < |ws| ==> IsSpace(ws[i])
    requires rest == [] || !IsSpace(rest[0])
    ensures Sentences(a + ws + rest) == [a] + Sentences(rest)
  {
    var t := a + ws + rest;
    ReadSentence(a, ws + rest);
    assert t == a + (ws + rest);
    CloseSentence(a, ws + rest);
    DropSpacesRun(ws, rest);
    assert [] + rest == rest;
  }

  /** Reading a sentence without split points from an empty piece leaves it as the piece. */
  lemma ReadSentence(a: string, s: string)
    requires NoSplitPoint(a)
    ensures Sentences(a + s) == SplitFrom(s, a)
  {
    var t := a + s;
    assert t[..|a|] == a && [] + t[..|a|] == a && t[|a|..] == s;
    SplitFromPrefix(t, [], |a|);
  }

  /** A piece ending a sentence is closed by the whitespace that follows it. */
  lemma CloseSentence(a: string, s: string)
    requires a != [] && NoSplitPoint(a) && IsTerminator(a[|a| - 1])
    requires s != [] && IsSpace(s[0])
    ensures SplitFrom(s, a) == [a] + SplitFrom(DropSpaces(s), [])
  {
  }

  lemma {:induction false} DropSpacesRun(ws: string, rest: string)
    requires forall i :: 0 <= i < |ws| ==> IsSpace(ws[i])
    requires rest == [] || !IsSpace(rest[0])
    ensures DropSpaces(ws + rest) == rest
  {
    if ws != [] {
      assert (ws + rest)[1..] == ws[1..] + rest;
      DropSpacesRun(ws[1..], rest);
    } else {
      assert ws + rest == rest;
    }
  }

  lemma SentenceExample(text: string, sub: string)
    requires text == "Skate here. See [Rink](u)! Bye." && sub == "[Rink](u)"
    ensures SentenceContaining(text, sub) == "See [Rink](u)!"
  {
    ExampleSentences(text);
    var ss := Sentences(text);
    ExampleFirstSentenceLacksLink();
    assert OccursAt(ss[1], sub, 4);
    assert FirstContaining(ss, sub, 1);
    SentenceContainingFirst(text, sub, 1);
  }

  /** The sentence found is the one at the first index whose sentence contains `sub`. */
  lemma SentenceContainingFirst(text: string, sub: string, i: int)
    requires FirstContaining(Sentences(text), sub, i)
    ensures SentenceContaining(text, sub) == Sentences(text)[i]
  {
    var ss := Sentences(text);
    var r := SentenceContaining(text, sub);
    assert r != "";
    var k :| FirstContaining(ss, sub, k) && ss[k] == r;
    assert Contains(ss[k], sub) && Contains(ss[i], sub);
  }

  lemma ExampleSentences(text: string)
    requires text == "Skate here. See [Rink](u)! Bye."
    ensures Sentences(text) == ["Skate here.", "See [Rink](u)!", "Bye."]
  {
    SentencesOfThree(text, "Skate here.", "See [Rink](u)!", "Bye.");
  }

  lemma SentencesOfThree(text: string, a: string, b: string, c: string)
    requires a == "Skate here." && b == "See [Rink](u)!" && c == "Bye."
    requires text == "Skate here. See [Rink](u)! Bye."
    ensures Sentences(text) == [a, b, c]
  {
    var bc := b + " " + c;
    SentencesOfTwo(bc, b, c);
    ExampleFacts(a, b, c);
    SplitAfterSentence(a, " ", bc);
    ExampleText();
  }

  lemma SentencesOfTwo(bc: string, b: string, c: string)
    requires b == "See [Rink](u)!" && c == "Bye." && bc == b + " " + c
    ensures Sentences(bc) == [b, c]
  {
    ExampleFacts("Skate here.", b, c);
    SentencesOfOne(c);
    SplitAfterSentence(b, " ", c);
  }

  lemma ExampleFacts(a: string, b: string, c: string)
    requires a == "Skate here." && b == "See [Rink](u)!" && c == "Bye."
    ensures a != [] && NoSplitPoint(a) && IsTerminator(a[|a| - 1])
    ensures b != [] && NoSplitPoint(b) && IsTerminator(b[|b| - 1]) && !IsSpace(b[0])
    ensures c != [] && NoSplitPoint(c) && !IsSpace(c[0])
    ensures forall i :: 0 <= i < |" "| ==> IsSpace(" "[i])
  {
  }

  lemma ExampleText()
    ensures "Skate here." + " " + ("See [Rink](u)!" + " " + "Bye.") == "Skate here. See [Rink](u)! Bye."
  {
  }

  lemma ExampleFirstSentenceLacksLink()
    ensures !Contains("Skate here.", "[Rink](u)")
  {
    var a := "Skate here.";
    forall i | 0 <= i <= |a| - 9
      ensures !OccursAt(a, "[Rink](u)", i)
    {
      assert a[i..i + 9][0] == a[i] != '[';
    }
  }

  /** Reading `k` characters with no split point among them just moves them into the piece. */
  lemma {:induction false} SplitFromPrefix(s: string, cur: string, k: nat)
    requires NoSplitPoint(cur) && k <= |s|
    requires NoSplitPoint(cur + s[..k])
    ensures SplitFrom(s, cur) == SplitFrom(s[k..], cur + s[..k])
    decreases k
  {
    if k > 0 {
      var w := cur + s[..k];
      var cur' := cur + [s[0]];
      assert w == cur' + s[1..][..k - 1];
      assert !(IsSpace(s[0]) && |cur| > 0 && IsTerminator(cur[|cur| - 1])) by {
        if |cur| > 0 {
          assert w[|cur| - 1] == cur[|cur| - 1] && w[|cur|] == s[0];
          assert !SplitPointAt(w, |cur| - 1);
        }
      }
      PrefixNoSplit(cur', s[1..][..k - 1]);
      SplitFromPrefix(s[1..], cur', k - 1);
      assert s[1..][k - 1..] == s[k..];
    } else {
      assert cur + s[..0] == cur;
    }
  }
}

=== FILE: locations.dfy ===
/**
 * The location table the plugin is configured with: countries keyed by
 * slug, each with a display name and its cities keyed by slug. Key order
 * is the order of the configuration array.
 */
module Locations {
  import opened Wrappers
  import opened OrderedMap

  /** A city's details; `radiusKm` is absent when the entry omits `radius_km`. */
  datatype City = City(name: string, radiusKm: Option<int>)

  datatype Country = Country(name: string, cities: Dict<string, City>)

  type LocationTable = Dict<string, Country>

  /** `$locations[$country_slug] ?? null`. */
  function CountryDetails(locs: LocationTable, country: string): (r: Option<Country>)
    ensures r.Some? <==> country in Keys(locs)
    ensures r.Some? ==> (country, r.value) in locs
  {
    Lookup(locs, country)
  }

  /** `$country['cities'][$city_slug] ?? null`, through an unknown country too. */
  function CityDetails(locs: LocationTable, country: string, city: string): (r: Option<City>)
    ensures r.Some? <==> country in Keys(locs) && city in Keys(Lookup(locs, country).value.cities)
  {
    match CountryDetails(locs, country)
    case None => None
    case Some(c) => Lookup(c.cities, city)
  }

  /** The first country (in table order) listing `city`, and its entry for it. */
  function CityBySlug(locs: LocationTable, city: string): (r: Option<City>)
    ensures r.Some? <==> exists i :: 0 <= i < |locs| && city in Keys(locs[i].1.cities)
    ensures r.Some? ==> exists i :: (0 <= i < |locs| && Lookup(locs[i].1.cities, city) == r &&
      forall j :: 0 <= j < i ==> city !in Keys(locs[j].1.cities))
  {
    if locs == [] then None
    else match Lookup(locs[0].1.cities, city)
      case Some(c) => Some(c)
      case None =>
        var t := CityBySlug(locs[1..], city);
        assert forall i :: 0 < i < |locs| ==> locs[i] == locs[1..][i - 1];
        assert t.Some? ==> exists i :: (0 < i < |locs| && Lookup(locs[i].1.cities, city) == t &&
          forall j :: 0 <= j < i ==> city !in Keys(locs[j].1.cities));
        t
  }

  /**
   * All cities flattened into one slug → name array, as the seeding batch
   * builds it: a slug listed under two countries keeps its first position
   * and takes the later name.
   */
  function AllCities(locs: LocationTable): (r: Dict<string, string>)
    ensures DistinctKeys(r)
  {
    AddCities([], locs)
  }

  function AddCities(acc: Dict<string, string>, locs: LocationTable): (r: Dict<string, string>)
    requires DistinctKeys(acc)
    ensures DistinctKeys(r)
    decreases |locs|, 0
  {
    if locs == [] then acc else AddCities(AddCityNames(acc, locs[0].1.cities), locs[1..])
  }

  function AddCityNames(acc: Dict<string, string>, cities: Dict<string, City>): (r: Dict<string, string>)
    requires DistinctKeys(acc)
    ensures DistinctKeys(r)
    decreases |cities|
  {
    if cities == [] then acc else AddCityNames(Set(acc, cities[0].0, cities[0].1.name), cities[1..])
  }

  /**
   * A slug listed by country `i` and by no later country takes its name
   * from country `i`'s entry: a later country's name overwrites an
   * earlier one.
   */
  lemma AllCitiesName(locs: LocationTable, slug: string, i: int)
    requires 0 <= i < |locs| && slug in Keys(locs[i].1.cities)
    requires forall j :: i < j < |locs| ==> slug !in Keys(locs[j].1.cities)
    ensures exists c :: (slug, c) in locs[i].1.cities && Lookup(AllCities(locs), slug) == Some(c.name)
  {
    AddCitiesLookup([], locs, slug);
  }

  /** The last country in table order that lists `slug`, if any. */
  function LastListing(locs: LocationTable, slug: string): (r: Option<nat>)
    ensures r.Some? ==> (r.value < |locs| && slug in Keys(locs[r.value].1.cities) &&
      forall j :: r.value < j < |locs| ==> slug !in Keys(locs[j].1.cities))
    ensures r.None? ==> forall j :: 0 <= j < |locs| ==> slug !in Keys(locs[j].1.cities)
    decreases |locs|
  {
    if locs == [] then None
    else
      assert forall j :: 0 < j < |locs| ==> locs[j] == locs[1..][j - 1];
      match LastListing(locs[1..], slug)
      case Some(k) => Some(k + 1)
      case None => if slug in Keys(locs[0].1.cities) then Some(0) else None
  }

  lemma {:induction false} AddCitiesLookup(acc: Dict<string, string>, locs: LocationTable, slug: string)
    requires DistinctKeys(acc)
    ensures LastListing(locs, slug).None? ==> Lookup(AddCities(acc, locs), slug) == Lookup(acc, slug)
    ensures LastListing(locs, slug).Some? ==> exists c :: ((slug, c) in locs[LastListing(locs, slug).value].1.cities &&
      Lookup(AddCities(acc, locs), slug) == Some(c.name))
    decreases |locs|
  {
    if locs != [] {
      var acc' := AddCityNames(acc, locs[0].1.cities);
      AddCityNamesLookup(acc, locs[0].1.cities, slug);
      AddCitiesLookup(acc', locs[1..], slug);
      assert forall j :: 0 < j < |locs| ==> locs[j] == locs[1..][j - 1];
    }
  }

  lemma {:induction false} AddCityNamesLookup(acc: Dict<string, string>, cities: Dict<string, City>, slug: string)
    requires DistinctKeys(acc)
    ensures slug !in Keys(cities) ==> Lookup(AddCityNames(acc, cities), slug) == Lookup(acc, slug)
    ensures slug in Keys(cities) ==> exists c :: (slug, c) in cities && Lookup(AddCityNames(acc, cities), slug) == Some(c.name)
    decreases |cities|
  {
    if cities != [] {
      var acc' := Set(acc, cities[0].0, cities[0].1.name);
      SetLookup(acc, cities[0].0, cities[0].1.name);
      AddCityNamesLookup(acc', cities[1..], slug);
      Cons(cities[0], cities[1..]);
      assert cities == [cities[0]] + cities[1..];
    }
  }

  /** A slug is in the flattened list exactly when some country lists it. */
  lemma {:induction false} AllCitiesKeys(locs: LocationTable, slug: string)
    ensures slug in Keys(AllCities(locs)) <==> exists i :: 0 <= i < |locs| && slug in Keys(locs[i].1.cities)
  {
    AddCitiesKeys([], locs, slug);
  }

  lemma {:induction false} AddCitiesKeys(acc: Dict<string, string>, locs: LocationTable, slug: string)
    requires DistinctKeys(acc)
    ensures slug in Keys(AddCities(acc, locs)) <==>
      slug in Keys(acc) || exists i :: 0 <= i < |locs| && slug in Keys(locs[i].1.cities)
    decreases |locs|
  {
    if locs != [] {
      var acc' := AddCityNames(acc, locs[0].1.cities);
      AddCityNamesKeys(acc, locs[0].1.cities, slug);
      AddCitiesKeys(acc', locs[1..], slug);
      assert forall i :: 0 < i < |locs| ==> locs[i] == locs[1..][i - 1];
    }
  }

  lemma {:induction false} AddCityNamesKeys(acc: Dict<string, string>, cities: Dict<string, City>, slug: string)
    requires DistinctKeys(acc)
    ensures slug in Keys(AddCityNames(acc, cities)) <==> slug in Keys(acc) || slug in Keys(cities)
    decreases |cities|
  {
    if cities != [] {
      var acc' := Set(acc, cities[0].0, cities[0].1.name);
      AddCityNamesKeys(acc', cities[1..], slug);
      Cons(cities[0], cities[1..]);
    }
  }

  /**
   * Every (slug, details) entry, countries in table order and each
   * country's cities in order, as the nested `foreach` loops of the daily
   * jobs visit them; a slug listed under two countries is visited twice.
   */
  function CityList(locs: LocationTable): (r: seq<(string, City)>)
    ensures forall i, e | 0 <= i < |locs| && e in locs[i].1.cities :: e in r
    ensures forall e | e in r :: exists i :: 0 <= i < |locs| && e in locs[i].1.cities
    decreases |locs|
  {
    if locs == [] then []
    else
      assert forall j :: 0 < j < |locs| ==> locs[j] == locs[1..][j - 1];
      locs[0].1.cities + CityList(locs[1..])
  }

  /** The list of a table split in two is the first part's list followed by the second's. */
  lemma {:induction false} CityListAppend(a: LocationTable, b: LocationTable)
    ensures CityList(a + b) == CityList(a) + CityList(b)
    decreases |a|
  {
    if a != [] {
      assert (a + b)[1..] == a[1..] + b;
      CityListAppend(a[1..], b);
    } else {
      assert a + b == b;
    }
  }

  /** A single country's list is its cities, in their order. */
  lemma CityListOne(country: string, c: Country)
    ensures CityList([(country, c)]) == c.cities
  {
    assert CityList([(country, c)][1..]) == [];
  }
}

=== FILE: merge_json.dfy ===
/**
 * The country-data merger: three regional JSON objects (EMEA, Americas,
 * APAC) combined into one object whose keys are in ascending order.
 * Python dictionaries keep insertion order, so a dictionary is modelled as
 * an association list with distinct keys; file contents arrive already
 * read and decoded (or as the failure that reading raised).
 */
module CountryMerge {
  import opened Wrappers
  import opened Strings
  import opened OrderedMap

  /** `d.update(e)`, i.e. `{**d, **e}`: the entries of `e` set in order. */
  function Update<V>(d: Dict<string, V>, e: Dict<string, V>): (r: Dict<string, V>)
    requires DistinctKeys(d)
    ensures DistinctKeys(r)
    decreases |e|
  {
    if e == [] then d else Update(Set(d, e[0].0, e[0].1), e[1..])
  }

  /** After an update, a key of `e` has its value from `e`; any other key keeps its old value. */
  lemma {:induction false} UpdateLookup<V>(d: Dict<string, V>, e: Dict<string, V>, k: string)
    requires DistinctKeys(d) && DistinctKeys(e)
    ensures Lookup(Update(d, e), k) == (if k in Keys(e) then Lookup(e, k) else Lookup(d, k))
    decreases |e|
  {
    if e != [] {
      assert DistinctKeys(e[1..]);
      var d' := Set(d, e[0].0, e[0].1);
      SetLookup(d, e[0].0, e[0].1);
      UpdateLookup(d', e[1..], k);
      if k == e[0].0 {
        assert k !in Keys(e[1..]);
      }
    }
  }

  /** An update keeps the keys already present at the front, in their order. */
  lemma {:induction false} UpdateKeepsOrder<V>(d: Dict<string, V>, e: Dict<string, V>)
    requires DistinctKeys(d)
    ensures |Keys(d)| <= |Keys(Update(d, e))|
    ensures Keys(Update(d, e))[..|d|] == Keys(d)
    decreases |e|
  {
    if e != [] {
      var d' := Set(d, e[0].0, e[0].1);
      UpdateKeepsOrder(d', e[1..]);
      var u := Keys(Update(d', e[1..]));
      assert Update(d, e) == Update(d', e[1..]);
      assert u[..|d'|] == Keys(d');
      assert Keys(d')[..|d|] == Keys(d);
      assert u[..|d|] == u[..|d'|][..|d|];
    }
  }

  /** `{**emea, **americas, **apac}`. */
  function Merge3<V>(emea: Dict<string, V>, americas: Dict<string, V>, apac: Dict<string, V>): (r: Dict<string, V>)
    ensures DistinctKeys(r)
  {
    Update(Update(Update([], emea), americas), apac)
  }

  /** The merged value of a key is APAC's if it has one, else the Americas', else EMEA's. */
  lemma MergePrecedence<V>(emea: Dict<string, V>, americas: Dict<string, V>, apac: Dict<string, V>, k: string)
    requires DistinctKeys(emea) && DistinctKeys(americas) && DistinctKeys(apac)
    ensures Lookup(Merge3(emea, americas, apac), k) ==
      if k in Keys(apac) then Lookup(apac, k)
      else if k in Keys(americas) then Lookup(americas, k)
      else Lookup(emea, k)
  {
    UpdateLookup([], emea, k);
    UpdateLookup(Update([], emea), americas, k);
    UpdateLookup(Update(Update([], emea), americas), apac, k);
  }

  /** Adjacent keys strictly increase in Python's string order. */
  predicate Ascending<V>(d: Dict<string, V>) {
    forall i :: 0 <= i < |d| - 1 ==> StrLess(d[i].0, d[i + 1].0)
  }

  /** Insertion of a pair whose key is new into an ascending list. */
  function InsertByKey<V>(x: (string, V), d: Dict<string, V>): (r: Dict<string, V>)
    requires Ascending(d) && x.0 !in Keys(d)
    ensures Ascending(r)
    ensures multiset(r) == multiset(d) + multiset{x}
    ensures r[0] == x || (|d| > 0 && r[0] == d[0])
  {
    if d == [] || StrLess(x.0, d[0].0) then
      ConsAscending(x, d);
      [x] + d
    else
      StrLessTotal(x.0, d[0].0);
      Cons(d[0], d[1..]);
      assert d == [d[0]] + d[1..];
      var t := InsertByKey(x, d[1..]);
      ConsAscending(d[0], t);
      [d[0]] + t
  }

  /** Lists holding the same pairs have the same keys. */
  lemma SameKeys<V>(a: Dict<string, V>, b: Dict<string, V>)
    requires multiset(a) == multiset(b)
    ensures forall k :: k in Keys(a) <==> k in Keys(b)
  {
    forall k | k in Keys(a)
      ensures k in Keys(b)
    {
      var i :| 0 <= i < |a| && Keys(a)[i] == k;
      assert a[i] in multiset(b);
      var j :| 0 <= j < |b| && b[j] == a[i];
      assert Keys(b)[j] == k;
    }
    forall k | k in Keys(b)
      ensures k in Keys(a)
    {
      var j :| 0 <= j < |b| && Keys(b)[j] == k;
      assert b[j] in multiset(a);
      var i :| 0 <= i < |a| && a[i] == b[j];
      assert Keys(a)[i] == k;
    }
  }

  /** An ascending list stays ascending under a head with a smaller key. */
  lemma ConsAscending<V>(h: (string, V), t: Dict<string, V>)
    requires Ascending(t)
    requires |t| > 0 ==> StrLess(h.0, t[0].0)
    ensures Ascending([h] + t)
  {
    var r := [h] + t;
    forall i | 0 <= i < |r| - 1
      ensures StrLess(r[i].0, r[i + 1].0)
    {
      if i > 0 {
        assert r[i] == t[i - 1] && r[i + 1] == t[i];
      }
    }
  }

  /** `sorted(d.items())`: the pairs in ascending key order. */
  function SortItems<V>(d: Dict<string, V>): (r: Dict<string, V>)
    requires DistinctKeys(d)
    ensures Ascending(r)
    ensures multiset(r) == multiset(d)
    ensures forall k :: k in Keys(r) <==> k in Keys(d)
  {
    if d == [] then []
    else
      assert DistinctKeys(d[1..]);
      assert d == [d[0]] + d[1..];
      var t := SortItems(d[1..]);
      SameKeys(t, d[1..]);
      Cons(d[0], d[1..]);
      var r := InsertByKey(d[0], t);
      SameKeys(r, d);
      r
  }

  /** An ascending list is ascending between any two positions, hence a dictionary. */
  lemma {:induction false} AscendingStrict<V>(d: Dict<string, V>)
    requires Ascending(d)
    ensures forall i, j :: 0 <= i < j < |d| ==> StrLess(d[i].0, d[j].0)
    ensures DistinctKeys(d)
  {
    if |d| > 1 {
      assert Ascending(d[1..]);
      AscendingStrict(d[1..]);
      forall j | 1 < j < |d|
        ensures StrLess(d[0].0, d[j].0)
      {
        assert StrLess(d[1..][0].0, d[1..][j - 1].0);
        StrLessTransitive(d[0].0, d[1].0, d[j].0);
      }
    }
    forall i, j | 0 <= i < j < |d|
      ensures d[i].0 != d[j].0
    {
      StrLessIrreflexive(d[i].0);
    }
  }

  /** Sorting moves pairs but changes no key's value. */
  lemma SortItemsLookup<V>(d: Dict<string, V>, k: string)
    requires DistinctKeys(d)
    ensures Lookup(SortItems(d), k) == Lookup(d, k)
  {
    var s := SortItems(d);
    AscendingStrict(s);
    var l := Lookup(d, k);
    if l.Some? {
      LookupMember(d, k, l.value);
      assert (k, l.value) in multiset(s);
      LookupMember(s, k, l.value);
    } else {
      assert k !in Keys(s);
    }
  }

  /** What reading and decoding one regional file produced. */
  datatype Source<V> = Missing | Malformed | Loaded(data: Dict<string, V>)

  /** How a run of the script ends. */
  datatype Outcome<V> =
    | NotFound(file: string)
    | DecodeFailed
    | WriteFailed
    | Written(merged: Dict<string, V>)

  const EmeaFile := "emea.json"
  const AmericasFile := "americas.json"
  const ApacFile := "apac.json"

  predicate WellFormed<V>(s: Source<V>) {
    s.Loaded? ==> DistinctKeys(s.data)
  }

  /**
   * The first failure among the files, read in the order EMEA, Americas,
   * APAC; a missing file reports its name, a malformed one a decoding
   * error.
   */
  function FirstFailure<V>(emea: Source<V>, americas: Source<V>, apac: Source<V>): (r: Option<Outcome<V>>)
    ensures r.None? <==> emea.Loaded? && americas.Loaded? && apac.Loaded?
    ensures r.Some? ==> r.value.NotFound? || r.value.DecodeFailed?
  {
    if emea.Missing? then Some(NotFound(EmeaFile))
    else if emea.Malformed? then Some(DecodeFailed)
    else if americas.Missing? then Some(NotFound(AmericasFile))
    else if americas.Malformed? then Some(DecodeFailed)
    else if apac.Missing? then Some(NotFound(ApacFile))
    else if apac.Malformed? then Some(DecodeFailed)
    else None
  }

  /**
   * The whole script: read the three files, merge, sort by key, write.
   * `writeOk` says whether opening and writing the output file succeeds.
   */
  function Run<V>(emea: Source<V>, americas: Source<V>, apac: Source<V>, writeOk: bool): (o: Outcome<V>)
    requires WellFormed(emea) && WellFormed(americas) && WellFormed(apac)
    ensures o.Written? <==> emea.Loaded? && americas.Loaded? && apac.Loaded? && writeOk
    ensures o.WriteFailed? <==> emea.Loaded? && americas.Loaded? && apac.Loaded? && !writeOk
    ensures o.Written? ==> Ascending(o.merged) && DistinctKeys(o.merged)
  {
    var failure := FirstFailure(emea, americas, apac);
    if failure.Some? then failure.value
    else if !writeOk then WriteFailed
    else
      var r := SortItems(Merge3(emea.data, americas.data, apac.data));
      AscendingStrict(r);
      Written(r)
  }

  /**
   * A written output holds exactly the union of the regional keys, each
   * with the value of the last region (in EMEA, Americas, APAC order)
   * that has it.
   */
  lemma RunContents<V>(emea: Source<V>, americas: Source<V>, apac: Source<V>, k: string)
    requires WellFormed(emea) && WellFormed(americas) && WellFormed(apac)
    requires emea.Loaded? && americas.Loaded? && apac.Loaded?
    ensures var out := Run(emea, americas, apac, true).merged;
      Lookup(out, k) ==
        if k in Keys(apac.data) then Lookup(apac.data, k)
        else if k in Keys(americas.data) then Lookup(americas.data, k)
        else Lookup(emea.data, k)
  {
    SortItemsLookup(Merge3(emea.data, americas.data, apac.data), k);
    MergePrecedence(emea.data, americas.data, apac.data, k);
  }

  /** A failed read of any file means nothing is written, whatever the other files hold. */
  lemma RunAbortsOnReadFailure<V>(emea: Source<V>, americas: Source<V>, apac: Source<V>, writeOk: bool)
    requires WellFormed(emea) && WellFormed(americas) && WellFormed(apac)
    requires !emea.Loaded? || !americas.Loaded? || !apac.Loaded?
    ensures Run(emea, americas, apac, writeOk) == FirstFailure(emea, americas, apac).value
    ensures emea.Missing? ==> Run(emea, americas, apac, writeOk) == NotFound(EmeaFile)
  {
  }

  /** A country present in two regions takes the later region's data. */
  lemma ExampleUnion()
    ensures Merge3([("FR", "emea"), ("US", "emea")], [("US", "americas")], [("JP", "apac")])
         == [("FR", "emea"), ("US", "americas"), ("JP", "apac")]
  {
    ExampleEmea();
    ExampleAmericas();
    ExampleApac();
  }

  /** The Americas file overrides the EMEA value of "US" in place. */
  lemma ExampleAmericas()
    ensures Update([("FR", "emea"), ("US", "emea")], [("US", "americas")]) == [("FR", "emea"), ("US", "americas")]
  {
    var fr, use, usa := ("FR", "emea"), ("US", "emea"), ("US", "americas");
    assert Set([fr, use], usa.0, usa.1) == [fr, usa] by {
      assert [fr, use][1..] == [use];
      assert Set([use], usa.0, usa.1) == [usa];
    }
    assert [usa][1..] == [];
  }

  /** The APAC file's new key "JP" is appended. */
  lemma ExampleApac()
    ensures Update([("FR", "emea"), ("US", "americas")], [("JP", "apac")]) == [("FR", "emea"), ("US", "americas"), ("JP", "apac")]
  {
    var fr, usa, jp := ("FR", "emea"), ("US", "americas"), ("JP", "apac");
    assert Set([fr, usa], jp.0, jp.1) == [fr, usa, jp] by {
      assert [fr, usa][1..] == [usa];
      assert [usa][1..] == [];
      assert Set([usa], jp.0, jp.1) == [usa, jp];
    }
    assert [jp][1..] == [];
  }

  /** The EMEA file alone, loaded into an empty result, is kept as it is. */
  lemma ExampleEmea()
    ensures Update([], [("FR", "emea"), ("US", "emea")]) == [("FR", "emea"), ("US", "emea")]
  {
    var fr, use := ("FR", "emea"), ("US", "emea");
    assert [fr, use][1..] == [use];
    assert Set([], fr.0, fr.1) == [fr];
    assert Set([fr], use.0, use.1) == [fr, use] by {
      assert [fr][1..] == [];
    }
    assert Update([fr], [use]) == [fr, use] by {
      assert [use][1..] == [];
    }
  }

  /** The merged pairs come out in key order. */
  lemma ExampleSorted()
    ensures SortItems([("FR", "emea"), ("US", "americas"), ("JP", "apac")])
         == [("FR", "emea"), ("JP", "apac"), ("US", "americas")]
  {
    var fr, us, jp := ("FR", "emea"), ("US", "americas"), ("JP", "apac");
    ExampleSortedTail();
    assert StrLess(fr.0, jp.0);
    assert InsertByKey(fr, [jp, us]) == [fr, jp, us];
    assert [fr, us, jp][1..] == [us, jp];
  }

  /** The last two pairs of the example, sorted. */
  lemma ExampleSortedTail()
    ensures SortItems([("US", "americas"), ("JP", "apac")]) == [("JP", "apac"), ("US", "americas")]
  {
    var us, jp := ("US", "americas"), ("JP", "apac");
    assert StrLess(jp.0, us.0) && !StrLess(us.0, jp.0);
    assert InsertByKey(us, []) == [us];
    assert SortItems([jp]) == [jp] by {
      assert [jp][1..] == [];
      assert InsertByKey(jp, []) == [jp];
    }
    assert InsertByKey(us, [jp]) == [jp, us] by {
      assert [jp][1..] == [];
    }
    assert [us, jp][1..] == [jp];
  }

  /** The whole run on three small regional files. */
  lemma ExampleMerge()
    ensures Run(Loaded([("FR", "emea"), ("US", "emea")]), Loaded([("US", "americas")]),
                Loaded([("JP", "apac")]), true)
         == Written([("FR", "emea"), ("JP", "apac"), ("US", "americas")])
  {
    ExampleUnion();
    ExampleSorted();
  }
}

=== FILE: month_shift.dfy ===
/**
 * The monthly preview bucket on the calendar: an event's start date is
 * moved back one month with PHP's relative format `' -1 month'` and the
 * bucket is the `Y-m` month of the result. PHP keeps the day of the month
 * and carries the days the shorter month lacks into the month after it,
 * so a start on the 29th to 31st can land back in its own month.
 */
module MonthShift {

  /** The Gregorian leap-year rule. */
  predicate LeapYear(y: int) {
    (y % 4 == 0 && y % 100 != 0) || y % 400 == 0
  }

  function DaysInMonth(y: int, m: int): (r: int)
    requires 1 <= m <= 12
    ensures 28 <= r <= 31
    ensures m == 12 ==> r == 31
  {
    if m == 2 then (if LeapYear(y) then 29 else 28)
    else if m == 4 || m == 6 || m == 9 || m == 11 then 30
    else 31
  }

  /** A calendar date. */
  datatype Date = Date(year: int, month: int, day: int)

  predicate Valid(d: Date) {
    1 <= d.month <= 12 && 1 <= d.day <= DaysInMonth(d.year, d.month)
  }

  /** `date('Y-m', …)` as a count of months: consecutive months differ by one. */
  function MonthIndex(d: Date): int {
    d.year * 12 + (d.month - 1)
  }

  /** The year and month before `d`'s month. */
  function MonthBefore(d: Date): (r: (int, int))
    requires Valid(d)
    ensures 1 <= r.1 <= 12 && r.0 * 12 + (r.1 - 1) == MonthIndex(d) - 1
  {
    if d.month == 1 then (d.year - 1, 12) else (d.year, d.month - 1)
  }

  /**
   * `strtotime("$date -1 month")`: the month before with the same day;
   * a day past that month's end overflows into the following month.
   */
  function MinusOneMonth(d: Date): (r: Date)
    requires Valid(d)
    ensures Valid(r)
    ensures MonthIndex(r) == MonthIndex(d) - 1 || MonthIndex(r) == MonthIndex(d)
  {
    var (y, m) := MonthBefore(d);
    var n := DaysInMonth(y, m);
    if d.day <= n then Date(y, m, d.day) else Date(y, m + 1, d.day - n)
  }

  /** The monthly preview bucket as the publisher computes it. */
  function PreviewMonthAsWritten(d: Date): (r: int)
    requires Valid(d)
    ensures r == MonthIndex(d) - 1 || r == MonthIndex(d)
  {
    MonthIndex(MinusOneMonth(d))
  }

  /**
   * The as-written bucket is the month before exactly when the start day
   * exists in that month; otherwise it is the start's own month.
   */
  lemma AsWrittenPreviewIff(d: Date)
    requires Valid(d)
    ensures PreviewMonthAsWritten(d) == MonthIndex(d) - 1 <==> d.day <= DaysInMonth(MonthBefore(d).0, MonthBefore(d).1)
  {
  }

  /** An event starting on 31 March 2025 is previewed in March, the month it starts in. */
  lemma MarchThirtyFirstPreviewedInMarch()
    ensures PreviewMonthAsWritten(Date(2025, 3, 31)) == MonthIndex(Date(2025, 3, 31))
  {
    assert !LeapYear(2025);
    assert DaysInMonth(2025, 2) == 28;
    assert MinusOneMonth(Date(2025, 3, 31)) == Date(2025, 3, 3);
  }

  /**
   * The intended bucket: the month before the start, which moving back
   * one month from the first of the start's month always reaches.
   */
  function PreviewMonthIntended(d: Date): (r: int)
    requires Valid(d)
  {
    MonthIndex(MinusOneMonth(Date(d.year, d.month, 1)))
  }

  /** The intended bucket is always the month before the one the event starts in. */
  lemma IntendedPreviewIsMonthBefore(d: Date)
    requires Valid(d)
    ensures PreviewMonthIntended(d) == MonthIndex(d) - 1
    ensures d.day <= 28 ==> PreviewMonthAsWritten(d) == PreviewMonthIntended(d)
  {
    var first := Date(d.year, d.month, 1);
    assert Valid(first) && MonthIndex(first) == MonthIndex(d);
    assert MinusOneMonth(first).day == 1;
    AsWrittenPreviewIff(first);
    AsWrittenPreviewIff(d);
  }
}

=== FILE: open_graph.dfy ===
/**
 * The Open Graph layer for single-entity pages: the URI recogniser for
 * activity, spot, event and skater pages, the per-type title,
 * description, image and type, the tag list it emits, and the output
 * buffer hook that injects the tags after `<head>`.
 */
module OpenGraph {
  import opened Wrappers
  import opened Strings
  import opened Seqs
  import opened PageData

  /** The page types the recogniser reports. */
  predicate IsSingle(kind: PageType) {
    kind.Activity? || kind.Spots? || kind.Events? || kind.Skaters?
  }

  /** The first path segment of each single-entity type. */
  function Segment(kind: PageType): string {
    match kind
    case Activity => "activity"
    case Spots => "spots"
    case Events => "events"
    case Skaters => "skaters"
    case _ => ""
  }

  predicate NoSlash(s: string) {
    forall i :: 0 <= i < |s| ==> s[i] != '/'
  }

  /** The optional tail `(?:/|/amp/)?` the patterns accept after the id. */
  predicate IsSuffix(s: string) {
    s == "" || s == "/" || s == "/amp/"
  }

  /** The path of a single-entity page, without its optional tail. */
  function PathOf(kind: PageType, id: string): string {
    "/" + Segment(kind) + "/" + id
  }

  /** The length of the leading run of characters other than '/'. */
  function SegmentEnd(s: string): (k: nat)
    ensures k <= |s| && NoSlash(s[..k]) && (k < |s| ==> s[k] == '/')
  {
    if s == [] || s[0] == '/' then 0
    else
      var k := SegmentEnd(s[1..]);
      assert s[..k + 1] == [s[0]] + s[1..][..k];
      k + 1
  }

  /** `([^/]+)(?:/|/amp/)?$` applied to what follows the type segment. */
  function SplitId(rest: string): (r: Option<string>)
    ensures r.Some? ==> r.value != "" && NoSlash(r.value)
  {
    var k := SegmentEnd(rest);
    if k > 0 && IsSuffix(rest[k..]) then Some(rest[..k]) else None
  }

  /** A slash-free prefix followed by nothing or by a slash ends where the prefix does. */
  lemma SegmentEndOf(id: string, suffix: string)
    requires NoSlash(id) && (suffix == [] || suffix[0] == '/')
    ensures SegmentEnd(id + suffix) == |id|
  {
    var s := id + suffix;
    var k := SegmentEnd(s);
    assert forall i :: 0 <= i < |id| ==> s[i] == id[i];
    if |id| < |s| {
      assert s[|id|] == '/';
    }
  }

  /** The id pattern accepts exactly a non-empty slash-free id followed by one of the three tails. */
  lemma SplitIdSpec(rest: string, id: string)
    ensures SplitId(rest) == Some(id) <==>
      (id != "" && NoSlash(id) && (rest == id || rest == id + "/" || rest == id + "/amp/"))
  {
    var k := SegmentEnd(rest);
    if SplitId(rest) == Some(id) {
      assert rest == rest[..k] + rest[k..];
    }
    if id != "" && NoSlash(id) && (rest == id || rest == id + "/" || rest == id + "/amp/") {
      var suffix := rest[|id|..];
      assert rest == id + suffix;
      SegmentEndOf(id, suffix);
    }
  }

  /** One of the two patterns, for one type: `^/TYPE/` then the id. */
  function MatchRoute(u: string, kind: PageType): (r: Option<PageDetails>)
    ensures r.Some? ==> r.value.kind == kind
  {
    var p := "/" + Segment(kind) + "/";
    if StartsWith(u, p) then
      match SplitId(u[|p|..])
      case Some(id) => Some(Single(kind, id))
      case None => None
    else None
  }

  /**
   * `lr_get_page_details_from_uri`: the activity pattern, then the
   * spots|events|skaters pattern; anything else, and an unset
   * REQUEST_URI, give null.
   */
  function PageDetailsFromUri(uri: Option<string>): (r: Option<PageDetails>)
    ensures uri.None? ==> r.None?
    ensures r.Some? ==> IsSingle(r.value.kind) && r.value.country.None? && r.value.city.None?
  {
    match uri
    case None => None
    case Some(u) =>
      var a := MatchRoute(u, Activity);
      if a.Some? then a
      else
        var s := MatchRoute(u, Spots);
        if s.Some? then s
        else
          var e := MatchRoute(u, Events);
          if e.Some? then e else MatchRoute(u, Skaters)
  }

  lemma SegmentShape(kind: PageType)
    requires IsSingle(kind)
    ensures Segment(kind) != "" && NoSlash(Segment(kind))
  {
    var s := Segment(kind);
    assert forall i :: 0 <= i < |s| ==> s[i] != '/';
  }

  /** The four segments have four different lengths, so they are different. */
  lemma SegmentInjective(a: PageType, b: PageType)
    requires IsSingle(a) && IsSingle(b) && Segment(a) == Segment(b)
    ensures a == b
  {
    assert |Segment(a)| == |Segment(b)|;
  }

  /** Two `/segment/` prefixes of one URI, with slash-free segments, are the same prefix. */
  lemma PrefixesAgree(u: string, s1: string, s2: string)
    requires NoSlash(s1) && NoSlash(s2)
    requires StartsWith(u, "/" + s1 + "/") && StartsWith(u, "/" + s2 + "/")
    ensures s1 == s2
  {
    PrefixSegment(u, s1);
    PrefixSegment(u, s2);
  }

  /** A `/segment/` prefix with a slash-free segment: the segment is the first run after the leading slash. */
  lemma PrefixSegment(u: string, s: string)
    requires NoSlash(s) && StartsWith(u, "/" + s + "/")
    ensures |u| > |s| + 1 && SegmentEnd(u[1..]) == |s| && u[1..|s| + 1] == s
  {
    var p := "/" + s + "/";
    assert u[..|p|] == p;
    assert u[1..] == s + u[|s| + 1..];
    assert u[|s| + 1] == p[|s| + 1] == '/';
    SegmentEndOf(s, u[|s| + 1..]);
  }

  /** A route of another type does not match a URI that starts with this type's prefix. */
  lemma OtherRouteFails(u: string, kind: PageType, other: PageType)
    requires IsSingle(kind) && IsSingle(other) && kind != other
    requires StartsWith(u, "/" + Segment(kind) + "/")
    ensures MatchRoute(u, other) == None
  {
    SegmentShape(kind);
    SegmentShape(other);
    if StartsWith(u, "/" + Segment(other) + "/") {
      PrefixesAgree(u, Segment(kind), Segment(other));
      SegmentInjective(kind, other);
    }
  }

  /** The own route of a type matches its path followed by any accepted tail. */
  lemma OwnRouteMatches(kind: PageType, id: string, suffix: string)
    requires IsSingle(kind) && id != "" && NoSlash(id) && IsSuffix(suffix)
    ensures MatchRoute(PathOf(kind, id) + suffix, kind) == Some(Single(kind, id))
  {
    var p := "/" + Segment(kind) + "/";
    var u := PathOf(kind, id) + suffix;
    assert u == p + (id + suffix);
    assert u[..|p|] == p;
    assert u[|p|..] == id + suffix;
    SplitIdSpec(id + suffix, id);
  }

  /**
   * Every single-entity path with a non-empty slash-free id, followed by
   * nothing, `/` or `/amp/`, is recognised as that type and id.
   */
  lemma PageDetailsRoundTrip(kind: PageType, id: string, suffix: string)
    requires IsSingle(kind) && id != "" && NoSlash(id) && IsSuffix(suffix)
    ensures PageDetailsFromUri(Some(PathOf(kind, id) + suffix)) == Some(Single(kind, id))
  {
    var u := PathOf(kind, id) + suffix;
    var p := "/" + Segment(kind) + "/";
    assert u == p + (id + suffix);
    assert StartsWith(u, p);
    OwnRouteMatches(kind, id, suffix);
    if kind != Activity { OtherRouteFails(u, kind, Activity); }
    if kind != Spots { OtherRouteFails(u, kind, Spots); }
    if kind != Events { OtherRouteFails(u, kind, Events); }
  }

  /** What a matching route saw: the URI is the type's path with that id and an accepted tail. */
  lemma MatchRouteShape(u: string, kind: PageType)
    requires IsSingle(kind) && MatchRoute(u, kind).Some?
    ensures var id := MatchRoute(u, kind).value.id;
      id != "" && NoSlash(id) &&
      (u == PathOf(kind, id) || u == PathOf(kind, id) + "/" || u == PathOf(kind, id) + "/amp/")
  {
    var p := "/" + Segment(kind) + "/";
    var id := MatchRoute(u, kind).value.id;
    var rest := u[|p|..];
    SplitIdSpec(rest, id);
    StartsWithSplit(u, p);
    assert PathOf(kind, id) == p + id;
    PrependTail(p, rest, id, "/");
    PrependTail(p, rest, id, "/amp/");
  }

  /** A prefix in front of `id + tail` is the prefixed id followed by the tail. */
  lemma PrependTail(p: string, rest: string, id: string, tail: string)
    ensures rest == id + tail ==> p + rest == (p + id) + tail
  {
  }

  /** Conversely, whatever the recogniser accepts is such a path; no other URI is recognised. */
  lemma PageDetailsShape(u: string)
    requires PageDetailsFromUri(Some(u)).Some?
    ensures var p := PageDetailsFromUri(Some(u)).value;
      IsSingle(p.kind) && p.id != "" && NoSlash(p.id) &&
      (u == PathOf(p.kind, p.id) || u == PathOf(p.kind, p.id) + "/" || u == PathOf(p.kind, p.id) + "/amp/")
  {
    var p := PageDetailsFromUri(Some(u)).value;
    assert MatchRoute(u, p.kind) == Some(p);
    MatchRouteShape(u, p.kind);
  }

  /** `lr_get_og_title`. */
  function OgTitle(details: Option<PageDetails>, d: Data): (r: string)
    ensures details.None? || !IsSingle(details.value.kind) ==> r == ""
  {
    if details.None? then ""
    else match details.value.kind
      case Skaters => "Rollerskater Profile: " + d.skateName.GetOr(d.firstName.GetOr(""))
      case Spots => "Skate Spot: " + (if d.spot.Some? then d.spot.value.name.GetOr("Details") else "Details")
      case Events => "Skate Event: " + d.name.GetOr("Details")
      case Activity => "Skate Session by " + FirstSkateName(d, "a Skater") + ": " + FirstSessionName(d, "A Skate Session")
      case _ => ""
  }

  /** The rating sentence of a spot, present only when it has ratings. */
  function RatingParts(s: Spot, env: Env): seq<string> {
    var count := s.ratingsCount.GetOr(0);
    if count > 0 then ["Rated " + env.average(s.totalValue, count) + " out of 5 stars by the community."] else []
  }

  /** A spot's description: its address (when set) and its rating sentence, joined by a space. */
  function SpotDescription(s: Spot, env: Env): string {
    Implode((if Truthy(s.address) then [s.address.value] else []) + RatingParts(s, env), " ")
  }

  /**
   * Without ratings the description is the address alone; with ratings it
   * ends in the rating sentence.
   */
  lemma SpotDescriptionRating(s: Spot, env: Env)
    ensures s.ratingsCount.GetOr(0) <= 0 ==>
      SpotDescription(s, env) == (if Truthy(s.address) then s.address.value else "")
    ensures s.ratingsCount.GetOr(0) > 0 ==>
      EndsWith(SpotDescription(s, env), "Rated " + env.average(s.totalValue, s.ratingsCount.value) + " out of 5 stars by the community.")
  {
    var sentence := "Rated " + env.average(s.totalValue, s.ratingsCount.GetOr(0)) + " out of 5 stars by the community.";
    if s.ratingsCount.GetOr(0) > 0 && Truthy(s.address) {
      var parts := [s.address.value] + RatingParts(s, env);
      assert parts == [s.address.value, sentence];
      assert parts[1..] == [sentence];
      assert Implode(parts[1..], " ") == sentence;
      assert SpotDescription(s, env) == s.address.value + " " + sentence;
    } else if s.ratingsCount.GetOr(0) > 0 {
      assert [] + RatingParts(s, env) == [sentence];
    } else if Truthy(s.address) {
      assert [s.address.value] + RatingParts(s, env) == [s.address.value];
    }
  }

  /** An event's description: when, where and the trimmed description, each only when available. */
  function EventDescription(d: Data, env: Env): string {
    var when :=
      if Truthy(d.startDate) && env.formatDate(d.startDate.value).Some?
      then ["When: " + env.formatDate(d.startDate.value).value + "."] else [];
    var place :=
      if Truthy(d.address) && env.formattedAddress(d.address.value).Some?
      then ["Where: " + env.formattedAddress(d.address.value).value + "."] else [];
    var text := if Truthy(d.description) then [env.trimWords(d.description.value, 20)] else [];
    Implode(when + place + text, " ")
  }

  /** `lr_get_og_description`. */
  function OgDescription(details: Option<PageDetails>, d: Data, env: Env): (r: string)
    ensures details.None? || !IsSingle(details.value.kind) ==> r == ""
    ensures details.Some? && details.value.kind == Spots && d.spot.None? ==> r == ""
  {
    if details.None? then ""
    else match details.value.kind
      case Skaters =>
        var fallback := "Check out the profile for " + env.escHtml(d.skateName.GetOr("")) +
          (" on Let's Roll and connect with " + "skaters from around the world.");
        if Truthy(d.publicBio) then env.trimWords(d.publicBio.value, 25) else fallback
      case Spots => if d.spot.Some? then SpotDescription(d.spot.value, env) else ""
      case Events => EventDescription(d, env)
      case Activity =>
        if d.sessions != [] && Truthy(d.sessions[0].description) then env.trimWords(d.sessions[0].description.value, 25)
        else ("Check out this skate session " + "on Let's Roll!")
      case _ => ""
  }

  /** The proxy URL of an event attachment at the Open Graph size. */
  function EventImage(env: Env, attachment: string, session: string): string {
    env.proxy + "?type=event_attachment&id=" + attachment + "&session_id=" + session + "&width=1200&quality=85"
  }

  /** `lr_get_og_image_url` as open-graph.php defines it. */
  function OgImage(details: Option<PageDetails>, d: Data, env: Env): (r: string)
    ensures details.None? || !IsSingle(details.value.kind) ==> r == ""
    ensures details.Some? && details.value.kind == Activity ==>
      (r == "" <==> !Any(d.attachments, NotStaticMap)) &&
      (r != "" ==> exists i :: IsFirst(d.attachments, NotStaticMap, i) && r == EventImage(env, d.attachments[i].id, FirstSessionId(d)))
    ensures details.Some? && details.value.kind == Events ==>
      (r == "" <==> d.attachments == []) &&
      (r != "" ==> r == EventImage(env, d.attachments[0].id, d.id.GetOr("")))
  {
    if details.None? then ""
    else match details.value.kind
      case Skaters => AvatarBase + d.userId.GetOr("") + "/avatar/content/processed?width=1200&height=630&quality=85"
      case Spots =>
        if d.spot.Some? && Truthy(d.spot.value.satellite)
        then env.proxy + "?type=spot_satellite&id=" + d.spot.value.satellite.value + "&width=1200&quality=85"
        else ""
      case Events => if d.attachments != [] then EventImage(env, d.attachments[0].id, d.id.GetOr("")) else ""
      case Activity =>
        (match FirstWhere(d.attachments, NotStaticMap)
         case Some(i) => EventImage(env, d.attachments[i].id, FirstSessionId(d))
         case None => "")
      case _ => ""
  }

  /** Static-map attachments ahead of the first photo are skipped: the photo is the image. */
  lemma ActivityImageSkipsStaticMaps(details: Option<PageDetails>, d: Data, env: Env, maps: seq<Attachment>, photo: Attachment)
    requires details.Some? && details.value.kind == Activity
    requires forall i :: 0 <= i < |maps| ==> maps[i].isStaticMap
    requires |maps| < |d.attachments| && d.attachments[..|maps| + 1] == maps + [photo] && !photo.isStaticMap
    ensures OgImage(details, d, env) == EventImage(env, photo.id, FirstSessionId(d))
  {
    var seen := maps + [photo];
    assert IsFirst(d.attachments, NotStaticMap, |maps|) by {
      PrefixIndex(d.attachments, seen, |maps|);
      forall j | 0 <= j < |maps| ensures !NotStaticMap(d.attachments[j]) {
        PrefixIndex(d.attachments, seen, j);
        assert seen[j] == maps[j];
      }
    }
    var r := OgImage(details, d, env);
    assert Any(d.attachments, NotStaticMap);
    var i :| IsFirst(d.attachments, NotStaticMap, i) && r == EventImage(env, d.attachments[i].id, FirstSessionId(d));
    IsFirstUnique(d.attachments, NotStaticMap, i, |maps|);
    assert d.attachments[i] == seen[|maps|] == photo;
  }

  /** `lr_get_og_type`: 'profile' exactly on skater pages. */
  function OgType(details: Option<PageDetails>): (r: string)
    ensures r == "profile" <==> details.Some? && details.value.kind == Skaters
    ensures r == "profile" || r == "article"
  {
    if details.Some? && details.value.kind == Skaters then "profile" else "article"
  }

  /** The six properties in the order they are assigned. */
  const OgOrder: seq<string> := ["og:title", "og:description", "og:image", OgTypeProperty, "og:url", TwitterCard]

  const OgTypeProperty := "og:type"
  const TwitterCard := "twitter:card"
  const LargeImage := "summary_large_image"

  /** The property → content array `lr_generate_custom_meta_tags_html` builds. */
  function OgPairs(details: Option<PageDetails>, d: Data, env: Env, uri: string): (r: seq<(string, string)>)
    ensures |r| == |OgOrder| && forall i :: 0 <= i < |r| ==> r[i].0 == OgOrder[i]
  {
    Zip(OgOrder, [OgTitle(details, d), OgDescription(details, d, env), OgImage(details, d, env),
                  OgType(details), env.home(uri), LargeImage])
  }

  /** The tags emitted for a page: none off the recognised pages, else the non-empty pairs. */
  function OgTags(uri: Option<string>, d: Data, env: Env): (r: seq<MetaTag>)
    ensures PageDetailsFromUri(uri).None? ==> r == []
  {
    var details := PageDetailsFromUri(uri);
    if details.None? then [] else SocialTags(OgPairs(details, d, env, uri.value))
  }

  /**
   * On a recognised page the six properties come in their fixed order
   * with the empty ones left out, so that og:type and the twitter card
   * (under the `name` attribute) are always there.
   */
  lemma OgTagsSpec(uri: Option<string>, d: Data, env: Env)
    requires PageDetailsFromUri(uri).Some?
    ensures var r := OgTags(uri, d, env);
      Subsequence(r, Map(OgPairs(PageDetailsFromUri(uri), d, env, uri.value), ToTag)) &&
      MetaTag("property", OgTypeProperty, OgType(PageDetailsFromUri(uri))) in r &&
      MetaTag("name", TwitterCard, LargeImage) in r &&
      (forall t :: t in r ==> !PhpEmpty(t.content))
  {
    var details := PageDetailsFromUri(uri);
    var pairs := OgPairs(details, d, env, uri.value);
    assert pairs[3].1 == OgType(details) && pairs[5].1 == LargeImage;
    FixedOrderTags(pairs);
  }

  /** In the fixed order, an og:type of 'profile' or 'article' and the twitter card are always emitted, whatever the other contents. */
  lemma FixedOrderTags(pairs: seq<(string, string)>)
    requires |pairs| == |OgOrder| && forall i :: 0 <= i < |pairs| ==> pairs[i].0 == OgOrder[i]
    requires pairs[3].1 == "profile" || pairs[3].1 == "article"
    requires pairs[5].1 == LargeImage
    ensures MetaTag("property", OgTypeProperty, pairs[3].1) in SocialTags(pairs)
    ensures MetaTag("name", TwitterCard, LargeImage) in SocialTags(pairs)
  {
    assert pairs[3].0 == OgTypeProperty && pairs[5].0 == TwitterCard;
    TwitterCardTag(pairs[5]);
    OgTypeTag(pairs[3]);
    assert pairs[3] in pairs && pairs[5] in pairs;
  }

  lemma TwitterCardTag(p: (string, string))
    requires p == (TwitterCard, LargeImage)
    ensures HasContent(p) && ToTag(p) == MetaTag("name", TwitterCard, LargeImage)
  {
    assert StartsWith(p.0, "twitter");
  }

  lemma OgTypeTag(p: (string, string))
    requires p.0 == OgTypeProperty && (p.1 == "profile" || p.1 == "article")
    ensures HasContent(p) && ToTag(p) == MetaTag("property", OgTypeProperty, p.1)
  {
    assert p.0[0] != "twitter"[0];
  }

  /** Members of a subsequence are members of the sequence. */
  lemma {:induction false} SubsequenceMembers<T>(a: seq<T>, b: seq<T>, x: T)
    requires Subsequence(a, b) && x in a
    ensures x in b
    decreases |b|
  {
    if a[0] == b[0] {
      if x != a[0] {
        SubsequenceMembers(a[1..], b[1..], x);
      }
    } else {
      SubsequenceMembers(a, b[1..], x);
    }
  }

  /** The comment-wrapped tag block; empty off the recognised pages. */
  function TagsHtml(uri: Option<string>, d: Data, env: Env): string {
    if PageDetailsFromUri(uri).None? then ""
    else ("<!-- Let's Roll Dynamic OG Tags " + "-->\n") + RenderTags(OgTags(uri, d, env), env) + "<!-- End Let's Roll OG Tags -->\n"
  }

  /**
   * `lr_process_final_html_for_og_tags`: without page data the buffer is
   * returned as it is; otherwise, after `strip` (the regex removing other
   * plugins' tags), the block is injected after every `<head>`.
   */
  function ProcessBuffer(buffer: string, uri: Option<string>, data: Option<Data>, env: Env, strip: string -> string): (r: string)
    ensures data.None? ==> r == buffer
  {
    match data
    case None => buffer
    case Some(d) => InjectAfterHead(strip(buffer), TagsHtml(uri, d, env))
  }
}

=== FILE: ordered_map.dfy ===
/**
 * Insertion-ordered dictionaries, as both Python's `dict` and PHP's
 * associative arrays behave: an association list with distinct keys,
 * where assigning an existing key keeps its position.
 */
module OrderedMap {
  import opened Wrappers

  type Dict<K, V> = seq<(K, V)>

  /** The keys of `d`, in insertion order. */
  function Keys<K(==,!new), V>(d: Dict<K, V>): (r: seq<K>)
    ensures |r| == |d|
    ensures forall i :: 0 <= i < |d| ==> r[i] == d[i].0
  {
    if d == [] then [] else [d[0].0] + Keys(d[1..])
  }

  /** The invariant of every Python dictionary: no key twice. */
  predicate DistinctKeys<K(==,!new), V>(d: Dict<K, V>) {
    forall i, j :: 0 <= i < j < |d| ==> d[i].0 != d[j].0
  }

  /** `d.get(k)`. */
  function Lookup<K(==,!new), V>(d: Dict<K, V>, k: K): (r: Option<V>)
    ensures r.Some? <==> k in Keys(d)
    ensures r.Some? ==> (k, r.value) in d
  {
    if d == [] then None
    else if d[0].0 == k then Some(d[0].1)
    else Lookup(d[1..], k)
  }

  /** In a dictionary, `Lookup` finds exactly the stored pairs. */
  lemma {:induction false} LookupMember<K(!new), V>(d: Dict<K, V>, k: K, v: V)
    requires DistinctKeys(d)
    ensures Lookup(d, k) == Some(v) <==> (k, v) in d
  {
    if d != [] {
      assert DistinctKeys(d[1..]);
      LookupMember(d[1..], k, v);
      if d[0].0 == k {
        forall j | 0 <= j < |d[1..]|
          ensures d[1..][j] != (k, v)
        {
          assert d[0].0 != d[j + 1].0;
        }
      }
    }
  }

  /**
   * `d[k] = v`: an existing key keeps its position and takes the new
   * value; a new key is appended.
   */
  function Set<K(==,!new), V>(d: Dict<K, V>, k: K, v: V): (r: Dict<K, V>)
    requires DistinctKeys(d)
    ensures DistinctKeys(r)
    ensures k in Keys(d) ==> Keys(r) == Keys(d)
    ensures k !in Keys(d) ==> Keys(r) == Keys(d) + [k]
  {
    if d == [] then [(k, v)]
    else if d[0].0 == k then
      TailDistinct(d);
      Cons((k, v), d[1..]);
      Cons(d[0], d[1..]);
      ConsDistinct((k, v), d[1..]);
      [(k, v)] + d[1..]
    else
      TailDistinct(d);
      var t := Set(d[1..], k, v);
      Cons(d[0], t);
      Cons(d[0], d[1..]);
      assert d[0].0 !in Keys(t);
      ConsDistinct(d[0], t);
      [d[0]] + t
  }

  /** The tail of a dictionary is one, and does not hold the head's key. */
  lemma TailDistinct<K(!new), V>(d: Dict<K, V>)
    requires DistinctKeys(d) && d != []
    ensures DistinctKeys(d[1..]) && d[0].0 !in Keys(d[1..])
  {
    forall i | 0 <= i < |d[1..]|
      ensures Keys(d[1..])[i] != d[0].0
    {
      assert d[1..][i] == d[i + 1];
    }
  }

  /** A fresh key in front of a dictionary keeps the keys distinct. */
  lemma ConsDistinct<K(!new), V>(h: (K, V), t: Dict<K, V>)
    requires DistinctKeys(t) && h.0 !in Keys(t)
    ensures DistinctKeys([h] + t)
  {
    var r := [h] + t;
    forall i, j | 0 <= i < j < |r| ensures r[i].0 != r[j].0 {
      assert r[j] == t[j - 1];
      if i == 0 {
        assert Keys(t)[j - 1] == r[j].0;
      } else {
        assert r[i] == t[i - 1];
      }
    }
  }

  /** After `d[k] = v`, `k` maps to `v` and every other key to what it did before. */
  lemma {:induction false} SetLookup<K(!new), V>(d: Dict<K, V>, k: K, v: V)
    requires DistinctKeys(d)
    ensures Lookup(Set(d, k, v), k) == Some(v)
    ensures forall k' :: k' != k ==> Lookup(Set(d, k, v), k') == Lookup(d, k')
  {
    if d != [] {
      TailDistinct(d);
      Cons(d[0], d[1..]);
      assert d == [d[0]] + d[1..];
      if d[0].0 == k {
        Cons((k, v), d[1..]);
        assert Set(d, k, v) == [(k, v)] + d[1..];
      } else {
        var t := Set(d[1..], k, v);
        assert Set(d, k, v) == [d[0]] + t;
        SetLookup(d[1..], k, v);
        Cons(d[0], t);
      }
    }
  }

  /** Keys and lookups of a list with a given head. */
  lemma Cons<K(!new), V>(h: (K, V), t: Dict<K, V>)
    ensures Keys([h] + t) == [h.0] + Keys(t)
    ensures forall k :: Lookup([h] + t, k) == if h.0 == k then Some(h.1) else Lookup(t, k)
  {
    assert ([h] + t)[1..] == t;
  }

  /** Appending an entry leaves the existing keys' values alone; its own key is found only when new. */
  lemma {:induction false} LookupAppend<K(!new), V>(d: Dict<K, V>, h: (K, V), k: K)
    ensures Lookup(d + [h], k) == if k in Keys(d) then Lookup(d, k) else if k == h.0 then Some(h.1) else None
    decreases |d|
  {
    if d == [] {
      Cons(h, []);
    } else {
      assert d + [h] == [d[0]] + (d[1..] + [h]);
      Cons(d[0], d[1..] + [h]);
      Cons(d[0], d[1..]);
      assert d == [d[0]] + d[1..];
      LookupAppend(d[1..], h, k);
    }
  }

  /** `unset($d[$k])`: the other entries keep their order; an absent key changes nothing. */
  function Remove<K(==,!new), V>(d: Dict<K, V>, k: K): (r: Dict<K, V>)
    requires DistinctKeys(d)
    ensures DistinctKeys(r)
    ensures k !in Keys(d) ==> r == d
    ensures Lookup(r, k) == None
    ensures forall k' :: k' != k ==> Lookup(r, k') == Lookup(d, k')
  {
    if d == [] then []
    else
      TailDistinct(d);
      Cons(d[0], d[1..]);
      if d[0].0 == k then
        d[1..]
      else
        var t := Remove(d[1..], k);
        Cons(d[0], t);
        assert Lookup(t, d[0].0) == None;
        assert d[0].0 !in Keys(t);
        ConsDistinct(d[0], t);
        assert k !in Keys(d) ==> t == d[1..];
        assert d == [d[0]] + d[1..];
        [d[0]] + t
  }
}

=== FILE: page_data.dfy ===
/**
 * What the metadata builders read: the page details a recogniser
 * returns, the decoded API object of the page, the site helpers they
 * call, and the meta tags they emit.
 */
module PageData {
  import opened Wrappers
  import opened Strings
  import opened Seqs

  /** The `type` of a page-details array; `OtherType` is any string the builders do not switch on. */
  datatype PageType =
    | Explore | CountryPage | CityPage | ListPage(listType: string) | UpdateList | UpdatePost
    | Skaters | Spots | Events | Activity | OtherType(name: string)

  /** A page-details array: its type, the entity id, and the country and city slugs when set. */
  datatype PageDetails = PageDetails(kind: PageType, id: string, country: Option<string>, city: Option<string>)

  /** A single-entity page as the URI recogniser reports it. */
  function Single(kind: PageType, id: string): PageDetails {
    PageDetails(kind, id, None, None)
  }

  datatype Attachment = Attachment(id: string, isStaticMap: bool)

  /**
   * `spotWithAddress`: name, satellite image id, `info->address`,
   * `address->city`, rating count and total, and the GeoJSON coordinates
   * (longitude first) as decimal text.
   */
  datatype Spot = Spot(
    name: Option<string>, satellite: Option<string>, address: Option<string>, city: Option<string>,
    ratingsCount: Option<int>, totalValue: int, coordinates: seq<string>)

  datatype Session = Session(id: Option<string>, name: Option<string>, description: Option<string>)

  datatype Profile = Profile(userId: Option<string>, skateName: Option<string>, firstName: Option<string>)

  /**
   * The decoded API object of a page. Each page type reads a few of these
   * fields; a field the object lacks is `None` (PHP's null).
   */
  datatype Data = Data(
    id: Option<string>, name: Option<string>, description: Option<string>,
    userId: Option<string>, skateName: Option<string>, firstName: Option<string>,
    publicBio: Option<string>, instagram: Option<string>,
    spot: Option<Spot>, attachments: seq<Attachment>, sessions: seq<Session>, profiles: seq<Profile>,
    startDate: Option<string>, endDate: Option<string>, address: Option<string>,
    postTitle: Option<string>, postSummary: Option<string>, featuredImage: Option<string>)

  /**
   * The site and the WordPress helpers the builders call, as functions:
   * `home_url`, the image-proxy and icon URLs, `wp_trim_words` over
   * `esc_html`, `esc_html`, `esc_attr`, `esc_url`, `wp_strip_all_tags`, the date
   * formatter (absent when the date does not parse), the rounded average
   * rating, and the `formatted_address` of a JSON address (absent when it
   * does not decode or lacks the field).
   */
  datatype Env = Env(
    home: string -> string, proxy: string, icon: string,
    trimWords: (string, nat) -> string, escHtml: string -> string, escAttr: string -> string, escUrl: string -> string,
    stripTags: string -> string, formatDate: string -> Option<string>,
    average: (int, int) -> string, formattedAddress: string -> Option<string>)

  const AvatarBase := "https://beta.web.lets-roll.app/api/user/"

  /** The display name of a list type: 'Skate Spots' for skatespots, else the capitalised type. */
  function ListName(listType: string): string {
    if listType == "skatespots" then "Skate Spots" else Ucfirst(listType)
  }

  /** One emitted `<meta>` tag: its attribute name, property and content. */
  datatype MetaTag = MetaTag(attr: string, property: string, content: string)

  /** twitter:* properties use the `name` attribute, every other one `property`. */
  function AttrFor(property: string): (r: string)
    ensures r == "name" <==> StartsWith(property, "twitter")
  {
    if StartsWith(property, "twitter") then "name" else "property"
  }

  function ToTag(p: (string, string)): MetaTag {
    MetaTag(AttrFor(p.0), p.0, p.1)
  }

  predicate HasContent(p: (string, string)) {
    !PhpEmpty(p.1)
  }

  /** The property → content loop: a tag per pair whose content is not empty. */
  function SocialTags(pairs: seq<(string, string)>): (r: seq<MetaTag>)
    ensures forall t :: t in r ==> !PhpEmpty(t.content) && (t.attr == "name" <==> StartsWith(t.property, "twitter"))
    ensures forall p :: p in pairs ==> (ToTag(p) in r <==> HasContent(p))
    ensures Subsequence(r, Map(pairs, ToTag))
    ensures |r| == |Filter(pairs, HasContent)|
  {
    if pairs == [] then []
    else
      var t := SocialTags(pairs[1..]);
      assert Map(pairs, ToTag) == [ToTag(pairs[0])] + Map(pairs[1..], ToTag);
      assert pairs == [pairs[0]] + pairs[1..];
      if HasContent(pairs[0]) then
        [ToTag(pairs[0])] + t
      else
        SubsequenceSkip(t, ToTag(pairs[0]), Map(pairs[1..], ToTag));
        assert forall p :: p in pairs && ToTag(p) == ToTag(pairs[0]) ==> p == pairs[0];
        t
  }

  /** Dropping the head of `b` keeps a subsequence of its tail a subsequence of `b`. */
  lemma SubsequenceSkip<T>(a: seq<T>, x: T, b: seq<T>)
    requires Subsequence(a, b)
    ensures Subsequence(a, [x] + b)
    decreases |b|, 1
  {
    if a != [] && a[0] == x {
      SubsequenceTail(a, b);
      assert ([x] + b)[1..] == b;
    } else {
      assert ([x] + b)[1..] == b;
    }
  }

  /** A subsequence with its head removed is still a subsequence. */
  lemma {:induction false} SubsequenceTail<T>(a: seq<T>, b: seq<T>)
    requires a != [] && Subsequence(a, b)
    ensures Subsequence(a[1..], b)
    decreases |b|, 0
  {
    if a[1..] != [] && b != [] {
      if a[0] == b[0] {
        SubsequenceSkip(a[1..], b[0], b[1..]);
        assert b == [b[0]] + b[1..];
      } else {
        SubsequenceTail(a, b[1..]);
        SubsequenceSkip(a[1..], b[0], b[1..]);
        assert b == [b[0]] + b[1..];
      }
    }
  }

  /** One tag as HTML: `<meta ATTR="PROPERTY" content="CONTENT">` and a line break, escaped by `esc_attr`. */
  function RenderTag(t: MetaTag, env: Env): string {
    "<meta " + t.attr + "=\"" + env.escAttr(t.property) + "\" content=\"" + env.escAttr(t.content) + "\">\n"
  }

  function RenderTags(tags: seq<MetaTag>, env: Env): string {
    if tags == [] then "" else RenderTag(tags[0], env) + RenderTags(tags[1..], env)
  }

  /** The first session's field, or the default when there is no session or it lacks the field. */
  function FirstSessionName(d: Data, default: string): string {
    if d.sessions == [] then default else d.sessions[0].name.GetOr(default)
  }

  function FirstSessionId(d: Data): string {
    if d.sessions == [] then "" else d.sessions[0].id.GetOr("")
  }

  function FirstSkateName(d: Data, default: string): string {
    if d.profiles == [] then default else d.profiles[0].skateName.GetOr(default)
  }

  predicate NotStaticMap(a: Attachment) {
    !a.isStaticMap
  }

  /** `str_replace('<head>', "<head>\n" . $html, $buffer)`. */
  function InjectAfterHead(buffer: string, html: string): string {
    ReplaceAll(buffer, "<head>", "<head>\n" + html)
  }

  /**
   * A page without a `<head>` tag is left as it is; a page with one gets
   * the block right after it, wherever it stands, and nothing else changes.
   */
  lemma InjectAfterHeadSpec(buffer: string, html: string, pre: string, rest: string)
    ensures !Contains(buffer, "<head>") ==> InjectAfterHead(buffer, html) == buffer
    ensures buffer == pre + "<head>" + rest && !Contains(pre, "<head>") && !Contains(rest, "<head>") ==>
      InjectAfterHead(buffer, html) == pre + "<head>\n" + html + rest
  {
    var h := "<head>\n" + html;
    if !Contains(buffer, "<head>") {
      ReplaceAllAbsent(buffer, "<head>", h);
    }
    if buffer == pre + "<head>" + rest && !Contains(pre, "<head>") && !Contains(rest, "<head>") {
      InjectAtOneHead(pre, rest, html);
    }
  }

  /** `str_replace` replaces every occurrence: a page with two `<head>` tags gets the block after each. */
  lemma InjectAfterEveryHead(pre: string, mid: string, rest: string, html: string)
    requires !Contains(pre, "<head>") && !Contains(mid, "<head>") && !Contains(rest, "<head>")
    ensures InjectAfterHead(pre + "<head>" + mid + "<head>" + rest, html) ==
      pre + "<head>\n" + html + mid + "<head>\n" + html + rest
  {
    var h := "<head>\n" + html;
    TwoHeadsReplaced(pre, mid, rest, h);
    assert pre + h + mid + h + rest == pre + "<head>\n" + html + mid + "<head>\n" + html + rest;
  }

  /** Two `<head>` tags among stretches without one, each replaced by `h`. */
  lemma TwoHeadsReplaced(pre: string, mid: string, rest: string, h: string)
    requires !Contains(pre, "<head>") && !Contains(mid, "<head>") && !Contains(rest, "<head>")
    ensures ReplaceAll(pre + "<head>" + mid + "<head>" + rest, "<head>", h) == pre + h + mid + h + rest
  {
    var x := pre + "<head>" + mid;
    HeadSeamClear(x, rest);
    ReplaceAllAppend(x, "<head>" + rest, "<head>", h);
    OneHeadReplaced(pre, mid, h);
    HeadFirst(rest, h);
    ReplaceAllAbsent(rest, "<head>", h);
    assert x + "<head>" + rest == x + ("<head>" + rest);
  }

  /** One `<head>` between two stretches without one, replaced by `h`. */
  lemma OneHeadReplaced(pre: string, rest: string, h: string)
    requires !Contains(pre, "<head>") && !Contains(rest, "<head>")
    ensures ReplaceAll(pre + "<head>" + rest, "<head>", h) == pre + h + rest
  {
    FirstHeadAfter(pre, rest, h);
    ReplaceAllAbsent(rest, "<head>", h);
    assert pre + "<head>" + rest == pre + ("<head>" + rest);
  }

  /** After a stretch without `<head>`, the first `<head>` is replaced and the rest is scanned on. */
  lemma FirstHeadAfter(pre: string, tail: string, h: string)
    requires !Contains(pre, "<head>")
    ensures ReplaceAll(pre + ("<head>" + tail), "<head>", h) == pre + (h + ReplaceAll(tail, "<head>", h))
  {
    HeadSeamClear(pre, tail);
    ReplaceAllAppend(pre, "<head>" + tail, "<head>", h);
    ReplaceAllAbsent(pre, "<head>", h);
    HeadFirst(tail, h);
  }

  /** One `<head>` between two stretches without one. */
  lemma InjectAtOneHead(pre: string, rest: string, html: string)
    requires !Contains(pre, "<head>") && !Contains(rest, "<head>")
    ensures InjectAfterHead(pre + "<head>" + rest, html) == pre + "<head>\n" + html + rest
  {
    var h := "<head>\n" + html;
    OneHeadReplaced(pre, rest, h);
  }

  /** A string starting with `<head>` has it replaced first. */
  lemma HeadFirst(rest: string, h: string)
    ensures ReplaceAll("<head>" + rest, "<head>", h) == h + ReplaceAll(rest, "<head>", h)
  {
    var s := "<head>" + rest;
    assert s[..6] == "<head>";
    assert s[6..] == rest;
  }

  /** `<` opens `<head>` only at its start, so no `<head>` runs from `pre` into a following `<head>`. */
  lemma HeadSeamClear(pre: string, rest: string)
    ensures NoStraddle(pre, "<head>" + rest, "<head>")
  {
    var s := pre + ("<head>" + rest);
    forall j | 0 <= j < |pre| < j + 6
      ensures !OccursAt(s, "<head>", j)
    {
      assert s[|pre|] == '<';
      assert j + 6 <= |s| ==> s[j..j + 6][|pre| - j] == s[|pre|];
    }
  }
}

=== FILE: post.dfy ===
/**
 * Generating one city-update post from a job: the title and summary (from
 * the AI writer, or the fallback wording when it fails), link verification
 * of the AI snippets, the section layout of the content, the featured
 * image, the post slug, and marking the job's recap rows as published.
 *
 * The AI writer, the link-verification cascade, `sanitize_title` and the
 * date formatting are parameters. The cards themselves stay data; the
 * model keeps of their rendering only what can throw, since a throw ends
 * the run before the post is stored: a review card whose rating is
 * outside 0..5, and every session card, whose renderer is defined in none
 * of the plugin files at hand. The spot card's stats helper and the
 * Markdown link conversion are taken as defined and never throwing.
 */
module CityUpdatePost {
  import opened Wrappers
  import opened Strings
  import opened OrderedMap
  import opened Seqs
  import opened Ledger
  import opened Locations
  import opened LinkVerification
  import opened Publication
  import Rendering

  /** An AI snippet: a plain string, or an array with optional `heading` and `intro`. */
  datatype Snippet = Text(text: string) | Section(heading: Option<string>, intro: Option<string>)

  /** The writer's answer: an error, or a title, an optional summary and the snippets by key. */
  datatype AiReply = AiFailed | AiSucceeded(title: string, summary: Option<string>, snippets: map<string, Snippet>)

  /** The snippets whose text goes through link verification, in the order they are checked. */
  /** The last key the link-verification loop visits, and so what `$key` holds after it. */
  const LastSnippetKey: string := "sessions_section"

  const SnippetKeys: seq<string> :=
    ["top_summary", "spots_section", "events_section", "skaters_section", "reviews_section", LastSnippetKey]

  /** The cascade's judgement of a link found in the snippet under a given key. */
  function VerdictFor(verdict: (string, Link) -> Option<string>, key: string): Link -> Option<string> {
    l => verdict(key, l)
  }

  /** Link verification of one snippet: a string, or an array's `intro`; headings are never touched. */
  function VerifySnippet(s: Snippet, home: string, verdict: Link -> Option<string>): (r: Snippet)
    ensures r.Text? <==> s.Text?
    ensures s.Section? ==> r.heading == s.heading && (r.intro.Some? <==> s.intro.Some?)
    ensures s.Text? && ScanLinks(s.text) == [] ==> r == s
    ensures s.Section? && s.intro.Some? && ScanLinks(s.intro.value) == [] ==> r == s
  {
    match s
    case Text(t) => Text(VerifyLinks(t, home, verdict))
    case Section(h, None) => s
    case Section(h, Some(i)) => Section(h, Some(VerifyLinks(i, home, verdict)))
  }

  /** The keys in `keys` are pairwise distinct. */
  predicate DistinctStrings(keys: seq<string>) {
    forall i, j :: 0 <= i < j < |keys| ==> keys[i] != keys[j]
  }

  /** The verification loop over `keys`: each snippet present is verified once, the rest are kept. */
  function VerifySnippets(snips: map<string, Snippet>, keys: seq<string>, home: string, verdict: (string, Link) -> Option<string>): (r: map<string, Snippet>)
    requires DistinctStrings(keys)
    ensures r.Keys == snips.Keys
    ensures forall k :: k in snips && k !in keys ==> r[k] == snips[k]
    ensures forall k :: k in snips && k in keys ==> r[k] == VerifySnippet(snips[k], home, VerdictFor(verdict, k))
    decreases |keys|
  {
    if keys == [] then snips
    else
      var k := keys[0];
      var once := if k in snips then snips[k := VerifySnippet(snips[k], home, VerdictFor(verdict, k))] else snips;
      assert DistinctStrings(keys[1..]);
      var r := VerifySnippets(once, keys[1..], home, verdict);
      assert forall k' :: k' in keys[1..] ==> k' != k;
      assert forall k' :: k' in keys && k' != k ==> k' in keys[1..];
      r
  }

  /** `$grouped_content[$kind]`: the cached data of the rows of one kind, in order. */
  function OfKind(rows: seq<Row>, k: Kind): (r: seq<Data>)
    ensures |r| <= |rows|
    ensures r == [] <==> forall i :: 0 <= i < |rows| ==> rows[i].kind != k
    ensures forall d :: d in r <==> exists i :: 0 <= i < |rows| && rows[i].kind == k && rows[i].data == d
  {
    if rows == [] then []
    else
      var t := OfKind(rows[1..], k);
      assert forall i :: 0 < i < |rows| ==> rows[i] == rows[1..][i - 1];
      (if rows[0].kind == k then [rows[0].data] else []) + t
  }

  /** A block of the post body; cards are rendered from their data elsewhere. */
  datatype Block = Paragraph(text: string) | Heading(text: string) | Cards(kind: Kind, items: seq<Data>, grid: bool)

  /** One content section: its kind, snippet key, default heading, and whether the cards sit in a grid. */
  datatype SectionSpec = SectionSpec(kind: Kind, key: string, defaultHeading: string, grid: bool)

  const SectionSpecs: seq<SectionSpec> := [
    SectionSpec(Spot, "spots_section", "New Skate Spots", true),
    SectionSpec(Event, "events_section", "Upcoming Events", true),
    SectionSpec(Skater, "skaters_section", "New Skaters", true),
    SectionSpec(Review, "reviews_section", "New Reviews", false),
    SectionSpec(Session, "sessions_section", "Latest Sessions", false)
  ]

  /** The order the sections appear in. */
  const SectionOrder: seq<Kind> := [Spot, Event, Skater, Review, Session]

  /** `$ai_snippets[key]['heading'] ?? default`. */
  function HeadingFor(snips: map<string, Snippet>, spec: SectionSpec): (r: string)
    ensures (spec.key !in snips || !snips[spec.key].Section? || snips[spec.key].heading.None?) ==> r == spec.defaultHeading
  {
    if spec.key in snips && snips[spec.key].Section? && snips[spec.key].heading.Some? then snips[spec.key].heading.value
    else spec.defaultHeading
  }

  /** The intro paragraph, present only when `!empty($ai_snippets[key]['intro'])`. */
  function IntroFor(snips: map<string, Snippet>, spec: SectionSpec): (r: seq<Block>)
    ensures |r| <= 1
    ensures spec.key !in snips ==> r == []
  {
    if spec.key in snips && snips[spec.key].Section? && Truthy(snips[spec.key].intro) then [Paragraph(snips[spec.key].intro.value)]
    else []
  }

  /** A section: nothing without rows of its kind, else heading, optional intro, cards. */
  function SectionBlocks(snips: map<string, Snippet>, rows: seq<Row>, spec: SectionSpec): (r: seq<Block>)
    ensures OfKind(rows, spec.kind) == [] <==> r == []
  {
    var items := OfKind(rows, spec.kind);
    if items == [] then []
    else [Heading(HeadingFor(snips, spec))] + IntroFor(snips, spec) + [Cards(spec.kind, items, spec.grid)]
  }

  function SectionsContent(snips: map<string, Snippet>, rows: seq<Row>, specs: seq<SectionSpec>): seq<Block>
    decreases |specs|
  {
    if specs == [] then [] else SectionBlocks(snips, rows, specs[0]) + SectionsContent(snips, rows, specs[1..])
  }

  /** The opening paragraph: the AI `top_summary` when it is a non-empty string, else the stock sentence. */
  function TopBlock(cityName: string, snips: map<string, Snippet>): (r: Block)
    ensures r.Paragraph?
    ensures "top_summary" !in snips ==> r == Paragraph("Here are the latest updates from the " + cityName + " skate scene.")
  {
    if "top_summary" in snips && snips["top_summary"].Text? && !PhpEmpty(snips["top_summary"].text)
    then Paragraph(snips["top_summary"].text)
    else Paragraph("Here are the latest updates from the " + cityName + " skate scene.")
  }

  /** `lr_generate_fallback_post_content` (style block and HTML escaping aside). */
  function PostContent(cityName: string, rows: seq<Row>, snips: map<string, Snippet>): seq<Block> {
    [TopBlock(cityName, snips)] + SectionsContent(snips, rows, SectionSpecs)
  }

  /** The kinds of the card blocks, in order. */
  function CardKinds(blocks: seq<Block>): seq<Kind>
    decreases |blocks|
  {
    if blocks == [] then []
    else (if blocks[0].Cards? then [blocks[0].kind] else []) + CardKinds(blocks[1..])
  }

  lemma {:induction false} CardKindsAppend(a: seq<Block>, b: seq<Block>)
    ensures CardKinds(a + b) == CardKinds(a) + CardKinds(b)
    decreases |a|
  {
    if a == [] {
      assert a + b == b;
    } else {
      var h := if a[0].Cards? then [a[0].kind] else [];
      assert (a + b)[0] == a[0] && (a + b)[1..] == a[1..] + b;
      assert CardKinds(a + b) == h + CardKinds(a[1..] + b);
      CardKindsAppend(a[1..], b);
    }
  }

  function KindsOf(specs: seq<SectionSpec>): (r: seq<Kind>)
    ensures |r| == |specs| && forall i :: 0 <= i < |specs| ==> r[i] == specs[i].kind
  {
    if specs == [] then [] else [specs[0].kind] + KindsOf(specs[1..])
  }

  /** A kind has a section exactly when some row is of that kind. */
  function HasRows(rows: seq<Row>): Kind -> bool {
    k => OfKind(rows, k) != []
  }

  lemma SectionBlocksCardKinds(snips: map<string, Snippet>, rows: seq<Row>, spec: SectionSpec)
    ensures CardKinds(SectionBlocks(snips, rows, spec)) == if OfKind(rows, spec.kind) != [] then [spec.kind] else []
  {
    if OfKind(rows, spec.kind) != [] {
      var h := [Heading(HeadingFor(snips, spec))];
      var c := [Cards(spec.kind, OfKind(rows, spec.kind), spec.grid)];
      CardKindsAppend(h + IntroFor(snips, spec), c);
      CardKindsAppend(h, IntroFor(snips, spec));
      assert CardKinds(IntroFor(snips, spec)) == [];
    }
  }

  /** The card sections appear in the fixed order, one for each kind that has rows. */
  lemma {:induction false} SectionsCardKinds(snips: map<string, Snippet>, rows: seq<Row>, specs: seq<SectionSpec>)
    ensures CardKinds(SectionsContent(snips, rows, specs)) == Filter(KindsOf(specs), HasRows(rows))
    decreases |specs|
  {
    if specs != [] {
      var here := SectionBlocks(snips, rows, specs[0]);
      CardKindsAppend(here, SectionsContent(snips, rows, specs[1..]));
      SectionsCardKinds(snips, rows, specs[1..]);
      SectionBlocksCardKinds(snips, rows, specs[0]);
      assert KindsOf(specs)[1..] == KindsOf(specs[1..]);
    }
  }

  /**
   * The post lists card sections for spots, events, skaters, reviews and
   * sessions in that order, each exactly when the job has rows of that kind.
   */
  lemma PostCardOrder(cityName: string, rows: seq<Row>, snips: map<string, Snippet>)
    ensures CardKinds(PostContent(cityName, rows, snips)) == Filter(SectionOrder, HasRows(rows))
  {
    var sections := SectionsContent(snips, rows, SectionSpecs);
    CardKindsAppend([TopBlock(cityName, snips)], sections);
    assert CardKinds([TopBlock(cityName, snips)]) == [];
    SectionsCardKinds(snips, rows, SectionSpecs);
    SpecKinds();
  }

  /** The section table lists the kinds in the post's order. */
  lemma SpecKinds()
    ensures KindsOf(SectionSpecs) == SectionOrder
  {
    var k := KindsOf(SectionSpecs);
    assert k[0] == Spot && k[1] == Event && k[2] == Skater && k[3] == Review && k[4] == Session;
  }

  /** Every card block carries all the job's data of its kind. */
  lemma {:induction false} SectionsCards(snips: map<string, Snippet>, rows: seq<Row>, specs: seq<SectionSpec>, b: Block)
    requires b in SectionsContent(snips, rows, specs) && b.Cards?
    ensures b.items == OfKind(rows, b.kind) && b.items != []
    decreases |specs|
  {
    var here := SectionBlocks(snips, rows, specs[0]);
    assert SectionsContent(snips, rows, specs) == here + SectionsContent(snips, rows, specs[1..]);
    if b in here {
      SectionBlockCards(snips, rows, specs[0], b);
    } else {
      SectionsCards(snips, rows, specs[1..], b);
    }
  }

  /** The one card block of a section holds that section's rows. */
  lemma SectionBlockCards(snips: map<string, Snippet>, rows: seq<Row>, spec: SectionSpec, b: Block)
    requires b in SectionBlocks(snips, rows, spec) && b.Cards?
    ensures b == Cards(spec.kind, OfKind(rows, spec.kind), spec.grid) && b.items != []
  {
    var items := OfKind(rows, spec.kind);
    var intro := IntroFor(snips, spec);
    assert SectionBlocks(snips, rows, spec) == [Heading(HeadingFor(snips, spec))] + intro + [Cards(spec.kind, items, spec.grid)];
    assert intro == [] || intro[0].Paragraph?;
  }

  /**
   * Without AI snippets, the body is the stock opening sentence followed by
   * sections that carry their default headings and no intro.
   */
  lemma {:induction false} FallbackSections(rows: seq<Row>, specs: seq<SectionSpec>, b: Block)
    requires b in SectionsContent(map[], rows, specs)
    ensures !b.Paragraph?
    ensures b.Heading? ==> exists i :: 0 <= i < |specs| && b.text == specs[i].defaultHeading
    decreases |specs|
  {
    if b !in SectionBlocks(map[], rows, specs[0]) {
      FallbackSections(rows, specs[1..], b);
      if b.Heading? {
        var i :| 0 <= i < |specs[1..]| && b.text == specs[1..][i].defaultHeading;
        assert specs[i + 1] == specs[1..][i];
      }
    }
  }

  /** `lr_select_featured_image`'s three tests, in priority order. */
  predicate HasAttachment(d: Data) {
    Truthy(d.firstAttachmentId)
  }

  predicate HasSatellite(d: Data) {
    Truthy(d.satellite)
  }

  predicate HasUser(d: Data) {
    Truthy(d.userId)
  }

  /** The image proxy URL of an event's first attachment. */
  function EventImageUrl(pluginUrl: string, d: Data): string {
    pluginUrl + "image-proxy.php?type=event_attachment&id=" + d.firstAttachmentId.GetOr("") +
    "&session_id=" + d.id.GetOr("") + "&width=400&quality=75"
  }

  /** The image proxy URL of a spot's satellite picture. */
  function SpotImageUrl(pluginUrl: string, d: Data): string {
    pluginUrl + "image-proxy.php?type=spot_satellite&id=" + d.satellite.GetOr("") + "&width=400&quality=75"
  }

  /** The processed avatar of a review's author. */
  function AvatarUrl(d: Data): string {
    "https://beta.web.lets-roll.app/api/user/" + d.userId.GetOr("") + "/avatar/content/processed?width=250&height=250&quality=75"
  }

  /**
   * The first event with an attachment, else the first spot with a
   * satellite picture, else the first review with a user, else none.
   */
  function FeaturedImage(pluginUrl: string, rows: seq<Row>): (r: Option<string>)
    ensures r.None? <==>
      !Any(OfKind(rows, Event), HasAttachment) && !Any(OfKind(rows, Spot), HasSatellite) && !Any(OfKind(rows, Review), HasUser)
    ensures Any(OfKind(rows, Event), HasAttachment) ==>
      exists i :: IsFirst(OfKind(rows, Event), HasAttachment, i) && r == Some(EventImageUrl(pluginUrl, OfKind(rows, Event)[i]))
    ensures !Any(OfKind(rows, Event), HasAttachment) && Any(OfKind(rows, Spot), HasSatellite) ==>
      exists i :: IsFirst(OfKind(rows, Spot), HasSatellite, i) && r == Some(SpotImageUrl(pluginUrl, OfKind(rows, Spot)[i]))
    ensures !Any(OfKind(rows, Event), HasAttachment) && !Any(OfKind(rows, Spot), HasSatellite) && Any(OfKind(rows, Review), HasUser) ==>
      exists i :: IsFirst(OfKind(rows, Review), HasUser, i) && r == Some(AvatarUrl(OfKind(rows, Review)[i]))
  {
    var events, spots, reviews := OfKind(rows, Event), OfKind(rows, Spot), OfKind(rows, Review);
    match FirstWhere(events, HasAttachment)
    case Some(i) => Some(EventImageUrl(pluginUrl, events[i]))
    case None =>
      match FirstWhere(spots, HasSatellite)
      case Some(i) => Some(SpotImageUrl(pluginUrl, spots[i]))
      case None =>
        match FirstWhere(reviews, HasUser)
        case Some(i) => Some(AvatarUrl(reviews[i]))
        case None => None
  }

  /** How a bucket key is written into a slug. */
  function PeriodLabel(p: Period): string {
    IntToString(p)
  }

  /**
   * The slug as the source builds it: on the AI path the bucket key variable
   * has been reused by the snippet loop and holds its last key.
   */
  function PostSlugAsWritten(sanitizedTitle: string, p: Period, aiSucceeded: bool): string {
    sanitizedTitle + "-" + (if aiSucceeded then SnippetKeys[|SnippetKeys| - 1] else PeriodLabel(p))
  }

  /** Two buckets of one city whose AI titles sanitise alike get the same slug, so one post replaces the other. */
  lemma AsWrittenSlugIgnoresBucket(sanitizedTitle: string, p: Period, q: Period)
    ensures PostSlugAsWritten(sanitizedTitle, p, true) == PostSlugAsWritten(sanitizedTitle, q, true)
  {
  }

  /** The slug with the bucket key, as the fallback path builds it. */
  function PostSlug(sanitizedTitle: string, p: Period): (r: string)
    ensures StartsWith(r, sanitizedTitle + "-")
  {
    sanitizedTitle + "-" + PeriodLabel(p)
  }

  /** With the bucket key in the slug, posts of different buckets never share a slug. */
  lemma PostSlugInjective(sanitizedTitle: string, p: Period, q: Period)
    requires PostSlug(sanitizedTitle, p) == PostSlug(sanitizedTitle, q)
    ensures p == q
  {
    var pre := sanitizedTitle + "-";
    assert PostSlug(sanitizedTitle, p)[|pre|..] == PeriodLabel(p);
    assert PostSlug(sanitizedTitle, q)[|pre|..] == PeriodLabel(q);
    IntToStringInjective(p, q);
  }

  /** The ids of the job's non-event rows: what `UPDATE … SET is_published = 1` receives. */
  function MarkedIds(rows: seq<Row>): (r: seq<int>)
    ensures forall id :: id in r <==> exists i :: 0 <= i < |rows| && rows[i].kind != Event && rows[i].id == id
  {
    if rows == [] then []
    else
      var t := MarkedIds(rows[1..]);
      assert forall i :: 0 < i < |rows| ==> rows[i] == rows[1..][i - 1];
      (if rows[0].kind != Event then [rows[0].id] else []) + t
  }

  /** The update: every row whose id is listed becomes published; nothing else changes. */
  function MarkPublished(rows: seq<Row>, ids: seq<int>): (r: seq<Row>)
    ensures |r| == |rows|
    ensures forall i :: 0 <= i < |rows| ==> r[i] == rows[i].(published := rows[i].published || rows[i].id in ids)
  {
    if rows == [] then []
    else [rows[0].(published := rows[0].published || rows[0].id in ids)] + MarkPublished(rows[1..], ids)
  }

  /**
   * Marking a job's rows in a table with unique ids publishes exactly its
   * non-event rows: events are never marked.
   */
  lemma MarkExactlyRecap(rows: seq<Row>, job: seq<Row>, i: int)
    requires UniqueIds(rows) && (forall x :: x in job ==> x in rows) && 0 <= i < |rows|
    ensures MarkPublished(rows, MarkedIds(job))[i].published <==>
      rows[i].published || (rows[i] in job && rows[i].kind != Event)
  {
    if rows[i].id in MarkedIds(job) {
      var k :| 0 <= k < |job| && job[k].kind != Event && job[k].id == rows[i].id;
      assert job[k] in job;
      var j :| 0 <= j < |rows| && rows[j] == job[k];
      assert j == i;
    }
    if rows[i] in job && rows[i].kind != Event {
      var k :| 0 <= k < |job| && job[k] == rows[i];
    }
  }

  /** The date strings of a period: the publish date and the title's date. */
  datatype Dates = Dates(publishDate: Period -> string, titleDate: Period -> string)

  /** `'F Y'` for monthly posts, `'Week of F j, Y'` otherwise. */
  function TitleDate(freq: Frequency, dates: Dates, p: Period): string {
    if freq == Monthly then dates.titleDate(p) else "Week of " + dates.titleDate(p)
  }

  /** `$city_details['name'] ?? ucfirst($city_slug)`. */
  function CityName(locs: LocationTable, city: string): (r: string)
    ensures CityBySlug(locs, city).None? ==> r == Ucfirst(city)
  {
    match CityBySlug(locs, city)
    case Some(c) => c.name
    case None => Ucfirst(city)
  }

  /** What the post generator is given besides the job. */
  datatype Env = Env(
    locs: LocationTable,
    dates: Dates,
    home: string,
    pluginUrl: string,
    sanitize: string -> string,
    verdict: (string, Link) -> Option<string>,
    site: Rendering.Site,
    sessions: SessionRenderer)

  /**
   * The renderer the sessions section calls: as written
   * `lr_render_session_card`, which none of the plugin files at hand defines, or a
   * defined renderer that does not throw.
   */
  datatype SessionRenderer = MissingSessionCard | DefinedSessionCard

  /** What PHP 8 throws when the body calls the undefined session renderer. */
  const UndefinedSessionCard := "Call to undefined function lr_render_session_card()"

  /** The two exceptions card rendering can throw. */
  predicate Thrown(e: string) {
    e == Rendering.NegativeRepeat || e == UndefinedSessionCard
  }

  /** The review a review card is built from; a missing rating reads as 0, as `str_repeat` reads null. */
  function ReviewOf(d: Data): Rendering.Review {
    Rendering.Review(d.spotId, d.userId, d.skateName.GetOr(""), d.spotName.GetOr(""), d.rating.GetOr(0), d.comment)
  }

  /**
   * The exception rendering one card of kind `k` throws, if any. Only review
   * and session cards can throw; spot, event and skater cards never do.
   */
  function CardFailure(k: Kind, d: Data, env: Env): (r: Option<string>)
    ensures r.Some? ==> Thrown(r.value)
    ensures k != Review && k != Session ==> r.None?
    ensures k == Session ==> (r.Some? <==> env.sessions == MissingSessionCard)
    ensures k == Review ==> (r.Some? <==> Truthy(d.spotId) && Truthy(d.userId) && !(0 <= d.rating.GetOr(0) <= 5))
  {
    match k
    case Review =>
      (match Rendering.ReviewCard(ReviewOf(d), env.site)
       case Err(e) => Some(e)
       case Ok(_) => None)
    case Session => if env.sessions == MissingSessionCard then Some(UndefinedSessionCard) else None
    case _ => None
  }

  /** Some row of the job has a card that throws. */
  predicate RowsFail(rows: seq<Row>, env: Env) {
    exists i :: 0 <= i < |rows| && CardFailure(rows[i].kind, rows[i].data, env).Some?
  }

  /** The first exception thrown while rendering the cards of `items` in order. */
  function ItemsFailure(k: Kind, items: seq<Data>, env: Env): (r: Option<string>)
    ensures r.Some? ==> Thrown(r.value)
    ensures r.None? <==> forall i :: 0 <= i < |items| ==> CardFailure(k, items[i], env).None?
  {
    match FirstWhere(items, d => CardFailure(k, d, env).Some?)
    case Some(i) => CardFailure(k, items[i], env)
    case None => None
  }

  /** The first exception thrown while rendering the card blocks of a body in order. */
  function ContentFailure(blocks: seq<Block>, env: Env): (r: Option<string>)
    ensures r.Some? ==> Thrown(r.value)
    ensures r.None? <==> forall i :: 0 <= i < |blocks| && blocks[i].Cards? ==> ItemsFailure(blocks[i].kind, blocks[i].items, env).None?
    decreases |blocks|
  {
    if blocks == [] then None
    else if blocks[0].Cards? && ItemsFailure(blocks[0].kind, blocks[0].items, env).Some? then ItemsFailure(blocks[0].kind, blocks[0].items, env)
    else
      var r := ContentFailure(blocks[1..], env);
      assert forall i :: 0 < i < |blocks| ==> blocks[i] == blocks[1..][i - 1];
      r
  }

  /** Every section with rows carries its card block. */
  lemma {:induction false} SectionHasCards(snips: map<string, Snippet>, rows: seq<Row>, specs: seq<SectionSpec>, n: nat)
    requires n < |specs| && OfKind(rows, specs[n].kind) != []
    ensures Cards(specs[n].kind, OfKind(rows, specs[n].kind), specs[n].grid) in SectionsContent(snips, rows, specs)
    decreases n
  {
    var b := Cards(specs[n].kind, OfKind(rows, specs[n].kind), specs[n].grid);
    var here := SectionBlocks(snips, rows, specs[0]);
    var tail := SectionsContent(snips, rows, specs[1..]);
    assert SectionsContent(snips, rows, specs) == here + tail;
    if n > 0 {
      assert specs[1..][n - 1] == specs[n];
      SectionHasCards(snips, rows, specs[1..], n - 1);
      assert b in tail;
    } else {
      assert here == [Heading(HeadingFor(snips, specs[0]))] + IntroFor(snips, specs[0]) + [b];
      assert here[|here| - 1] == b;
    }
  }

  /** A throwing body has a card block with a throwing card. */
  lemma ContentFailureWitness(blocks: seq<Block>, env: Env) returns (b: Block, d: Data)
    requires ContentFailure(blocks, env).Some?
    ensures b in blocks && b.Cards? && d in b.items && CardFailure(b.kind, d, env).Some?
  {
    var m :| 0 <= m < |blocks| && blocks[m].Cards? && ItemsFailure(blocks[m].kind, blocks[m].items, env).Some?;
    b := blocks[m];
    var x :| 0 <= x < |b.items| && CardFailure(b.kind, b.items[x], env).Some?;
    d := b.items[x];
  }

  /** Only the review and session sections can throw; their places in the section table. */
  lemma ThrowingSpec(k: Kind) returns (n: nat)
    requires k == Review || k == Session
    ensures n < |SectionSpecs| && SectionSpecs[n].kind == k
  {
    n := if k == Review then 3 else 4;
  }

  /** A card block with a throwing card makes the body throw. */
  lemma BlockFailsContent(blocks: seq<Block>, env: Env, b: Block, d: Data)
    requires b in blocks && b.Cards? && d in b.items && CardFailure(b.kind, d, env).Some?
    ensures ContentFailure(blocks, env).Some?
  {
    var x :| 0 <= x < |b.items| && b.items[x] == d;
    var m :| 0 <= m < |blocks| && blocks[m] == b;
  }

  /** A failing row's section is rendered, so the body throws. */
  lemma FailingRowFailsContent(cityName: string, rows: seq<Row>, snips: map<string, Snippet>, env: Env, i: int)
    requires 0 <= i < |rows| && CardFailure(rows[i].kind, rows[i].data, env).Some?
    ensures ContentFailure(PostContent(cityName, rows, snips), env).Some?
  {
    var k := rows[i].kind;
    var n := ThrowingSpec(k);
    var items := OfKind(rows, k);
    assert rows[i].data in items;
    SectionHasCards(snips, rows, SectionSpecs, n);
    var b := Cards(k, items, SectionSpecs[n].grid);
    BlockFailsContent(PostContent(cityName, rows, snips), env, b, rows[i].data);
  }

  /** A card block of the body with a throwing card holds the data of a failing row. */
  lemma FailingBlockHasRow(cityName: string, rows: seq<Row>, snips: map<string, Snippet>, env: Env, b: Block, d: Data)
    requires b in PostContent(cityName, rows, snips) && b.Cards? && d in b.items && CardFailure(b.kind, d, env).Some?
    ensures RowsFail(rows, env)
  {
    assert b in SectionsContent(snips, rows, SectionSpecs);
    SectionsCards(snips, rows, SectionSpecs, b);
    var i :| 0 <= i < |rows| && rows[i].kind == b.kind && rows[i].data == d;
  }

  /** A throwing card block of the body holds the data of a failing row. */
  lemma FailingContentHasRow(cityName: string, rows: seq<Row>, snips: map<string, Snippet>, env: Env)
    requires ContentFailure(PostContent(cityName, rows, snips), env).Some?
    ensures RowsFail(rows, env)
  {
    var b, d := ContentFailureWitness(PostContent(cityName, rows, snips), env);
    FailingBlockHasRow(cityName, rows, snips, env, b, d);
  }

  /** The body throws exactly when some row of the job has a card that throws. */
  lemma PostContentFails(cityName: string, rows: seq<Row>, snips: map<string, Snippet>, env: Env)
    ensures ContentFailure(PostContent(cityName, rows, snips), env).Some? <==> RowsFail(rows, env)
  {
    if ContentFailure(PostContent(cityName, rows, snips), env).Some? {
      FailingContentHasRow(cityName, rows, snips, env);
    }
    if RowsFail(rows, env) {
      var i :| 0 <= i < |rows| && CardFailure(rows[i].kind, rows[i].data, env).Some?;
      FailingRowFailsContent(cityName, rows, snips, env, i);
    }
  }

  /** A row of the updates table, unique on (city, slug). */
  datatype Post = Post(
    city: string,
    slug: string,
    title: string,
    summary: Option<string>,
    featuredImage: Option<string>,
    content: seq<Block>,
    publishDate: string)

  datatype Generated = Generated(post: Post, marked: seq<int>)

  /** The title and summary of the fallback path. */
  function FallbackTitle(cityName: string, titleDate: string): string {
    cityName + " Skate Scene: " + titleDate
  }

  function FallbackSummary(cityName: string, titleDate: string): string {
    "A summary of recent skate activity in and around " + cityName + " for " + titleDate + "."
  }

  lemma SnippetKeysDistinct()
    ensures DistinctStrings(SnippetKeys)
  {
  }

  /** The title, summary and snippets a post is built from: the writer's, or the fallback wording. */
  function PostText(ai: AiReply, cityName: string, titleDate: string, env: Env): (r: (string, Option<string>, map<string, Snippet>))
    ensures ai.AiFailed? ==> r == (FallbackTitle(cityName, titleDate), Some(FallbackSummary(cityName, titleDate)), map[])
    ensures ai.AiSucceeded? ==> r.0 == ai.title && r.1 == ai.summary && r.2.Keys == ai.snippets.Keys
  {
    SnippetKeysDistinct();
    match ai
    case AiFailed => (FallbackTitle(cityName, titleDate), Some(FallbackSummary(cityName, titleDate)), map[])
    case AiSucceeded(t, s, sn) => (t, s, VerifySnippets(sn, SnippetKeys, env.home, env.verdict))
  }

  /**
   * `lr_generate_city_update_post` with the writer's reply `ai`. The slug is
   * built as the source builds it: on the writer's path `$key` still holds
   * the snippet loop's last key. The body is rendered before the post is
   * stored, so a card that throws ends the call with nothing written.
   */
  function GeneratePost(job: Job, freq: Frequency, env: Env, ai: AiReply): (r: Result<Option<Generated>, string>)
    ensures r == Ok(None) <==> job.rows == []
    ensures r.Err? <==> RowsFail(job.rows, env)
    ensures r.Err? ==> Thrown(r.error)
    ensures r.Ok? && r.value.Some? ==> r.value.value.post.city == job.city && r.value.value.marked == MarkedIds(job.rows)
    ensures r.Ok? && r.value.Some? && ai.AiFailed? ==> r.value.value.post.slug == PostSlug(env.sanitize(r.value.value.post.title), job.period)
    ensures r.Ok? && r.value.Some? && ai.AiSucceeded? ==> r.value.value.post.slug == env.sanitize(ai.title) + "-" + LastSnippetKey
    ensures r.Ok? && r.value.Some? && ai.AiSucceeded? ==> r.value.value.post.title == ai.title && r.value.value.post.summary == ai.summary
  {
    if job.rows == [] then Ok(None)
    else
      var cityName := CityName(env.locs, job.city);
      var text := PostText(ai, cityName, TitleDate(freq, env.dates, job.period), env);
      var content := PostContent(cityName, job.rows, text.2);
      PostContentFails(cityName, job.rows, text.2, env);
      match ContentFailure(content, env)
      case Some(e) => Err(e)
      case None =>
        var post := Post(job.city, PostSlugAsWritten(env.sanitize(text.0), job.period, ai.AiSucceeded?), text.0, text.1,
                         FeaturedImage(env.pluginUrl, job.rows), content, env.dates.publishDate(job.period));
        Ok(Some(Generated(post, MarkedIds(job.rows))))
  }

  /**
   * The post as evidently intended: the same post, but its slug always ends
   * in the bucket key. It throws exactly when the as-written generator does.
   */
  function GeneratePostIntended(job: Job, freq: Frequency, env: Env, ai: AiReply): (r: Result<Option<Generated>, string>)
    ensures r == Ok(None) <==> job.rows == []
    ensures r.Err? <==> RowsFail(job.rows, env)
    ensures r.Ok? && r.value.Some? ==> r.value.value.post.slug == PostSlug(env.sanitize(r.value.value.post.title), job.period)
    ensures r.Ok? && r.value.Some? ==> (GeneratePost(job, freq, env, ai).Ok? && GeneratePost(job, freq, env, ai).value.Some? &&
      r.value.value.post.(slug := "") == GeneratePost(job, freq, env, ai).value.value.post.(slug := "") &&
      r.value.value.marked == GeneratePost(job, freq, env, ai).value.value.marked)
  {
    match GeneratePost(job, freq, env, ai)
    case Err(e) => Err(e)
    case Ok(None) => Ok(None)
    case Ok(Some(g)) => Ok(Some(g.(post := g.post.(slug := PostSlug(env.sanitize(g.post.title), job.period)))))
  }

  /** As written: a job with any session row throws, because no file at hand defines the session renderer. */
  lemma SessionRowThrowsAsWritten(job: Job, freq: Frequency, env: Env, ai: AiReply, i: int)
    requires env.sessions == MissingSessionCard && 0 <= i < |job.rows| && job.rows[i].kind == Session
    ensures GeneratePost(job, freq, env, ai).Err?
  {
    assert RowsFail(job.rows, env) by {
      assert CardFailure(job.rows[i].kind, job.rows[i].data, env).Some?;
    }
  }

  /** With a defined session renderer, only a review with spot, user and a rating outside 0..5 throws. */
  lemma DefinedSessionCardRowsOk(rows: seq<Row>, env: Env)
    requires env.sessions == DefinedSessionCard
    requires forall i :: 0 <= i < |rows| && rows[i].kind == Review ==>
      !Truthy(rows[i].data.spotId) || !Truthy(rows[i].data.userId) || 0 <= rows[i].data.rating.GetOr(0) <= 5
    ensures !RowsFail(rows, env)
  {
  }

  /**
   * With a defined session renderer, a job whose reviews all have ratings
   * in 0..5 (or no spot or user) always yields its post.
   */
  lemma DefinedSessionCardGenerates(job: Job, freq: Frequency, env: Env, ai: AiReply)
    requires env.sessions == DefinedSessionCard && job.rows != []
    requires forall i :: 0 <= i < |job.rows| && job.rows[i].kind == Review ==>
      !Truthy(job.rows[i].data.spotId) || !Truthy(job.rows[i].data.userId) || 0 <= job.rows[i].data.rating.GetOr(0) <= 5
    ensures GeneratePost(job, freq, env, ai).Ok? && GeneratePost(job, freq, env, ai).value.Some?
  {
    DefinedSessionCardRowsOk(job.rows, env);
  }
}

=== FILE: publication.dfy ===
/**
 * The bucket system of the city-update publisher. Recap content (spots,
 * skaters, reviews, sessions) goes into the bucket of the period it was
 * created in; preview content (events) goes into the bucket of the period
 * before it starts. Every bucket whose period has ended is published, one
 * post per city.
 *
 * A period is an abstract, totally ordered key (a month or an ISO week,
 * depending on the configured frequency); the calendar itself is an
 * oracle: `Clock` turns timestamps into periods and seconds.
 */
module Publication {
  import opened Wrappers
  import opened Strings
  import opened OrderedMap
  import opened Buckets
  import opened Seqs
  import opened Ledger

  /** A bucket key, ordered as the source's `Y-m` / `o-W` strings are. */
  type Period = int

  /**
   * The period before `p`: the bucket a preview is meant to land in. A
   * week back always reaches it; a month back from the 29th to the 31st
   * can stay in the same month, which `MonthShift` models on the calendar.
   */
  function Prev(p: Period): Period {
    p - 1
  }

  /** `update_frequency`; anything but monthly and weekly publishes nothing. */
  datatype Frequency = Monthly | Weekly | Unrecognised(name: string)

  /** `$options['update_frequency'] ?? 'weekly'`. */
  function ParseFrequency(option: Option<string>): (r: Frequency)
    ensures option.None? ==> r == Weekly
    ensures r == Monthly <==> option == Some("monthly")
    ensures r.Unrecognised? <==> option.Some? && option.value != "monthly" && option.value != "weekly"
  {
    match option
    case None => Weekly
    case Some(s) => if s == "monthly" then Monthly else if s == "weekly" then Weekly else Unrecognised(s)
  }

  /**
   * The calendar for the frequency in use: the period of a timestamp
   * string (`date('Y-m'|'o-W', strtotime(…))`), its seconds (`strtotime`,
   * `None` when it fails), the current period, and "six months ago".
   */
  datatype Clock = Clock(periodOf: string -> Period, timeOf: string -> Option<int>, current: Period, sixMonthsAgo: int)

  /** The timestamp the bucketing reads for each kind of content. */
  function Timestamp(row: Row): (r: Option<string>)
    ensures row.kind.OtherKind? ==> r.None?
    ensures row.kind == Event && row.data.eventStartDate.Some? ==> r == row.data.eventStartDate
    ensures row.kind == Event && row.data.eventStartDate.None? ==> r == row.data.createdAt
  {
    match row.kind
    case Event => if row.data.eventStartDate.Some? then row.data.eventStartDate else row.data.createdAt
    case Skater => row.data.lastOnline
    case Spot => row.data.spotCreatedAt
    case Review => row.data.createdAt
    case Session => row.data.sessionCreatedAt
    case OtherKind(_) => None
  }

  /** The historical seeder's window: `strtotime($t) >= $six_months_ago_ts` (a failed parse is outside). */
  predicate InWindow(clock: Clock, window: Option<int>, t: string) {
    window.None? || (clock.timeOf(t).Some? && clock.timeOf(t).value >= window.value)
  }

  /** A row's timestamp is usable: truthy, and inside the window when there is one. */
  predicate Dated(clock: Clock, window: Option<int>, row: Row) {
    Truthy(Timestamp(row)) && InWindow(clock, window, Timestamp(row).value)
  }

  /** The recap bucket of a non-event row: the period of its own timestamp. */
  function RecapKey(clock: Clock, window: Option<int>, row: Row): (r: Option<Period>)
    ensures r.Some? <==> row.kind != Event && Dated(clock, window, row)
  {
    if row.kind != Event && Dated(clock, window, row) then Some(clock.periodOf(Timestamp(row).value)) else None
  }

  /** The preview bucket of an event: the period before the one it starts in. */
  function PreviewKey(clock: Clock, window: Option<int>, row: Row): (r: Option<Period>)
    ensures r.Some? <==> row.kind == Event && Dated(clock, window, row)
  {
    if row.kind == Event && Dated(clock, window, row) then Some(Prev(clock.periodOf(Timestamp(row).value))) else None
  }

  function RecapKeyOf(clock: Clock, window: Option<int>): Row -> Option<Period> {
    row => RecapKey(clock, window, row)
  }

  function PreviewKeyOf(clock: Clock, window: Option<int>): Row -> Option<Period> {
    row => PreviewKey(clock, window, row)
  }

  /** `$buckets = $recap_buckets`, then each preview bucket merged in after it. */
  function MakeBuckets(clock: Clock, window: Option<int>, rows: seq<Row>): (r: Groups<Period, Row>)
    ensures DistinctKeys(r)
  {
    MergeGroups(GroupBy(rows, RecapKeyOf(clock, window)), GroupBy(rows, PreviewKeyOf(clock, window)))
  }

  /** A bucket holds its recap rows in input order, then its preview rows in input order. */
  lemma BucketContents(clock: Clock, window: Option<int>, rows: seq<Row>, k: Period)
    ensures Get(MakeBuckets(clock, window, rows), k) ==
      Select(rows, RecapKeyOf(clock, window), k) + Select(rows, PreviewKeyOf(clock, window), k)
  {
    var recap := GroupBy(rows, RecapKeyOf(clock, window));
    var preview := GroupBy(rows, PreviewKeyOf(clock, window));
    MergeGroupsGet(recap, preview, k);
    GroupByGet(rows, RecapKeyOf(clock, window), k);
    GroupByGet(rows, PreviewKeyOf(clock, window), k);
  }

  /**
   * A row is in bucket `k` exactly when it is a dated non-event created in
   * `k`, or a dated event starting in the period after `k`.
   */
  lemma BucketMember(clock: Clock, window: Option<int>, rows: seq<Row>, k: Period, row: Row)
    ensures row in Get(MakeBuckets(clock, window, rows), k) <==>
      row in rows && Dated(clock, window, row) &&
      (if row.kind == Event then k == Prev(clock.periodOf(Timestamp(row).value))
       else k == clock.periodOf(Timestamp(row).value))
  {
    BucketContents(clock, window, rows, k);
    SelectMember(rows, RecapKeyOf(clock, window), k, row);
    SelectMember(rows, PreviewKeyOf(clock, window), k, row);
  }

  /** Rows without a usable timestamp (or of an unknown kind) are in no bucket. */
  lemma UndatedInNoBucket(clock: Clock, window: Option<int>, rows: seq<Row>, k: Period, row: Row)
    requires !Dated(clock, window, row)
    ensures row !in Get(MakeBuckets(clock, window, rows), k)
  {
    BucketMember(clock, window, rows, k, row);
  }

  /** A bucket is complete when its period is over; an unrecognised frequency completes nothing. */
  predicate Complete(freq: Frequency, current: Period, p: Period) {
    (freq == Monthly || freq == Weekly) && p < current
  }

  /** One post to generate: a city's rows from one bucket. */
  datatype Job = Job(period: Period, city: string, rows: seq<Row>)

  function CityOf(row: Row): Option<string> {
    Some(row.city)
  }

  /** A job per group, in the groups' order. */
  function GroupJobs(p: Period, g: Groups<string, Row>): seq<Job> {
    Map(g, (e: (string, seq<Row>)) => Job(p, e.0, e.1))
  }

  lemma GroupJobsSound(p: Period, rows: seq<Row>, j: Job)
    requires j in GroupJobs(p, GroupBy(rows, CityOf))
    ensures j.period == p && j.rows != [] && j.rows == Select(rows, CityOf, j.city)
  {
    var g := GroupBy(rows, CityOf);
    var r := GroupJobs(p, g);
    var i :| 0 <= i < |r| && r[i] == j;
    EntryIsLookup(g, i);
    GroupByGet(rows, CityOf, j.city);
  }

  lemma GroupJobsCover(p: Period, rows: seq<Row>, c: string)
    requires Select(rows, CityOf, c) != []
    ensures exists j :: j in GroupJobs(p, GroupBy(rows, CityOf)) && j.city == c
  {
    var g := GroupBy(rows, CityOf);
    var r := GroupJobs(p, g);
    GroupByGet(rows, CityOf, c);
    var i :| 0 <= i < |g| && g[i].0 == c;
    assert r[i] in r;
  }

  /** `$cities_in_bucket[$item->city_slug][] = $item`, one job per city in order of first appearance. */
  function CityJobs(p: Period, rows: seq<Row>): (r: seq<Job>)
    ensures forall j :: j in r ==> j.period == p && j.rows != [] && j.rows == Select(rows, CityOf, j.city)
    ensures forall c :: Select(rows, CityOf, c) != [] ==> exists j :: j in r && j.city == c
  {
    var r := GroupJobs(p, GroupBy(rows, CityOf));
    forall j | j in r
      ensures j.period == p && j.rows != [] && j.rows == Select(rows, CityOf, j.city)
    {
      GroupJobsSound(p, rows, j);
    }
    forall c | Select(rows, CityOf, c) != []
      ensures exists j :: j in r && j.city == c
    {
      GroupJobsCover(p, rows, c);
    }
    r
  }

  /** The publication loop over the buckets in order: complete buckets only, one job per city. */
  function JobsOf(buckets: Groups<Period, Row>, freq: Frequency, current: Period): (r: seq<Job>)
    decreases |buckets|
  {
    if buckets == [] then []
    else
      (if Complete(freq, current, buckets[0].0) then CityJobs(buckets[0].0, buckets[0].1) else []) +
      JobsOf(buckets[1..], freq, current)
  }

  /** Every job comes from a complete bucket and holds exactly that bucket's rows for its city. */
  lemma {:induction false} JobsSound(buckets: Groups<Period, Row>, freq: Frequency, current: Period, j: Job)
    requires DistinctKeys(buckets) && j in JobsOf(buckets, freq, current)
    ensures Complete(freq, current, j.period)
    ensures j.rows != [] && j.rows == Select(Get(buckets, j.period), CityOf, j.city)
    decreases |buckets|
  {
    var here := if Complete(freq, current, buckets[0].0) then CityJobs(buckets[0].0, buckets[0].1) else [];
    if j in here {
      EntryIsLookup(buckets, 0);
    } else {
      assert j in JobsOf(buckets[1..], freq, current);
      assert DistinctKeys(buckets[1..]);
      JobsSound(buckets[1..], freq, current, j);
      assert Select([], CityOf, j.city) == [];
      assert Get(buckets[1..], j.period) != [];
      assert Lookup(buckets[1..], j.period).Some?;
      assert buckets[0].0 != j.period;
    }
  }

  /** Every city with rows in a complete bucket gets a job for that bucket. */
  lemma {:induction false} JobsCover(buckets: Groups<Period, Row>, freq: Frequency, current: Period, k: Period, c: string)
    requires DistinctKeys(buckets) && Complete(freq, current, k)
    requires Select(Get(buckets, k), CityOf, c) != []
    ensures exists j :: j in JobsOf(buckets, freq, current) && j.period == k && j.city == c
    decreases |buckets|
  {
    var rest := JobsOf(buckets[1..], freq, current);
    if buckets[0].0 == k {
      EntryIsLookup(buckets, 0);
      var here := CityJobs(k, buckets[0].1);
      var j :| j in here && j.city == c;
      assert j in here + rest;
    } else {
      assert DistinctKeys(buckets[1..]);
      JobsCover(buckets[1..], freq, current, k, c);
      var j :| j in rest && j.period == k && j.city == c;
      var here := if Complete(freq, current, buckets[0].0) then CityJobs(buckets[0].0, buckets[0].1) else [];
      assert j in here + rest;
    }
  }

  /**
   * `lr_run_content_publication`'s input: every unpublished non-event row,
   * then every event discovered within the last six months.
   */
  function PublicationInput(rows: seq<Row>, clock: Clock): (r: seq<Row>)
    ensures forall row :: row in r <==> (row in rows &&
      ((!row.published && row.kind != Event) || (row.kind == Event && row.discoveredAt >= clock.sixMonthsAgo)))
  {
    Filter(rows, (row: Row) => !row.published && row.kind != Event) +
    Filter(rows, (row: Row) => row.kind == Event && row.discoveredAt >= clock.sixMonthsAgo)
  }

  /** The posts one publication run generates, in order. */
  function PublicationJobs(rows: seq<Row>, freq: Frequency, clock: Clock): seq<Job> {
    JobsOf(MakeBuckets(clock, None, PublicationInput(rows, clock)), freq, clock.current)
  }

  /**
   * An unpublished, dated non-event row created in a finished period is
   * in the job for its city and period.
   */
  lemma RecapRowPublished(rows: seq<Row>, freq: Frequency, clock: Clock, row: Row)
    requires row in rows && !row.published && row.kind != Event && Dated(clock, None, row)
    requires Complete(freq, clock.current, clock.periodOf(Timestamp(row).value))
    ensures exists j :: (j in PublicationJobs(rows, freq, clock) && row in j.rows &&
      j.period == clock.periodOf(Timestamp(row).value) && j.city == row.city)
  {
    var input := PublicationInput(rows, clock);
    assert row in input;
    var k := clock.periodOf(Timestamp(row).value);
    BucketMember(clock, None, input, k, row);
    RowInJob(MakeBuckets(clock, None, input), freq, clock.current, k, row);
  }

  /** A row in a complete bucket is in that bucket's job for the row's city. */
  lemma RowInJob(buckets: Groups<Period, Row>, freq: Frequency, current: Period, k: Period, row: Row)
    requires DistinctKeys(buckets) && Complete(freq, current, k) && row in Get(buckets, k)
    ensures exists j :: j in JobsOf(buckets, freq, current) && row in j.rows && j.period == k && j.city == row.city
  {
    SelectMember(Get(buckets, k), CityOf, row.city, row);
    JobsCover(buckets, freq, current, k, row.city);
    var j :| j in JobsOf(buckets, freq, current) && j.period == k && j.city == row.city;
    JobsSound(buckets, freq, current, j);
  }

  /** Every row a publication job carries is dated, of the job's city, and in the job's bucket. */
  lemma PublicationJobRows(rows: seq<Row>, freq: Frequency, clock: Clock, j: Job, row: Row)
    requires j in PublicationJobs(rows, freq, clock) && row in j.rows
    ensures row in rows && row.city == j.city && Dated(clock, None, row)
    ensures Complete(freq, clock.current, j.period)
    ensures row.kind == Event ==> j.period == Prev(clock.periodOf(Timestamp(row).value))
    ensures row.kind != Event ==> !row.published && j.period == clock.periodOf(Timestamp(row).value)
  {
    var input := PublicationInput(rows, clock);
    var buckets := MakeBuckets(clock, None, input);
    JobsSound(buckets, freq, clock.current, j);
    SelectMember(Get(buckets, j.period), CityOf, j.city, row);
    BucketMember(clock, None, input, j.period, row);
  }

  /** A publication run has one job per period and city: two jobs that agree on both are the same job. */
  lemma PublicationJobsDistinct(rows: seq<Row>, freq: Frequency, clock: Clock, j1: Job, j2: Job)
    requires j1 in PublicationJobs(rows, freq, clock) && j2 in PublicationJobs(rows, freq, clock)
    requires j1.period == j2.period && j1.city == j2.city
    ensures j1 == j2
  {
    var buckets := MakeBuckets(clock, None, PublicationInput(rows, clock));
    JobsSound(buckets, freq, clock.current, j1);
    JobsSound(buckets, freq, clock.current, j2);
  }

  /**
   * `lr_run_historical_seeding_for_city`: every row of the city, whatever
   * its published flag, bucketed with the six-month window; one job per
   * complete bucket, in bucket order.
   */
  function SeedingJobs(rows: seq<Row>, city: string, freq: Frequency, clock: Clock): (r: seq<Job>)
  {
    var mine := Filter(rows, (row: Row) => row.city == city);
    SeedJobsOf(MakeBuckets(clock, Some(clock.sixMonthsAgo), mine), city, freq, clock.current)
  }

  function SeedJobsOf(buckets: Groups<Period, Row>, city: string, freq: Frequency, current: Period): (r: seq<Job>)
    ensures forall j :: j in r ==> j.city == city && Complete(freq, current, j.period) && (j.period, j.rows) in buckets
    decreases |buckets|
  {
    if buckets == [] then []
    else
      (if Complete(freq, current, buckets[0].0) then [Job(buckets[0].0, city, buckets[0].1)] else []) +
      SeedJobsOf(buckets[1..], city, freq, current)
  }

  /** A seeding job holds exactly its bucket: the city's rows dated inside the window. */
  lemma SeedingJobRows(rows: seq<Row>, city: string, freq: Frequency, clock: Clock, j: Job, row: Row)
    requires j in SeedingJobs(rows, city, freq, clock)
    ensures Complete(freq, clock.current, j.period) && j.city == city
    ensures row in j.rows <==> (row in rows && row.city == city && Dated(clock, Some(clock.sixMonthsAgo), row) &&
      (if row.kind == Event then j.period == Prev(clock.periodOf(Timestamp(row).value))
       else j.period == clock.periodOf(Timestamp(row).value)))
  {
    var mine := Filter(rows, (row: Row) => row.city == city);
    var buckets := MakeBuckets(clock, Some(clock.sixMonthsAgo), mine);
    var i :| 0 <= i < |buckets| && buckets[i] == (j.period, j.rows);
    EntryIsLookup(buckets, i);
    BucketMember(clock, Some(clock.sixMonthsAgo), mine, j.period, row);
  }

  /** Seeding a city has one job per period: two jobs of the same period are the same job. */
  lemma SeedingJobsDistinct(rows: seq<Row>, city: string, freq: Frequency, clock: Clock, j1: Job, j2: Job)
    requires j1 in SeedingJobs(rows, city, freq, clock) && j2 in SeedingJobs(rows, city, freq, clock)
    requires j1.period == j2.period
    ensures j1 == j2
  {
    var mine := Filter(rows, (row: Row) => row.city == city);
    var buckets := MakeBuckets(clock, Some(clock.sixMonthsAgo), mine);
    var a :| 0 <= a < |buckets| && buckets[a] == (j1.period, j1.rows);
    var b :| 0 <= b < |buckets| && buckets[b] == (j2.period, j2.rows);
    EntryIsLookup(buckets, a);
    EntryIsLookup(buckets, b);
  }

  /** Every complete bucket yields its seeding job. */
  lemma {:induction false} SeedJobsCover(buckets: Groups<Period, Row>, city: string, freq: Frequency, current: Period, i: int)
    requires 0 <= i < |buckets| && Complete(freq, current, buckets[i].0)
    ensures Job(buckets[i].0, city, buckets[i].1) in SeedJobsOf(buckets, city, freq, current)
    decreases |buckets|
  {
    if i > 0 {
      SeedJobsCover(buckets[1..], city, freq, current, i - 1);
    }
  }

  /** A city's row dated within the window, whose bucket is complete, is in a seeding job. */
  lemma SeedingRowJob(rows: seq<Row>, city: string, freq: Frequency, clock: Clock, row: Row)
    requires row in rows && row.city == city && Dated(clock, Some(clock.sixMonthsAgo), row)
    requires Complete(freq, clock.current,
      if row.kind == Event then Prev(clock.periodOf(Timestamp(row).value)) else clock.periodOf(Timestamp(row).value))
    ensures exists j :: j in SeedingJobs(rows, city, freq, clock) && row in j.rows
  {
    var mine := Filter(rows, (row: Row) => row.city == city);
    var buckets := MakeBuckets(clock, Some(clock.sixMonthsAgo), mine);
    var k := if row.kind == Event then Prev(clock.periodOf(Timestamp(row).value)) else clock.periodOf(Timestamp(row).value);
    BucketMember(clock, Some(clock.sixMonthsAgo), mine, k, row);
    assert Lookup(buckets, k).Some?;
    var i :| 0 <= i < |buckets| && buckets[i].0 == k;
    EntryIsLookup(buckets, i);
    SeedJobsCover(buckets, city, freq, clock.current, i);
  }
}

=== FILE: rendering.dfy ===
/**
 * The reusable card and list-item renderers. Each renderer is modelled
 * by what it shows (links, image, name, optional blocks) rather than its
 * markup; `None` stands for the empty string a renderer returns when a
 * required field is missing.
 */
module Rendering {
  import opened Wrappers
  import opened Strings
  import opened OrderedMap
  import opened PageData
  import opened ImageProxy

  /**
   * `home_url`, the plugin's base URL, `wp_trim_words`, and the session
   * date formatter: `new DateTime($createdAt)` formatted as 'F j, Y', or
   * `None` where the constructor throws on a date it cannot parse.
   */
  datatype Site = Site(home: string -> string, pluginUrl: string, trimWords: (string, nat) -> string, formatDate: string -> Option<string>)

  const SpotPlaceholder := "https://placehold.co/400x240/e0e0e0/757575?text=Spot"
  const EventPlaceholder := "https://placehold.co/400x240/e0e0e0/757575?text=Event"
  const ApiUser := "https://beta.web.lets-roll.app/api/user/"

  /** What a renderer that can throw produces: the uncaught exception's message. */
  const InvalidDate := "DateTime::__construct(): Failed to parse time string"
  const NegativeRepeat := "str_repeat(): Argument #2 ($times) must be greater than or equal to 0"

  /**
   * A card image: the placeholder of its kind, a direct URL, or a link to
   * the image proxy together with the query parameters that link carries.
   */
  datatype CardImage = Placeholder(url: string) | Picture(url: string) | Proxied(url: string, request: Params)

  /** A grid card: where it links, the image it shows, and the displayed name. */
  datatype Card = Card(url: string, image: CardImage, name: string)

  /** The proxy query of a grid card image: `&width=400&quality=75`. */
  function CardRequest(kind: string, id: string, sessionId: string): (p: Params)
    ensures p.kind == kind && p.id == id && p.sessionId == sessionId
    ensures p.width == Some(400) && p.quality == Some(75)
  {
    Params(kind, id, sessionId, Some(400), Some(75))
  }

  /** `spotWithAddress` as the spot card reads it. */
  datatype SpotDetail = SpotDetail(id: string, name: string, satellite: Option<string>)

  /** `lr_render_spot_card`: empty without `spotWithAddress`; the satellite image through the proxy, or the placeholder. */
  function SpotCard(spot: Option<SpotDetail>, site: Site): (r: Option<Card>)
    ensures r.None? <==> spot.None?
    ensures r.Some? ==> r.value.url == site.home("/spots/" + spot.value.id) && r.value.name == spot.value.name
    ensures r.Some? ==> (r.value.image.Proxied? <==> Truthy(spot.value.satellite))
    ensures r.Some? && !r.value.image.Proxied? ==> r.value.image == Placeholder(SpotPlaceholder)
    ensures r.Some? && r.value.image.Proxied? ==>
      r.value.image.request == CardRequest(SpotKind, spot.value.satellite.value, "") &&
      StartsWith(r.value.image.url, site.pluginUrl + "image-proxy.php?")
  {
    match spot
    case None => None
    case Some(s) =>
      var image :=
        if Truthy(s.satellite)
        then
          var prefix := site.pluginUrl + "image-proxy.php?";
          var url := prefix + "type=spot_satellite&id=" + s.satellite.value + "&width=400&quality=75";
          assert url[..|prefix|] == prefix;
          Proxied(url, CardRequest(SpotKind, s.satellite.value, ""))
        else Placeholder(SpotPlaceholder);
      Some(Card(site.home("/spots/" + s.id), image, s.name))
  }

  /**
   * The image proxy accepts every request a spot card makes, and fetches
   * the satellite attachment of that spot at width 400, height 240 and
   * quality 75.
   */
  lemma SpotCardImageServed(spot: Option<SpotDetail>, site: Site)
    requires SpotCard(spot, site).Some? && SpotCard(spot, site).value.image.Proxied?
    ensures ApiUrl(SpotCard(spot, site).value.image.request) == Ok(SpotUrl(spot.value.satellite.value, SizeQuery(400, 75)))
  {
  }

  /** `lr_render_skater_card`: empty unless both the skate name and the user id are set. */
  function SkaterCard(p: Profile, site: Site): (r: Option<Card>)
    ensures r.Some? <==> Truthy(p.skateName) && Truthy(p.userId)
    ensures r.Some? ==> r.value.url == site.home("/skaters/" + p.skateName.value + "/") && r.value.name == p.skateName.value
    ensures r.Some? ==> r.value.image.Picture? && StartsWith(r.value.image.url, ApiUser + p.userId.value + "/")
  {
    if !Truthy(p.skateName) || !Truthy(p.userId) then None
    else
      var prefix := ApiUser + p.userId.value + "/";
      var image := prefix + "avatar/content/processed?width=250&height=250&quality=75";
      assert image[..|prefix|] == prefix;
      Some(Card(site.home("/skaters/" + p.skateName.value + "/"), Picture(image), p.skateName.value))
  }

  /** An event as the event card reads it. */
  datatype EventItem = EventItem(id: Option<string>, name: Option<string>)

  /**
   * `lr_render_event_card`: empty without an id or on a token error; the
   * first attachment through the proxy when the attachment fetch returns
   * any, else the placeholder; the name defaults to 'Skate Event'.
   */
  function EventCard(e: EventItem, token: Result<string, string>, attachments: Result<seq<string>, string>, site: Site): (r: Option<Card>)
    ensures r.Some? <==> Truthy(e.id) && token.Ok?
    ensures r.Some? ==> r.value.url == site.home("/events/" + e.id.value + "/") && r.value.name == e.name.GetOr("Skate Event")
    ensures r.Some? ==> (r.value.image.Proxied? <==> attachments.Ok? && attachments.value != [])
    ensures r.Some? && !r.value.image.Proxied? ==> r.value.image == Placeholder(EventPlaceholder)
    ensures r.Some? && r.value.image.Proxied? ==>
      r.value.image.request == CardRequest(EventKind, attachments.value[0], e.id.value) &&
      StartsWith(r.value.image.url, site.pluginUrl + "image-proxy.php?")
  {
    if !Truthy(e.id) || token.Err? then None
    else
      var image :=
        if attachments.Ok? && attachments.value != []
        then
          var prefix := site.pluginUrl + "image-proxy.php?";
          var url := prefix + "type=event_attachment&id=" + attachments.value[0] + "&session_id=" + e.id.value + "&width=400&quality=75";
          assert url[..|prefix|] == prefix;
          Proxied(url, CardRequest(EventKind, attachments.value[0], e.id.value))
        else Placeholder(EventPlaceholder);
      Some(Card(site.home("/events/" + e.id.value + "/"), image, e.name.GetOr("Skate Event")))
  }

  /**
   * The image proxy fetches the event card's first attachment from that
   * event's attachments, and refuses the request exactly when that
   * attachment has an empty id.
   */
  lemma EventCardImageServed(e: EventItem, token: Result<string, string>, attachments: Result<seq<string>, string>, site: Site)
    requires EventCard(e, token, attachments, site).Some? && EventCard(e, token, attachments, site).value.image.Proxied?
    ensures var a := attachments.value[0];
            ApiUrl(EventCard(e, token, attachments, site).value.image.request) ==
              if PhpEmpty(a) then Err(MissingParams) else Ok(EventUrl(e.id.value, a, SizeQuery(400, 75)))
  {
  }

  /** One session of a session feed entry. */
  datatype SessionItem = SessionItem(id: Option<string>, name: string, description: Option<string>)

  /**
   * A "logged a session" list item: the skater and the activity it links,
   * the session's date on a spot page, and the quoted description if any.
   */
  datatype SessionLine = SessionLine(skaterName: string, skaterUrl: string, activityUrl: string, title: string, date: Option<string>, quote: Option<string>)

  /**
   * `lr_render_session_list_item`: empty unless the first session has an
   * id and there is a first profile; the skater named 'A Skater' and
   * linked by user id when the skate name is missing.
   */
  function SessionListItem(sessions: seq<SessionItem>, profiles: seq<Profile>, site: Site): (r: Option<SessionLine>)
    ensures r.Some? <==> sessions != [] && Truthy(sessions[0].id) && profiles != []
    ensures r.Some? ==> r.value.activityUrl == site.home("/activity/" + sessions[0].id.value + "/") && r.value.title == sessions[0].name
    ensures r.Some? ==> r.value.skaterName == profiles[0].skateName.GetOr("A Skater")
    ensures r.Some? && profiles[0].skateName.None? ==> r.value.skaterUrl == site.home("/skaters/" + profiles[0].userId.GetOr("") + "/")
    ensures r.Some? ==> r.value.date.None?
    ensures r.Some? ==> r.value.quote == if Truthy(sessions[0].description) then Some(site.trimWords(sessions[0].description.value, 20)) else None
  {
    if sessions == [] || !Truthy(sessions[0].id) || profiles == [] then None
    else
      var s := sessions[0];
      var u := profiles[0];
      var handle := if u.skateName.Some? then u.skateName.value else u.userId.GetOr("");
      Some(SessionLine(
        u.skateName.GetOr("A Skater"), site.home("/skaters/" + handle + "/"), site.home("/activity/" + s.id.value + "/"), s.name,
        None, if Truthy(s.description) then Some(site.trimWords(s.description.value, 20)) else None))
  }

  /** `lr_render_review_list_item`: empty without a spot id or without a (possibly empty) comment; otherwise the spot link and the comment. */
  function ReviewListItem(spotId: Option<string>, comment: Option<string>, site: Site): (r: Option<(string, string)>)
    ensures r.Some? <==> Truthy(spotId) && comment.Some?
    ensures r.Some? ==> r.value.1 == comment.value
  {
    if !Truthy(spotId) || comment.None? then None
    else Some((site.home("/spots/" + spotId.value), comment.value))
  }

  /** The review list item links a spot to the same page as that spot's card. */
  lemma ReviewLinksLikeSpotCard(d: SpotDetail, comment: string, site: Site)
    requires !PhpEmpty(d.id)
    ensures ReviewListItem(Some(d.id), Some(comment), site).value.0 == SpotCard(Some(d), site).value.url
  {
  }

  /** A session on a spot page. */
  datatype SpotSession = SpotSession(id: string, userId: string, name: string, createdAt: string, description: Option<string>)

  /**
   * `lr_render_spot_session_list_item`: empty when the session's user is
   * not in the profile map; the name is the skate name, else the first
   * name, else 'A skater'; a creation date `DateTime` cannot parse is an
   * uncaught exception.
   */
  function SpotSessionListItem(s: SpotSession, profiles: Dict<string, Profile>, site: Site): (r: Result<Option<SessionLine>, string>)
    ensures r == Ok(None) <==> s.userId !in Keys(profiles)
    ensures r.Err? <==> s.userId in Keys(profiles) && site.formatDate(s.createdAt).None?
    ensures r.Err? ==> r.error == InvalidDate
    ensures r.Ok? && r.value.Some? ==> var u := Lookup(profiles, s.userId).value;
                                       r.value.value.skaterName == u.skateName.GetOr(u.firstName.GetOr("A skater"))
    ensures r.Ok? && r.value.Some? ==> r.value.value.date == site.formatDate(s.createdAt)
    ensures r.Ok? && r.value.Some? ==> r.value.value.activityUrl == site.home("/activity/" + s.id + "/") && r.value.value.title == s.name
    ensures r.Ok? && r.value.Some? ==> r.value.value.quote == if Truthy(s.description) then s.description else None
  {
    match Lookup(profiles, s.userId)
    case None => Ok(None)
    case Some(u) =>
      var handle := if u.skateName.Some? then u.skateName.value else u.userId.GetOr("");
      match site.formatDate(s.createdAt)
      case None => Err(InvalidDate)
      case Some(date) =>
        Ok(Some(SessionLine(
          u.skateName.GetOr(u.firstName.GetOr("A skater")), site.home("/skaters/" + handle + "/"),
          site.home("/activity/" + s.id + "/"), s.name, Some(date),
          if Truthy(s.description) then Some(s.description.value) else None)))
  }

  /**
   * Every renderer links a skater who has a skate name to the page the
   * skater card links: the session feed item, the spot page's session
   * item, and the review card of that skater.
   */
  lemma SkaterLinksAgree(u: Profile, site: Site, sessions: seq<SessionItem>, rest: seq<Profile>, s: SpotSession, profiles: Dict<string, Profile>, rv: Review)
    requires SkaterCard(u, site).Some?
    ensures SessionListItem(sessions, [u] + rest, site).Some? ==>
      SessionListItem(sessions, [u] + rest, site).value.skaterUrl == SkaterCard(u, site).value.url
    ensures Lookup(profiles, s.userId) == Some(u) && SpotSessionListItem(s, profiles, site).Ok? ==>
      SpotSessionListItem(s, profiles, site).value.value.skaterUrl == SkaterCard(u, site).value.url
    ensures rv.skateName == u.skateName.value && ReviewCard(rv, site).Ok? && ReviewCard(rv, site).value.Some? ==>
      ReviewCard(rv, site).value.value.skaterUrl == SkaterCard(u, site).value.url
  {
    assert ([u] + rest)[0] == u;
  }

  /** `str_repeat($c, $n)` for a count that is not negative. */
  function Repeat(c: char, n: nat): (r: string)
    ensures |r| == n && forall i :: 0 <= i < n ==> r[i] == c
  {
    if n == 0 then "" else [c] + Repeat(c, n - 1)
  }

  /**
   * The review's star string: `rating` filled stars then `5 - rating`
   * empty ones. `str_repeat` rejects a negative count, so a rating
   * outside 0..5 has no star string.
   */
  function Stars(rating: int): (r: Option<string>)
    ensures r.Some? <==> 0 <= rating <= 5
  {
    if 0 <= rating <= 5 then Some(Repeat('★', rating) + Repeat('☆', 5 - rating)) else None
  }

  /** The number of filled stars at the head of a star string. */
  function FilledCount(s: string): nat {
    if s == [] || s[0] != '★' then 0 else 1 + FilledCount(s[1..])
  }

  /** A star string always has five stars, and reading back its filled stars gives the rating. */
  lemma {:induction false} StarsRoundTrip(rating: int)
    requires 0 <= rating <= 5
    ensures |Stars(rating).value| == 5
    ensures FilledCount(Stars(rating).value) == rating
  {
    FilledPrefix(rating, 5 - rating);
  }

  lemma {:induction false} FilledPrefix(n: nat, m: nat)
    ensures FilledCount(Repeat('★', n) + Repeat('☆', m)) == n
    decreases n
  {
    var s := Repeat('★', n) + Repeat('☆', m);
    if n == 0 {
      assert s == Repeat('☆', m);
      if m > 0 {
        assert s[0] == '☆';
      }
    } else {
      FilledPrefix(n - 1, m);
      assert s[1..] == Repeat('★', n - 1) + Repeat('☆', m);
    }
  }

  /** A review as the review card reads it. */
  datatype Review = Review(spotId: Option<string>, userId: Option<string>, skateName: string, spotName: string, rating: int, comment: Option<string>)

  /** The review card: spot and skater links, the star string, and the quoted comment if any. */
  datatype ReviewView = ReviewView(spotUrl: string, skaterUrl: string, stars: string, comment: Option<string>)

  /**
   * `lr_render_review_card`: empty without a spot id or a user id; the
   * comment block only for a non-empty comment. A rating outside 0..5
   * gives `str_repeat` a negative count, which throws.
   */
  function ReviewCard(rv: Review, site: Site): (r: Result<Option<ReviewView>, string>)
    ensures r == Ok(None) <==> !Truthy(rv.spotId) || !Truthy(rv.userId)
    ensures r.Err? <==> Truthy(rv.spotId) && Truthy(rv.userId) && !(0 <= rv.rating <= 5)
    ensures r.Err? ==> r.error == NegativeRepeat
    ensures r.Ok? && r.value.Some? ==> r.value.value.spotUrl == site.home("/spots/" + rv.spotId.value + "/")
    ensures r.Ok? && r.value.Some? ==> (r.value.value.comment.Some? <==> Truthy(rv.comment))
    ensures r.Ok? && r.value.Some? ==> |r.value.value.stars| == 5 && FilledCount(r.value.value.stars) == rv.rating
  {
    if !Truthy(rv.spotId) || !Truthy(rv.userId) then Ok(None)
    else match Stars(rv.rating)
      case None => Err(NegativeRepeat)
      case Some(stars) =>
        StarsRoundTrip(rv.rating);
        Ok(Some(ReviewView(
          site.home("/spots/" + rv.spotId.value + "/"), site.home("/skaters/" + rv.skateName + "/"),
          stars, if Truthy(rv.comment) then rv.comment else None)))
  }
}

=== FILE: run.dfy ===
/**
 * A whole publication run against the database: each job's post is
 * written to the updates table (replacing any post with the same city and
 * slug) and its recap rows are marked published, job after job.
 */
module PublicationRun {
  import opened Wrappers
  import opened OrderedMap
  import opened Ledger
  import opened Publication
  import opened CityUpdatePost

  /** The ledger rows and the updates table, keyed by (city_slug, post_slug). */
  datatype Db = Db(rows: seq<Row>, posts: Dict<(string, string), Post>)

  /** `$wpdb->replace` of a generated post into the updates table, then the published-flag update. */
  function ApplyGenerated(db: Db, g: Option<Generated>): (r: Db)
    requires DistinctKeys(db.posts)
    ensures DistinctKeys(r.posts)
    ensures g.None? ==> r == db
    ensures g.Some? ==> r.rows == MarkPublished(db.rows, g.value.marked)
    ensures g.Some? ==> Lookup(r.posts, (g.value.post.city, g.value.post.slug)) == Some(g.value.post)
    ensures g.Some? ==> forall k :: k != (g.value.post.city, g.value.post.slug) ==> Lookup(r.posts, k) == Lookup(db.posts, k)
  {
    match g
    case None => db
    case Some(g) =>
      SetLookup(db.posts, (g.post.city, g.post.slug), g.post);
      Db(MarkPublished(db.rows, g.marked), Set(db.posts, (g.post.city, g.post.slug), g.post))
  }

  /** What generating a job's post gives: an exception, nothing for an empty job, or the post and the ids to mark. */
  type Generation = Result<Option<Generated>, string>

  /** The generator a run calls for each job, with the writer's reply for that job. */
  function Generator(freq: Frequency, env: Env, ai: Job -> AiReply): Job -> Generation {
    j => GeneratePost(j, freq, env, ai(j))
  }

  /** Whenever the generator does not throw, it marks exactly the job's non-event rows. */
  ghost predicate MarksJobRows(gen: Job -> Generation) {
    forall j :: gen(j).Ok? ==> if gen(j).value.Some? then gen(j).value.value.marked == MarkedIds(j.rows) else j.rows == []
  }

  /** The post generator throws on a job exactly when a card of it throws, and otherwise marks its rows. */
  lemma GeneratorFacts(freq: Frequency, env: Env, ai: Job -> AiReply)
    ensures MarksJobRows(Generator(freq, env, ai))
    ensures forall j :: Generator(freq, env, ai)(j).Err? <==> RowsFail(j.rows, env)
    ensures forall j :: Generator(freq, env, ai)(j).Err? ==> Thrown(Generator(freq, env, ai)(j).error)
  {
    forall j
      ensures Generator(freq, env, ai)(j) == GeneratePost(j, freq, env, ai(j))
    {
    }
  }

  /** One job of the run: its post written, then its rows marked. When the generator throws, nothing is written. */
  function ApplyJob(db: Db, job: Job, gen: Job -> Generation): (r: Result<Db, string>)
    requires DistinctKeys(db.posts)
    ensures r.Err? <==> gen(job).Err?
    ensures r.Err? ==> r.error == gen(job).error
    ensures r.Ok? ==> DistinctKeys(r.value.posts)
    ensures r.Ok? && MarksJobRows(gen) ==> r.value.rows == MarkPublished(db.rows, MarkedIds(job.rows))
  {
    match gen(job)
    case Err(e) => Err(e)
    case Ok(g) => Ok(ApplyGenerated(db, g))
  }

  /**
   * As written: two buckets of one city whose writer titles sanitise alike
   * get the same slug, so the second bucket's post replaces the first.
   */
  lemma AsWrittenSecondBucketReplacesFirst(db: Db, j1: Job, j2: Job, freq: Frequency, env: Env, ai1: AiReply, ai2: AiReply)
    requires DistinctKeys(db.posts)
    requires j1.city == j2.city && j1.period != j2.period && j1.rows != [] && j2.rows != []
    requires !RowsFail(j1.rows, env) && !RowsFail(j2.rows, env)
    requires ai1.AiSucceeded? && ai2.AiSucceeded? && env.sanitize(ai1.title) == env.sanitize(ai2.title)
    ensures var g1, g2 := GeneratePost(j1, freq, env, ai1).value, GeneratePost(j2, freq, env, ai2).value;
      var db2 := ApplyGenerated(ApplyGenerated(db, g1), g2);
      (g1.value.post.city, g1.value.post.slug) == (g2.value.post.city, g2.value.post.slug) &&
      Lookup(db2.posts, (g1.value.post.city, g1.value.post.slug)) == Some(g2.value.post)
  {
  }

  /** As intended: posts of two different buckets both stay in the table, each under its own slug. */
  lemma IntendedBucketsKeepBoth(db: Db, j1: Job, j2: Job, freq: Frequency, env: Env, ai1: AiReply, ai2: AiReply)
    requires DistinctKeys(db.posts)
    requires j1.period != j2.period && j1.rows != [] && j2.rows != []
    requires !RowsFail(j1.rows, env) && !RowsFail(j2.rows, env)
    requires ai1.AiSucceeded? && ai2.AiSucceeded? && env.sanitize(ai1.title) == env.sanitize(ai2.title)
    ensures var g1, g2 := GeneratePostIntended(j1, freq, env, ai1).value, GeneratePostIntended(j2, freq, env, ai2).value;
      var db2 := ApplyGenerated(ApplyGenerated(db, g1), g2);
      Lookup(db2.posts, (g1.value.post.city, g1.value.post.slug)) == Some(g1.value.post) &&
      Lookup(db2.posts, (g2.value.post.city, g2.value.post.slug)) == Some(g2.value.post)
  {
    var g1, g2 := GeneratePostIntended(j1, freq, env, ai1).value, GeneratePostIntended(j2, freq, env, ai2).value;
    var p1, p2 := g1.value.post, g2.value.post;
    assert p1.title == ai1.title && p2.title == ai2.title by {
      assert p1.(slug := "").title == p1.title && p2.(slug := "").title == p2.title;
    }
    if p1.slug == p2.slug {
      PostSlugInjective(env.sanitize(ai1.title), j1.period, j2.period);
    }
    var db1 := ApplyGenerated(db, g1);
    assert Lookup(db1.posts, (p1.city, p1.slug)) == Some(p1);
  }

  /** What a run leaves: the database, and the exception that ended it early, if one did. */
  datatype RunOutcome = RunOutcome(db: Db, error: Option<string>)

  /** How many jobs commit before the first one that throws: all of them when none throws. */
  function Committed(jobs: seq<Job>, gen: Job -> Generation): (n: nat)
    ensures n <= |jobs|
    ensures forall i :: 0 <= i < n ==> gen(jobs[i]).Ok?
    ensures n < |jobs| ==> gen(jobs[n]).Err?
    decreases |jobs|
  {
    if jobs == [] || gen(jobs[0]).Err? then 0
    else
      var n := Committed(jobs[1..], gen);
      assert forall i :: 0 < i <= n ==> jobs[i] == jobs[1..][i - 1];
      1 + n
  }

  /** The jobs applied in order. The first job that throws ends the run, and nothing after it happens. */
  function ApplyJobs(db: Db, jobs: seq<Job>, gen: Job -> Generation): (r: RunOutcome)
    requires DistinctKeys(db.posts)
    ensures DistinctKeys(r.db.posts)
    decreases |jobs|
  {
    if jobs == [] then RunOutcome(db, None)
    else
      match ApplyJob(db, jobs[0], gen)
      case Err(e) => RunOutcome(db, Some(e))
      case Ok(next) => ApplyJobs(next, jobs[1..], gen)
  }

  /** A job that does not throw is written, and the run goes on from there. */
  lemma ApplyJobsStep(db: Db, jobs: seq<Job>, gen: Job -> Generation)
    requires DistinctKeys(db.posts) && jobs != [] && gen(jobs[0]).Ok?
    ensures ApplyJob(db, jobs[0], gen).Ok?
    ensures ApplyJobs(db, jobs, gen) == ApplyJobs(ApplyJob(db, jobs[0], gen).value, jobs[1..], gen)
  {
  }

  /** A run ends early exactly when some job throws, and then with the first throwing job's exception. */
  lemma {:induction false} ApplyJobsError(db: Db, jobs: seq<Job>, gen: Job -> Generation)
    requires DistinctKeys(db.posts)
    ensures ApplyJobs(db, jobs, gen).error.None? <==> Committed(jobs, gen) == |jobs|
    ensures ApplyJobs(db, jobs, gen).error.Some? ==>
      Committed(jobs, gen) < |jobs| && ApplyJobs(db, jobs, gen).error.value == gen(jobs[Committed(jobs, gen)]).error
    decreases |jobs|
  {
    if jobs != [] && gen(jobs[0]).Ok? {
      ApplyJobsStep(db, jobs, gen);
      ApplyJobsError(ApplyJob(db, jobs[0], gen).value, jobs[1..], gen);
    }
  }

  /** A run that throws leaves exactly what the jobs before the throwing one wrote. */
  lemma {:induction false} ApplyJobsCommitted(db: Db, jobs: seq<Job>, gen: Job -> Generation)
    requires DistinctKeys(db.posts)
    ensures ApplyJobs(db, jobs, gen).db == ApplyJobs(db, jobs[..Committed(jobs, gen)], gen).db
    decreases |jobs|
  {
    if jobs != [] {
      var n := Committed(jobs, gen);
      var p := jobs[..n];
      if gen(jobs[0]).Err? {
        assert p == [];
      } else {
        var next := ApplyJob(db, jobs[0], gen).value;
        ApplyJobsStep(db, jobs, gen);
        ApplyJobsCommitted(next, jobs[1..], gen);
        assert p != [] && p[0] == jobs[0] && p[1..] == jobs[1..][..n - 1];
        ApplyJobsStep(db, p, gen);
      }
    }
  }

  /** Some job marks `id`. */
  predicate MarkedBy(jobs: seq<Job>, id: int) {
    exists j :: j in jobs && id in MarkedIds(j.rows)
  }

  /** The first job marks `id`, or one of the others does. */
  lemma MarkedByCons(jobs: seq<Job>, id: int)
    requires jobs != []
    ensures MarkedBy(jobs, id) <==> id in MarkedIds(jobs[0].rows) || MarkedBy(jobs[1..], id)
  {
    if MarkedBy(jobs, id) {
      var j :| j in jobs && id in MarkedIds(j.rows);
      if j != jobs[0] {
        assert j in jobs[1..];
      }
    }
    if MarkedBy(jobs[1..], id) {
      var j :| j in jobs[1..] && id in MarkedIds(j.rows);
      assert j in jobs;
    }
    if id in MarkedIds(jobs[0].rows) {
      assert jobs[0] in jobs;
    }
  }

  /**
   * Running the jobs changes only published flags, and sets exactly those
   * of the ids that a job committed before any throw marks.
   */
  lemma {:induction false} ApplyJobsRows(db: Db, jobs: seq<Job>, gen: Job -> Generation)
    requires DistinctKeys(db.posts) && MarksJobRows(gen)
    ensures |ApplyJobs(db, jobs, gen).db.rows| == |db.rows|
    ensures forall i :: 0 <= i < |db.rows| ==> (ApplyJobs(db, jobs, gen).db.rows[i] ==
      db.rows[i].(published := db.rows[i].published || MarkedBy(jobs[..Committed(jobs, gen)], db.rows[i].id)))
    decreases |jobs|
  {
    var p := jobs[..Committed(jobs, gen)];
    if jobs == [] || gen(jobs[0]).Err? {
      assert p == [];
      assert forall id :: !MarkedBy(p, id);
    } else {
      var next := ApplyJob(db, jobs[0], gen).value;
      ApplyJobsStep(db, jobs, gen);
      ApplyJobsRows(next, jobs[1..], gen);
      assert p[0] == jobs[0] && p[1..] == jobs[1..][..Committed(jobs[1..], gen)];
      forall i | 0 <= i < |db.rows|
        ensures ApplyJobs(db, jobs, gen).db.rows[i] ==
          db.rows[i].(published := db.rows[i].published || MarkedBy(p, db.rows[i].id))
      {
        assert next.rows[i].id == db.rows[i].id;
        MarkedByCons(p, db.rows[i].id);
      }
    }
  }

  /** Ids marked by the committed jobs are marked by the jobs. */
  lemma MarkedByPrefix(jobs: seq<Job>, n: nat, id: int)
    requires n <= |jobs| && MarkedBy(jobs[..n], id)
    ensures MarkedBy(jobs, id)
  {
    var j :| j in jobs[..n] && id in MarkedIds(j.rows);
    assert j in jobs;
  }

  /** A row no committed job marks keeps its flag when a job throws. */
  lemma ThrowLeavesRow(db: Db, jobs: seq<Job>, gen: Job -> Generation, i: int)
    requires DistinctKeys(db.posts) && MarksJobRows(gen) && 0 <= i < |db.rows| && Committed(jobs, gen) < |jobs|
    requires !MarkedBy(jobs[..Committed(jobs, gen)], db.rows[i].id)
    ensures ApplyJobs(db, jobs, gen).error.Some?
    ensures |ApplyJobs(db, jobs, gen).db.rows| == |db.rows| && ApplyJobs(db, jobs, gen).db.rows[i] == db.rows[i]
  {
    ApplyJobsRows(db, jobs, gen);
    ApplyJobsError(db, jobs, gen);
  }

  /**
   * A row's flag after a run: set only if it was set or some job marks the
   * row, and exactly then when no job throws.
   */
  lemma RunFlag(db: Db, jobs: seq<Job>, gen: Job -> Generation, i: int)
    requires DistinctKeys(db.posts) && MarksJobRows(gen) && 0 <= i < |db.rows|
    ensures |ApplyJobs(db, jobs, gen).db.rows| == |db.rows|
    ensures ApplyJobs(db, jobs, gen).db.rows[i].published ==> db.rows[i].published || MarkedBy(jobs, db.rows[i].id)
    ensures ApplyJobs(db, jobs, gen).error.None? ==>
      (ApplyJobs(db, jobs, gen).db.rows[i].published <==> db.rows[i].published || MarkedBy(jobs, db.rows[i].id))
  {
    ApplyJobsRows(db, jobs, gen);
    ApplyJobsError(db, jobs, gen);
    if MarkedBy(jobs[..Committed(jobs, gen)], db.rows[i].id) {
      MarkedByPrefix(jobs, Committed(jobs, gen), db.rows[i].id);
    }
    assert Committed(jobs, gen) == |jobs| ==> jobs[..Committed(jobs, gen)] == jobs;
  }

  /** The run over `jobs` ends early exactly when a card of some job throws, and then with that card's exception. */
  lemma RunError(db: Db, jobs: seq<Job>, freq: Frequency, env: Env, ai: Job -> AiReply)
    requires DistinctKeys(db.posts)
    ensures ApplyJobs(db, jobs, Generator(freq, env, ai)).error.None? <==> forall j :: j in jobs ==> !RowsFail(j.rows, env)
    ensures ApplyJobs(db, jobs, Generator(freq, env, ai)).error.Some? ==> Thrown(ApplyJobs(db, jobs, Generator(freq, env, ai)).error.value)
  {
    var gen := Generator(freq, env, ai);
    GeneratorFacts(freq, env, ai);
    ApplyJobsError(db, jobs, gen);
    if Committed(jobs, gen) < |jobs| {
      assert jobs[Committed(jobs, gen)] in jobs;
    } else {
      forall j | j in jobs
        ensures !RowsFail(j.rows, env)
      {
        var i :| 0 <= i < |jobs| && jobs[i] == j;
      }
    }
  }

  /** `lr_run_content_publication`. */
  function RunPublication(db: Db, freq: Frequency, clock: Clock, env: Env, ai: Job -> AiReply): (r: RunOutcome)
    requires DistinctKeys(db.posts)
    ensures DistinctKeys(r.db.posts)
    ensures r.error.None? <==> forall j :: j in PublicationJobs(db.rows, freq, clock) ==> !RowsFail(j.rows, env)
    ensures r.error.Some? ==> Thrown(r.error.value)
  {
    RunError(db, PublicationJobs(db.rows, freq, clock), freq, env, ai);
    ApplyJobs(db, PublicationJobs(db.rows, freq, clock), Generator(freq, env, ai))
  }

  /** A row of a job over `rows` that a job marks is that job's non-event row with the same id. */
  lemma MarkedRow(rows: seq<Row>, jobs: seq<Job>, i: int) returns (j: Job, x: Row)
    requires 0 <= i < |rows| && MarkedBy(jobs, rows[i].id)
    ensures j in jobs && x in j.rows && x.kind != Event && x.id == rows[i].id
  {
    j :| j in jobs && rows[i].id in MarkedIds(j.rows);
    var k :| 0 <= k < |j.rows| && j.rows[k].kind != Event && j.rows[k].id == rows[i].id;
    x := j.rows[k];
  }

  /** A row that is in some job and not an event is marked. */
  lemma MarkedByMember(jobs: seq<Job>, j: Job, row: Row)
    requires j in jobs && row in j.rows && row.kind != Event
    ensures MarkedBy(jobs, row.id)
  {
    var k :| 0 <= k < |j.rows| && j.rows[k] == row;
  }

  /** In a table with unique ids, a row of the table with the same id is the same row. */
  lemma SameIdSameRow(rows: seq<Row>, i: int, x: Row)
    requires UniqueIds(rows) && 0 <= i < |rows| && x in rows && x.id == rows[i].id
    ensures x == rows[i]
  {
    var m :| 0 <= m < |rows| && rows[m] == x;
  }

  /** The rows a publication run marks: unpublished, dated non-events of a finished period. */
  lemma PublicationMarked(rows: seq<Row>, freq: Frequency, clock: Clock, i: int)
    requires UniqueIds(rows) && 0 <= i < |rows|
    ensures MarkedBy(PublicationJobs(rows, freq, clock), rows[i].id) <==>
      !rows[i].published && rows[i].kind != Event && Dated(clock, None, rows[i]) &&
      Complete(freq, clock.current, clock.periodOf(Timestamp(rows[i]).value))
  {
    var jobs := PublicationJobs(rows, freq, clock);
    var row := rows[i];
    if MarkedBy(jobs, row.id) {
      var j, x := MarkedRow(rows, jobs, i);
      PublicationJobRows(rows, freq, clock, j, x);
      SameIdSameRow(rows, i, x);
    }
    if !row.published && row.kind != Event && Dated(clock, None, row) &&
       Complete(freq, clock.current, clock.periodOf(Timestamp(row).value)) {
      RecapRowPublished(rows, freq, clock, row);
      var j :| j in jobs && row in j.rows && j.period == clock.periodOf(Timestamp(row).value) && j.city == row.city;
      MarkedByMember(jobs, j, row);
    }
  }

  /**
   * After a publication run, a row is published only if it already was, or
   * it is a non-event whose timestamp is usable and falls in a period that
   * has ended. When no card throws, every such row is published. Events are
   * never marked.
   */
  lemma RunPublicationMarks(db: Db, freq: Frequency, clock: Clock, env: Env, ai: Job -> AiReply, i: int)
    requires DistinctKeys(db.posts) && UniqueIds(db.rows) && 0 <= i < |db.rows|
    ensures |RunPublication(db, freq, clock, env, ai).db.rows| == |db.rows|
    ensures RunPublication(db, freq, clock, env, ai).db.rows[i].published ==>
      db.rows[i].published ||
      (db.rows[i].kind != Event && Dated(clock, None, db.rows[i]) &&
       Complete(freq, clock.current, clock.periodOf(Timestamp(db.rows[i]).value)))
    ensures RunPublication(db, freq, clock, env, ai).error.None? ==>
      (RunPublication(db, freq, clock, env, ai).db.rows[i].published <==>
       db.rows[i].published ||
       (db.rows[i].kind != Event && Dated(clock, None, db.rows[i]) &&
        Complete(freq, clock.current, clock.periodOf(Timestamp(db.rows[i]).value))))
  {
    var jobs := PublicationJobs(db.rows, freq, clock);
    GeneratorFacts(freq, env, ai);
    RunFlag(db, jobs, Generator(freq, env, ai), i);
    PublicationMarked(db.rows, freq, clock, i);
  }

  /**
   * No job before the first throwing one marks a row of it: a job with the
   * same period and city would be the same job, and would throw too.
   */
  lemma PublicationEarlierJobsSkip(rows: seq<Row>, freq: Frequency, clock: Clock, gen: Job -> Generation, i: int)
    requires UniqueIds(rows) && 0 <= i < |rows|
    requires var jobs := PublicationJobs(rows, freq, clock);
      Committed(jobs, gen) < |jobs| && rows[i] in jobs[Committed(jobs, gen)].rows
    ensures var jobs := PublicationJobs(rows, freq, clock); !MarkedBy(jobs[..Committed(jobs, gen)], rows[i].id)
  {
    var jobs := PublicationJobs(rows, freq, clock);
    var k := Committed(jobs, gen);
    if MarkedBy(jobs[..k], rows[i].id) {
      var j :| j in jobs[..k] && rows[i].id in MarkedIds(j.rows);
      PublicationMarkerIsJob(rows, freq, clock, j, jobs[k], i);
      assert false;
    }
  }

  /** The publication job that marks a row of a job is that job. */
  lemma PublicationMarkerIsJob(rows: seq<Row>, freq: Frequency, clock: Clock, j: Job, owner: Job, i: int)
    requires UniqueIds(rows) && 0 <= i < |rows|
    requires j in PublicationJobs(rows, freq, clock) && owner in PublicationJobs(rows, freq, clock)
    requires rows[i] in owner.rows && rows[i].id in MarkedIds(j.rows)
    ensures j == owner
  {
    PublicationJobRows(rows, freq, clock, owner, rows[i]);
    var x := MarkedRowOf(j, rows[i].id);
    PublicationJobRows(rows, freq, clock, j, x);
    SameIdSameRow(rows, i, x);
    PublicationJobsDistinct(rows, freq, clock, j, owner);
  }

  /** The non-event row of a job behind a marked id. */
  lemma MarkedRowOf(j: Job, id: int) returns (x: Row)
    requires id in MarkedIds(j.rows)
    ensures x in j.rows && x.kind != Event && x.id == id
  {
    var k :| 0 <= k < |j.rows| && j.rows[k].kind != Event && j.rows[k].id == id;
    x := j.rows[k];
  }

  /**
   * When a card throws, the run stops at that job: the rows of the
   * throwing job are left as they were.
   */
  lemma RunPublicationThrowLeavesRows(db: Db, freq: Frequency, clock: Clock, env: Env, ai: Job -> AiReply, i: int)
    requires DistinctKeys(db.posts) && UniqueIds(db.rows) && 0 <= i < |db.rows|
    requires var jobs := PublicationJobs(db.rows, freq, clock);
      Committed(jobs, Generator(freq, env, ai)) < |jobs| && db.rows[i] in jobs[Committed(jobs, Generator(freq, env, ai))].rows
    ensures RunPublication(db, freq, clock, env, ai).error.Some?
    ensures |RunPublication(db, freq, clock, env, ai).db.rows| == |db.rows|
    ensures RunPublication(db, freq, clock, env, ai).db.rows[i] == db.rows[i]
  {
    GeneratorFacts(freq, env, ai);
    PublicationEarlierJobsSkip(db.rows, freq, clock, Generator(freq, env, ai), i);
    ThrowLeavesRow(db, PublicationJobs(db.rows, freq, clock), Generator(freq, env, ai), i);
  }

  /** `lr_run_historical_seeding_for_city`. */
  function RunSeedingForCity(db: Db, city: string, freq: Frequency, clock: Clock, env: Env, ai: Job -> AiReply): (r: RunOutcome)
    requires DistinctKeys(db.posts)
    ensures DistinctKeys(r.db.posts)
    ensures r.error.None? <==> forall j :: j in SeedingJobs(db.rows, city, freq, clock) ==> !RowsFail(j.rows, env)
    ensures r.error.Some? ==> Thrown(r.error.value)
  {
    RunError(db, SeedingJobs(db.rows, city, freq, clock), freq, env, ai);
    ApplyJobs(db, SeedingJobs(db.rows, city, freq, clock), Generator(freq, env, ai))
  }

  /** The rows seeding a city marks: its dated non-events within the window, of a finished period. */
  lemma SeedingMarked(rows: seq<Row>, city: string, freq: Frequency, clock: Clock, i: int)
    requires UniqueIds(rows) && 0 <= i < |rows|
    ensures MarkedBy(SeedingJobs(rows, city, freq, clock), rows[i].id) <==>
      rows[i].city == city && rows[i].kind != Event && Dated(clock, Some(clock.sixMonthsAgo), rows[i]) &&
      Complete(freq, clock.current, clock.periodOf(Timestamp(rows[i]).value))
  {
    var jobs := SeedingJobs(rows, city, freq, clock);
    var row := rows[i];
    if MarkedBy(jobs, row.id) {
      var j, x := MarkedRow(rows, jobs, i);
      SeedingJobRows(rows, city, freq, clock, j, x);
      SameIdSameRow(rows, i, x);
    }
    if row.city == city && row.kind != Event && Dated(clock, Some(clock.sixMonthsAgo), row) &&
       Complete(freq, clock.current, clock.periodOf(Timestamp(row).value)) {
      SeedingRowJob(rows, city, freq, clock, row);
      var j :| j in jobs && row in j.rows;
      MarkedByMember(jobs, j, row);
    }
  }

  /**
   * Seeding a city publishes only its non-event rows dated within the
   * six-month window in a period that has ended, and touches no other row.
   * When no card throws, every such row is published, whether it was
   * before or not.
   */
  lemma RunSeedingMarks(db: Db, city: string, freq: Frequency, clock: Clock, env: Env, ai: Job -> AiReply, i: int)
    requires DistinctKeys(db.posts) && UniqueIds(db.rows) && 0 <= i < |db.rows|
    ensures |RunSeedingForCity(db, city, freq, clock, env, ai).db.rows| == |db.rows|
    ensures RunSeedingForCity(db, city, freq, clock, env, ai).db.rows[i].published ==>
      db.rows[i].published ||
      (db.rows[i].city == city && db.rows[i].kind != Event && Dated(clock, Some(clock.sixMonthsAgo), db.rows[i]) &&
       Complete(freq, clock.current, clock.periodOf(Timestamp(db.rows[i]).value)))
    ensures RunSeedingForCity(db, city, freq, clock, env, ai).error.None? ==>
      (RunSeedingForCity(db, city, freq, clock, env, ai).db.rows[i].published <==>
       db.rows[i].published ||
       (db.rows[i].city == city && db.rows[i].kind != Event && Dated(clock, Some(clock.sixMonthsAgo), db.rows[i]) &&
        Complete(freq, clock.current, clock.periodOf(Timestamp(db.rows[i]).value))))
  {
    var jobs := SeedingJobs(db.rows, city, freq, clock);
    GeneratorFacts(freq, env, ai);
    RunFlag(db, jobs, Generator(freq, env, ai), i);
    SeedingMarked(db.rows, city, freq, clock, i);
  }

  /** No seeding job before the first throwing one marks a row of it. */
  lemma SeedingEarlierJobsSkip(rows: seq<Row>, city: string, freq: Frequency, clock: Clock, gen: Job -> Generation, i: int)
    requires UniqueIds(rows) && 0 <= i < |rows|
    requires var jobs := SeedingJobs(rows, city, freq, clock);
      Committed(jobs, gen) < |jobs| && rows[i] in jobs[Committed(jobs, gen)].rows
    ensures var jobs := SeedingJobs(rows, city, freq, clock); !MarkedBy(jobs[..Committed(jobs, gen)], rows[i].id)
  {
    var jobs := SeedingJobs(rows, city, freq, clock);
    var k := Committed(jobs, gen);
    if MarkedBy(jobs[..k], rows[i].id) {
      var j :| j in jobs[..k] && rows[i].id in MarkedIds(j.rows);
      SeedingMarkerIsJob(rows, city, freq, clock, j, jobs[k], i);
      assert false;
    }
  }

  /** The seeding job that marks a row of a job is that job. */
  lemma SeedingMarkerIsJob(rows: seq<Row>, city: string, freq: Frequency, clock: Clock, j: Job, owner: Job, i: int)
    requires UniqueIds(rows) && 0 <= i < |rows|
    requires j in SeedingJobs(rows, city, freq, clock) && owner in SeedingJobs(rows, city, freq, clock)
    requires rows[i] in owner.rows && rows[i].id in MarkedIds(j.rows)
    ensures j == owner
  {
    SeedingJobRows(rows, city, freq, clock, owner, rows[i]);
    var x := MarkedRowOf(j, rows[i].id);
    SeedingJobRows(rows, city, freq, clock, j, x);
    SameIdSameRow(rows, i, x);
    SeedingJobsDistinct(rows, city, freq, clock, j, owner);
  }

  /**
   * When a card throws while seeding a city, the rows of the throwing job
   * are left as they were, published or not.
   */
  lemma RunSeedingThrowLeavesRows(db: Db, city: string, freq: Frequency, clock: Clock, env: Env, ai: Job -> AiReply, i: int)
    requires DistinctKeys(db.posts) && UniqueIds(db.rows) && 0 <= i < |db.rows|
    requires var jobs := SeedingJobs(db.rows, city, freq, clock);
      Committed(jobs, Generator(freq, env, ai)) < |jobs| && db.rows[i] in jobs[Committed(jobs, Generator(freq, env, ai))].rows
    ensures RunSeedingForCity(db, city, freq, clock, env, ai).error.Some?
    ensures |RunSeedingForCity(db, city, freq, clock, env, ai).db.rows| == |db.rows|
    ensures RunSeedingForCity(db, city, freq, clock, env, ai).db.rows[i] == db.rows[i]
  {
    GeneratorFacts(freq, env, ai);
    SeedingEarlierJobsSkip(db.rows, city, freq, clock, Generator(freq, env, ai), i);
    ThrowLeavesRow(db, SeedingJobs(db.rows, city, freq, clock), Generator(freq, env, ai), i);
  }
}

=== FILE: schema_markup.dfy ===
/**
 * The JSON-LD graph printed into the page head: a breadcrumb list on
 * every page with data, and one entity node for spot, event, skater,
 * city and list pages. The nodes are modelled as records; their JSON
 * encoding is not.
 */
module SchemaMarkup {
  import opened Wrappers
  import opened Strings
  import opened Locations
  import opened PageData

  /** A `ListItem`: its position, name, and link (the current page's crumb has none). */
  datatype Crumb = Crumb(position: nat, name: string, item: Option<string>)

  /** Positions run 1, 2, 3, … with no gap. */
  predicate Consecutive(items: seq<Crumb>) {
    forall i :: 0 <= i < |items| ==> items[i].position == i + 1
  }

  /** Appends a crumb at the next position (`$position++`). */
  function Push(items: seq<Crumb>, name: string, item: Option<string>): (r: seq<Crumb>)
    ensures |r| == |items| + 1 && r[|items|] == Crumb(|items| + 1, name, item)
    ensures forall i :: 0 <= i < |items| ==> r[i] == items[i]
    ensures Consecutive(items) ==> Consecutive(r)
  {
    items + [Crumb(|items| + 1, name, item)]
  }

  /** The country crumb's name: the configured name, else the capitalised slug. */
  function CountryName(locs: LocationTable, slug: string): string {
    match CountryDetails(locs, slug)
    case Some(c) => c.name
    case None => Ucfirst(slug)
  }

  /** The city crumb's name, looked up under the page's country slug (null reads as ""). */
  function CityName(locs: LocationTable, country: string, slug: string): string {
    match CityDetails(locs, country, slug)
    case Some(c) => c.name
    case None => Ucfirst(slug)
  }

  /** The name of the final, unlinked crumb; empty for the types that have none. */
  function FinalName(kind: PageType, d: Data): (r: string)
    ensures r != "" ==> kind.Spots? || kind.Events? || kind.Skaters? || kind.ListPage?
  {
    match kind
    case Spots => if d.spot.Some? then d.spot.value.name.GetOr("Spot") else "Spot"
    case Events => d.name.GetOr("Event")
    case Skaters => d.skateName.GetOr("Skater")
    case ListPage(listType) => Ucfirst(listType)
    case _ => ""
  }

  /** The final crumb is added when its name is true in PHP and the page is not a city page. */
  predicate HasFinal(details: PageDetails, d: Data) {
    !PhpEmpty(FinalName(details.kind, d)) && !details.kind.CityPage?
  }

  /** The two crumbs every page starts with: Home and Explore, both linked. */
  function Start(env: Env): (r: seq<Crumb>)
    ensures Consecutive(r) && |r| == 2 && r[0].item.Some? && r[1].item.Some?
  {
    [Crumb(1, "Home", Some(env.home("/"))), Crumb(2, "Explore", Some(env.home("/explore/")))]
  }

  /**
   * `lr_generate_breadcrumb_schema`: Home and Explore, then the country
   * and city crumbs when the details carry those slugs, then the current
   * page without a link.
   */
  function Breadcrumbs(details: PageDetails, d: Data, locs: LocationTable, env: Env): (r: seq<Crumb>)
    ensures Consecutive(r)
    ensures |r| >= 2 && r[..2] == Start(env)
    ensures |r| == 2 + (if details.country.Some? then 1 else 0) + (if details.city.Some? then 1 else 0) + (if HasFinal(details, d) then 1 else 0)
    ensures details.country.Some? ==> r[2] == Crumb(3, CountryName(locs, details.country.value), Some(env.home("/" + details.country.value + "/")))
    ensures forall i :: 0 <= i < |r| - 1 ==> r[i].item.Some?
    ensures r[|r| - 1].item.None? <==> HasFinal(details, d)
    ensures HasFinal(details, d) ==> r[|r| - 1].name == FinalName(details.kind, d)
  {
    var start := Start(env);
    var withCountry :=
      match details.country
      case Some(c) => Push(start, CountryName(locs, c), Some(env.home("/" + c + "/")))
      case None => start;
    var withCity :=
      match details.city
      case Some(c) =>
        var country := details.country.GetOr("");
        Push(withCountry, CityName(locs, country, c), Some(env.home("/" + country + "/" + c + "/")))
      case None => withCountry;
    if HasFinal(details, d) then Push(withCity, FinalName(details.kind, d), None) else withCity
  }

  /** On a city page every crumb is linked: the city itself is the last crumb. */
  lemma CityPageHasNoFinal(details: PageDetails, d: Data, locs: LocationTable, env: Env)
    requires details.kind.CityPage?
    ensures forall c :: c in Breadcrumbs(details, d, locs, env) ==> c.item.Some?
  {
    var r := Breadcrumbs(details, d, locs, env);
    forall c | c in r ensures c.item.Some? {
      var i :| 0 <= i < |r| && r[i] == c;
    }
  }

  datatype Geo = Geo(latitude: Option<string>, longitude: string)

  datatype Rating = Rating(ratingValue: string, reviewCount: int, bestRating: string, worstRating: string)

  /** The `SportsActivityLocation` node of a spot. */
  datatype SpotNode = SpotNode(
    name: Option<string>, url: string, description: string, image: Option<string>,
    streetAddress: Option<string>, geo: Option<Geo>, rating: Option<Rating>)

  /**
   * `lr_generate_spot_schema`: null without a spot; the image, address,
   * coordinates (GeoJSON order, longitude first) and aggregate rating
   * only when set.
   */
  function SpotSchema(d: Data, env: Env, uri: string): (r: Option<SpotNode>)
    ensures r.Some? <==> d.spot.Some?
    ensures r.Some? ==> r.value.name == d.spot.value.name && r.value.url == env.home(uri)
    ensures r.Some? ==> EndsWith(r.value.description, d.spot.value.city.GetOr("the area") + ".")
    ensures r.Some? ==> (r.value.image.Some? <==> Truthy(d.spot.value.satellite))
    ensures r.Some? && r.value.image.Some? ==> StartsWith(r.value.image.value, env.proxy + "?type=spot_satellite&id=" + d.spot.value.satellite.value)
    ensures r.Some? ==> (r.value.geo.Some? <==> d.spot.value.coordinates != [])
    ensures r.Some? && r.value.geo.Some? ==>
      r.value.geo.value.longitude == d.spot.value.coordinates[0] &&
      (|d.spot.value.coordinates| > 1 ==> r.value.geo.value.latitude == Some(d.spot.value.coordinates[1]))
    ensures r.Some? ==> (r.value.rating.Some? <==> d.spot.value.ratingsCount.GetOr(0) > 0)
    ensures r.Some? && r.value.rating.Some? ==>
      r.value.rating.value.reviewCount == d.spot.value.ratingsCount.value &&
      r.value.rating.value.ratingValue == env.average(d.spot.value.totalValue, d.spot.value.ratingsCount.value)
    ensures r.Some? && r.value.streetAddress.Some? ==> r.value.streetAddress == d.spot.value.address
    ensures r.Some? ==> (r.value.streetAddress.Some? <==> Truthy(d.spot.value.address))
  {
    match d.spot
    case None => None
    case Some(s) =>
      var c := s.coordinates;
      var count := s.ratingsCount.GetOr(0);
      var lead := "A popular roller skating spot " + "in ";
      var tail := s.city.GetOr("the area") + ".";
      assert (lead + tail)[|lead|..] == tail;
      var imagePrefix := env.proxy + "?type=spot_satellite&id=" + s.satellite.GetOr("");
      var image := imagePrefix + "&width=800";
      assert image[..|imagePrefix|] == imagePrefix;
      Some(SpotNode(
        s.name,
        env.home(uri),
        lead + tail,
        if Truthy(s.satellite) then Some(image) else None,
        if Truthy(s.address) then Some(s.address.value) else None,
        if c != [] then Some(Geo(if |c| > 1 then Some(c[1]) else None, c[0])) else None,
        if count > 0 then Some(Rating(env.average(s.totalValue, count), count, "5", "1")) else None))
  }

  datatype Organizer = Organizer(name: Option<string>, url: string)

  /** The `Event` node. */
  datatype EventNode = EventNode(
    name: string, url: string, description: string, status: string, attendance: string,
    startDate: Option<string>, endDate: Option<string>, image: Option<string>,
    location: Option<string>, organizer: Option<Organizer>)

  /** PHP's `$a ?? $b` on two possibly-null values. */
  function OrElse(a: Option<string>, b: Option<string>): Option<string> {
    if a.Some? then a else b
  }

  /** The fixed `eventStatus` and `eventAttendanceMode` values. */
  const EventScheduled := "https://schema.org/EventScheduled"
  const OfflineAttendance := "https://schema.org/OfflineEventAttendanceMode"

  /** The image proxy URL of an event's first attachment, 800 pixels wide. */
  function EventImage(env: Env, d: Data): string
    requires d.attachments != []
  {
    env.proxy + "?type=event_attachment&id=" + d.attachments[0].id + "&session_id=" + d.id.GetOr("") + "&width=800"
  }

  /** The organizer: the first profile, named by skate name or first name, linked to its skater page. */
  function OrganizerOf(env: Env, d: Data): Option<Organizer> {
    if d.profiles == [] then None
    else
      var p := d.profiles[0];
      Some(Organizer(OrElse(p.skateName, p.firstName), env.home("/skaters/" + p.skateName.GetOr(p.userId.GetOr("")) + "/")))
  }

  /**
   * `lr_generate_event_schema`: null without a name; dates, image,
   * place and organizer only when their sources are set.
   */
  function EventSchema(d: Data, env: Env, uri: string): (r: Option<EventNode>)
    ensures r.Some? <==> Truthy(d.name)
    ensures r.Some? ==> r.value.name == d.name.value && r.value.url == env.home(uri)
    ensures r.Some? ==> r.value.description == env.stripTags(d.description.GetOr(""))
    ensures r.Some? && r.value.startDate.Some? ==> r.value.startDate == d.startDate
    ensures r.Some? && r.value.endDate.Some? ==> r.value.endDate == d.endDate
    ensures r.Some? ==> (r.value.image.Some? <==> d.attachments != [])
    ensures r.Some? && r.value.location.Some? ==> d.address.Some? && r.value.location == env.formattedAddress(d.address.value)
    ensures r.Some? ==> (r.value.startDate.Some? <==> Truthy(d.startDate)) && (r.value.endDate.Some? <==> Truthy(d.endDate))
    ensures r.Some? ==> (r.value.location.Some? <==> Truthy(d.address) && env.formattedAddress(d.address.value).Some?)
    ensures r.Some? ==> (r.value.organizer.Some? <==> d.profiles != [])
    ensures r.Some? && r.value.organizer.Some? ==>
      r.value.organizer.value.name == (if d.profiles[0].skateName.Some? then d.profiles[0].skateName else d.profiles[0].firstName)
  {
    if !Truthy(d.name) then None
    else
      var place :=
        if Truthy(d.address) && env.formattedAddress(d.address.value).Some?
        then env.formattedAddress(d.address.value) else None;
      Some(EventNode(
        d.name.value, env.home(uri), env.stripTags(d.description.GetOr("")),
        EventScheduled, OfflineAttendance,
        if Truthy(d.startDate) then d.startDate else None,
        if Truthy(d.endDate) then d.endDate else None,
        if d.attachments != [] then Some(EventImage(env, d)) else None,
        place, OrganizerOf(env, d)))
  }

  /** The `Person` node of a skater. */
  datatype PersonNode = PersonNode(name: Option<string>, url: string, image: string, description: Option<string>, sameAs: seq<string>)

  /** `lr_generate_person_schema`: null without a user id; sameAs only with an Instagram username. */
  function PersonSchema(d: Data, env: Env, uri: string): (r: Option<PersonNode>)
    ensures r.Some? <==> Truthy(d.userId)
    ensures r.Some? ==> r.value.name == (if d.skateName.Some? then d.skateName else d.firstName) && r.value.url == env.home(uri)
    ensures r.Some? ==> (r.value.sameAs != [] <==> Truthy(d.instagram))
    ensures r.Some? && r.value.sameAs != [] ==> r.value.sameAs == ["https://instagram.com/" + d.instagram.value]
    ensures r.Some? ==> (r.value.description.Some? <==> Truthy(d.publicBio))
    ensures r.Some? && r.value.description.Some? ==> r.value.description.value == env.stripTags(d.publicBio.value)
    ensures r.Some? ==> StartsWith(r.value.image, AvatarBase + d.userId.value)
  {
    if !Truthy(d.userId) then None
    else
      var image := AvatarBase + d.userId.value + "/avatar/content/processed?width=500";
      assert image == (AvatarBase + d.userId.value) + "/avatar/content/processed?width=500";
      Some(PersonNode(
        OrElse(d.skateName, d.firstName), env.home(uri), image,
        if Truthy(d.publicBio) then Some(env.stripTags(d.publicBio.value)) else None,
        if Truthy(d.instagram) then ["https://instagram.com/" + d.instagram.value] else []))
  }

  /** The `CollectionPage` node of a city or list page. */
  datatype CollectionNode = CollectionNode(url: string, name: Option<string>, description: Option<string>)

  /** `lr_generate_collection_page_schema`: a name and description for cities, a list name for lists. */
  function CollectionSchema(d: Data, details: PageDetails, env: Env, uri: string): (r: CollectionNode)
    ensures r.name.Some? <==> details.kind.CityPage? || details.kind.ListPage?
    ensures r.description.Some? <==> details.kind.CityPage?
    ensures r.url == env.home(uri)
    ensures r.name.Some? ==> EndsWith(r.name.value, " in " + d.name.GetOr("City"))
    ensures details.kind.ListPage? ==> StartsWith(r.name.value, ListName(details.kind.listType))
    ensures r.description.Some? ==> EndsWith(r.description.value, d.name.GetOr("City") + ".")
  {
    var city := d.name.GetOr("City");
    var place := " in " + city;
    var lead := "Find the best skate spots, events, " + "and skaters";
    EndsWithAppend("Roller Skating", place);
    EndsWithAppend(lead + " in ", city + ".");
    match details.kind
    case CityPage =>
      CollectionNode(env.home(uri), Some("Roller Skating" + place), Some((lead + " in ") + (city + ".")))
    case ListPage(listType) =>
      var name := ListName(listType) + place;
      StartsWithAppend(ListName(listType), place);
      EndsWithAppend(ListName(listType), place);
      CollectionNode(env.home(uri), Some(name), None)
    case _ => CollectionNode(env.home(uri), None, None)
  }

  datatype Node =
    | BreadcrumbList(items: seq<Crumb>)
    | SpotEntity(spot: SpotNode)
    | EventEntity(event: EventNode)
    | PersonEntity(person: PersonNode)
    | CollectionEntity(collection: CollectionNode)

  /** The entity node `lr_output_json_ld_schema` switches to for the page type. */
  function EntityNode(details: PageDetails, d: Data, env: Env, uri: string): (r: Option<Node>)
    ensures r.Some? ==> (details.kind.Spots? || details.kind.Events? || details.kind.Skaters? ||
                         details.kind.CityPage? || details.kind.ListPage?)
  {
    match details.kind
    case Spots => (match SpotSchema(d, env, uri) case Some(n) => Some(SpotEntity(n)) case None => None)
    case Events => (match EventSchema(d, env, uri) case Some(n) => Some(EventEntity(n)) case None => None)
    case Skaters => (match PersonSchema(d, env, uri) case Some(n) => Some(PersonEntity(n)) case None => None)
    case CityPage => Some(CollectionEntity(CollectionSchema(d, details, env, uri)))
    case ListPage(_) => Some(CollectionEntity(CollectionSchema(d, details, env, uri)))
    case _ => None
  }

  /**
   * `lr_output_json_ld_schema`: nothing without page details or page
   * data; otherwise the breadcrumb list, followed by the entity node when
   * the page type has one and it is not null.
   */
  function JsonLdGraph(details: Option<PageDetails>, data: Option<Data>, locs: LocationTable, env: Env, uri: string): (r: Option<seq<Node>>)
    ensures r.Some? <==> details.Some? && data.Some?
    ensures r.Some? ==> 1 <= |r.value| <= 2 && r.value[0] == BreadcrumbList(Breadcrumbs(details.value, data.value, locs, env))
    ensures r.Some? ==> (|r.value| == 2 <==> EntityNode(details.value, data.value, env, uri).Some?)
  {
    if details.None? || data.None? then None
    else
      var crumbs := BreadcrumbList(Breadcrumbs(details.value, data.value, locs, env));
      match EntityNode(details.value, data.value, env, uri)
      case Some(n) => Some([crumbs, n])
      case None => Some([crumbs])
  }

  /**
   * The entity node describes the page it is printed on, and where the
   * breadcrumb list ends in an unlinked crumb for that entity, the crumb
   * carries the entity's own name.
   */
  lemma EntityMatchesFinalCrumb(details: PageDetails, d: Data, locs: LocationTable, env: Env, uri: string)
    requires EntityNode(details, d, env, uri).Some?
    ensures var n := EntityNode(details, d, env, uri).value;
            (n.SpotEntity? ==> n.spot.url == env.home(uri)) &&
            (n.EventEntity? ==> n.event.url == env.home(uri)) &&
            (n.PersonEntity? ==> n.person.url == env.home(uri)) &&
            (n.CollectionEntity? ==> n.collection.url == env.home(uri))
    ensures var crumbs := Breadcrumbs(details, d, locs, env);
            var n := EntityNode(details, d, env, uri).value;
            (n.EventEntity? ==> crumbs[|crumbs| - 1] == Crumb(|crumbs|, n.event.name, None)) &&
            (n.SpotEntity? && n.spot.name.Some? && !PhpEmpty(n.spot.name.value) ==>
               crumbs[|crumbs| - 1] == Crumb(|crumbs|, n.spot.name.value, None)) &&
            (n.PersonEntity? && Truthy(d.skateName) ==> crumbs[|crumbs| - 1] == Crumb(|crumbs|, n.person.name.value, None))
  {
  }
}

=== FILE: seeding.dfy ===
/**
 * The historical-seeding batch: a cron-driven state machine that seeds
 * the cities of the location table five at a time, guarded by a lock
 * option and remembering its offset in a progress option.
 */
module SeedingBatch {
  import opened Wrappers
  import opened OrderedMap
  import opened Seqs
  import opened Locations

  const BatchSize: nat := 5

  /** `lr_seeding_in_progress` and `lr_seeding_batch_progress` (absent reads as 0). */
  datatype SeedState = SeedState(locked: bool, progress: Option<nat>)

  /**
   * One batch's outcome: the new options, the cities whose seeding finished,
   * in order, whether a next batch is scheduled, and the city whose seeding
   * threw, if one did.
   */
  datatype BatchOutcome = BatchOutcome(state: SeedState, seeded: seq<string>, rescheduled: bool, aborted: Option<string>)

  /** `array_slice($all_cities, $offset, 5, true)`, as slugs. */
  function Slice(slugs: seq<string>, offset: nat): (r: seq<string>)
    ensures offset <= |slugs| ==> r == slugs[offset..if offset + BatchSize <= |slugs| then offset + BatchSize else |slugs|]
    ensures offset >= |slugs| ==> r == []
  {
    if offset >= |slugs| then []
    else if offset + BatchSize <= |slugs| then slugs[offset..offset + BatchSize]
    else slugs[offset..]
  }

  /**
   * `lr_run_historical_seeding_batch` on the flattened city list, where
   * `throws(c)` says whether seeding city `c` throws. A throw ends the
   * request: the lock option stays set and the progress is not advanced.
   */
  function Batch(st: SeedState, slugs: seq<string>, throws: string -> bool): BatchOutcome
  {
    if st.locked then BatchOutcome(st, [], false, None)
    else if |slugs| == 0 then BatchOutcome(SeedState(false, st.progress), [], false, None)
    else
      var offset := st.progress.GetOr(0);
      if offset >= |slugs| then BatchOutcome(SeedState(false, None), [], false, None)
      else
        var batch := Slice(slugs, offset);
        match FirstWhere(batch, throws)
        case Some(t) =>
          BatchOutcome(SeedState(true, st.progress), batch[..t], false, Some(batch[t]))
        case None => BatchOutcome(SeedState(false, Some(offset + |batch|)), batch, true, None)
  }

  /**
   * What one batch does: nothing while locked; otherwise it seeds the slice
   * at the progress offset in order, stopping locked at the first city that
   * throws, and schedules the next batch only when no city threw.
   */
  lemma BatchContract(st: SeedState, slugs: seq<string>, throws: string -> bool) returns (r: BatchOutcome)
    ensures r == Batch(st, slugs, throws)
    ensures st.locked ==> r == BatchOutcome(st, [], false, None)
    ensures r.aborted.None? ==> r.state.locked == st.locked
    ensures r.aborted.Some? ==> (
      !st.locked && r.state == SeedState(true, st.progress) && !r.rescheduled && throws(r.aborted.value) &&
      |r.seeded| < BatchSize && st.progress.GetOr(0) + |r.seeded| < |slugs| &&
      r.seeded + [r.aborted.value] == slugs[st.progress.GetOr(0)..st.progress.GetOr(0) + |r.seeded| + 1] &&
      forall i :: 0 <= i < |r.seeded| ==> !throws(r.seeded[i]))
    ensures r.rescheduled <==> !st.locked && st.progress.GetOr(0) < |slugs| && !Any(Slice(slugs, st.progress.GetOr(0)), throws)
    ensures r.rescheduled ==> (
      r.seeded != [] && |r.seeded| <= BatchSize && st.progress.GetOr(0) + |r.seeded| <= |slugs| &&
      r.seeded == slugs[st.progress.GetOr(0)..st.progress.GetOr(0) + |r.seeded|] &&
      r.state.progress == Some(st.progress.GetOr(0) + |r.seeded|))
    ensures !st.locked && |slugs| > 0 && st.progress.GetOr(0) >= |slugs| ==> r.state == SeedState(false, None)
    ensures !r.rescheduled && r.aborted.None? ==> r.seeded == []
  {
    r := Batch(st, slugs, throws);
    if !st.locked && |slugs| > 0 && st.progress.GetOr(0) < |slugs| {
      var batch := Slice(slugs, st.progress.GetOr(0));
      match FirstWhere(batch, throws)
      case Some(t) =>
        assert batch[..t] + [batch[t]] == batch[..t + 1];
      case None =>
    }
  }

  /** The batch on the location table: its cities flattened in table order. */
  function SeedBatch(st: SeedState, locs: LocationTable, throws: string -> bool): BatchOutcome {
    Batch(st, Keys(AllCities(locs)), throws)
  }

  /** The cities seeded by `n` consecutive batches, and the state they leave. */
  function Iterate(st: SeedState, slugs: seq<string>, n: nat, throws: string -> bool): (seq<string>, SeedState)
    decreases n
  {
    if n == 0 then ([], st)
    else
      var o := Batch(st, slugs, throws);
      var rest := Iterate(o.state, slugs, n - 1, throws);
      (o.seeded + rest.0, rest.1)
  }

  /** A single batch. */
  lemma IterateOnce(st: SeedState, slugs: seq<string>, throws: string -> bool)
    ensures Iterate(st, slugs, 1, throws) == (Batch(st, slugs, throws).seeded, Batch(st, slugs, throws).state)
  {
    assert Batch(st, slugs, throws).seeded + [] == Batch(st, slugs, throws).seeded;
  }

  /** The number of batches needed to seed the cities from `offset` on: one per started block of five. */
  function BatchesFrom(total: nat, offset: nat): (n: nat)
    ensures offset < total ==> n > 0
    decreases total - offset
  {
    if offset >= total then 0 else 1 + BatchesFrom(total, offset + BatchSize)
  }

  /** Where the batch that holds city `f` starts, for batches starting at `offset`. */
  function BatchStart(offset: nat, f: nat): (r: nat)
    requires offset <= f
    ensures offset <= r <= f < r + BatchSize
    decreases f - offset
  {
    if f < offset + BatchSize then offset else BatchStart(offset + BatchSize, f)
  }

  /** Seeding the cities from `offset` on throws nowhere. */
  predicate NoThrowFrom(slugs: seq<string>, offset: nat, throws: string -> bool) {
    forall i :: offset <= i < |slugs| ==> !throws(slugs[i])
  }

  /** Once a batch has thrown, the lock stays set and every later batch does nothing. */
  lemma {:induction false} LockedIterateIdle(st: SeedState, slugs: seq<string>, n: nat, throws: string -> bool)
    requires st.locked
    ensures Iterate(st, slugs, n, throws) == ([], st)
    decreases n
  {
    if n > 0 {
      LockedIterateIdle(st, slugs, n - 1, throws);
      var none: seq<string> := [];
      assert none + none == none;
    }
  }

  /** A batch none of whose cities throws seeds them all and moves the progress past them. */
  lemma BatchCompletes(slugs: seq<string>, offset: nat, throws: string -> bool)
    requires offset < |slugs| && forall i :: offset <= i < offset + |Slice(slugs, offset)| ==> !throws(slugs[i])
    ensures Batch(SeedState(false, Some(offset)), slugs, throws) ==
      BatchOutcome(SeedState(false, Some(offset + |Slice(slugs, offset)|)), Slice(slugs, offset), true, None)
  {
    var batch := Slice(slugs, offset);
    forall i | 0 <= i < |batch|
      ensures !throws(batch[i])
    {
      assert batch[i] == slugs[offset + i];
    }
  }

  /** A batch holding the first throwing city `f` seeds the cities before it and stops locked. */
  lemma BatchAbortsAt(slugs: seq<string>, offset: nat, throws: string -> bool, f: nat)
    requires offset <= f < offset + |Slice(slugs, offset)| && f < |slugs| && throws(slugs[f])
    requires forall i :: offset <= i < f ==> !throws(slugs[i])
    ensures Batch(SeedState(false, Some(offset)), slugs, throws) ==
      BatchOutcome(SeedState(true, Some(offset)), slugs[offset..f], false, Some(slugs[f]))
  {
    var batch := Slice(slugs, offset);
    assert batch[f - offset] == slugs[f];
    assert IsFirst(batch, throws, f - offset) by {
      forall j | 0 <= j < f - offset
        ensures !throws(batch[j])
      {
        assert batch[j] == slugs[offset + j];
      }
    }
    var t := FirstWhere(batch, throws);
    IsFirstUnique(batch, throws, t.value, f - offset);
    assert batch[..f - offset] == slugs[offset..f];
  }

  /** A full batch none of whose cities throws is followed by the batches from where it stopped. */
  lemma FullBatchStep(slugs: seq<string>, offset: nat, throws: string -> bool)
    requires offset + BatchSize <= |slugs| && forall i :: offset <= i < offset + BatchSize ==> !throws(slugs[i])
    ensures var rest := Iterate(SeedState(false, Some(offset + BatchSize)), slugs, BatchesFrom(|slugs|, offset + BatchSize), throws);
      Iterate(SeedState(false, Some(offset)), slugs, BatchesFrom(|slugs|, offset), throws) == (slugs[offset..offset + BatchSize] + rest.0, rest.1)
  {
    var st := SeedState(false, Some(offset));
    assert Batch(st, slugs, throws) == BatchOutcome(SeedState(false, Some(offset + BatchSize)), slugs[offset..offset + BatchSize], true, None) by {
      assert Slice(slugs, offset) == slugs[offset..offset + BatchSize];
      BatchCompletes(slugs, offset, throws);
    }
    assert BatchesFrom(|slugs|, offset) == BatchesFrom(|slugs|, offset + BatchSize) + 1;
  }

  /** A batch holding the first throwing city `f` is the last one that does anything. */
  lemma AbortedBatchStops(slugs: seq<string>, offset: nat, throws: string -> bool, f: nat)
    requires offset <= f < offset + |Slice(slugs, offset)| && f < |slugs| && throws(slugs[f])
    requires forall i :: offset <= i < f ==> !throws(slugs[i])
    ensures Iterate(SeedState(false, Some(offset)), slugs, BatchesFrom(|slugs|, offset), throws) ==
      (slugs[offset..f], SeedState(true, Some(offset)))
  {
    BatchAbortsAt(slugs, offset, throws, f);
    var o := Batch(SeedState(false, Some(offset)), slugs, throws);
    LockedIterateIdle(o.state, slugs, BatchesFrom(|slugs|, offset) - 1, throws);
    assert slugs[offset..f] + [] == slugs[offset..f];
  }

  /**
   * Starting unlocked at any offset, when no remaining city throws, the
   * batches seed every remaining city exactly once and in table order, and
   * leave the progress at the end.
   */
  lemma {:induction false} IterateSeedsAll(slugs: seq<string>, offset: nat, throws: string -> bool)
    requires |slugs| > 0 && offset < |slugs| && NoThrowFrom(slugs, offset, throws)
    ensures Iterate(SeedState(false, Some(offset)), slugs, BatchesFrom(|slugs|, offset), throws) ==
      (slugs[offset..], SeedState(false, Some(|slugs|)))
    decreases |slugs| - offset
  {
    if offset + BatchSize < |slugs| {
      assert NoThrowFrom(slugs, offset + BatchSize, throws);
      IterateSeedsAll(slugs, offset + BatchSize, throws);
      SeededStep(slugs, offset, throws);
    } else {
      LastBatchSeeds(slugs, offset, throws);
    }
  }

  /** The last batch seeds the cities left and moves the progress to the end. */
  lemma LastBatchSeeds(slugs: seq<string>, offset: nat, throws: string -> bool)
    requires offset < |slugs| <= offset + BatchSize && NoThrowFrom(slugs, offset, throws)
    ensures Iterate(SeedState(false, Some(offset)), slugs, BatchesFrom(|slugs|, offset), throws) ==
      (slugs[offset..], SeedState(false, Some(|slugs|)))
  {
    var st := SeedState(false, Some(offset));
    LastBatchCount(|slugs|, offset);
    LastBatchOutcome(slugs, offset, throws);
    IterateOnce(st, slugs, throws);
  }

  /** One batch remains when fewer than a full batch of cities is left. */
  lemma LastBatchCount(total: nat, offset: nat)
    requires offset < total <= offset + BatchSize
    ensures BatchesFrom(total, offset) == 1
  {
    assert BatchesFrom(total, offset + BatchSize) == 0;
  }

  /** The last batch, when none of its cities throws. */
  lemma LastBatchOutcome(slugs: seq<string>, offset: nat, throws: string -> bool)
    requires offset < |slugs| <= offset + BatchSize && NoThrowFrom(slugs, offset, throws)
    ensures Batch(SeedState(false, Some(offset)), slugs, throws) == BatchOutcome(SeedState(false, Some(|slugs|)), slugs[offset..], true, None)
  {
    assert Slice(slugs, offset) == slugs[offset..];
    assert forall i :: offset <= i < offset + |Slice(slugs, offset)| ==> !throws(slugs[i]);
    BatchCompletes(slugs, offset, throws);
  }

  /** The step of `IterateSeedsAll` when more cities follow the first batch. */
  lemma SeededStep(slugs: seq<string>, offset: nat, throws: string -> bool)
    requires offset + BatchSize < |slugs| && NoThrowFrom(slugs, offset, throws)
    requires Iterate(SeedState(false, Some(offset + BatchSize)), slugs, BatchesFrom(|slugs|, offset + BatchSize), throws) ==
      (slugs[offset + BatchSize..], SeedState(false, Some(|slugs|)))
    ensures Iterate(SeedState(false, Some(offset)), slugs, BatchesFrom(|slugs|, offset), throws) ==
      (slugs[offset..], SeedState(false, Some(|slugs|)))
  {
    var next := offset + BatchSize;
    assert forall i :: offset <= i < next ==> !throws(slugs[i]);
    FullBatchStep(slugs, offset, throws);
    SliceSplit(slugs, offset, next, |slugs|);
    assert slugs[offset..] == slugs[offset..|slugs|] && slugs[next..] == slugs[next..|slugs|];
  }

  /** When the first batch throws nowhere, an absent progress and a progress of 0 run alike. */
  lemma FreshStartIsZero(slugs: seq<string>, throws: string -> bool)
    requires |slugs| > 0 && forall i :: 0 <= i < |Slice(slugs, 0)| ==> !throws(slugs[i])
    ensures Iterate(SeedState(false, None), slugs, BatchesFrom(|slugs|, 0), throws) ==
      Iterate(SeedState(false, Some(0)), slugs, BatchesFrom(|slugs|, 0), throws)
  {
    assert forall i :: 0 <= i < 0 + |Slice(slugs, 0)| ==> !throws(slugs[i]);
    BatchCompletes(slugs, 0, throws);
    assert Batch(SeedState(false, None), slugs, throws) == Batch(SeedState(false, Some(0)), slugs, throws);
  }

  /**
   * Starting unlocked at any offset, when city `f` is the first remaining
   * one whose seeding throws, the batches seed the cities before it, then
   * stop with the lock set and the progress at the start of the batch that
   * threw.
   */
  lemma {:induction false} IterateStopsAtThrow(slugs: seq<string>, offset: nat, throws: string -> bool, f: nat)
    requires offset <= f < |slugs| && throws(slugs[f])
    requires forall i :: offset <= i < f ==> !throws(slugs[i])
    ensures Iterate(SeedState(false, Some(offset)), slugs, BatchesFrom(|slugs|, offset), throws) ==
      (slugs[offset..f], SeedState(true, Some(BatchStart(offset, f))))
    decreases |slugs| - offset
  {
    if f < offset + |Slice(slugs, offset)| {
      AbortedBatchStops(slugs, offset, throws, f);
    } else {
      IterateStopsAtThrow(slugs, offset + BatchSize, throws, f);
      ThrowLaterStep(slugs, offset, throws, f);
    }
  }

  /** The step of `IterateStopsAtThrow` when city `f` lies beyond the first batch. */
  lemma ThrowLaterStep(slugs: seq<string>, offset: nat, throws: string -> bool, f: nat)
    requires offset + BatchSize <= f < |slugs|
    requires forall i :: offset <= i < f ==> !throws(slugs[i])
    requires Iterate(SeedState(false, Some(offset + BatchSize)), slugs, BatchesFrom(|slugs|, offset + BatchSize), throws) ==
      (slugs[offset + BatchSize..f], SeedState(true, Some(BatchStart(offset + BatchSize, f))))
    ensures Iterate(SeedState(false, Some(offset)), slugs, BatchesFrom(|slugs|, offset), throws) ==
      (slugs[offset..f], SeedState(true, Some(BatchStart(offset, f))))
  {
    var next := offset + BatchSize;
    assert forall i :: offset <= i < next ==> !throws(slugs[i]);
    FullBatchStep(slugs, offset, throws);
    assert BatchStart(offset, f) == BatchStart(next, f);
    SliceSplit(slugs, offset, next, f);
  }

  /**
   * From a fresh start with no city throwing, the whole table is seeded
   * once, and one more batch clears the progress.
   */
  lemma FreshRunSeedsAll(slugs: seq<string>, throws: string -> bool)
    requires |slugs| > 0 && NoThrowFrom(slugs, 0, throws)
    ensures Iterate(SeedState(false, None), slugs, BatchesFrom(|slugs|, 0), throws) == (slugs, SeedState(false, Some(|slugs|)))
    ensures Batch(SeedState(false, Some(|slugs|)), slugs, throws) == BatchOutcome(SeedState(false, None), [], false, None)
  {
    FreshStartIsZero(slugs, throws);
    IterateSeedsAll(slugs, 0, throws);
    assert slugs[0..] == slugs;
  }

  /**
   * From a fresh start, when city `f` is the first whose seeding throws,
   * the cities before it are seeded and the batches stop locked, with the
   * progress (read as 0 when absent) at the start of the batch that threw.
   * It is absent when the very first batch throws.
   */
  lemma FreshRunStopsAtThrow(slugs: seq<string>, throws: string -> bool, f: nat)
    requires f < |slugs| && throws(slugs[f]) && forall i :: 0 <= i < f ==> !throws(slugs[i])
    ensures var (seeded, st) := Iterate(SeedState(false, None), slugs, BatchesFrom(|slugs|, 0), throws);
      seeded == slugs[..f] && st.locked && st.progress.GetOr(0) == BatchStart(0, f)
  {
    if f < |Slice(slugs, 0)| {
      FreshFirstBatchThrows(slugs, throws, f);
    } else {
      FreshStartIsZero(slugs, throws);
      IterateStopsAtThrow(slugs, 0, throws, f);
      assert slugs[0..f] == slugs[..f];
    }
  }

  /** From a fresh start, a throw in the first batch leaves the progress absent. */
  lemma FreshFirstBatchThrows(slugs: seq<string>, throws: string -> bool, f: nat)
    requires f < |Slice(slugs, 0)| && f < |slugs| && throws(slugs[f]) && forall i :: 0 <= i < f ==> !throws(slugs[i])
    ensures Iterate(SeedState(false, None), slugs, BatchesFrom(|slugs|, 0), throws) == (slugs[..f], SeedState(true, None))
  {
    var o := Batch(SeedState(false, None), slugs, throws);
    assert o.state == SeedState(true, None) && o.seeded == slugs[..f] by {
      BatchAbortsAt(slugs, 0, throws, f);
      assert slugs[0..f] == slugs[..f];
    }
    LockedIterateIdle(o.state, slugs, BatchesFrom(|slugs|, 0) - 1, throws);
    assert o.seeded + [] == slugs[..f];
  }
}

=== FILE: seo_metadata.dfy ===
/**
 * The SEO layer: canonical URL, document title and its filter,
 * description, image, and the description, canonical and social tags it
 * injects. Its page details come from a recogniser that also reports
 * explore, country, city, list and update pages; they are an input here.
 */
module SeoMetadata {
  import opened Wrappers
  import opened Strings
  import opened Seqs
  import opened PageData
  import OpenGraph

  /** The part of a URI before its first '?' or '#'. */
  function PathPart(uri: string): (r: string)
    ensures |r| <= |uri| && r == uri[..|r|]
    ensures forall i :: 0 <= i < |r| ==> r[i] != '?' && r[i] != '#'
    ensures |r| < |uri| ==> uri[|r|] == '?' || uri[|r|] == '#'
  {
    if uri == [] || uri[0] == '?' || uri[0] == '#' then ""
    else
      var t := PathPart(uri[1..]);
      assert uri[..|t| + 1] == [uri[0]] + uri[1..][..|t|];
      [uri[0]] + t
  }

  /** A URI that starts with '//' names a host before its path. */
  predicate NetworkPath(uri: string) {
    |uri| >= 2 && uri[0] == '/' && uri[1] == '/'
  }

  /** The authority after a leading '//': everything up to the first '/', '?' or '#'. */
  function Authority(s: string): (h: string)
    ensures |h| <= |s| && h == s[..|h|]
    ensures forall i :: 0 <= i < |h| ==> h[i] != '/' && h[i] != '?' && h[i] != '#'
    ensures |h| < |s| ==> s[|h|] == '/' || s[|h|] == '?' || s[|h|] == '#'
  {
    if s == [] || s[0] == '/' || s[0] == '?' || s[0] == '#' then ""
    else
      var t := Authority(s[1..]);
      assert s[..|t| + 1] == [s[0]] + s[1..][..|t|];
      [s[0]] + t
  }

  /**
   * `parse_url($uri, PHP_URL_PATH)` for a request URI: after a leading
   * '//' the authority is skipped; the path ends at the first '?' or '#'.
   */
  function UriPath(uri: string): (r: string)
    ensures forall i :: 0 <= i < |r| ==> r[i] != '?' && r[i] != '#'
    ensures !NetworkPath(uri) ==> r == PathPart(uri)
    ensures NetworkPath(uri) ==> r == PathPart(uri[2 + |Authority(uri[2..])|..])
  {
    if NetworkPath(uri) then PathPart(uri[2 + |Authority(uri[2..])|..]) else PathPart(uri)
  }

  /** A host after '//' is not part of the path: `//<host>/<rest>` has the path `/<rest>`. */
  lemma NetworkPathSkipsHost(host: string, path: string)
    requires forall i :: 0 <= i < |host| ==> host[i] != '/' && host[i] != '?' && host[i] != '#'
    requires forall i :: 0 <= i < |path| ==> path[i] != '?' && path[i] != '#'
    requires path == [] || path[0] == '/'
    ensures UriPath("//" + host + path) == path
  {
    var u := "//" + host + path;
    assert u[2..] == host + path;
    AuthorityOf(host, path);
    assert u[2 + |host|..] == path;
    PathPartClean(path, "");
    assert path + "" == path;
  }

  lemma {:induction false} AuthorityOf(host: string, path: string)
    requires forall i :: 0 <= i < |host| ==> host[i] != '/' && host[i] != '?' && host[i] != '#'
    requires path == [] || path[0] == '/'
    ensures Authority(host + path) == host
    decreases |host|
  {
    if host == [] {
      assert host + path == path;
    } else {
      AuthorityOf(host[1..], path);
      assert (host + path)[1..] == host[1..] + path;
      assert host == [host[0]] + host[1..];
    }
  }

  /** The request `//united-states/` has the path '/': `parse_url` reads 'united-states' as a host. */
  lemma UnitedStatesNetworkPath()
    ensures UriPath("//united-states/") == "/"
  {
    NetworkPathSkipsHost("united-states", "/");
    assert "//" + "united-states" + "/" == "//united-states/";
  }

  /** `lr_get_canonical_url`: scheme, host and path, trailing slashes trimmed, then one slash. */
  function Canonical(ssl: bool, host: Option<string>, uri: string): string {
    Untrail((if ssl then "https://" else "http://") + host.GetOr("") + UriPath(uri)) + "/"
  }

  /**
   * The canonical URL ends in exactly one slash, whatever the path had,
   * and carries no query string or fragment unless the host does.
   */
  lemma CanonicalShape(ssl: bool, host: Option<string>, uri: string)
    ensures var r := Canonical(ssl, host, uri);
      |r| >= 2 && r[|r| - 1] == '/' && !IsSlash(r[|r| - 2])
    ensures (forall i :: 0 <= i < |host.GetOr("")| ==> host.GetOr("")[i] != '?' && host.GetOr("")[i] != '#') ==>
      (forall i :: 0 <= i < |Canonical(ssl, host, uri)| ==> Canonical(ssl, host, uri)[i] != '?' && Canonical(ssl, host, uri)[i] != '#')
  {
    var scheme := if ssl then "https://" else "http://";
    var h := host.GetOr("");
    var p := UriPath(uri);
    var s := scheme + h + p;
    var u := Untrail(s);
    assert s[0] == 'h';
    assert |u| > 0;
    if forall i :: 0 <= i < |h| ==> h[i] != '?' && h[i] != '#' {
      assert forall i :: 0 <= i < |scheme| ==> scheme[i] != '?' && scheme[i] != '#';
      CleanConcat(scheme, h);
      CleanConcat(scheme + h, p);
      CleanConcat(u, "/");
    }
  }

  /** Two strings free of '?' and '#' concatenate to one. */
  lemma CleanConcat(a: string, b: string)
    requires forall i :: 0 <= i < |a| ==> a[i] != '?' && a[i] != '#'
    requires forall i :: 0 <= i < |b| ==> b[i] != '?' && b[i] != '#'
    ensures forall i :: 0 <= i < |a + b| ==> (a + b)[i] != '?' && (a + b)[i] != '#'
  {
    forall i | 0 <= i < |a + b|
      ensures (a + b)[i] != '?' && (a + b)[i] != '#'
    {
      if i >= |a| {
        assert (a + b)[i] == b[i - |a|];
      }
    }
  }

  /** A query string or fragment after the path does not change the canonical URL. */
  lemma CanonicalIgnoresQuery(ssl: bool, host: Option<string>, path: string, sep: char, query: string)
    requires forall i :: 0 <= i < |path| ==> path[i] != '?' && path[i] != '#'
    requires sep == '?' || sep == '#'
    ensures Canonical(ssl, host, path + [sep] + query) == Canonical(ssl, host, path)
  {
    UriPathPrefix(path, [sep] + query);
    assert path + [sep] + query == path + ([sep] + query);
    UriPathPrefix(path, "");
    assert path + "" == path;
  }

  /** Trailing slashes on the path do not change the canonical URL. */
  lemma CanonicalIgnoresTrailingSlash(ssl: bool, host: Option<string>, path: string)
    requires forall i :: 0 <= i < |path| ==> path[i] != '?' && path[i] != '#'
    ensures Canonical(ssl, host, path + "/") == Canonical(ssl, host, path)
  {
    var x := (if ssl then "https://" else "http://") + host.GetOr("");
    var p := UriPath(path);
    UriPathSlash(path);
    if UriPath(path + "/") == p + "/" {
      assert x + (p + "/") == (x + p) + "/";
      UntrailSnoc(x + p);
    } else {
      assert x + "/" == x + p;
      assert x + "" == x;
      UntrailSnoc(x);
    }
  }

  /** A slash at the end of a string is trimmed with the others. */
  lemma UntrailSnoc(s: string)
    ensures Untrail(s + "/") == Untrail(s)
  {
    assert (s + "/")[..|s|] == s;
  }

  /**
   * A slash after a clean URI ends up at the end of its path, except that
   * '/' followed by a slash reads as an empty authority with no path.
   */
  lemma UriPathSlash(path: string)
    requires forall i :: 0 <= i < |path| ==> path[i] != '?' && path[i] != '#'
    ensures UriPath(path + "/") == UriPath(path) + "/" || (path == "/" && UriPath(path + "/") == "")
  {
    var u := path + "/";
    if NetworkPath(path) {
      NetworkSlash(path);
    } else if NetworkPath(u) {
      assert path == "/";
      assert u[2..] == "";
    } else {
      CleanConcat(path, "/");
      UriPathPrefix(path, "");
      UriPathPrefix(u, "");
      assert path + "" == path && u + "" == u;
    }
  }

  /** After a host, a final slash ends up at the end of the path. */
  lemma NetworkSlash(path: string)
    requires forall i :: 0 <= i < |path| ==> path[i] != '?' && path[i] != '#'
    requires NetworkPath(path)
    ensures UriPath(path + "/") == UriPath(path) + "/"
  {
    var rest := NetworkRest(path, "/");
    CleanConcat(rest, "/");
    PathPartClean(rest, "");
    PathPartClean(rest + "/", "");
    assert rest + "" == rest && rest + "/" + "" == rest + "/";
  }

  /** The part before a query or fragment that follows a clean string is that string. */
  lemma {:induction false} PathPartClean(path: string, tail: string)
    requires forall i :: 0 <= i < |path| ==> path[i] != '?' && path[i] != '#'
    requires tail == [] || tail[0] == '?' || tail[0] == '#'
    ensures PathPart(path + tail) == path
    decreases |path|
  {
    if path == [] {
      assert path + tail == tail;
    } else {
      PathPartClean(path[1..], tail);
      assert (path + tail)[1..] == path[1..] + tail;
      assert path == [path[0]] + path[1..];
    }
  }

  /**
   * A query or fragment after a clean URI does not change its path, and
   * the path of a clean URI without a leading '//' is the URI itself.
   */
  lemma UriPathPrefix(path: string, tail: string)
    requires forall i :: 0 <= i < |path| ==> path[i] != '?' && path[i] != '#'
    requires tail == [] || tail[0] == '?' || tail[0] == '#'
    ensures UriPath(path + tail) == UriPath(path)
    ensures !NetworkPath(path) ==> UriPath(path) == path
  {
    var u := path + tail;
    if NetworkPath(path) {
      NetworkTail(path, tail);
    } else {
      assert !NetworkPath(u) by {
        if |path| < 2 && |u| >= 2 {
          assert u[|path|] == tail[0];
        }
      }
      PathPartClean(path, tail);
      PathPartClean(path, "");
      assert path + "" == path;
    }
  }

  /** After a host, a query or fragment does not change the path. */
  lemma NetworkTail(path: string, tail: string)
    requires forall i :: 0 <= i < |path| ==> path[i] != '?' && path[i] != '#'
    requires tail == [] || tail[0] == '?' || tail[0] == '#'
    requires NetworkPath(path)
    ensures UriPath(path + tail) == UriPath(path)
  {
    var rest := NetworkRest(path, tail);
    PathPartClean(rest, tail);
    PathPartClean(rest, "");
    assert rest + "" == rest;
  }

  /**
   * The path after a leading '//' and its authority, when a query, fragment
   * or slash follows a clean URI: the same rest, with the tail after it.
   */
  lemma NetworkRest(path: string, tail: string) returns (rest: string)
    requires forall i :: 0 <= i < |path| ==> path[i] != '?' && path[i] != '#'
    requires tail == [] || tail[0] == '/' || tail[0] == '?' || tail[0] == '#'
    requires NetworkPath(path)
    ensures forall i :: 0 <= i < |rest| ==> rest[i] != '?' && rest[i] != '#'
    ensures UriPath(path) == PathPart(rest)
    ensures UriPath(path + tail) == PathPart(rest + tail)
  {
    var t := path[2..];
    AuthorityClean(t, tail);
    var k := 2 + |Authority(t)|;
    rest := path[k..];
    assert (path + tail)[2..] == t + tail;
    assert (path + tail)[k..] == rest + tail;
  }

  /** What follows the authority's terminator does not change the authority. */
  lemma {:induction false} AuthorityClean(s: string, tail: string)
    requires tail == [] || tail[0] == '/' || tail[0] == '?' || tail[0] == '#'
    ensures Authority(s + tail) == Authority(s)
    decreases |s|
  {
    if s == [] {
      assert s + tail == tail;
    } else {
      AuthorityClean(s[1..], tail);
      assert (s + tail)[1..] == s[1..] + tail;
    }
  }

  /** `lr_get_seo_title`; the single-entity cases are the Open Graph ones. */
  function SeoTitle(details: Option<PageDetails>, d: Data): (r: string)
    ensures details.None? || details.value.kind.OtherType? ==> r == ""
    ensures details.Some? && OpenGraph.IsSingle(details.value.kind) ==> r == OpenGraph.OgTitle(details, d)
  {
    if details.None? then ""
    else match details.value.kind
      case Explore => ("Explore Skate Spots Worldwide " + "| Let's Roll")
      case CountryPage => "Roller Skating in " + d.name.GetOr("Unknown Country") + " | Let's Roll"
      case CityPage => "Roller Skating in " + d.name.GetOr("Unknown City") + " - Spots, Events & Skaters"
      case ListPage(listType) => ListName(listType) + " in " + d.name.GetOr("Unknown City") + " | Let's Roll"
      case UpdateList => "Skate Updates for " + d.name.GetOr("Unknown City") + " | Let's Roll"
      case UpdatePost => d.postTitle.GetOr("City Update") + " | Let's Roll"
      case OtherType(_) => ""
      case _ => OpenGraph.OgTitle(details, d)
  }

  /** Every known page type gets a title that PHP reads as true. */
  lemma SeoTitleKnown(details: Option<PageDetails>, d: Data)
    ensures details.Some? && !details.value.kind.OtherType? ==> |SeoTitle(details, d)| >= 2
  {
  }

  /** List titles name the list: 'Skate Spots' for skatespots, the capitalised type otherwise. */
  lemma ListTitle(details: Option<PageDetails>, d: Data, listType: string)
    requires details.Some? && details.value.kind == ListPage(listType)
    ensures listType == "skatespots" ==> StartsWith(SeoTitle(details, d), "Skate Spots in ")
    ensures listType != "skatespots" ==> StartsWith(SeoTitle(details, d), Ucfirst(listType) + " in ")
  {
    var name := d.name.GetOr("Unknown City");
    var prefix := ListName(listType) + " in ";
    assert SeoTitle(details, d) == prefix + (name + " | Let's Roll");
  }

  /**
   * `lr_filter_document_title`: the generated title when there is page
   * data and it is not empty, else the title WordPress passed in.
   */
  function FilterTitle(title: string, data: Option<Data>, details: Option<PageDetails>): (r: string)
    ensures data.None? || details.None? ==> r == title
    ensures data.Some? && details.Some? && details.value.kind.OtherType? ==> r == title
    ensures data.Some? && details.Some? && !details.value.kind.OtherType? ==> r == SeoTitle(details, data.value)
  {
    if data.Some? then
      SeoTitleKnown(details, data.value);
      var generated := SeoTitle(details, data.value);
      if !PhpEmpty(generated) then generated else title
    else title
  }

  function ExploreText(): string {
    ("Discover the best roller skating " + "spots, events, and a global " + "community of skaters. Join Let's " + "Roll and explore the world on " + "eight wheels.")
  }

  function CountryText(name: string): string {
    ("Find the best places to skate, " + "upcoming events, and local skating " + "communities across ") + name + "."
  }

  function CityText(name: string): string {
    ("Explore the roller skating scene " + "in ") + name + (". Find top skate spots, join " + "local events, and connect with " + "skaters.")
  }

  /** The list type as the description words it: 'skate spots' for skatespots, else the type as it is. */
  function ListLabel(listType: string): string {
    if listType == "skatespots" then "skate spots" else listType
  }

  function ListText(listName: string, name: string): string {
    "Check out the full list of " + listName + " in " + name + (" and see what's happening in " + "the local community.")
  }

  function UpdatesText(name: string): string {
    ("Stay up to date with the latest " + "skate spots, events, and community " + "news in ") + name + "."
  }

  /** The descriptions of the explore, country, city, list and update pages. */
  function ListingDescription(kind: PageType, d: Data, env: Env): string {
    match kind
    case Explore => ExploreText()
    case CountryPage => CountryText(d.name.GetOr("the country"))
    case CityPage =>
      if Truthy(d.description) then env.trimWords(d.description.value, 25) else CityText(d.name.GetOr("this city"))
    case ListPage(listType) => ListText(ListLabel(listType), d.name.GetOr("this city"))
    case UpdateList => UpdatesText(d.name.GetOr("this city"))
    case UpdatePost => env.trimWords(d.postSummary.GetOr(""), 25)
    case _ => ""
  }

  /** `lr_get_seo_description`; the single-entity cases are the Open Graph ones. */
  function SeoDescription(details: Option<PageDetails>, d: Data, env: Env): (r: string)
    ensures details.None? || details.value.kind.OtherType? ==> r == ""
    ensures details.Some? && OpenGraph.IsSingle(details.value.kind) ==> r == OpenGraph.OgDescription(details, d, env)
  {
    if details.None? then ""
    else if OpenGraph.IsSingle(details.value.kind) then OpenGraph.OgDescription(details, d, env)
    else ListingDescription(details.value.kind, d, env)
  }

  /** Pages that have no image of their own. */
  predicate UsesIcon(kind: PageType) {
    kind.Explore? || kind.CountryPage? || kind.CityPage? || kind.ListPage? || kind.UpdateList?
  }

  /**
   * `lr_get_og_image_url` as seo-metadata.php defines it: the plugin icon
   * for the listing pages, the featured image (made absolute when it has
   * no 'http') for update posts, the Open Graph image otherwise.
   */
  function SeoImage(details: Option<PageDetails>, d: Data, env: Env): (r: string)
    ensures details.None? || details.value.kind.OtherType? ==> r == ""
    ensures details.Some? && UsesIcon(details.value.kind) ==> r == env.icon
    ensures details.Some? && details.value.kind == UpdatePost ==>
      (!Truthy(d.featuredImage) ==> r == env.icon) &&
      (Truthy(d.featuredImage) && !Contains(d.featuredImage.value, "http") ==> r == env.home(d.featuredImage.value)) &&
      (Truthy(d.featuredImage) && Contains(d.featuredImage.value, "http") ==> r == d.featuredImage.value)
    ensures details.Some? && OpenGraph.IsSingle(details.value.kind) ==> r == OpenGraph.OgImage(details, d, env)
  {
    if details.None? then ""
    else match details.value.kind
      case UpdatePost =>
        if Truthy(d.featuredImage) then
          (if Contains(d.featuredImage.value, "http") then d.featuredImage.value else env.home(d.featuredImage.value))
        else env.icon
      case OtherType(_) => ""
      case _ => if UsesIcon(details.value.kind) then env.icon else OpenGraph.OgImage(details, d, env)
  }

  /**
   * The tags `lr_generate_seo_meta_tags_html` writes, in order: the
   * description meta tag and the canonical link when they are set, then
   * the social tags.
   */
  datatype SeoBlock = SeoBlock(description: Option<string>, canonical: Option<string>, social: seq<MetaTag>)

  function BlockPairs(description: string, canonical: string, title: string, image: string, kind: string): seq<(string, string)> {
    [("og:title", title), ("og:description", description), ("og:image", image),
     ("og:type", kind), ("og:url", canonical), ("twitter:card", "summary_large_image")]
  }

  /** The block for a description, a canonical URL and the remaining social contents. */
  function HeadBlock(description: string, canonical: string, title: string, image: string, kind: string): SeoBlock {
    SeoBlock(
      if !PhpEmpty(description) then Some(description) else None,
      if !PhpEmpty(canonical) then Some(canonical) else None,
      SocialTags(BlockPairs(description, canonical, title, image, kind)))
  }

  /**
   * The description tag is written exactly when the description is not
   * empty, and then og:description repeats it; og:url repeats the
   * canonical URL whenever the canonical link is written.
   */
  lemma HeadBlockSpec(description: string, canonical: string, title: string, image: string, kind: string)
    ensures var b := HeadBlock(description, canonical, title, image, kind);
      (b.description.Some? <==> !PhpEmpty(description)) &&
      (b.description.Some? ==> MetaTag("property", "og:description", description) in b.social) &&
      (b.canonical.Some? <==> !PhpEmpty(canonical)) &&
      (b.canonical.Some? ==> MetaTag("property", "og:url", canonical) in b.social)
  {
    var pairs := BlockPairs(description, canonical, title, image, kind);
    assert pairs[1] in pairs && pairs[4] in pairs;
    PropertyTag("og:url", canonical);
    PropertyTag("og:description", description);
  }

  /** `lr_generate_seo_meta_tags_html`: description, canonical link, then the social tags with the SEO values. */
  function SeoTags(details: Option<PageDetails>, d: Data, env: Env, ssl: bool, host: Option<string>, uri: string): SeoBlock {
    HeadBlock(SeoDescription(details, d, env), Canonical(ssl, host, uri), SeoTitle(details, d),
      SeoImage(details, d, env), OpenGraph.OgType(details))
  }

  /** The canonical link and og:url are always written, with the canonical URL. */
  lemma SeoTagsSpec(details: Option<PageDetails>, d: Data, env: Env, ssl: bool, host: Option<string>, uri: string)
    ensures var b := SeoTags(details, d, env, ssl, host, uri);
      var description := SeoDescription(details, d, env);
      var canonical := Canonical(ssl, host, uri);
      (b.description.Some? <==> !PhpEmpty(description)) &&
      b.canonical == Some(canonical) &&
      MetaTag("property", "og:url", canonical) in b.social
  {
    CanonicalShape(ssl, host, uri);
    HeadBlockSpec(SeoDescription(details, d, env), Canonical(ssl, host, uri), SeoTitle(details, d),
      SeoImage(details, d, env), OpenGraph.OgType(details));
  }

  /** og:* properties use the `property` attribute. */
  lemma PropertyTag(property: string, content: string)
    requires |property| > 0 && property[0] == 'o'
    ensures ToTag((property, content)) == MetaTag("property", property, content)
  {
    assert property[0] != "twitter"[0];
  }

  /** The comment-wrapped block. */
  function SeoTagsHtml(details: Option<PageDetails>, d: Data, env: Env, ssl: bool, host: Option<string>, uri: string): string {
    var b := SeoTags(details, d, env, ssl, host, uri);
    ("<!-- Let's Roll SEO & Social " + "Tags -->\n") +
    (if b.description.Some? then "<meta name=\"description\" content=\"" + env.escAttr(b.description.value) + "\">\n" else "") +
    (if b.canonical.Some? then "<link rel=\"canonical\" href=\"" + env.escUrl(b.canonical.value) + "\">\n" else "") +
    RenderTags(b.social, env) + ("<!-- End Let's Roll SEO Tags " + "-->\n")
  }

  /**
   * `lr_process_final_html_for_seo`: without page data the buffer is
   * returned as it is; otherwise, after `strip` (the three removal
   * regexes), the block is injected after every `<head>`.
   */
  function ProcessBuffer(buffer: string, details: Option<PageDetails>, data: Option<Data>, env: Env,
                         ssl: bool, host: Option<string>, uri: string, strip: string -> string): (r: string)
    ensures data.None? ==> r == buffer
  {
    match data
    case None => buffer
    case Some(d) => InjectAfterHead(strip(buffer), SeoTagsHtml(details, d, env, ssl, host, uri))
  }
}

=== FILE: seo_pages.dfy ===
/**
 * The plugin's entry file: the API token cache, the three rewrite rules
 * that turn `country/city/type` paths into query variables, and the
 * controller that swaps in the generated content and title.
 */
module SeoPages {
  import opened Wrappers
  import opened Strings
  import opened Locations

  /** What the sign-in request returned: a transport or status failure, or a body with `tokens->access` when present. */
  datatype AuthReply = AuthFailed | AuthOk(access: Option<string>)

  /** The token (or error code) and the transient cache after the call. */
  datatype TokenOutcome = TokenOutcome(token: Result<string, string>, cache: Option<string>)

  /**
   * `lr_get_api_access_token`: a cached token that is true in PHP is
   * returned as it is; otherwise missing credentials give `no_creds`
   * before any request, a failed sign-in gives `auth_failed`, and a reply
   * without a token gives `token_missing`. A fresh token is cached.
   */
  function AccessToken(cache: Option<string>, email: string, password: string, reply: AuthReply): (r: TokenOutcome)
    ensures Truthy(cache) ==> r == TokenOutcome(Ok(cache.value), cache)
    ensures !Truthy(cache) && (PhpEmpty(email) || PhpEmpty(password)) ==> r == TokenOutcome(Err("no_creds"), cache)
    ensures !Truthy(cache) && !PhpEmpty(email) && !PhpEmpty(password) && reply.AuthFailed? ==> r.token == Err("auth_failed")
    ensures r.token.Ok? ==> !PhpEmpty(r.token.value) && r.cache == Some(r.token.value)
    ensures r.token.Err? ==> r.cache == cache
  {
    if Truthy(cache) then TokenOutcome(Ok(cache.value), cache)
    else if PhpEmpty(email) || PhpEmpty(password) then TokenOutcome(Err("no_creds"), cache)
    else match reply
      case AuthFailed => TokenOutcome(Err("auth_failed"), cache)
      case AuthOk(access) =>
        if Truthy(access) then TokenOutcome(Ok(access.value), Some(access.value))
        else TokenOutcome(Err("token_missing"), cache)
  }

  /** Once a token is obtained, the next call returns it from the cache whatever the credentials or the sign-in reply. */
  lemma TokenIsCached(cache: Option<string>, email: string, password: string, reply: AuthReply,
                      email2: string, password2: string, reply2: AuthReply)
    requires AccessToken(cache, email, password, reply).token.Ok?
    ensures var first := AccessToken(cache, email, password, reply);
            AccessToken(first.cache, email2, password2, reply2) == first
  {
  }

  /** `lr_fetch_api_data`: an error token is passed back unchanged; otherwise the request's decoded body or `fetch_failed`. */
  function FetchApiData<T>(token: Result<string, string>, reply: Option<T>): (r: Result<T, string>)
    ensures token.Err? ==> r == Err(token.error)
    ensures token.Ok? ==> (r.Ok? <==> reply.Some?)
    ensures r.Err? && token.Ok? ==> r.error == "fetch_failed"
  {
    if token.Err? then Err(token.error)
    else match reply
      case None => Err("fetch_failed")
      case Some(body) => Ok(body)
  }

  /** The rewrite query variables; an unset variable reads as "". */
  datatype QueryVars = QueryVars(country: string, city: string, pageType: string)

  /** Route segments: non-empty and free of `/`, as `([^/]+)` matches them. */
  predicate RouteSegment(s: string) {
    s != "" && '/' !in s
  }

  /** The request path without one trailing slash (`/?$`). */
  function StripSlash(path: string): (r: string)
    ensures path == r || path == r + "/"
  {
    if |path| > 0 && path[|path| - 1] == '/' then path[..|path| - 1] else path
  }

  /** Query variables from one to three non-empty segments; none from any other count. */
  function BindSegments(segs: seq<string>): (r: Option<QueryVars>)
    ensures r.Some? <==> 1 <= |segs| <= 3 && forall i :: 0 <= i < |segs| ==> segs[i] != ""
    ensures r.Some? ==> RouteSegments(r.value) == segs
  {
    if |segs| < 1 || |segs| > 3 || exists i :: 0 <= i < |segs| && segs[i] == "" then None
    else if |segs| == 1 then Some(QueryVars(segs[0], "", ""))
    else if |segs| == 2 then Some(QueryVars(segs[0], segs[1], ""))
    else Some(QueryVars(segs[0], segs[1], segs[2]))
  }

  /**
   * The three rules of `lr_custom_rewrite_rules` on a request path
   * (relative, without query): one, two or three non-empty segments and
   * an optional trailing slash, bound to country, city and page type.
   */
  function Route(path: string): (r: Option<QueryVars>)
    ensures r.Some? ==> r.value.country != "" && '/' !in r.value.country
  {
    var segs := Explode(StripSlash(path), '/');
    var r := BindSegments(segs);
    assert r.Some? ==> r.value.country == segs[0];
    r
  }

  /** The segments a set of query variables was read from. */
  function RouteSegments(v: QueryVars): seq<string> {
    if v.city == "" then [v.country]
    else if v.pageType == "" then [v.country, v.city]
    else [v.country, v.city, v.pageType]
  }

  /** One to three route segments, with or without a trailing slash, are read back as the query variables they spell. */
  lemma RouteRoundTrip(segs: seq<string>, trailing: bool)
    requires 1 <= |segs| <= 3 && forall i :: 0 <= i < |segs| ==> RouteSegment(segs[i])
    ensures var path := Implode(segs, "/") + (if trailing then "/" else "");
            Route(path).Some? && RouteSegments(Route(path).value) == segs
  {
    var path := Implode(segs, "/") + (if trailing then "/" else "");
    StripJoined(segs, trailing);
    ExplodeImplode(segs, '/');
    assert Explode(StripSlash(path), '/') == segs;
    assert BindSegments(segs).Some?;
  }

  /** Stripping the optional slash after joined segments gives the joined segments back. */
  lemma StripJoined(segs: seq<string>, trailing: bool)
    requires 1 <= |segs| && forall i :: 0 <= i < |segs| ==> RouteSegment(segs[i])
    ensures StripSlash(Implode(segs, "/") + (if trailing then "/" else "")) == Implode(segs, "/")
  {
    var joined := Implode(segs, "/");
    ImplodeLast(segs, "/");
    var last := segs[|segs| - 1];
    assert last[|last| - 1] != '/';
    assert joined[|joined| - 1] == last[|last| - 1];
    if trailing {
      var path := joined + "/";
      assert path[..|path| - 1] == joined;
    } else {
      assert joined + "" == joined;
    }
  }

  /** An imploded sequence ends with its last part. */
  lemma {:induction false} ImplodeLast(parts: seq<string>, sep: string)
    requires |parts| >= 1
    ensures EndsWith(Implode(parts, sep), parts[|parts| - 1])
    decreases |parts|
  {
    if |parts| > 1 {
      ImplodeLast(parts[1..], sep);
      var rest := Implode(parts[1..], sep);
      var whole := parts[0] + sep + rest;
      assert whole[|whole| - |parts[|parts| - 1]|..] == rest[|rest| - |parts[|parts| - 1]|..];
    }
  }

  /** Every matched path is the matched segments joined by `/`, with at most one slash after them. */
  lemma RouteShape(path: string)
    requires Route(path).Some?
    ensures var segs := RouteSegments(Route(path).value);
            1 <= |segs| <= 3 && (path == Implode(segs, "/") || path == Implode(segs, "/") + "/")
  {
    var segs := Explode(StripSlash(path), '/');
    assert RouteSegments(Route(path).value) == segs;
  }

  /** The content generator `lr_generate_dynamic_content` hands the page to. */
  datatype Content =
    | DetailContent(country: string, city: string, pageType: string)
    | CityContent(country: string, city: string)
    | CountryContent(country: string)

  /** Page type first, then city, then country, each checked for PHP truth. */
  function DynamicContent(v: QueryVars): (r: Content)
    ensures !PhpEmpty(v.pageType) <==> r.DetailContent?
    ensures PhpEmpty(v.pageType) && !PhpEmpty(v.city) <==> r.CityContent?
    ensures r.country == v.country
  {
    if !PhpEmpty(v.pageType) then DetailContent(v.country, v.city, v.pageType)
    else if !PhpEmpty(v.city) then CityContent(v.country, v.city)
    else CountryContent(v.country)
  }

  /**
   * `lr_generate_dynamic_title`: with the same precedence, '<Type> in
   * <city>', 'Roller Skating in <city>' or 'Roller Skating in <country>';
   * the title passed in when the lookup finds nothing.
   */
  function DynamicTitle(title: string, v: QueryVars, locs: LocationTable): (r: string)
    ensures !PhpEmpty(v.pageType) ==>
      r == (match CityDetails(locs, v.country, v.city)
            case Some(c) => Ucfirst(v.pageType) + " in " + c.name
            case None => title)
    ensures PhpEmpty(v.pageType) && !PhpEmpty(v.city) ==>
      r == (match CityDetails(locs, v.country, v.city)
            case Some(c) => "Roller Skating in " + c.name
            case None => title)
    ensures PhpEmpty(v.pageType) && PhpEmpty(v.city) ==>
      r == (match CountryDetails(locs, v.country)
            case Some(c) => "Roller Skating in " + c.name
            case None => title)
  {
    var generated :=
      if !PhpEmpty(v.pageType) then
        (match CityDetails(locs, v.country, v.city)
         case Some(c) => Ucfirst(v.pageType) + " in " + c.name
         case None => "")
      else if !PhpEmpty(v.city) then
        (match CityDetails(locs, v.country, v.city)
         case Some(c) => "Roller Skating in " + c.name
         case None => "")
      else
        (match CountryDetails(locs, v.country)
         case Some(c) => "Roller Skating in " + c.name
         case None => "");
    if PhpEmpty(generated) then title else generated
  }

  /**
   * A title built from a successful lookup is never empty, so it always
   * replaces the original: the result is the generated title, whatever
   * title came in.
   */
  lemma GeneratedTitleReplaces(title: string, other: string, v: QueryVars, locs: LocationTable)
    requires CountryDetails(locs, v.country).Some?
    requires !PhpEmpty(v.city) || !PhpEmpty(v.pageType) ==> CityDetails(locs, v.country, v.city).Some?
    ensures DynamicTitle(title, v, locs) == DynamicTitle(other, v, locs)
    ensures !PhpEmpty(v.pageType) ==>
      DynamicTitle(title, v, locs) == Ucfirst(v.pageType) + " in " + CityDetails(locs, v.country, v.city).value.name
    ensures PhpEmpty(v.pageType) && !PhpEmpty(v.city) ==>
      DynamicTitle(title, v, locs) == "Roller Skating in " + CityDetails(locs, v.country, v.city).value.name
    ensures PhpEmpty(v.pageType) && PhpEmpty(v.city) ==>
      DynamicTitle(title, v, locs) == "Roller Skating in " + CountryDetails(locs, v.country).value.name
  {
  }

  /** What `lr_page_controller` installs: the two filters and the fake post's title. */
  datatype Hooks = Hooks(contentFilter: bool, titleFilter: bool, postTitle: Option<string>)

  /** Without a true `lr_country` nothing is installed; otherwise both filters, and the post title is the dynamic title of "". */
  function PageController(v: QueryVars, locs: LocationTable): (r: Hooks)
    ensures PhpEmpty(v.country) <==> r == Hooks(false, false, None)
    ensures !PhpEmpty(v.country) ==> r.contentFilter && r.titleFilter && r.postTitle == Some(DynamicTitle("", v, locs))
  {
    if PhpEmpty(v.country) then Hooks(false, false, None)
    else Hooks(true, true, Some(DynamicTitle("", v, locs)))
  }

  /** Every routed page has a true country unless its slug is "0", so the controller takes it over. */
  lemma RoutedPagesAreControlled(path: string, locs: LocationTable)
    requires Route(path).Some? && Route(path).value.country != "0"
    ensures PageController(Route(path).value, locs).contentFilter
  {
  }
}

=== FILE: seqs.dfy ===
/** Sequence helpers shared by the plugin's loops: first match and filtering. */
module Seqs {
  import opened Wrappers

  /** Some element satisfies `p`. */
  predicate Any<T>(xs: seq<T>, p: T -> bool) {
    exists i :: 0 <= i < |xs| && p(xs[i])
  }

  /** `xs[i]` is the first element satisfying `p`. */
  predicate IsFirst<T>(xs: seq<T>, p: T -> bool, i: int) {
    0 <= i < |xs| && p(xs[i]) && forall j :: 0 <= j < i ==> !p(xs[j])
  }

  /** There is only one first index. */
  lemma IsFirstUnique<T>(xs: seq<T>, p: T -> bool, i: int, j: int)
    requires IsFirst(xs, p, i) && IsFirst(xs, p, j)
    ensures i == j
  {
  }

  /** The index of the first element satisfying `p`, as a `foreach … return` loop finds it. */
  function FirstWhere<T>(xs: seq<T>, p: T -> bool): (r: Option<nat>)
    ensures r.Some? ==> IsFirst(xs, p, r.value)
    ensures r.None? <==> !Any(xs, p)
  {
    if xs == [] then None
    else if p(xs[0]) then Some(0)
    else
      var t := FirstWhere(xs[1..], p);
      assert forall j :: 0 < j < |xs| ==> xs[j] == xs[1..][j - 1];
      if t.None? then None else Some(t.value + 1)
  }

  /** The elements satisfying `p`, in their original order (`array_filter`, `.filter`). */
  function Filter<T(!new)>(xs: seq<T>, p: T -> bool): (r: seq<T>)
    ensures |r| <= |xs|
    ensures forall i :: 0 <= i < |r| ==> p(r[i])
    ensures forall x :: x in r <==> x in xs && p(x)
  {
    if xs == [] then []
    else
      assert xs == [xs[0]] + xs[1..];
      (if p(xs[0]) then [xs[0]] else []) + Filter(xs[1..], p)
  }

  /** Filtering distributes over concatenation. */
  lemma {:induction false} FilterAppend<T(!new)>(a: seq<T>, b: seq<T>, p: T -> bool)
    ensures Filter(a + b, p) == Filter(a, p) + Filter(b, p)
  {
    if a != [] {
      assert (a + b)[1..] == a[1..] + b;
      FilterAppend(a[1..], b, p);
    } else {
      assert a + b == b;
    }
  }

  /** Filtering keeps everything exactly when every element passes. */
  lemma {:induction false} FilterAll<T(!new)>(xs: seq<T>, p: T -> bool)
    requires forall i :: 0 <= i < |xs| ==> p(xs[i])
    ensures Filter(xs, p) == xs
  {
    if xs != [] {
      FilterAll(xs[1..], p);
      assert xs == [xs[0]] + xs[1..];
    }
  }

  /** The first `n` elements, or all of them when there are fewer (`array_slice($xs, 0, $n)`). */
  function Take<T>(xs: seq<T>, n: nat): (r: seq<T>)
    ensures |r| == if |xs| < n then |xs| else n
    ensures r == xs[..|r|]
  {
    if |xs| < n then xs else xs[..n]
  }

  /** Membership in a non-empty sequence: its head or a member of its tail. */
  lemma MemberCons<T>(t: seq<T>)
    requires t != []
    ensures forall v :: v in t <==> v == t[0] || v in t[1..]
  {
    assert t == [t[0]] + t[1..];
  }

  /** Within a prefix, the elements are the whole's. */
  lemma PrefixIndex<T>(a: seq<T>, b: seq<T>, i: nat)
    requires i < |b| <= |a| && a[..|b|] == b
    ensures a[i] == b[i]
  {
    assert a[..|b|][i] == a[i];
  }

  /** A prefix of a prefix is a prefix of the whole. */
  lemma PrefixOfPrefix<T>(a: seq<T>, b: seq<T>, n: nat)
    requires n <= |b| <= |a| && a[..|b|] == b
    ensures a[..n] == b[..n]
  {
    assert forall k | 0 <= k < n :: a[..n][k] == a[..|b|][k];
  }

  /** A slice is its two halves on either side of any cut. */
  lemma SliceSplit<T>(s: seq<T>, a: nat, b: nat, c: nat)
    requires a <= b <= c <= |s|
    ensures s[a..c] == s[a..b] + s[b..c]
  {
  }

  /** Sum of a sequence of integers. */
  function Sum(xs: seq<int>): int {
    if xs == [] then 0 else xs[0] + Sum(xs[1..])
  }

  lemma {:induction false} SumAppend(a: seq<int>, b: seq<int>)
    ensures Sum(a + b) == Sum(a) + Sum(b)
  {
    if a != [] {
      assert (a + b)[1..] == a[1..] + b;
      SumAppend(a[1..], b);
    } else {
      assert a + b == b;
    }
  }

  /** Each element transformed by `f`, in order (`array_map`). */
  function Map<T, U>(xs: seq<T>, f: T -> U): (r: seq<U>)
    ensures |r| == |xs|
    ensures forall i :: 0 <= i < |xs| ==> r[i] == f(xs[i])
  {
    if xs == [] then [] else [f(xs[0])] + Map(xs[1..], f)
  }

  /** The pairs of equal-length sequences, position by position. */
  function Zip<A, B>(a: seq<A>, b: seq<B>): (r: seq<(A, B)>)
    requires |a| == |b|
    ensures |r| == |a|
    ensures forall i :: 0 <= i < |a| ==> r[i] == (a[i], b[i])
  {
    if a == [] then [] else [(a[0], b[0])] + Zip(a[1..], b[1..])
  }

  /** `a` is `b` with some elements left out, the rest kept in order. */
  predicate Subsequence<T(==)>(a: seq<T>, b: seq<T>)
    decreases |b|
  {
    if a == [] then true
    else if b == [] then false
    else if a[0] == b[0] then Subsequence(a[1..], b[1..])
    else Subsequence(a, b[1..])
  }
}

=== FILE: sitemap.dfy ===
/**
 * The settings page's sitemap export: every generated page URL as a CSV
 * row in the format the SEO plugin imports, and the testing-mode box.
 */
module Sitemap {
  import opened Wrappers
  import opened Locations

  /** The four URLs of one city: its page, then its skatespots, events and skaters lists. */
  function CityBlock(country: string, city: string, home: string -> string): seq<string> {
    var base := "/" + country + "/" + city + "/";
    [home(base), home(base + "skatespots/"), home(base + "events/"), home(base + "skaters/")]
  }

  /** The blocks of all cities of a country, in table order. */
  function CityUrls(country: string, cities: seq<(string, City)>, home: string -> string): (r: seq<string>)
    ensures |r| == 4 * |cities|
  {
    if cities == [] then [] else CityBlock(country, cities[0].0, home) + CityUrls(country, cities[1..], home)
  }

  /** The `j`-th city's block sits at positions `4j` to `4j + 3`. */
  lemma {:induction false} CityUrlsBlock(country: string, cities: seq<(string, City)>, home: string -> string, j: nat)
    requires j < |cities|
    ensures CityUrls(country, cities, home)[4 * j..4 * j + 4] == CityBlock(country, cities[j].0, home)
    decreases j
  {
    var block := CityBlock(country, cities[0].0, home);
    var rest := CityUrls(country, cities[1..], home);
    assert CityUrls(country, cities, home) == block + rest;
    if j > 0 {
      CityUrlsBlock(country, cities[1..], home, j - 1);
      assert cities[1..][j - 1] == cities[j];
      assert (block + rest)[4 * j..4 * j + 4] == rest[4 * (j - 1)..4 * (j - 1) + 4];
    }
  }

  /** Each country's URL followed by the URLs of its cities, countries in table order. */
  function CountryUrls(locs: LocationTable, home: string -> string): (r: seq<string>)
    ensures |r| == |locs| + 4 * TotalCities(locs)
  {
    if locs == [] then []
    else [home("/" + locs[0].0 + "/")] + CityUrls(locs[0].0, locs[0].1.cities, home) + CountryUrls(locs[1..], home)
  }

  /** The number of cities over all countries. */
  function TotalCities(locs: LocationTable): nat {
    if locs == [] then 0 else |locs[0].1.cities| + TotalCities(locs[1..])
  }

  /** The URL list: nothing without locations; otherwise the explore page, then every country's block. */
  function SitemapUrls(locs: LocationTable, home: string -> string): (r: seq<string>)
    ensures locs == [] ==> r == []
    ensures locs != [] ==> |r| == 1 + |locs| + 4 * TotalCities(locs) && r[0] == home("/explore/") && r[1..] == CountryUrls(locs, home)
  {
    if locs == [] then [] else [home("/explore/")] + CountryUrls(locs, home)
  }

  const Header: seq<string> := ["Page URL", "Priority", "Frequency", "Last Modified"]

  /** One data row: the URL, priority 0.7, weekly, and the export date. */
  function Row(url: string, today: string): seq<string> {
    [url, "0.7", "weekly", today]
  }

  function DataRows(urls: seq<string>, today: string): (r: seq<seq<string>>)
    ensures |r| == |urls|
    ensures forall i :: 0 <= i < |r| ==> r[i] == Row(urls[i], today)
  {
    if urls == [] then [] else [Row(urls[0], today)] + DataRows(urls[1..], today)
  }

  /** What the admin request leads to. */
  datatype SitemapOutcome =
    | NotHandled
    | Denied
    | Csv(rows: seq<seq<string>>)

  /**
   * `lr_handle_sitemap_generation`: only the `generate_sitemap_csv`
   * action is handled; a user without `manage_options` or a bad nonce is
   * stopped before any output; otherwise the header row and one row per
   * URL, all dated `today`.
   */
  function HandleSitemap(action: Option<string>, canManage: bool, nonceOk: bool,
                         locs: LocationTable, home: string -> string, today: string): (r: SitemapOutcome)
    ensures action != Some("generate_sitemap_csv") ==> r == NotHandled
    ensures action == Some("generate_sitemap_csv") && (!canManage || !nonceOk) ==> r == Denied
    ensures action == Some("generate_sitemap_csv") && canManage && nonceOk ==> r.Csv?
    ensures r.Csv? ==> canManage && nonceOk && |r.rows| >= 1 && r.rows[0] == Header
    ensures r.Csv? ==> |r.rows| == 1 + |SitemapUrls(locs, home)|
    ensures r.Csv? ==> forall i :: 1 <= i < |r.rows| ==> r.rows[i] == Row(SitemapUrls(locs, home)[i - 1], today)
  {
    if action != Some("generate_sitemap_csv") then NotHandled
    else if !canManage || !nonceOk then Denied
    else
      var urls := SitemapUrls(locs, home);
      var data := DataRows(urls, today);
      assert forall i :: 1 <= i < 1 + |data| ==> ([Header] + data)[i] == data[i - 1];
      Csv([Header] + data)
  }

  /** Every configured country, and every city with its three list pages, has a URL in the export. */
  lemma EveryPageListed(locs: LocationTable, home: string -> string, i: nat, j: nat)
    requires i < |locs| && j < |locs[i].1.cities|
    ensures home("/" + locs[i].0 + "/") in SitemapUrls(locs, home)
    ensures forall u :: u in CityBlock(locs[i].0, locs[i].1.cities[j].0, home) ==> u in SitemapUrls(locs, home)
  {
    CountryPagesListed(locs, home, i, j);
    var urls := SitemapUrls(locs, home);
    assert urls == [home("/explore/")] + CountryUrls(locs, home);
  }

  lemma {:induction false} CountryPagesListed(locs: LocationTable, home: string -> string, i: nat, j: nat)
    requires i < |locs| && j < |locs[i].1.cities|
    ensures home("/" + locs[i].0 + "/") in CountryUrls(locs, home)
    ensures forall u :: u in CityBlock(locs[i].0, locs[i].1.cities[j].0, home) ==> u in CountryUrls(locs, home)
    decreases i
  {
    var head := [home("/" + locs[0].0 + "/")];
    var cities := CityUrls(locs[0].0, locs[0].1.cities, home);
    var rest := CountryUrls(locs[1..], home);
    assert CountryUrls(locs, home) == head + cities + rest;
    if i == 0 {
      CityUrlsBlock(locs[0].0, locs[0].1.cities, home, j);
      SliceMembers(cities, 4 * j, 4 * j + 4);
    } else {
      CountryPagesListed(locs[1..], home, i - 1, j);
      assert locs[1..][i - 1] == locs[i];
    }
  }

  /** Members of a slice are members of the sequence. */
  lemma SliceMembers<T>(s: seq<T>, a: nat, b: nat)
    requires a <= b <= |s|
    ensures forall u :: u in s[a..b] ==> u in s
  {
    forall u | u in s[a..b] ensures u in s {
      var k :| 0 <= k < b - a && s[a..b][k] == u;
      assert s[a + k] == u;
    }
  }

  /** `lr_testing_mode_render` checks the box exactly for the stored value '1'. */
  function TestingModeChecked(options: Option<string>): (r: bool)
    ensures r <==> options == Some("1")
  {
    options.Some? && options.value == "1"
  }
}

=== FILE: sorting.dfy ===
/**
 * A stable sort by an integer key. PHP 8's `usort` is stable, and every
 * comparator the plugin passes to it orders by one integer quantity
 * (a distance, a count, a timestamp), so one definition serves them all;
 * a descending order is a sort by the negated key.
 */
module Sorting {
  import opened Strings

  /** `s` is in non-decreasing key order. */
  predicate SortedBy<T>(s: seq<T>, key: T -> int) {
    forall i, j :: 0 <= i < j < |s| ==> key(s[i]) <= key(s[j])
  }

  /**
   * `x` placed in front of the first element whose key is not smaller,
   * so that it precedes every element of equal key already in `s`.
   */
  function Insert<T>(x: T, s: seq<T>, key: T -> int): (r: seq<T>)
    ensures multiset(r) == multiset(s) + multiset{x}
    ensures |r| == |s| + 1
    decreases |s|
  {
    if s == [] || key(x) <= key(s[0]) then
      [x] + s
    else
      assert s == [s[0]] + s[1..];
      [s[0]] + Insert(x, s[1..], key)
  }

  /** Sorting keeps exactly the elements it was given. */
  lemma SortByMembers<T>(s: seq<T>, key: T -> int)
    ensures forall x :: x in SortBy(s, key) <==> x in s
  {
    var r := SortBy(s, key);
    assert forall x :: x in r <==> x in multiset(r);
  }

  /** A prefix of a sorted sequence is sorted. */
  lemma SortedPrefix<T>(s: seq<T>, key: T -> int, n: nat)
    requires SortedBy(s, key) && n <= |s|
    ensures SortedBy(s[..n], key)
  {
  }

  /**
   * The first `n` elements of a sorted sequence are a sub-multiset of it,
   * and every element left out has a key no smaller than the last one kept.
   */
  lemma SortedTop<T>(s: seq<T>, key: T -> int, n: nat)
    requires SortedBy(s, key) && n <= |s|
    ensures multiset(s[..n]) <= multiset(s)
    ensures 0 < n ==> forall x :: x in multiset(s) - multiset(s[..n]) ==> key(s[n - 1]) <= key(x)
  {
    assert s == s[..n] + s[n..];
    assert multiset(s) == multiset(s[..n]) + multiset(s[n..]);
    forall x | 0 < n && x in multiset(s) - multiset(s[..n])
      ensures key(s[n - 1]) <= key(x)
    {
      assert x in s[n..];
    }
  }

  /** Inserting into a sorted sequence keeps it sorted, and the head is `x` or the old head. */
  lemma {:induction false} InsertSorted<T>(x: T, s: seq<T>, key: T -> int)
    requires SortedBy(s, key)
    ensures SortedBy(Insert(x, s, key), key)
    ensures Insert(x, s, key)[0] == x || (|s| > 0 && Insert(x, s, key)[0] == s[0])
    decreases |s|
  {
    if s == [] || key(x) <= key(s[0]) {
      SortedConsKey(x, s, key);
    } else {
      var t := Insert(x, s[1..], key);
      assert SortedBy(s[1..], key);
      InsertSorted(x, s[1..], key);
      assert key(s[0]) <= key(t[0]) by {
        assert s[1..] != [] ==> s[1..][0] == s[1];
      }
      SortedConsKey(s[0], t, key);
    }
  }

  /** An element no greater than the head of a sorted sequence can go in front of it. */
  lemma SortedConsKey<T>(y: T, t: seq<T>, key: T -> int)
    requires SortedBy(t, key)
    requires t == [] || key(y) <= key(t[0])
    ensures SortedBy([y] + t, key)
  {
    var r := [y] + t;
    forall i, j | 0 <= i < j < |r|
      ensures key(r[i]) <= key(r[j])
    {
      assert r[j] == t[j - 1];
      if i > 0 {
        assert r[i] == t[i - 1];
      } else if j > 1 {
        assert key(t[0]) <= key(t[j - 1]);
      }
    }
  }

  /** Insertion sort: stable, by non-decreasing key. */
  function SortBy<T>(s: seq<T>, key: T -> int): (r: seq<T>)
    ensures SortedBy(r, key)
    ensures multiset(r) == multiset(s)
    ensures |r| == |s|
    decreases |s|
  {
    if s == [] then []
    else
      assert s == [s[0]] + s[1..];
      InsertSorted(s[0], SortBy(s[1..], key), key);
      Insert(s[0], SortBy(s[1..], key), key)
  }

  /** The elements of `s` whose key is `k`, in their order in `s`. */
  function WithKey<T>(s: seq<T>, key: T -> int, k: int): (r: seq<T>)
    ensures |r| <= |s|
    decreases |s|
  {
    if s == [] then [] else (if key(s[0]) == k then [s[0]] else []) + WithKey(s[1..], key, k)
  }

  /** The elements of key `k` in a sequence with a given head. */
  lemma ConsWithKey<T>(h: T, t: seq<T>, key: T -> int, k: int)
    ensures WithKey([h] + t, key, k) == (if key(h) == k then [h] else []) + WithKey(t, key, k)
  {
    assert ([h] + t)[1..] == t;
  }

  /** Inserting `x` puts it in front of every element with its key, and moves no other element of that key. */
  lemma {:induction false} InsertWithKey<T>(x: T, s: seq<T>, key: T -> int, k: int)
    ensures WithKey(Insert(x, s, key), key, k) == (if key(x) == k then [x] else []) + WithKey(s, key, k)
    decreases |s|
  {
    if s == [] || key(x) <= key(s[0]) {
      ConsWithKey(x, s, key, k);
    } else {
      InsertWithKey(x, s[1..], key, k);
      ConsWithKey(s[0], Insert(x, s[1..], key), key, k);
      ConsWithKey(s[0], s[1..], key, k);
      assert s == [s[0]] + s[1..];
    }
  }

  /**
   * Stability: for every key, the elements with that key come out of the
   * sort in the order they went in.
   */
  lemma {:induction false} SortByStable<T>(s: seq<T>, key: T -> int, k: int)
    ensures WithKey(SortBy(s, key), key, k) == WithKey(s, key, k)
    decreases |s|
  {
    if s != [] {
      SortByStable(s[1..], key, k);
      InsertWithKey(s[0], SortBy(s[1..], key), key, k);
    }
  }

  /** Stability for every key at once. */
  lemma SortByStableAll<T>(s: seq<T>, key: T -> int)
    ensures forall k :: WithKey(SortBy(s, key), key, k) == WithKey(s, key, k)
  {
    forall k {
      SortByStable(s, key, k);
    }
  }

  /** A sequence already in key order comes back unchanged. */
  lemma {:induction false} SortBySortedIdentity<T>(s: seq<T>, key: T -> int)
    requires SortedBy(s, key)
    ensures SortBy(s, key) == s
    decreases |s|
  {
    if s != [] {
      assert SortedBy(s[1..], key);
      SortBySortedIdentity(s[1..], key);
      assert s == [s[0]] + s[1..];
    }
  }

  /** Sorting twice is sorting once. */
  lemma SortByIdempotent<T>(s: seq<T>, key: T -> int)
    ensures SortBy(SortBy(s, key), key) == SortBy(s, key)
  {
    SortBySortedIdentity(SortBy(s, key), key);
  }

  /**
   * `s` is in non-decreasing `strcmp` order of `name`: no later name is
   * smaller than an earlier one.
   */
  predicate SortedByName<T>(s: seq<T>, name: T -> string) {
    forall i, j :: 0 <= i < j < |s| ==> !StrLess(name(s[j]), name(s[i]))
  }

  /** "Not smaller" on strings is transitive. */
  lemma NotLessTransitive(a: string, b: string, c: string)
    requires !StrLess(b, a) && !StrLess(c, b)
    ensures !StrLess(c, a)
  {
    if StrLess(c, a) {
      if a == b {
      } else {
        StrLessTotal(a, b);
        StrLessTransitive(c, a, b);
      }
    }
  }

  /** A name no greater than every name of a sorted sequence can go in front of it. */
  lemma SortedCons<T>(y: T, t: seq<T>, name: T -> string)
    requires SortedByName(t, name)
    requires forall z :: z in t ==> !StrLess(name(z), name(y))
    ensures SortedByName([y] + t, name)
  {
    var r := [y] + t;
    forall i, j | 0 <= i < j < |r|
      ensures !StrLess(name(r[j]), name(r[i]))
    {
      if i > 0 {
        assert r[i] == t[i - 1] && r[j] == t[j - 1];
      } else {
        assert r[j] in t;
      }
    }
  }

  /** The head of a sorted sequence bounds the whole sequence from below. */
  lemma HeadIsLeast<T>(x: T, s: seq<T>, name: T -> string)
    requires SortedByName(s, name) && (s == [] || !StrLess(name(s[0]), name(x)))
    ensures forall z :: z in s ==> !StrLess(name(z), name(x))
  {
    forall z | z in s
      ensures !StrLess(name(z), name(x))
    {
      var j :| 0 <= j < |s| && s[j] == z;
      if j > 0 {
        NotLessTransitive(name(x), name(s[0]), name(s[j]));
      }
    }
  }

  /** `x` placed in front of the first element whose name is not smaller than its own. */
  function InsertByName<T>(x: T, s: seq<T>, name: T -> string): (r: seq<T>)
    requires SortedByName(s, name)
    ensures SortedByName(r, name)
    ensures multiset(r) == multiset(s) + multiset{x}
    ensures |r| == |s| + 1
    decreases |s|
  {
    if s == [] || !StrLess(name(s[0]), name(x)) then
      HeadIsLeast(x, s, name);
      SortedCons(x, s, name);
      [x] + s
    else
      var t := InsertByName(x, s[1..], name);
      assert s == [s[0]] + s[1..];
      StrLessAsymmetric(name(s[0]), name(x));
      forall z | z in t
        ensures !StrLess(name(z), name(s[0]))
      {
        assert z in multiset(t);
        if z != x {
          assert z in s[1..];
          var j :| 0 <= j < |s[1..]| && s[1..][j] == z;
          assert s[j + 1] == z;
        }
      }
      SortedCons(s[0], t, name);
      [s[0]] + t
  }

  /** `uasort` with `strcmp` on the names: stable insertion sort by name. */
  function SortByName<T>(s: seq<T>, name: T -> string): (r: seq<T>)
    ensures SortedByName(r, name)
    ensures multiset(r) == multiset(s)
    ensures |r| == |s|
    decreases |s|
  {
    if s == [] then []
    else
      assert s == [s[0]] + s[1..];
      InsertByName(s[0], SortByName(s[1..], name), name)
  }
}

=== FILE: strings.dfy ===
/**
 * The handful of PHP string primitives the plugin leans on, written out
 * over `seq<char>`: truthiness, `strpos`, `str_replace`, `ucfirst`,
 * `rtrim`, `stripos` and integer-to-string conversion.
 */
module Strings {
  import opened Wrappers

  /** PHP's `empty()` (and falsiness) on a string: "" and "0" are both empty. */
  predicate PhpEmpty(s: string) {
    s == "" || s == "0"
  }

  /** PHP truthiness of a possibly-null string: set, and neither "" nor "0". */
  predicate Truthy(v: Option<string>) {
    v.Some? && !PhpEmpty(v.value)
  }

  /** `p` occurs in `s` starting at index `i`. */
  predicate OccursAt(s: string, p: string, i: int) {
    0 <= i && i + |p| <= |s| && s[i..i + |p|] == p
  }

  /** `strpos($s, $p) !== false`. */
  predicate Contains(s: string, p: string) {
    exists i | 0 <= i <= |s| - |p| :: OccursAt(s, p, i)
  }

  predicate StartsWith(s: string, p: string) {
    OccursAt(s, p, 0)
  }

  /** A string starts with any of its prefixes. */
  lemma StartsWithAppend(a: string, b: string)
    ensures StartsWith(a + b, a)
  {
    assert (a + b)[..|a|] == a;
  }

  /** A string that starts with `p` is `p` followed by the rest. */
  lemma StartsWithSplit(s: string, p: string)
    requires StartsWith(s, p)
    ensures s == p + s[|p|..]
  {
    assert s == s[..|p|] + s[|p|..];
  }

  predicate EndsWith(s: string, p: string) {
    |p| <= |s| && s[|s| - |p|..] == p
  }

  /** A string ends with any of its suffixes. */
  lemma EndsWithAppend(a: string, b: string)
    ensures EndsWith(a + b, b)
  {
    assert (a + b)[|a|..] == b;
  }

  /** What occurs in a suffix occurs in the whole. */
  lemma ContainsSuffix(s: string, k: nat, p: string)
    requires k <= |s| && Contains(s[k..], p)
    ensures Contains(s, p)
  {
    var i :| 0 <= i <= |s[k..]| - |p| && OccursAt(s[k..], p, i);
    assert s[k..][i..i + |p|] == s[k + i..k + i + |p|];
    assert OccursAt(s, p, k + i);
  }

  /** What occurs in a prefix occurs in the whole. */
  lemma ContainsPrefix(s: string, k: nat, p: string)
    requires k <= |s| && Contains(s[..k], p)
    ensures Contains(s, p)
  {
    var i :| 0 <= i <= |s[..k]| - |p| && OccursAt(s[..k], p, i);
    assert s[..k][i..i + |p|] == s[i..i + |p|];
    assert OccursAt(s, p, i);
  }

  /** A string occurs in any string built around it. */
  lemma ContainsMiddle(a: string, b: string, c: string)
    ensures Contains(a + b + c, b)
  {
    assert (a + b + c)[|a|..|a| + |b|] == b;
    assert OccursAt(a + b + c, b, |a|);
  }

  /** `strpos($s, $p)`: the first index at which `p` occurs, if any. */
  function IndexOf(s: string, p: string): (r: Option<nat>)
    ensures r.Some? ==> OccursAt(s, p, r.value)
    ensures r.Some? ==> forall j :: 0 <= j < r.value ==> !OccursAt(s, p, j)
    ensures r.None? <==> !Contains(s, p)
    decreases |s|
  {
    if |p| > |s| then
      None
    else if s[..|p|] == p then
      assert OccursAt(s, p, 0);
      Some(0)
    else
      var t := IndexOf(s[1..], p);
      ShiftOccurrence(s, p);
      ContainsShift(s, p);
      if t.None? then None
      else
        NoEarlierOccurrence(s, p, t.value);
        Some(t.value + 1)
  }

  /** Occurrences in `s[1..]` are the occurrences in `s` shifted by one. */
  lemma ShiftOccurrence(s: string, p: string)
    requires |s| > 0
    ensures forall j :: 0 <= j ==> (OccursAt(s[1..], p, j) <==> OccursAt(s, p, j + 1))
  {
    forall j | 0 <= j
      ensures OccursAt(s[1..], p, j) <==> OccursAt(s, p, j + 1)
    {
      if j + |p| <= |s| - 1 {
        assert s[1..][j..j + |p|] == s[j + 1..j + 1 + |p|];
      }
    }
  }

  /** No occurrence before `k + 1` in `s` when none is at its head or before `k` in its tail. */
  lemma NoEarlierOccurrence(s: string, p: string, k: nat)
    requires |s| > 0 && !OccursAt(s, p, 0)
    requires forall j :: 0 <= j < k ==> !OccursAt(s[1..], p, j)
    ensures forall j :: 0 <= j < k + 1 ==> !OccursAt(s, p, j)
  {
    ShiftOccurrence(s, p);
    forall j | 1 <= j < k + 1
      ensures !OccursAt(s, p, j)
    {
      assert !OccursAt(s[1..], p, j - 1);
    }
  }

  /** `p` occurs in a non-empty `s` either at its head or somewhere in its tail. */
  lemma ContainsShift(s: string, p: string)
    requires |s| > 0
    ensures Contains(s, p) <==> OccursAt(s, p, 0) || Contains(s[1..], p)
  {
    ShiftOccurrence(s, p);
    if Contains(s, p) && !OccursAt(s, p, 0) {
      var i :| 0 <= i <= |s| - |p| && OccursAt(s, p, i);
      assert OccursAt(s[1..], p, i - 1);
    }
    if Contains(s[1..], p) {
      var i :| 0 <= i <= |s[1..]| - |p| && OccursAt(s[1..], p, i);
      assert OccursAt(s, p, i + 1);
    }
  }

  /**
   * PHP's `str_replace($p, $r, $s)`: every non-overlapping occurrence of
   * `p`, found left to right, becomes `r`. An empty search string leaves
   * the subject as it is.
   */
  function ReplaceAll(s: string, p: string, r: string): string
    decreases |s|
  {
    if p == "" || |s| < |p| then s
    else if s[..|p|] == p then r + ReplaceAll(s[|p|..], p, r)
    else [s[0]] + ReplaceAll(s[1..], p, r)
  }

  /** Replacing a string that does not occur changes nothing. */
  lemma {:induction false} ReplaceAllAbsent(s: string, p: string, r: string)
    requires !Contains(s, p)
    ensures ReplaceAll(s, p, r) == s
    decreases |s|
  {
    if p == "" || |s| < |p| {
    } else {
      ContainsShift(s, p);
      ReplaceAllAbsent(s[1..], p, r);
    }
  }

  /** No occurrence of `p` in `a + b` starts in `a` and ends in `b`. */
  predicate NoStraddle(a: string, b: string, p: string) {
    forall j :: 0 <= j < |a| < j + |p| ==> !OccursAt(a + b, p, j)
  }

  /** With no occurrence across the seam, replacing in a concatenation replaces in each part. */
  lemma {:induction false} ReplaceAllAppend(a: string, b: string, p: string, r: string)
    requires NoStraddle(a, b, p)
    ensures ReplaceAll(a + b, p, r) == ReplaceAll(a, p, r) + ReplaceAll(b, p, r)
    decreases |a|
  {
    var s := a + b;
    if a == [] {
      assert s == b;
    } else if p == "" {
    } else if |s| < |p| {
      assert ReplaceAll(b, p, r) == b && ReplaceAll(a, p, r) == a;
    } else if s[..|p|] == p {
      assert OccursAt(s, p, 0);
      assert a[..|p|] == p;
      var a' := a[|p|..];
      assert s[|p|..] == a' + b;
      assert ReplaceAll(s, p, r) == r + ReplaceAll(a' + b, p, r);
      assert ReplaceAll(a, p, r) == r + ReplaceAll(a', p, r);
      NoStraddleShift(a, b, p, |p|);
      ReplaceAllAppend(a', b, p, r);
    } else {
      var a' := a[1..];
      assert s[1..] == a' + b;
      assert ReplaceAll(s, p, r) == [a[0]] + ReplaceAll(a' + b, p, r);
      NoStraddleShift(a, b, p, 1);
      ReplaceAllAppend(a', b, p, r);
      if |a| < |p| {
        assert ReplaceAll(a', p, r) == a' && ReplaceAll(a, p, r) == a;
        assert a == [a[0]] + a';
      } else {
        assert a[..|p|] == s[..|p|];
        assert ReplaceAll(a, p, r) == [a[0]] + ReplaceAll(a', p, r);
      }
    }
  }

  /** Dropping `k` leading characters of `a` keeps the seam clear. */
  lemma NoStraddleShift(a: string, b: string, p: string, k: nat)
    requires NoStraddle(a, b, p) && k <= |a|
    ensures NoStraddle(a[k..], b, p)
  {
    var a' := a[k..];
    forall j | 0 <= j < |a'| < j + |p|
      ensures !OccursAt(a' + b, p, j)
    {
      assert a' + b == (a + b)[k..];
      if OccursAt(a' + b, p, j) {
        assert (a' + b)[j..j + |p|] == (a + b)[j + k..j + k + |p|];
        assert OccursAt(a + b, p, j + k);
      }
    }
  }

  /** Replacing a string by itself changes nothing. */
  lemma {:induction false} ReplaceAllSelf(s: string, p: string)
    ensures ReplaceAll(s, p, p) == s
    decreases |s|
  {
    if p == "" || |s| < |p| {
    } else if s[..|p|] == p {
      ReplaceAllSelf(s[|p|..], p);
      assert s == s[..|p|] + s[|p|..];
    } else {
      ReplaceAllSelf(s[1..], p);
      assert s == [s[0]] + s[1..];
    }
  }

  function UpperChar(c: char): char {
    if 'a' <= c <= 'z' then (c as int - 32) as char else c
  }

  function LowerChar(c: char): char {
    if 'A' <= c <= 'Z' then (c as int + 32) as char else c
  }

  /** PHP's `ucfirst`: the first character upper-cased (ASCII only). */
  function Ucfirst(s: string): (r: string)
    ensures |r| == |s|
    ensures |s| > 0 ==> r[0] == UpperChar(s[0]) && r[1..] == s[1..]
  {
    if s == "" then s else [UpperChar(s[0])] + s[1..]
  }

  /** PHP's `strtolower` (ASCII only). */
  function Lower(s: string): (r: string)
    ensures |r| == |s|
    ensures forall i :: 0 <= i < |s| ==> r[i] == LowerChar(s[i])
  {
    if s == "" then s else [LowerChar(s[0])] + Lower(s[1..])
  }

  /** PHP's `stripos($hay, $needle) !== false`, ASCII case folding. */
  predicate ContainsNoCase(hay: string, needle: string) {
    Contains(Lower(hay), Lower(needle))
  }

  predicate IsSlash(c: char) {
    c == '/' || c == '\\'
  }

  /**
   * WordPress's `untrailingslashit`, i.e. `rtrim($s, '/\\')`: every
   * trailing forward or backward slash removed.
   */
  function Untrail(s: string): (r: string)
    ensures |r| <= |s| && s[..|r|] == r
    ensures forall i :: |r| <= i < |s| ==> IsSlash(s[i])
    ensures |r| == 0 || !IsSlash(r[|r| - 1])
    decreases |s|
  {
    if |s| > 0 && IsSlash(s[|s| - 1]) then Untrail(s[..|s| - 1]) else s
  }

  /** The decimal digit for `d`. */
  function DigitChar(d: nat): (c: char)
    requires d < 10
    ensures '0' <= c <= '9' && c as int - '0' as int == d
  {
    ('0' as int + d) as char
  }

  predicate IsDigit(c: char) {
    '0' <= c <= '9'
  }

  function DigitValue(c: char): nat
    requires IsDigit(c)
  {
    c as int - '0' as int
  }

  /** Decimal rendering of a natural number, as PHP's string conversion. */
  function NatToString(n: nat): (r: string)
    ensures |r| > 0
    ensures forall i :: 0 <= i < |r| ==> IsDigit(r[i])
    decreases n
  {
    if n < 10 then [DigitChar(n)] else NatToString(n / 10) + [DigitChar(n % 10)]
  }

  /** The value of a string of decimal digits. */
  function DigitsValue(s: string): nat
    requires forall i :: 0 <= i < |s| ==> IsDigit(s[i])
    decreases |s|
  {
    if s == "" then 0 else 10 * DigitsValue(s[..|s| - 1]) + DigitValue(s[|s| - 1])
  }

  /** Reading back a rendered natural gives the number it came from. */
  lemma {:induction false} NatToStringRoundTrip(n: nat)
    ensures DigitsValue(NatToString(n)) == n
    decreases n
  {
    var s := NatToString(n);
    if n < 10 {
    } else {
      NatToStringRoundTrip(n / 10);
      assert s[..|s| - 1] == NatToString(n / 10);
    }
  }

  /** Distinct naturals render to distinct strings. */
  lemma NatToStringInjective(a: nat, b: nat)
    requires NatToString(a) == NatToString(b)
    ensures a == b
  {
    NatToStringRoundTrip(a);
    NatToStringRoundTrip(b);
  }

  /** Decimal rendering of an integer, with a leading '-' when negative. */
  function IntToString(n: int): (r: string)
    ensures |r| > 0
  {
    if n < 0 then "-" + NatToString(-n) else NatToString(n)
  }

  /** Distinct integers render to distinct strings. */
  lemma {:induction false} IntToStringInjective(a: int, b: int)
    requires IntToString(a) == IntToString(b)
    ensures a == b
  {
    NegativeSign(a);
    NegativeSign(b);
    if a < 0 {
      assert NatToString(-a) == IntToString(a)[1..];
      NatToStringInjective(-a, -b);
    } else {
      NatToStringInjective(a, b);
    }
  }

  /** A rendering starts with '-' exactly when the number is negative. */
  lemma NegativeSign(n: int)
    ensures IntToString(n)[0] == '-' <==> n < 0
  {
    if n >= 0 {
      assert IsDigit(NatToString(n)[0]);
    }
  }

  /** Two-digit zero-padded rendering, as `date()` prints hours and minutes. */
  function Pad2(n: nat): (r: string)
    requires n < 100
    ensures |r| == 2 && IsDigit(r[0]) && IsDigit(r[1])
    ensures DigitValue(r[0]) * 10 + DigitValue(r[1]) == n
  {
    [DigitChar(n / 10), DigitChar(n % 10)]
  }

  /** Python's `<` on `str`: lexicographic order by code point. */
  predicate StrLess(a: string, b: string)
    decreases |a|
  {
    if |a| == 0 then |b| > 0
    else if |b| == 0 then false
    else if a[0] != b[0] then a[0] < b[0]
    else StrLess(a[1..], b[1..])
  }

  lemma {:induction false} StrLessIrreflexive(a: string)
    ensures !StrLess(a, a)
    decreases |a|
  {
    if |a| > 0 {
      StrLessIrreflexive(a[1..]);
    }
  }

  lemma {:induction false} StrLessTransitive(a: string, b: string, c: string)
    requires StrLess(a, b) && StrLess(b, c)
    ensures StrLess(a, c)
    decreases |a|
  {
    if |a| > 0 && |b| > 0 && |c| > 0 && a[0] == b[0] && b[0] == c[0] {
      StrLessTransitive(a[1..], b[1..], c[1..]);
    }
  }

  lemma {:induction false} StrLessTotal(a: string, b: string)
    requires a != b
    ensures StrLess(a, b) || StrLess(b, a)
    decreases |a|
  {
    if |a| > 0 && |b| > 0 && a[0] == b[0] {
      assert a == [a[0]] + a[1..];
      assert b == [b[0]] + b[1..];
      StrLessTotal(a[1..], b[1..]);
    }
  }

  lemma {:induction false} StrLessAsymmetric(a: string, b: string)
    requires StrLess(a, b)
    ensures !StrLess(b, a)
    decreases |a|
  {
    if |a| > 0 && |b| > 0 && a[0] == b[0] {
      StrLessAsymmetric(a[1..], b[1..]);
    }
  }

  /** PHP's `implode($sep, $parts)`. */
  function Implode(parts: seq<string>, sep: string): (r: string)
  {
    if parts == [] then ""
    else if |parts| == 1 then parts[0]
    else parts[0] + sep + Implode(parts[1..], sep)
  }

  /** PHP's `explode($sep, $s)` for a one-character separator: the pieces between separators, "" giving `[""]`. */
  function Explode(s: string, sep: char): (r: seq<string>)
    ensures |r| >= 1
    ensures forall i :: 0 <= i < |r| ==> sep !in r[i]
    ensures Implode(r, [sep]) == s
    decreases |s|
  {
    if s == [] then [""]
    else
      var rest := Explode(s[1..], sep);
      HeadTail(s);
      if s[0] == sep then
        [""] + rest
      else
        ImplodeCons(s[0], rest, [sep]);
        [[s[0]] + rest[0]] + rest[1..]
  }

  /** A non-empty string is its first character followed by the rest. */
  lemma HeadTail(s: string)
    requires s != []
    ensures s == [s[0]] + s[1..]
  {
  }

  /** Prefixing the first part prefixes the imploded string. */
  lemma ImplodeCons(c: char, parts: seq<string>, sep: string)
    requires |parts| >= 1
    ensures Implode([[c] + parts[0]] + parts[1..], sep) == [c] + Implode(parts, sep)
  {
    var q := [[c] + parts[0]] + parts[1..];
    assert q[1..] == parts[1..];
  }

  /** A string without the separator explodes to itself alone. */
  lemma {:induction false} ExplodeNoSep(a: string, sep: char)
    requires sep !in a
    ensures Explode(a, sep) == [a]
    decreases |a|
  {
    if a != [] {
      ExplodeNoSep(a[1..], sep);
      assert [a[0]] + a[1..] == a;
    }
  }

  /** A separator-free first piece is split off whole. */
  lemma {:induction false} ExplodeFirst(a: string, sep: char, b: string)
    requires sep !in a
    ensures Explode(a + [sep] + b, sep) == [a] + Explode(b, sep)
    decreases |a|
  {
    var s := a + [sep] + b;
    if a == [] {
      assert s[1..] == b;
    } else {
      assert s[1..] == a[1..] + [sep] + b;
      ExplodeFirst(a[1..], sep, b);
      assert [a[0]] + a[1..] == a;
    }
  }

  /** Exploding undoes imploding when no part holds the separator. */
  lemma {:induction false} ExplodeImplode(parts: seq<string>, sep: char)
    requires |parts| >= 1
    requires forall i :: 0 <= i < |parts| ==> sep !in parts[i]
    ensures Explode(Implode(parts, [sep]), sep) == parts
    decreases |parts|
  {
    if |parts| == 1 {
      ExplodeNoSep(parts[0], sep);
    } else {
      ExplodeImplode(parts[1..], sep);
      ExplodeFirst(parts[0], sep, Implode(parts[1..], [sep]));
      assert parts[0] + [sep] + Implode(parts[1..], [sep]) == Implode(parts, [sep]);
    }
  }

  /** `untrailingslashit` removes exactly a run of trailing slashes from a string not ending in one. */
  lemma {:induction false} UntrailSlashes(a: string, t: string)
    requires |a| == 0 || !IsSlash(a[|a| - 1])
    requires forall i :: 0 <= i < |t| ==> IsSlash(t[i])
    ensures Untrail(a + t) == a
    decreases |t|
  {
    if t != [] {
      var s := a + t;
      assert s[..|s| - 1] == a + t[..|t| - 1];
      UntrailSlashes(a, t[..|t| - 1]);
    } else {
      assert a + t == a;
    }
  }

  /** The last index at which `p` occurs, if any (how far a greedy `(.*)` reaches before a closing `p`). */
  function LastIndexOf(s: string, p: string): (r: Option<nat>)
    ensures r.Some? ==> OccursAt(s, p, r.value)
    ensures r.Some? ==> forall j :: r.value < j ==> !OccursAt(s, p, j)
    ensures r.None? ==> forall j :: !OccursAt(s, p, j)
    decreases |s|
  {
    if |p| > |s| then None
    else if s[|s| - |p|..] == p then Some(|s| - |p|)
    else
      var t := LastIndexOf(s[..|s| - 1], p);
      DropLastOccurrence(s, p);
      t
  }

  /** An occurrence that ends before the last character is an occurrence in the string without it. */
  lemma DropLastOccurrence(s: string, p: string)
    requires |p| <= |s| && s[|s| - |p|..] != p
    ensures forall j :: OccursAt(s, p, j) <==> OccursAt(s[..|s| - 1], p, j)
  {
    forall j | OccursAt(s, p, j) || OccursAt(s[..|s| - 1], p, j)
      ensures OccursAt(s, p, j) <==> OccursAt(s[..|s| - 1], p, j)
    {
      if j + |p| <= |s| - 1 {
        assert s[..|s| - 1][j..j + |p|] == s[j..j + |p|];
      }
    }
  }
}

=== FILE: wrappers.dfy ===
/** Failure-compatible wrappers shared by every module of the model. */
module Wrappers {

  /** A value that may be absent: PHP's `null`, Python's `None`. */
  datatype Option<+T> = None | Some(value: T) {

    /** The value, or `default` when absent (PHP's `??` operator). */
    function GetOr(default: T): T {
      match this
      case Some(v) => v
      case None => default
    }
  }

  /** Either a value or an error: PHP's `WP_Error` returns, Python's exceptions. */
  datatype Result<+T, +E> = Ok(value: T) | Err(error: E) {

    predicate IsFailure() {
      Err?
    }

    function PropagateFailure<U>(): Result<U, E>
      requires Err?
    {
      Err(error)
    }

    function Extract(): T
      requires Ok?
    {
      value
    }
  }
}
